=== FILE: README.md ===
# cclib: the GAMESS and CFOUR log scanners and the parse-result registry

cclib reads the text logs that quantum-chemistry programs write and collects
what they report into one result object, `ccData`. This project models three
parts of it in Dafny:

- the GAMESS scanner (`cclib/parser/gamessparser.py`). It covers:
  - the symmetry-label normal form;
  - the state before parsing;
  - the version banners of GAMESS and Firefly;
  - the coupled-cluster energies;
  - the geometry gradients;
  - the normal-coordinate analysis;
  - the atomic basis set;
  - the molecular orbital table with its coefficients and basis function labels;
  - the basis and orbital counts;
  - the overlap matrix;
  - the effective core potentials;
  - the success sentinels.
- the CFOUR scanner (`cclib/parser/cfourparser.py`). It covers:
  - the symmetry-label normal form;
  - the state before parsing;
  - the reference, the SCF and geometry convergence targets, the forces, the timing line and the excited-state property switch;
  - the coupled-cluster energy;
  - the alpha and beta orbital eigenvalue tables;
  - the excited states with their configurations (`etsecs`);
  - the MP2, MBPT(3) and MBPT(4) energies;
  - the post pass that fills `optdone`, `natom`, `nbasis` and `nmo` and sorts the excited states by energy.
- the registry (`cclib/parser/data.py`). It covers:
  - the table of declared attributes and its sorted name list;
  - `setattributes` and `getattributes`;
  - `check_values`;
  - the optimisation status flags and the four geometry selectors;
  - the Boolean `optdone` subclass.

A log is a sequence of lines. A scanner is a pure function. It takes the line
being looked at, a cursor over the remaining lines and the state, and gives
back a `Result`. A success holds the line the scanner stopped on, the cursor
after the last line it read, and the new state. Python exceptions become
`Err(EndOfInput)` (running out of lines) or `Err(Malformed)` (an `IndexError`,
`ValueError`, `KeyError`, `TypeError` and the like). Numbers in the text are
read as exact decimal reals.

Shared modules:
- `Text` holds `split`, `strip`, `find`, `in` and string replacement.
- `PySeq` holds Python slicing and negative indexing.
- `Numbers` holds `int` and `float` on words.
- `Cursor` holds the line cursor.
- `Results` holds the `Result` and `Option` types.
- `Values` holds the Python values a registry entry can hold.
- `StrOrder` holds string order and `sorted`.

## Model

| member | source | states |
|---|---|---|
| GamessLabels.NormaliseSym | cclib/parser/gamessparser.py:56-69 | A label ending in two single quotes becomes the first character and a double quote; any other label keeps its length and first character and has each `U`/`G` after it lower-cased |
| GamessLabels.NormaliseSymIdempotent | cclib/parser/gamessparser.py:56-69 | A normalised label is its own normal form |
| GamessScan.BeforeParsing | cclib/parser/gamessparser.py:71-74 | The scan starts with `firststdorient` set, `cihamtyp` and `scftype` at `"none"`, no success and nothing read |
| GamessScan.Versions | cclib/parser/gamessparser.py:82-103 | The metadata becomes what the Firefly banner and then the GAMESS version line make of it, and the pass fails exactly when one of them fails. The banners change only the metadata, and a line with no Firefly banner leaves a known version alone |
| GamessVersion.FireflyMatch | cclib/parser/gamessparser.py:82-85 | The `Firefly version` pattern finds nothing exactly when it matches at no position; otherwise its groups come from the leftmost match that the regex engine prefers (longest version, then greediest tail) |
| GamessVersion.SearchFrom | cclib/parser/gamessparser.py:83-84 | The search returns the first start position that has a match; when it finds none, no position from there on has one |
| GamessVersion.StartFacts | cclib/parser/gamessparser.py:83-84 | The backtracking over the version run at a banner finds the preferred match, or proves that none exists |
| GamessVersion.StartSome | cclib/parser/gamessparser.py:83-84 | The longest version prefix that a tail can follow, with its preferred tail, is the match the regex engine picks |
| GamessVersion.MatchesWithinRun | cclib/parser/gamessparser.py:83-84 | Every match at a banner takes a version prefix no longer than the run of version characters, and a tail follows it |
| GamessVersion.StartNone | cclib/parser/gamessparser.py:83-84 | When no prefix of the version run is followed by a tail, nothing matches at that banner |
| GamessVersion.Groups | cclib/parser/gamessparser.py:85-88 | The version group holds only digits and dots, and the build group only digits |
| GamessVersion.FireflyVersion | cclib/parser/gamessparser.py:82-88 | A Firefly match sets the package version to `version+build` and the legacy version to `version`; with no match the metadata is unchanged |
| GamessVersion.GamessVersionLine | cclib/parser/gamessparser.py:89-103 | A GAMESS banner sets both versions only when no version is known yet. It fails exactly when the banner has fewer than seven words. Other metadata keys are kept, and only the two version keys can be added |
| GamessVersion.BannerRelease | cclib/parser/gamessparser.py:92-101 | The release read from a banner is the printed `(Rn)` number, and `1` when no marker is printed |
| GamessVersion.GamessBannerVersion | cclib/parser/gamessparser.py:89-103 | A printed banner for release `n` of year `y` gives the versions `y.rn` and `yRn` |
| GamessVersion.FireflyTakesPrecedence | cclib/parser/gamessparser.py:82-103 | Once a Firefly banner has set the version, a later GAMESS banner leaves the metadata unchanged |
| FireflyPattern.TailFromBest | cclib/parser/gamessparser.py:83-84 | The tail reader finds the tail the regex engine prefers after the version, and finds none only when there is none |
| FireflyPattern.Runs | cclib/parser/gamessparser.py:83-84 | The case analysis of a tail: it either takes the whole non-digit, digit and space runs up to a `*`, or it backtracks to the last `*` inside the non-digit run |
| FireflyPattern.TailBounds | cclib/parser/gamessparser.py:83-84 | Every tail match ends at one of the two places that `Runs` names |
| FireflyPattern.RunEndMaximal | cclib/parser/gamessparser.py:83-84 | A measured character-class run is maximal |
| FireflyPattern.LastStarLast | cclib/parser/gamessparser.py:83-84 | The backtracking point is the last `*` in the non-digit run |
| GamessScan.CoupledCluster | cclib/parser/gamessparser.py:280-296 | On a CCD or CCSD line, `cc` becomes what the CC block reads. When both lines apply, the CCSD reading goes on from what the CCD reading left. The pass fails exactly when a block fails. The CC lines change only the CC methods and energies, and other lines are left alone |
| GamessCC.Ccd | cclib/parser/gamessparser.py:280-282 | A CCD line names the method and appends exactly its energy, keeping the earlier energies; it fails exactly when the energy word is unreadable |
| GamessCC.Ccsd | cclib/parser/gamessparser.py:283-296 | A CCSD block names one to three levels; it fails when its own energy is unreadable or no line follows it |
| GamessCC.AfterCcsd | cclib/parser/gamessparser.py:287-296 | A next line that is not CCSD[T] ends the block with the CCSD energy, and the scan goes on from that line |
| GamessCC.AfterBracketT | cclib/parser/gamessparser.py:289-296 | A CCSD(T) line replaces the CCSD[T] energy with its own; otherwise the CCSD[T] energy is kept |
| GamessCC.With | cclib/parser/gamessparser.py:285-286 | The energy list after a block is the earlier list with exactly one energy appended |
| GamessCC.CcsdOnly | cclib/parser/gamessparser.py:283-296 | CCSD alone keeps the CCSD energy |
| GamessCC.CcsdBracketT | cclib/parser/gamessparser.py:283-296 | CCSD followed by CCSD[T] keeps only the CCSD[T] energy, and names both methods |
| GamessCC.CcsdParenT | cclib/parser/gamessparser.py:283-296 | All three levels keep only the CCSD(T) energy, and name all three methods |
| GamessScan.Gradients | cclib/parser/gamessparser.py:509-546 | A gradient line fails exactly when the gradient block fails. It ends the pass exactly when the block gives no value, and otherwise appends the block's pair to `geovalues` after the earlier pairs |
| GamessGradients.Gradient | cclib/parser/gamessparser.py:509-546 | The four layouts as the GAMESS parser tells them apart. A mention-only line returns without a value. An 8-word or 9-word line gives the pair at words 3/7 or 4/8. A 4-word line reads the RMS gradient from the next line. Any other length fails |
| GamessGradients.PairAt | cclib/parser/gamessparser.py:527-529 | The pair is read from the two named words, and the read fails exactly when either word is unreadable |
| GamessGradients.RmsLine | cclib/parser/gamessparser.py:534-544 | The line after a 4-word maximum gives the RMS from its word 3. When that line has nine words, its words 4 and 8 replace both values |
| GamessGradients.TwoLines | cclib/parser/gamessparser.py:531-538 | The two-line form takes the maximum from its first line and the RMS from the next, where the scan resumes; when the next line is missing it fails with end of input |
| GamessGradients.OneLineReadsBack | cclib/parser/gamessparser.py:527-529 | A one-line gradient printout reads back the printed maximum and RMS |
| GamessGradients.FmoReadsBack | cclib/parser/gamessparser.py:542-544 | An FMO gradient printout reads back the printed values |
| GamessGradients.TwoLinesReadBack | cclib/parser/gamessparser.py:531-538 | A two-line printout reads back both values, and the scan moves to the second line |
| GamessGradients.EightWords | cclib/parser/gamessparser.py:527-529 | Any 8-word gradient line gives the pair at words 3 and 7 |
| GamessGradients.NineWords | cclib/parser/gamessparser.py:542-544 | Any 9-word gradient line gives the pair at words 4 and 8 |
| GamessGradients.RmsOfFour | cclib/parser/gamessparser.py:534-538 | A 4-word RMS line supplies the RMS and keeps the maximum |
| GamessGradients.TwoLinesOfRms | cclib/parser/gamessparser.py:531-538 | The two-line form moves the scan to the RMS line |
| GamessGradients.OneLinePrinted | cclib/parser/gamessparser.py:509 | The printed one-line form is recognised as a gradient line, and its words are the printed ones |
| GamessGradients.FmoPrinted | cclib/parser/gamessparser.py:509 | The printed FMO form is recognised as a gradient line, and its words are the printed ones |
| GamessGradients.TwoLinesPrinted | cclib/parser/gamessparser.py:509 | The printed two-line form is recognised as a gradient line, and its words are the printed ones |
| GamessScan.Vibrations | cclib/parser/gamessparser.py:781-922 | With `natom` known, the vibrational data becomes what the normal-coordinate block reads, starting from the earlier analysis or from nothing. The pass fails exactly when the block fails. The block changes only the vibrational data. It fails when `natom` is unknown, and other lines are left alone |
| GamessVibrations.Block | cclib/parser/gamessparser.py:781-922 | The block stops on the Sayvetz line and moves forward. Reduced masses or Raman activities left by an earlier block stay present. The displacements it keeps share one shape, as the numpy array at line 914 needs |
| GamessVibrations.DispArray | cclib/parser/gamessparser.py:914 | `numpy.array(..., "d")` of the kept displacements succeeds exactly when every mode has the same number of atoms and every atom the same number of coordinates, and then holds them unchanged |
| GamessVibrations.RectangularIffShaped | cclib/parser/gamessparser.py:914 | The shape read off the first mode and first atom is a common shape exactly when the modes have any common shape |
| GamessVibrations.ExcludeShaped | cclib/parser/gamessparser.py:911-914 | Cutting out the rotations and translations keeps the shape of the modes left |
| GamessVibrations.ModeTableArray | cclib/parser/gamessparser.py:892-914 | Displacement rows of one width give modes that always make an array, whatever modes are cut |
| GamessVibrations.RaggedFails | cclib/parser/gamessparser.py:892-914 | An atom whose z row is wider than its x and y rows gives modes of different shapes, and the array fails |
| GamessVibrations.Finish | cclib/parser/gamessparser.py:862-922 | Without an earlier array, the block's own rows lose the cut modes. When an earlier block left an array, any new row fails, because a numpy array has no `extend`. With no new rows, the two slices of the old array are added as arrays |
| GamessVibrations.ArraySum | cclib/parser/gamessparser.py:915-922 | `+` on numpy arrays adds entry by entry, stretching a length-1 operand. It fails exactly when the lengths cannot be broadcast |
| GamessVibrations.FinishSums | cclib/parser/gamessparser.py:915-918 | A second block's cut with equal-length slices gives the entrywise sums `a[i] + a[endrot + i]` instead of joining the slices |
| GamessVibrations.FreqColumns | cclib/parser/gamessparser.py:849-853 | A FREQUENCY row appends one value per numeric column and keeps the earlier frequencies; an `I` column on an empty list fails |
| GamessVibrations.FreqColumnsOfPrinted | cclib/parser/gamessparser.py:849-853 | A printed row with `I` marks after imaginary frequencies reads back the signed frequencies, in order |
| GamessVibrations.FreqColumnsValue | cclib/parser/gamessparser.py:850-851 | A numeric column appends its value |
| GamessVibrations.FreqColumnsMark | cclib/parser/gamessparser.py:852-853 | An `I` column negates the value appended last |
| GamessVibrations.FreqRowOfPrinted | cclib/parser/gamessparser.py:849-853 | A printed FREQUENCY line appends its signed frequencies |
| GamessVibrations.Exclude | cclib/parser/gamessparser.py:912-922 | Cutting modes `a..b` (1-based) removes exactly those modes, keeps the others in order, and gives the stated length |
| GamessVibrations.ExcludeKeepsOthers | cclib/parser/gamessparser.py:912-922 | Each mode outside the cut reappears at its shifted position |
| GamessVibrations.ExcludeAligned | cclib/parser/gamessparser.py:912-922 | The same cut applied to two per-mode lists keeps them aligned mode by mode |
| GamessVibrations.ExcludeModes | cclib/parser/gamessparser.py:912-922 | The optional lists stay present or absent after the cut |
| GamessVibrations.ExcludeModesAligned | cclib/parser/gamessparser.py:912-922 | After the cut, frequencies, displacements and intensities still belong to the same modes |
| GamessVibrations.RotRange | cclib/parser/gamessparser.py:826-830 | The `MODES a TO b` range needs at least three words |
| GamessVibrations.RotRangeSeparate | cclib/parser/gamessparser.py:826-830 | `MODES a TO b` gives `(a, b)` |
| GamessVibrations.RotRangeFused | cclib/parser/gamessparser.py:826-830 | The older fused form `MODES a TOb` also gives `(a, b)` |
| GamessVibrations.HeaderIff | cclib/parser/gamessparser.py:838-839 | The header scan agrees with the pattern in both directions: a `1` preceded by at least 26 spaces |
| GamessVibrations.HeaderFromSpec | cclib/parser/gamessparser.py:838-839 | The scan from a position finds the header exactly when one follows that position |
| GamessVibrations.ToHeader | cclib/parser/gamessparser.py:835-839 | The scan stops on a non-blank line that has the header pattern |
| GamessVibrations.ToHeaderFinds | cclib/parser/gamessparser.py:835-839 | The scan stops at the first line with the pattern |
| GamessVibrations.ToModes | cclib/parser/gamessparser.py:789-820 | The scan reaches the `MODES` line, and only replaces the masses when it reads a table |
| GamessVibrations.WeightRows | cclib/parser/gamessparser.py:800-809 | The mass rows stop at a blank line |
| GamessVibrations.Weights | cclib/parser/gamessparser.py:800-809 | The weights table ends at a blank line |
| GamessVibrations.WeightRowsRead | cclib/parser/gamessparser.py:803-809 | Mass rows read back their masses in order |
| GamessVibrations.WeightsRead | cclib/parser/gamessparser.py:800-809 | An ATOMIC WEIGHTS table reads back exactly its masses |
| GamessVibrations.AddColumns | cclib/parser/gamessparser.py:895-899 | A row adds to five columns and fails exactly when it has more than five |
| GamessVibrations.Columns | cclib/parser/gamessparser.py:892-899 | An atom's three rows fit exactly when each has at most five columns |
| GamessVibrations.ColumnsOfUniform | cclib/parser/gamessparser.py:892-899 | Rows of equal width give each of the first modes the atom's x, y and z, and give nothing to the rest |
| GamessVibrations.Atom | cclib/parser/gamessparser.py:892-899 | One atom reads exactly three rows |
| GamessVibrations.Atoms | cclib/parser/gamessparser.py:892-902 | `n` atoms read exactly `3n` rows |
| GamessVibrations.Displacements | cclib/parser/gamessparser.py:892-902 | A group holds at most five modes and reads `3 natom` rows; with no atoms it fails |
| GamessVibrations.DisplacementsOfUniform | cclib/parser/gamessparser.py:892-902 | Rows of `m` columns read back as `m` modes, each listing every atom's x, y and z in atom order |
| GamessVibrations.ModesAfterHolds | cclib/parser/gamessparser.py:892-902 | Each mode in the group lists the displacement of atom `a` at position `a`, and the unused columns stay empty |
| GamessVibrations.AtomsOfUniform | cclib/parser/gamessparser.py:892-902 | Reading uniform atom rows gathers every atom |
| GamessVibrations.Convert | cclib/parser/gamessparser.py:869-877 | Every IR intensity is converted, and the order is kept |
| GamessVibrations.SymmetryRow | cclib/parser/gamessparser.py:858-859 | A SYMMETRY row is passed over |
| GamessVibrations.ReducedRow | cclib/parser/gamessparser.py:862-866 | A reduced-mass row changes neither the frequencies, the displacements nor the intensities |
| GamessVibrations.IntensityRow | cclib/parser/gamessparser.py:869-877 | An IR intensity row only extends `irs` |
| GamessVibrations.RamanRow | cclib/parser/gamessparser.py:880-886 | A Raman row changes neither the frequencies, the displacements nor the intensities |
| GamessVibrations.Properties | cclib/parser/gamessparser.py:855-889 | The property rows never change the frequencies or displacements, and only extend `irs` |
| GamessVibrations.PropertiesRead | cclib/parser/gamessparser.py:862-877 | Reduced-mass and intensity rows extend `rmasses` and `irs` with the converted values |
| GamessVibrations.Tail | cclib/parser/gamessparser.py:889-909 | The displacement section only extends `disps`, by at most five modes, and reads `3 natom + 12` lines |
| GamessVibrations.TailRead | cclib/parser/gamessparser.py:889-909 | Uniform displacement rows extend `disps` with the group's mode table |
| GamessVibrations.Group | cclib/parser/gamessparser.py:841-909 | A group moves forward and only extends the displacements and intensities |
| GamessVibrations.Groups | cclib/parser/gamessparser.py:841-909 | The groups stop on the Sayvetz line and only extend the lists |
| GamessScan.BasisSet | cclib/parser/gamessparser.py:924-985 | `gbasis` becomes the shells the basis section reads, and the pass fails exactly when the section fails. The section replaces only `gbasis` and stops on the `TOTAL NUMBER` line |
| GamessBasis.Basis | cclib/parser/gamessparser.py:924-985 | The section stops on the `TOTAL NUMBER` line and moves forward |
| GamessBasis.ToShell | cclib/parser/gamessparser.py:926-928 | The scan stops on the line that mentions `SHELL` |
| GamessBasis.Atoms | cclib/parser/gamessparser.py:935-985 | The atoms only extend `gbasis`; at `TOTAL NUMBER` nothing is read |
| GamessBasis.AtomShells | cclib/parser/gamessparser.py:941-978 | An atom's shells only grow, and the atom ends at a one-word line or at the section end |
| GamessBasis.CopiesOfGap | cclib/parser/gamessparser.py:982-985 | A gap of `k` whole shell sets gives `k + 1` copies of the atom's shells |
| GamessBasis.RowEntries | cclib/parser/gamessparser.py:947-970 | A row gives its letter and its exponent from word 3, and has the shape its letter calls for |
| GamessBasis.SpRow | cclib/parser/gamessparser.py:956-962 | An `L` row gives an S and a P primitive that share one exponent |
| GamessBasis.LetterRow | cclib/parser/gamessparser.py:964-970 | Any other row gives one primitive of its letter |
| GamessBasis.LRowSplits | cclib/parser/gamessparser.py:956-962 | A printed `L` row reads back its exponent and its two coefficients |
| GamessBasis.LetterRowReads | cclib/parser/gamessparser.py:964-970 | A printed row of any other letter reads back its exponent and coefficient |
| GamessBasis.Parenthesised | cclib/parser/gamessparser.py:950-952 | A parenthesised coefficient must end in `)`, and reads as the number inside |
| GamessBasis.ShellsOf | cclib/parser/gamessparser.py:973-977 | A block adds S and P shells for `L`, or else one shell of its letter, each with at least one primitive; a block without rows fails |
| GamessBasis.RowFiled | cclib/parser/gamessparser.py:973-977 | A block that ends with a row always finds that row's letter |
| GamessBasis.ShellRows | cclib/parser/gamessparser.py:943-978 | A block's rows stop at a blank line and only add entries |
| GamessBasis.ShellRowsRead | cclib/parser/gamessparser.py:943-978 | Reading a block collects every row's entries, in order |
| GamessBasis.PrimsOfRows | cclib/parser/gamessparser.py:943-978 | Rows that each add one primitive of a letter give the primitives in row order |
| GamessBasis.PrimsAppend | cclib/parser/gamessparser.py:973-977 | Appending entries only extends each letter's list |
| GamessBasis.LetterBlock | cclib/parser/gamessparser.py:943-978 | A one-letter block reads back as one shell holding its primitives in order |
| GamessBasis.SpBlock | cclib/parser/gamessparser.py:943-978 | An `L` block reads back as an S and a P shell that share their exponents |
| GamessScan.Orbitals | cclib/parser/gamessparser.py:1026-1207 | An orbital table sets the orbitals and the basis-function atoms to what the table reads, given the sizes from `nbasis` and `nmo`. It fails exactly when a size or the table fails. It changes nothing else. Known atoms stay. It fails when `nbasis` is unknown |
| GamessOrbitals.Eigenvectors | cclib/parser/gamessparser.py:1026-1207 | `nmo` defaults to `nbasis`. The coefficients are `nmo` by `nbasis` matrices. Known atoms are kept; otherwise there is one atom list per atom |
| GamessOrbitals.LabelStart | cclib/parser/gamessparser.py:1040-1047 | Labels are read only when the atoms are unknown, and there is then one empty list per atom. It fails when neither the atoms nor `natom` is known |
| GamessOrbitals.AlphaGroups | cclib/parser/gamessparser.py:1051-1093 | The alpha blocks keep the matrix shape and only extend the energies and symmetries |
| GamessOrbitals.NumbersLine | cclib/parser/gamessparser.py:1061-1066 | The orbital-number line is skipped past an `ALPHA SET` banner |
| GamessOrbitals.NextText | cclib/parser/gamessparser.py:1075-1076 | The scan stops on the next non-blank line |
| GamessOrbitals.Syms | cclib/parser/gamessparser.py:1093 | There is one symmetry per word |
| GamessOrbitals.SymsEach | cclib/parser/gamessparser.py:1093 | Each symmetry is the normal form of its word |
| GamessOrbitals.AlphaRows | cclib/parser/gamessparser.py:1101-1145 | The rows keep the matrix shape, and label filing keeps the number of atoms |
| GamessOrbitals.AlphaRowsRead | cclib/parser/gamessparser.py:1101-1145 | Row `t` of a block fills column `i + t` with its values |
| GamessOrbitals.AlphaRowStep | cclib/parser/gamessparser.py:1101-1145 | One row fills one column |
| GamessOrbitals.FileLabel | cclib/parser/gamessparser.py:1109-1139 | A label is filed only in the first block and only when the atoms are unknown |
| GamessOrbitals.AfterAlpha | cclib/parser/gamessparser.py:1165-1206 | A beta table read after the alpha blocks is an `nmo` by `nbasis` matrix |
| GamessOrbitals.SkipLz | cclib/parser/gamessparser.py:1170-1173 | An LZ analysis is skipped only when one is there |
| GamessOrbitals.Beta | cclib/parser/gamessparser.py:1176-1206 | The beta table is an `nmo` by `nbasis` matrix |
| GamessOrbitals.BetaGroups | cclib/parser/gamessparser.py:1188-1205 | The beta blocks keep the matrix shape and only extend the energies and symmetries |
| GamessOrbitals.BetaRows | cclib/parser/gamessparser.py:1199-1205 | A beta block reads exactly `nbasis` rows |
| GamessOrbitals.BetaRowsRead | cclib/parser/gamessparser.py:1199-1205 | Row `t` of a beta block fills column `i + t` |
| GamessOrbitals.BetaRowStep | cclib/parser/gamessparser.py:1199-1205 | One beta row fills one column |
| GamessOrbitals.ToBlank | cclib/parser/gamessparser.py:1185-1186 | The scan stops on a blank line |
| GamessCoeffs.CoeffRow | cclib/parser/gamessparser.py:1141-1143 | A row gives one coefficient per 11-column field after column 15 |
| GamessCoeffs.CoeffRowOfFields | cclib/parser/gamessparser.py:1141-1143 | A row printed as a 15-column label and 11-column fields reads back the values of those fields |
| GamessCoeffs.ChunksOfFields | cclib/parser/gamessparser.py:1141-1143 | Fields printed 11 columns wide are sliced back into exactly those fields |
| GamessCoeffs.ChunkCount | cclib/parser/gamessparser.py:1141-1143 | The number of slices is `(n + 6) // 11` |
| GamessCoeffs.ConcatFields | cclib/parser/gamessparser.py:1141-1143 | Field `j` of the joined text sits at column `11 j` |
| GamessCoeffs.Zeros | cclib/parser/gamessparser.py:1038 | `numpy.zeros` gives a matrix of the requested shape |
| GamessCoeffs.Put | cclib/parser/gamessparser.py:1144 | Setting a cell succeeds exactly in range, and changes only that cell |
| GamessCoeffs.ColumnSets | cclib/parser/gamessparser.py:1142-1145 | A column takes the values exactly when they fit below row `base`; those cells get the values and every other cell is unchanged |
| GamessAoLabels.AoLine | cclib/parser/gamessparser.py:1109-1139 | Each label row appends exactly one basis-function name and keeps the number of atoms |
| GamessAoLabels.Matched | cclib/parser/gamessparser.py:1113-1139 | A label that matches the pattern files orbital `n - 1` under its true atom (the printed number plus the wrap offset) and names the function after it. It fails exactly when that atom is out of range |
| GamessAoLabels.Unmatched | cclib/parser/gamessparser.py:1132-1139 | A label without the pattern takes its element and type from words 2 and 3, and goes to the last atom seen |
| GamessAoLabels.File | cclib/parser/gamessparser.py:1138 | `atombasis[i].append` succeeds exactly for Python-valid `i`, negative ones included, and changes only that list |
| GamessAoLabels.WrapStep | cclib/parser/gamessparser.py:1115-1126 | The counter is armed again exactly after a non-zero atom number |
| GamessAoLabels.WrapCounts | cclib/parser/gamessparser.py:1097-1126 | The atom offset grows by exactly 100 for each maximal run of zeros |
| GamessAoLabels.MatchOfParts | cclib/parser/gamessparser.py:1096 | A label laid out as orbital number, element, atom number and type reads back as exactly those four parts |
| GamessAoLabels.MatchOfEnds | cclib/parser/gamessparser.py:1096 | The match is determined by the run ends |
| GamessAoLabels.MatchDigits | cclib/parser/gamessparser.py:1096 | The orbital and atom numbers of a match are runs of digits |
| GamessAoLabels.SearchFinds | cclib/parser/gamessparser.py:1110-1114 | The search returns the match at the first position that has one |
| GamessAoLabels.SearchNone | cclib/parser/gamessparser.py:1110-1114 | With no matching position, the search finds nothing |
| GamessScan.AtomCount | cclib/parser/gamessparser.py:1292-1294 | `natom` is read once, from the last word of the first line that mentions the number of atoms in any case |
| GamessScan.Counts | cclib/parser/gamessparser.py:1298-1348 | At most one count applies per line, in the parser's order. `nbasis` comes from its line. The dropped contaminants lower `nmo`, which starts from `nbasis` when unknown. A spherical-harmonics or MO-count line sets `nmo` to its last word. A line that is none of the four is handed to the overlap reader, and one that is no overlap line either changes nothing |
| GamessScan.Overlap | cclib/parser/gamessparser.py:1323-1348 | `aooverlaps` becomes the matrix the section reads at size `nbasis`, into the earlier matrix when there is one. The pass fails exactly when the size or the section fails. The section sets only `aooverlaps`, and fails when `nbasis` is unknown |
| GamessOverlap.Overlap | cclib/parser/gamessparser.py:1323-1348 | A fresh matrix is `nbasis` square; without `nbasis` the read fails |
| GamessOverlap.OverlapSymmetric | cclib/parser/gamessparser.py:1323-1348 | The matrix read into fresh zeros is symmetric |
| GamessOverlap.Blocks | cclib/parser/gamessparser.py:1330-1348 | The blocks keep the matrix size; past `nbasis` nothing is read |
| GamessOverlap.BlocksSymmetric | cclib/parser/gamessparser.py:1330-1348 | The blocks keep a symmetric matrix symmetric |
| GamessOverlap.Rows | cclib/parser/gamessparser.py:1336-1347 | A block reads one row per remaining basis function |
| GamessOverlap.RowsSymmetric | cclib/parser/gamessparser.py:1336-1347 | The rows keep a symmetric matrix symmetric |
| GamessOverlap.RowWords | cclib/parser/gamessparser.py:1338-1344 | A fused 4-character atom word is split in two; otherwise the words are unchanged |
| GamessOverlap.RowWordsShift | cclib/parser/gamessparser.py:1338-1344 | A split word moves every later word one place on |
| GamessOverlap.PutBothSpec | cclib/parser/gamessparser.py:1346-1347 | Writing a value and its mirror succeeds exactly in range, changes only the two cells, and keeps symmetry |
| GamessOverlap.CellsSpec | cclib/parser/gamessparser.py:1345-1347 | A row's values land in their cells and mirrors; it succeeds exactly when they fit, changes nothing else and keeps symmetry |
| GamessScan.Ecp | cclib/parser/gamessparser.py:1351-1373 | `coreelectrons` becomes what the ECP section reads, given `natom` and the earlier counts. The pass fails exactly when the section fails. The section sets only `coreelectrons` |
| GamessEcp.Ecp | cclib/parser/gamessparser.py:1351-1373 | There is one core count per atom, starting from the earlier counts or zeros. It fails when neither those nor `natom` is known |
| GamessEcp.Potentials | cclib/parser/gamessparser.py:1357-1373 | The count list keeps its length. The potentials end at a header that is not `PARAMETERS`, and a blank header fails |
| GamessEcp.ParseHeader | cclib/parser/gamessparser.py:1358-1364 | The header gives the atom number and its kind: `WITH ZCORE` with its core count, `ARE THE SAME AS` with the other atom, or anything else |
| GamessEcp.Apply | cclib/parser/gamessparser.py:1362-1369 | An explicit potential sets the atom's count, a copy takes the other atom's count, and other headers change nothing |
| GamessEcp.SameAsCopies | cclib/parser/gamessparser.py:1366-1369 | A copied potential gives the atom the other atom's count, and no other atom changes |
| GamessEcp.ZcoreThenSameAs | cclib/parser/gamessparser.py:1362-1369 | An explicit potential copied to a second atom gives both the same count |
| GamessEcp.ToBlank | cclib/parser/gamessparser.py:1370-1372 | The scan stops on a blank line |
| GamessScan.Success | cclib/parser/gamessparser.py:1629-1634 | Success is set by a sentinel line and never cleared, and nothing else changes |
| GamessScan.Clamp | cclib/parser/gamessparser.py:1319-1321 | A negative count used as a length gives nothing |
| GamessScan.Dim | cclib/parser/gamessparser.py:1326-1328 | A negative `numpy.zeros` dimension fails |
| GamessScan.OrbitalInputs | cclib/parser/gamessparser.py:1035-1046 | An orbital table is read with `nbasis` and `nmo` as `numpy.zeros` dimensions, and fails exactly when one of them does. `natom` and the known atoms are passed on |
| GamessScan.OverlapSize | cclib/parser/gamessparser.py:1326-1330 | A negative `nbasis` fails exactly when no matrix was read before. Otherwise the size is `nbasis`, and there is none when it is unknown |
| GamessScan.AtomsKnown | cclib/parser/gamessparser.py:1352-1353 | The number of atoms is known exactly when `natom` is, and is `natom` itself when that is not negative |
| GamessScan.Opening | cclib/parser/gamessparser.py:82-546 | The first triggers move forward and keep success, `natom` and the flags |
| GamessScan.Extract | cclib/parser/gamessparser.py:76-1634 | One pass over a line moves forward and keeps success, `natom` and the flags |
| GamessScan.Run | cclib/parser/gamessparser.py:76-1634 | The scan of a log keeps success, `natom` and the flags from pass to pass |
| GamessScan.Parse | cclib/parser/gamessparser.py:71-1634 | An empty log gives the starting state, and any parse keeps the three starting flags |
| CfourLabels.NormaliseSym | cclib/parser/cfourparser.py:29-64 | After `''` becomes `"` and `+` is dropped: a leading digit gets an `E` in front; a leading linear abbreviation is spelled out with its parity after a dot; otherwise the cleaned label is returned |
| CfourLabels.NormaliseSymNoPlus | cclib/parser/cfourparser.py:29-64 | The normal form never holds `+` |
| CfourLabels.CleanedSpec | cclib/parser/cfourparser.py:31-33 | Cleaning leaves no `+`, and cleaning a label without `+` twice changes nothing more |
| CfourLabels.Spelled | cclib/parser/cfourparser.py:35-62 | An abbreviation at the head is spelled out with its third character after a dot, and anything else is kept |
| CfourLabels.NormaliseSymIdempotent | cclib/parser/cfourparser.py:29-64 | For a label without `+`, the normal form is its own normal form |
| CfourLabels.PlusBetweenQuotes | cclib/parser/cfourparser.py:31-33 | A `+` between two quotes makes a `''` that a second normalisation would change, so idempotence needs labels without `+` |
| CfourLabels.SigmaExample | cclib/parser/cfourparser.py:32-40 | The `+` of `SG+` is dropped before `sigma` is spelled out |
| CfourScan.BeforeParsing | cclib/parser/cfourparser.py:66-110 | The scan starts with no timing seen, current symmetry `"0"`, an empty irrep numbering, nothing read, and the invariant holding |
| CfourScan.Reference | cclib/parser/cfourparser.py:174-183 | The reference line sets exactly `unrestricted` and the initial HOMOs; other lines change nothing |
| CfourTargets.ParseReference | cclib/parser/cfourparser.py:174-183 | `U...` references are unrestricted; `U...` and `ROHF` get two HOMO entries and the rest get one. It fails exactly when word 2 is missing or empty |
| CfourScan.Targets | cclib/parser/cfourparser.py:184-194 | The convergence lines set exactly `scftargets` and a one-entry `geotargets`, failing exactly when their words are unreadable |
| CfourTargets.ScfTarget | cclib/parser/cfourparser.py:184-192 | The SCF target is a power of ten |
| CfourTargets.ScfTargetStarred | cclib/parser/cfourparser.py:186-189 | A target printed as mantissa, `D`, exponent and `***` reads back as ten to that exponent |
| CfourTargets.ScfTargetSplit | cclib/parser/cfourparser.py:190-192 | An exponent split over two words reads back whole |
| CfourTargets.GeoTarget | cclib/parser/cfourparser.py:193-194 | The geometry target is a one-element list; it fails exactly when word 2 is not an integer |
| CfourTargets.GeoTargetRoundTrip | cclib/parser/cfourparser.py:193-194 | A printed integer `n` gives the target `10^-n` |
| CfourScan.Forces | cclib/parser/cfourparser.py:195-199 | A force line adds exactly one geometry step holding word 6 |
| CfourScan.Checkout | cclib/parser/cfourparser.py:207-211 | The timing line records success and the CPU and wall times, failing exactly when they are unreadable |
| CfourScan.EstateProps | cclib/parser/cfourparser.py:216-220 | Excited-state properties are on unless word 2 is `OFF` |
| CfourScan.Settings | cclib/parser/cfourparser.py:174-220 | The one-line triggers leave the block-built lists and the symmetry bookkeeping unchanged |
| CfourScan.Cc | cclib/parser/cfourparser.py:225-239 | The CC block appends exactly its energy to `ccenergies`, and the words stay those of the opening line |
| CfourCc.Block | cclib/parser/cfourparser.py:225-239 | The block stops on a `@CHECKOUT-I,` line; an opening line that is itself marked fails |
| CfourCc.BlockReadsLast | cclib/parser/cfourparser.py:225-239 | The energy comes from the last non-blank line before the first marked line, including the opening line |
| CfourCc.Collect | cclib/parser/cfourparser.py:229-233 | The collection stops on the first stop line |
| CfourCc.CollectEnd | cclib/parser/cfourparser.py:229-233 | The collection stops on the last line it read |
| CfourCc.CollectClear | cclib/parser/cfourparser.py:229-233 | No line passed over is a stop line |
| CfourCc.CollectLast | cclib/parser/cfourparser.py:229-233 | The collection holds the last kept line among those it passed over |
| CfourCc.LastInFront | cclib/parser/cfourparser.py:229-233 | The last kept line seen from the front equals the one seen from the back |
| CfourCc.Pick | cclib/parser/cfourparser.py:234-239 | The energy is the second-to-last word when the last is `a.u.`, otherwise the last word; it fails exactly when those words are missing |
| CfourCc.PickUnit | cclib/parser/cfourparser.py:234-239 | A line ending in the unit gives the word before it |
| CfourScan.Alpha | cclib/parser/cfourparser.py:544-573 | `moenergies` and `mosyms` become the one spin the alpha table reads, and the HOMOs and irrep numbering become the table's. The pass fails exactly when the table fails. The energies and labels are of equal length |
| CfourScan.Beta | cclib/parser/cfourparser.py:575-596 | The beta table's energies and labels are appended after the alpha table's, and the HOMOs become the table's. The pass fails exactly when the table fails or no alpha table was read. The irrep numbering is kept |
| CfourOrbitals.Block | cclib/parser/cfourparser.py:544-573 | A table starts four lines after its header and stops on its end line |
| CfourOrbitals.BlockIsLevels | cclib/parser/cfourparser.py:544-573 | A table is its lines from the fourth on, starting from empty lists |
| CfourOrbitals.BlockSpec | cclib/parser/cfourparser.py:544-596 | A table pairs its energies with its labels, and the beta table keeps the irrep numbering |
| CfourOrbitals.Level | cclib/parser/cfourparser.py:559-571 | A row appends exactly its energy (word 2, read with the Fortran `D` exponent `utils.float` accepts) and its normalised label, numbering the irrep on the alpha side. The HOMO marker sets the HOMO, and a blank line changes nothing |
| Numbers.FortranReal | cclib/parser/cfourparser.py:565 | An energy word is read as `utils.float` reads it. A word without a `D` reads exactly as plain `float` reads it |
| Numbers.FortranRealOfPrinted | cclib/parser/cfourparser.py:590 | A Fortran-printed `mDe` reads as `m` times 10 to the `e`, for every integer `m` and `e` |
| CfourOrbitals.LevelSize | cclib/parser/cfourparser.py:559-571 | Each line adds one energy and one label per row |
| CfourOrbitals.Levels | cclib/parser/cfourparser.py:554-571 | The table stops on its end line |
| CfourOrbitals.LevelsCount | cclib/parser/cfourparser.py:554-571 | The energies and labels grow by exactly the number of rows passed over |
| CfourOrbitals.LevelsStop | cclib/parser/cfourparser.py:554-571 | A table that ends at once reads nothing |
| CfourOrbitals.LevelGrows | cclib/parser/cfourparser.py:559-571 | The line step adds one energy and label per row |
| CfourOrbitals.LevelKeeps | cclib/parser/cfourparser.py:584-594 | The beta step keeps the irrep numbering |
| CfourOrbitals.LevelNumbering | cclib/parser/cfourparser.py:584-594 | A beta line keeps the irrep numbering |
| CfourOrbitals.LevelsNumbering | cclib/parser/cfourparser.py:575-596 | The beta table keeps the irrep numbering |
| CfourOrbitals.Homo | cclib/parser/cfourparser.py:560-561 | The HOMO is the previous row's number minus one. It fails with no row before, no `homos`, or no beta entry |
| CfourOrbitals.NumberFiles | cclib/parser/cfourparser.py:567-568 | A new label is filed under its irrep, a known one changes nothing, and no other key changes |
| CfourScan.Symmetry | cclib/parser/cfourparser.py:686-687 | A symmetry block sets exactly the current symmetry |
| CfourScan.Eigen | cclib/parser/cfourparser.py:689-764 | An eigenvalue line records the energy, rows and multiplicity the listing reads, with the irrep's label. It fails exactly when the listing or the irrep lookup fails. It adds exactly one excited state, named `Singlet-` or `Triplet-` followed by the irrep's label. The property switch must be known, and so must the irrep |
| CfourScan.Record | cclib/parser/cfourparser.py:740-764 | Recording appends one energy, one configuration list and one symmetry, and keeps the earlier ones |
| CfourExcited.Excited | cclib/parser/cfourparser.py:689-764 | Without properties, a state is a singlet whose energy is word 2 and whose listing ends at a dashed line. With properties, it ends at the transition-moment line |
| CfourExcited.ExcitedMult | cclib/parser/cfourparser.py:689-764 | Every excited state is a singlet or a triplet |
| CfourExcited.Plain | cclib/parser/cfourparser.py:741-764 | Without properties, the state is a singlet with the given energy, and stops on a dashed line |
| CfourExcited.PlainIsRows | cclib/parser/cfourparser.py:741-764 | Without properties, the listing is the rows from the seventh line after the eigenvalue |
| CfourExcited.PlainRows | cclib/parser/cfourparser.py:752-762 | Without properties, one row is read per line up to the first dashed line |
| CfourExcited.PlainReadFrom | cclib/parser/cfourparser.py:752-762 | Each row is read from its own line |
| CfourExcited.RowsReadFrom | cclib/parser/cfourparser.py:752-762 | Each row of a listing is read from its own line, and none of those lines is dashed |
| CfourExcited.WithProps | cclib/parser/cfourparser.py:696-740 | With properties, the listing stops on the transition-moment line |
| CfourExcited.WithPropsMult | cclib/parser/cfourparser.py:719-729 | With properties, the state is a singlet or a triplet |
| CfourExcited.WithPropsEnergy | cclib/parser/cfourparser.py:695-707 | With properties, the energy is the one on the last eigenvalue line inside the listing. With no such line, it is the opening line's energy, no rows are read and the state is a singlet |
| CfourExcited.WithPropsKeeps | cclib/parser/cfourparser.py:696-740 | Any step that keeps listings settled gives a singlet or a triplet |
| CfourExcited.Eigen | cclib/parser/cfourparser.py:705-707 | An eigenvalue line restates the energy from word 2 and starts the listing; other lines change nothing |
| CfourExcited.ReadRow | cclib/parser/cfourparser.py:713-718 | Between the second and third dashed lines, a line appends exactly its configuration |
| CfourExcited.ReadMult | cclib/parser/cfourparser.py:719-729 | After the third dashed line, a state line sets `Triplet` exactly when word 4 is `triplet`, and `Singlet` otherwise |
| CfourExcited.ListingLine | cclib/parser/cfourparser.py:704-737 | One line counts a dashed line and adds a row only in the row section, and changes the multiplicity only on a state line |
| CfourExcited.ListingLineKeeps | cclib/parser/cfourparser.py:704-737 | One line keeps the listing settled and only adds rows |
| CfourExcited.Listings | cclib/parser/cfourparser.py:704-737 | The listing stops on the transition-moment line |
| CfourExcited.ListingsKeep | cclib/parser/cfourparser.py:704-737 | The whole listing is settled and only adds rows |
| CfourExcited.ListingsEnergy | cclib/parser/cfourparser.py:704-707 | For any step that reads energies as the listing does, the energy is the one read from the last eigenvalue line of the listing, or the starting one when there is none |
| CfourExcited.ListingsUnstarted | cclib/parser/cfourparser.py:704-707 | A listing that passes no eigenvalue line before it starts is left as it was |
| CfourExcited.LastEigenIsLast | cclib/parser/cfourparser.py:704-707 | The line found is an eigenvalue line with none after it, and nothing is found only when there is no eigenvalue line |
| CfourExcited.EtsecRow | cclib/parser/cfourparser.py:714-718 | A row gives four 0-based indices and a coefficient, and fails exactly when a word is unreadable |
| CfourExcited.EtsecRowPrinted | cclib/parser/cfourparser.py:714-718 | A row printed with 1-based indices reads back the 0-based ones |
| CfourExcited.Idx | cclib/parser/cfourparser.py:714-717 | A printed index becomes one less, except that 0 stays 0 |
| CfourExcited.IdxInjective | cclib/parser/cfourparser.py:714-717 | Distinct indices stay distinct except for 0 and 1 |
| CfourExcited.Rows | cclib/parser/cfourparser.py:752-762 | The listing stops on the first stop line |
| CfourExcited.RowsCount | cclib/parser/cfourparser.py:752-762 | There is one row per line passed over |
| CfourExcited.RowsAt | cclib/parser/cfourparser.py:752-762 | Row `k` is read from line `k`, and no row line is a stop line |
| CfourExcited.Sym | cclib/parser/cfourparser.py:740 | The symmetry is the multiplicity, a dash and the irrep's label; an unknown irrep fails |
| CfourScan.Oscillator | cclib/parser/cfourparser.py:766-770 | An oscillator line appends exactly its last word to `etoscs` |
| CfourScan.Mp | cclib/parser/cfourparser.py:847-856 | The MP lines change only `mpenergies` |
| CfourMp.MpLineSpec | cclib/parser/cfourparser.py:847-856 | A group is opened exactly on an MP2 line and starts with its energy. Earlier groups are kept, every group keeps its MP2 energy, and a higher-order line before MP2 fails |
| CfourMp.MpLine | cclib/parser/cfourparser.py:847-856 | Lines that are not MP lines change nothing |
| CfourMp.MpLinesGroups | cclib/parser/cfourparser.py:847-856 | Over a run of lines there is one group per MP2 line, and groups that were already complete are kept |
| CfourMp.Open | cclib/parser/cfourparser.py:847-852 | An MP2 line opens a new group holding word 4 |
| CfourMp.Join | cclib/parser/cfourparser.py:853-856 | A higher-order line appends its energy to the last group only; with no group it fails |
| CfourMp.JoinLast | cclib/parser/cfourparser.py:854 | `groups[-1].append` fails exactly on a missing or empty list, and changes only the last group |
| CfourScan.Extract | cclib/parser/cfourparser.py:158-856 | One pass over a line moves forward and keeps the timing, the grown lists and the invariant |
| CfourScan.Run | cclib/parser/cfourparser.py:158-856 | The scan of a log keeps the timing, the grown lists and the invariant |
| CfourScan.Parse | cclib/parser/cfourparser.py:66-856 | An empty log gives the starting state, and any parse ends in a state satisfying the invariant |
| CfourScan.AfterParsing | cclib/parser/cfourparser.py:112-156 | The post pass reports success, `nbasis`, `nmo` and the excited states sorted by energy |
| CfourScan.AfterParsingFails | cclib/parser/cfourparser.py:112-156 | After a scan, the post pass fails exactly on a missing `atomnos` or on oscillator strengths it cannot sort |
| CfourScan.AfterParsingReports | cclib/parser/cfourparser.py:114-132 | After a scan, success is reported exactly when a timing line was seen. `optdone` lists exactly the steps whose force is below the target, and `nmo` counts the alpha labels |
| CfourScan.AfterParsingSorts | cclib/parser/cfourparser.py:139-156 | After a scan, the excited-state energies come out ascending, the same energies each as often |
| CfourPost.Success | cclib/parser/cfourparser.py:114-115 | A run without a timing line did not succeed |
| CfourPost.Optdone | cclib/parser/cfourparser.py:117-121 | `optdone` lists in increasing order exactly the steps whose first value is below the first target, and fails exactly on a step without values or a missing target |
| CfourPost.BelowSpec | cclib/parser/cfourparser.py:117-121 | The converged steps are exactly those below the target, in increasing order |
| CfourPost.Below | cclib/parser/cfourparser.py:117-121 | Every listed step exists |
| CfourPost.Natom | cclib/parser/cfourparser.py:123-125 | Once a geometry was read, `natom` is the number of atomic numbers; with none it fails |
| CfourPost.Nbasis | cclib/parser/cfourparser.py:127-128 | `nbasis` is the number of basis-function names when they are known |
| CfourPost.Nmo | cclib/parser/cfourparser.py:130-132 | `nmo` is the number of alpha orbital energies when they are known |
| CfourPost.ArgSort | cclib/parser/cfourparser.py:140 | `argsort` gives `n` indices, each in range |
| CfourPost.ArgSortSorted | cclib/parser/cfourparser.py:140 | `argsort` orders the energies ascending |
| CfourPost.ArgSortPermutes | cclib/parser/cfourparser.py:140 | `argsort` is a permutation of the indices |
| CfourPost.Insert | cclib/parser/cfourparser.py:140 | Insertion adds exactly the new index |
| CfourPost.InsertSorted | cclib/parser/cfourparser.py:140 | Insertion keeps the indices in energy order |
| CfourPost.Range | cclib/parser/cfourparser.py:140 | The indices are `0..n-1`, in order |
| CfourPost.RangeMembers | cclib/parser/cfourparser.py:140 | A permutation of `0..n-1` holds each index and nothing else |
| CfourPost.Permute | cclib/parser/cfourparser.py:145-151 | Taking a list in index order fails exactly on an index out of range, and otherwise gives `xs[idx[k]]` at `k` |
| CfourPost.PermuteRange | cclib/parser/cfourparser.py:145-151 | Permuting by a permutation of `0..n-1` fails exactly when the list is shorter than `n` |
| CfourPost.PermuteInsert | cclib/parser/cfourparser.py:145-151 | Inserting an index adds exactly its element to the permuted list |
| CfourPost.PermuteArgSort | cclib/parser/cfourparser.py:145-151 | A list taken in `argsort` order is a permutation of its first `n` elements |
| CfourPost.SortStates | cclib/parser/cfourparser.py:139-156 | Energies, configurations, symmetries and oscillator strengths are all taken in the same `argsort` order; with properties off the strengths are emptied; it fails exactly on short lists or an unknown property switch |
| CfourPost.SortedEnergies | cclib/parser/cfourparser.py:140-145 | The sorted energies are ascending and are the same energies, each as often |
| CfourPost.SortStatesOrder | cclib/parser/cfourparser.py:139-156 | After sorting, the energies are ascending and are the same energies, each as often |
| Registry.Names | cclib/parser/data.py:106-184 | The names are the table's names, in declaration order |
| Registry.SetAttributes | cclib/parser/data.py:297-319 | A non-dict fails. Every registered key gets its value, nothing else changes, and each unregistered key comes back exactly once. Validity is kept |
| Registry.SetKnown | cclib/parser/data.py:310-314 | Registered keys get their values, and other keys keep theirs |
| Registry.Unknown | cclib/parser/data.py:310-314 | The unregistered keys, each once |
| Registry.GetAttributes | cclib/parser/data.py:289-295 | Exactly the held registered attributes, each once with its value, in ascending name order |
| Registry.Present | cclib/parser/data.py:289-295 | Exactly the held attributes among the names, each once with its value |
| Registry.PresentSorted | cclib/parser/data.py:187 | Taken from the sorted names, the attributes are in ascending order |
| Registry.GetSetRoundTrip | cclib/parser/data.py:289-319 | Reading a valid result out and setting it on an empty one rebuilds it, with no invalid names |
| Registry.RebuildFrom | cclib/parser/data.py:289-319 | Setting the present attributes rebuilds the map and reports nothing unknown |
| Registry.NoneUnknown | cclib/parser/data.py:310-314 | A dict of registered keys reports nothing unknown |
| Registry.CheckValues | cclib/parser/data.py:342-347 | A missing attribute, an empty string and an empty dict report nothing. A list fails exactly when it holds a non-number. A non-empty string or dict fails, and so do a Boolean and a number. Otherwise the reported energies are the negative ones, in input order and with their multiplicity, and none are reported exactly when all are non-negative |
| Registry.Negatives | cclib/parser/data.py:344 | Exactly the negative entries, each as many times as it occurs in the input |
| Registry.NegativesAppend | cclib/parser/data.py:344 | The comprehension keeps the input order: the negative entries of a concatenation are those of the first part followed by those of the second |
| Registry.OptdoneDeclared | cclib/parser/data.py:160 | `optdone` is a declared attribute |
| Registry.ReduceOptdoneAsWritten | cclib/parser/data.py:461-462 | As written, a held `optdone` becomes whether it has elements, and a Boolean `optdone` fails |
| Registry.OptdoneBoolSetAsWritten | cclib/parser/data.py:456-464 | As written, a successful call leaves `optdone` a Boolean and reports the same invalid names as the base call |
| Registry.OptdoneSecondSetFails | cclib/parser/data.py:456-464 | As written, a second call after `optdone` has been reduced fails, even when it sets nothing |
| Registry.ReduceOptdone | cclib/parser/data.py:459-462 | Corrected: only a non-Boolean `optdone` is reduced, and nothing else changes |
| Registry.OptdoneBoolSet | cclib/parser/data.py:456-464 | Corrected: `optdone` ends as a Boolean, with the base call's invalid names |
| Registry.OptdoneBoolSetNothing | cclib/parser/data.py:456-464 | Corrected: setting nothing leaves a reduced result as it is |
| Registry.OptdoneSecondSetSucceeds | cclib/parser/data.py:456-464 | Corrected: the input that breaks the code as written goes through |
| StrOrder.Sort | cclib/parser/data.py:187 | `sorted` gives an ascending list holding the same names, each as often |
| StrOrder.SortMembers | cclib/parser/data.py:187 | `_attrlist` holds exactly the declared names |
| StrOrder.SortIsTheSortedArrangement | cclib/parser/data.py:187 | Any ascending list holding the same names is `sorted`'s result |
| StrOrder.SortedUnique | cclib/parser/data.py:187 | There is only one ascending arrangement |
| StrOrder.InsertSorted | cclib/parser/data.py:187 | Insertion keeps the list ascending |
| Values.Len | cclib/parser/data.py:462 | `len` is defined exactly on strings, lists and dicts, and a Boolean raises `TypeError` |
| Values.Numbers | cclib/parser/data.py:344 | A list compares as numbers exactly when every element is a number or Boolean |
| Values.NumbersOfReals | cclib/parser/data.py:344 | A list of numbers compares as exactly those numbers |
| OptStatus.Steps | cclib/parser/data.py:387-438 | Exactly the steps whose status has the flag, ascending |
| OptStatus.Pick | cclib/parser/data.py:388-389 | Fancy indexing fails exactly on an index past the end, and otherwise gives `coords[idx[j]]` at `j` |
| OptStatus.Select | cclib/parser/data.py:387-438 | With a status, the result holds the geometry of each flagged step once, in step order. Without a status it is every geometry, and without coordinates it fails |
| OptStatus.PickSteps | cclib/parser/data.py:387-438 | Picking the flagged steps succeeds exactly when each has a geometry, and then includes them all |
| OptStatus.ConvergedGeometries | cclib/parser/data.py:387-391 | Exactly the geometries of steps flagged `OPT_DONE`, one per step in step order, or all of them without a status |
| OptStatus.NewGeometries | cclib/parser/data.py:402-406 | Exactly the geometries of steps flagged `OPT_NEW`, one per step in step order, or all of them without a status |
| OptStatus.UnknownGeometries | cclib/parser/data.py:417-421 | Exactly the geometries of steps with status `OPT_UNKNOWN`, one per step in step order, or all of them without a status |
| OptStatus.UnconvergedGeometries | cclib/parser/data.py:432-438 | Exactly the geometries of steps flagged `OPT_UNCONVERGED`, one per step in step order, or all of them without a status |
| OptStatus.UnknownIsUnflagged | cclib/parser/data.py:206-210 | For 3-bit statuses, the unknown steps are exactly those that no other selector picks |

## Left out

- Reading the log file, the progress bar and logging. The scanners are given the lines; messages logged (for example the warning in `check_values`) are not modelled.
- The generic line loop of `logfileparser.py`. `cclib/parser/logfileparser.py` is not part of this model. `GamessScan.Run` and `CfourScan.Run` stand for it: one pass per line, and each pass starts after the last line the one before read.
- GAMESS blocks outside the modelled core. These are passed over as if they did not fire:
  - the SCF type;
  - the point group;
  - the optimisation tolerance;
  - SCF, MP2 and CI energies;
  - CIS/TDDFT excited states;
  - coordinates and geometry convergence;
  - SCF iterations;
  - natural orbitals;
  - the HOMO counts;
  - populations;
  - moments;
  - polarisabilities;
  - thermochemistry;
  - force constants.

  When such a block reads lines in the parser, the line stream the model sees differs from the parser's.
- CFOUR blocks outside the modelled core are passed over as if they did not fire:
  - version, basis, calculation level, excitation settings, charge and multiplicity;
  - point group;
  - basis set;
  - Z-matrix and one-atom blocks;
  - coordinates;
  - ECP;
  - SCF iterations;
  - MO coefficients;
  - zero-point energy, vibrations and gradients.
- CfourScan.AfterParsing: the geometries, atomic numbers and basis-function names come from the CFOUR blocks above, which are not modelled, so they are inputs. The core-electron loop is left out because its dictionaries come from the ECP block.
- Floating point. Numbers are parsed into exact decimal reals, so IEEE rounding is not modelled. The energies and targets compared in the CFOUR post pass are compared exactly.
- Numbers.ParseReal: Python's `float` also accepts `nan`, `inf` and `infinity` (in any case, with a sign), `_` between digits, and non-ASCII decimal digits. The model fails on these. NaN and the infinities have no exact real value. Where the parser catches the failure, a line with such text ends the model's loop but not the parser's. The GAMESS eigenvalue loop at gamessparser.py:1084-1088 is one such place.
- Numbers.ParseInt: `_` between digits and non-ASCII decimal digits, which Python's `int` accepts, fail here.
- CfourOrbitals.Level: an energy field of only `*` fails here. This is a Fortran overflow, which `utils.float` turns into NaN, and the model's energies are exact reals with no NaN. utils.py is not part of this model: `FortranReal` follows its documented reading of `D` exponents.
- Text.IsDigit: ASCII digits only. The regular-expression class `\d` also matches other Unicode decimal digits.
- Text.Lower, Text.Upper, Text.Capitalize: only ASCII letters change case. Python's case mapping covers all of Unicode and can change a string's length. GAMESS and CFOUR print their labels in ASCII.
- Unit conversion (`utils.convertor`) is the parameter `ir` of the vibration block. Conversions in blocks outside the core are not modelled.
- The CPU and wall times are stored as reals, not `timedelta`.
- CfourPost.ArgSort: a stable insertion argsort. `numpy.argsort`'s default quicksort may order equal energies differently.
- Exceptions are one `Err` each, `EndOfInput` or `Malformed`; their messages and types are not told apart.
- Registry.SetAttributes: the `arrayify` and `typecheck` steps and `getattributes(tolists=True)` are left out; values are stored as given.
- `ccData_optdone_bool.__init__` changes the class-level `_attributes` table shared with `ccData`; the model has one table and does not model this side effect.
- `listify`, `write*`, `nelectrons` and `closed_shell` of `data.py` are outside the core.
- CfourLabels.NormaliseSymIdempotent: stated for labels without `+`. `PlusBetweenQuotes` shows that a `+` between two quotes breaks it.
- CfourLabels.NormaliseSym: the parser's tests for a bare `u` or `g` sit under the length test and can never succeed, so they are not modelled.
- CfourTargets.ScfTarget: the contract states only that the target is a power of ten. The exponent read back from printed forms is in `ScfTargetStarred` and `ScfTargetSplit`.
- GamessCC.Ccsd: the contract states the number of levels named. The exact results are in `CcsdOnly`, `CcsdBracketT` and `CcsdParenT`.
- GamessVibrations.Block: the contract states where the block stops and that earlier reduced masses and Raman activities stay present. What it reads is stated piece by piece, by the lemmas on `Groups`, `Properties`, `Tail`, `ExcludeModes`, `Weights`, `Finish` and `DispArray`; the last fails the block when the kept displacements have uneven shapes.
- GamessBasis.Basis: the contract states where the section stops. The shells read back are stated by `LetterBlock`, `SpBlock` and `CopiesOfGap`.
- GamessScan.Extract, GamessScan.Run, GamessScan.Opening: the contracts state only the frame: the scan moves forward, success is never cleared, `natom` is read once and the flags are kept. Each trigger's effect is stated on its stage function, whose contract sets the field to the block reader's result.
- CfourScan.Extract, CfourScan.Run: the contracts state only the frame and the invariant. Each trigger's effect is stated on its stage function, whose contract sets the field to the block reader's result.
- CfourExcited.WithProps: the contract does not fix the energy or the rows. `WithPropsEnergy` states where the energy comes from, and `ListingLine` and `ListingsKeep` state the shape of the rows.
- GamessOverlap.Overlap: symmetry is proved for a matrix read into fresh zeros. A matrix read over an earlier one is symmetric only if that one was.

Quirks of the parsers that the model follows:
- In a GAMESS gradient block, after a four-word line the parser looks at whether the next line has nine words, and such a line replaces both values.
- The `@CHECKOUT-I` line that ends the CFOUR CC block is never looked at by the success trigger, because the timing trigger runs earlier in the same pass.
- After the CFOUR CC block, the words stay those of the opening line.
- In CFOUR's post pass, oscillator strengths are emptied when excited-state properties are off.

## Findings

| source | as written | input that shows it | evidently intended | confidence | as-written member | corrected member |
|---|---|---|---|---|---|---|
| cclib/parser/data.py:461-462 | `ccData_optdone_bool.setattributes` reduces any held `optdone` with `len(self.optdone) > 0`, also when it is already a Boolean, so `len` raises `TypeError` | a first call with `{"optdone": [3.0]}` (which leaves `optdone = True`), then a second call with `{}` | reduce only an `optdone` that is still a list; a later call keeps the Boolean | not executed | Registry.OptdoneSecondSetFails | Registry.OptdoneSecondSetSucceeds |

=== FILE: cfour_cc.dfy ===
/** The coupled-cluster energy of a CFOUR log (one `ccenergies` entry).

    The block opens on the line announcing that the CC iterations have
    converged. From that line on, every non-blank line is kept until a line
    holding `@CHECKOUT-I,`; the energy is a word of the last line kept: the
    second-to-last word when the last is the unit `a.u.`, else the last
    word. The word is kept as text, as CFOUR's parser appends it unconverted.
    Only the last kept line is ever read, so the scan keeps just that one.
 */
module CfourCc {
  import opened Results
  import opened Text
  import opened Cursor
  import PySeq

  predicate CcLine(line: string) {
    Contains(line, "A miracle has come to pass. The CC iterations have converged.")
  }

  /** A line holding the checkout mark, which ends the block. */
  predicate Marked(line: string) {
    Contains(line, "@CHECKOUT-I,")
  }

  /** A line the block keeps. */
  predicate Filled(line: string) {
    !IsBlank(line)
  }

  /** The first of two choices that is present. */
  function Or(a: Option<string>, b: Option<string>): (r: Option<string>)
    ensures r.Some? <==> a.Some? || b.Some?
  {
    if a.Some? then a else b
  }

  /** `x`, when `keep` holds for it. */
  function Keep(x: string, keep: string -> bool): (r: Option<string>)
    ensures r.Some? <==> keep(x)
    ensures r.Some? ==> r.value == x
  {
    if keep(x) then Some(x) else None
  }

  /** The lines from `line` on up to the first one `stop` holds for; the
      step stops on that line and holds the last line before it that
      `keep` holds for (or `last` when there is none). */
  function Collect(line: string, c: LineCursor, last: Option<string>, stop: string -> bool, keep: string -> bool): (r: Result<Step<Option<string>>>)
    ensures r.Ok? ==> stop(r.value.line) && Advanced(c, r.value.rest)
    ensures r.Ok? && c.pos <= |c.lines| ==> r.value.rest.pos <= |c.lines|
    ensures stop(line) ==> r == Ok(Step(line, c, last))
    decreases c.Remaining()
  {
    if stop(line) then Ok(Step(line, c, last))
    else
      var last1 := if keep(line) then Some(line) else last;
      if c.pos < |c.lines| then Collect(c.lines[c.pos], LineCursor(c.lines, c.pos + 1), last1, stop, keep)
      else Err(EndOfInput)
  }

  /** The line `Collect` stops on: the opening line when `stop` holds for
      it, else the last line read, at position `e - 1`. */
  lemma {:induction false} CollectEnd(line: string, c: LineCursor, last: Option<string>, stop: string -> bool, keep: string -> bool)
    requires c.pos <= |c.lines|
    ensures Collect(line, c, last, stop, keep).Ok? ==>
      var s := Collect(line, c, last, stop, keep).value;
      var e := s.rest.pos;
      (e == c.pos ==> s.line == line && s.value == last)
      && (e > c.pos ==> s.line == c.lines[e - 1] && !stop(line))
    decreases c.Remaining()
  {
    if !stop(line) && c.pos < |c.lines| {
      var last1 := if keep(line) then Some(line) else last;
      CollectEnd(c.lines[c.pos], LineCursor(c.lines, c.pos + 1), last1, stop, keep);
    }
  }

  /** `stop` holds for none of the lines `Collect` passes over. */
  lemma {:induction false} CollectClear(line: string, c: LineCursor, last: Option<string>, stop: string -> bool, keep: string -> bool)
    requires c.pos <= |c.lines|
    ensures Collect(line, c, last, stop, keep).Ok? ==>
      var e := Collect(line, c, last, stop, keep).value.rest.pos;
      forall k :: c.pos <= k < e - 1 ==> !stop(c.lines[k])
    decreases c.Remaining()
  {
    if !stop(line) && c.pos < |c.lines| {
      var last1 := if keep(line) then Some(line) else last;
      var c1 := LineCursor(c.lines, c.pos + 1);
      CollectClear(c.lines[c.pos], c1, last1, stop, keep);
      CollectEnd(c.lines[c.pos], c1, last1, stop, keep);
    }
  }

  /** The last of `xs[i..j]` that `keep` holds for, found from the end. */
  ghost function LastIn(xs: seq<string>, i: nat, j: nat, keep: string -> bool): Option<string>
    requires i <= j <= |xs|
    decreases j
  {
    if i == j then None else if keep(xs[j - 1]) then Some(xs[j - 1]) else LastIn(xs, i, j - 1, keep)
  }

  /** Looking from the front: the last kept line after the first, else
      the first when it is kept. */
  lemma {:induction false} LastInFront(xs: seq<string>, i: nat, j: nat, keep: string -> bool)
    requires i < j <= |xs|
    ensures LastIn(xs, i, j, keep) == Or(LastIn(xs, i + 1, j, keep), Keep(xs[i], keep))
    decreases j
  {
    if j > i + 1 {
      LastInFront(xs, i, j - 1, keep);
    }
  }

  /** `Collect` holds the last kept line among those it passes over: the
      lines before the one it stops on, then the opening line, then `last`. */
  lemma {:induction false} CollectLast(line: string, c: LineCursor, last: Option<string>, stop: string -> bool, keep: string -> bool)
    requires c.pos <= |c.lines|
    ensures Collect(line, c, last, stop, keep).Ok? ==>
      var s := Collect(line, c, last, stop, keep).value;
      s.rest.pos > c.pos ==> s.value == Or(LastIn(c.lines, c.pos, s.rest.pos - 1, keep), Or(Keep(line, keep), last))
    decreases c.Remaining()
  {
    if !stop(line) && c.pos < |c.lines| {
      var last1 := if keep(line) then Some(line) else last;
      var next := c.lines[c.pos];
      var c1 := LineCursor(c.lines, c.pos + 1);
      CollectLast(next, c1, last1, stop, keep);
      CollectEnd(next, c1, last1, stop, keep);
      var r := Collect(next, c1, last1, stop, keep);
      if r.Ok? {
        var e := r.value.rest.pos;
        if e > c.pos + 1 {
          LastInFront(c.lines, c.pos, e - 1, keep);
        }
      }
    }
  }

  /** The energy word of a line's words. */
  function Pick(ws: seq<string>): (r: Result<string>)
    ensures r.Ok? <==> |ws| >= 1 && (ws[|ws| - 1] == "a.u." ==> |ws| >= 2)
    ensures r.Ok? && ws[|ws| - 1] == "a.u." ==> r.value == ws[|ws| - 2]
    ensures r.Ok? && ws[|ws| - 1] != "a.u." ==> r.value == ws[|ws| - 1]
  {
    var w :- PySeq.At(ws, -1);
    if w == "a.u." then PySeq.At(ws, -2) else Ok(w)
  }

  /** A typical energy line ends in the unit. */
  lemma PickUnit(e: string)
    requires IsToken(e)
    ensures Pick(Split(Spaced(["CCSD(T)", "energy", e, "a.u."]))) == Ok(e)
  {
    SplitSpaced(["CCSD(T)", "energy", e, "a.u."]);
  }

  /** The block from its opening line; it stops on the marked line. When
      the opening line is itself marked nothing is kept, and reading the
      last kept line is an `IndexError`. */
  function Block(line: string, c: LineCursor): (r: Result<Step<string>>)
    ensures Marked(line) ==> r.Err?
    ensures r.Ok? ==> Marked(r.value.line) && Advanced(c, r.value.rest)
    ensures r.Ok? && c.pos <= |c.lines| ==> r.value.rest.pos <= |c.lines|
  {
    var s :- Collect(line, c, None, Marked, Filled);
    var _ :- Need(s.value.Some?, "list index out of range");
    var e :- Pick(Split(s.value.value));
    Ok(Step(s.line, s.rest, e))
  }

  /** The block stops on the first marked line after the opening one, and
      the energy is read from the last non-blank line before it (the
      opening line included). */
  lemma BlockReadsLast(line: string, c: LineCursor)
    requires c.pos <= |c.lines|
    ensures Block(line, c).Ok? ==>
      var s := Block(line, c).value;
      var e := s.rest.pos;
      e > c.pos && s.line == c.lines[e - 1] && !Marked(line)
      && (forall k :: c.pos <= k < e - 1 ==> !Marked(c.lines[k]))
      && Or(LastIn(c.lines, c.pos, e - 1, Filled), Keep(line, Filled)).Some?
      && Pick(Split(Or(LastIn(c.lines, c.pos, e - 1, Filled), Keep(line, Filled)).value)) == Ok(s.value)
  {
    CollectEnd(line, c, None, Marked, Filled);
    CollectClear(line, c, None, Marked, Filled);
    CollectLast(line, c, None, Marked, Filled);
  }
}

=== FILE: cfour_excited.dfy ===
/** The excited states of a CFOUR log: one entry of `etenergies`,
    `etsecs` and `etsyms` per converged eigenvalue.

    Each configuration row lists two occupied and two virtual orbitals,
    numbered from 1, and a coefficient. The indices are made 0-based, but an
    index printed as 0 stays 0. Without excited-state properties the rows
    start seven lines after the eigenvalue and run to a dashed line; with
    them, the lines up to `Right Transition Moment` are read one by one: a
    further eigenvalue line restates the energy and starts the listing, the
    rows sit between its second and third dashed lines, and a line after
    the third may give the multiplicity.
 */
module CfourExcited {
  import opened Results
  import opened Text
  import opened Cursor
  import Numbers
  import PySeq

  /** A rule of 80 dashes. */
  function Rule(): string {
    PySeq.Repeat('-', 80)
  }

  /** The dashed line that ends a listing of rows. */
  predicate Dashed(line: string) {
    Contains(line, Rule())
  }

  predicate EigenvalueLine(line: string) {
    Contains(line, "Converged eigenvalue:")
  }

  /** The line that ends the listing with properties. */
  predicate MomentLine(line: string) {
    Contains(line, "Right Transition Moment")
  }

  predicate StateLine(line: string) {
    Contains(line, "The state is a")
  }

  /** One configuration: the occupied pair, the virtual pair, and the
      coefficient. */
  datatype Etsec = Etsec(i: int, j: int, a: int, b: int, coeff: real)

  /** A printed orbital index made 0-based, keeping 0 as 0: 0 and 1 both
      give 0, and every other index is one less. */
  function Idx(n: int): (r: int)
    ensures r == 0 <==> n == 0 || n == 1
    ensures n >= 1 ==> r + 1 == n
    ensures n >= 0 ==> r >= 0
  {
    if n == 0 then 0 else n - 1
  }

  /** Two indices from 1 up give the same 0-based index only when they are
      equal; 0 is the one other index that meets 1. */
  lemma IdxInjective(m: int, n: int)
    requires Idx(m) == Idx(n) && m != n
    ensures (m == 0 && n == 1) || (m == 1 && n == 0)
  {
  }

  /** A configuration row from its words: four indices, then the
      coefficient. */
  function EtsecRow(tokens: seq<string>): (r: Result<Etsec>)
    ensures r.Ok? <==>
      && |tokens| >= 5
      && Numbers.ParseInt(tokens[0]).Some? && Numbers.ParseInt(tokens[1]).Some?
      && Numbers.ParseInt(tokens[2]).Some? && Numbers.ParseInt(tokens[3]).Some?
      && Numbers.ParseReal(tokens[4]).Some?
    ensures r.Ok? ==> r.value.coeff == Numbers.ParseReal(tokens[4]).value
    ensures r.Ok? ==>
      && r.value.i == Idx(Numbers.ParseInt(tokens[0]).value) && r.value.j == Idx(Numbers.ParseInt(tokens[1]).value)
      && r.value.a == Idx(Numbers.ParseInt(tokens[2]).value) && r.value.b == Idx(Numbers.ParseInt(tokens[3]).value)
  {
    var _ :- Need(|tokens| >= 5, "list index out of range");
    var i :- Numbers.Int(tokens[0]);
    var j :- Numbers.Int(tokens[1]);
    var a :- Numbers.Int(tokens[2]);
    var b :- Numbers.Int(tokens[3]);
    var x :- Numbers.Real(tokens[4]);
    Ok(Etsec(Idx(i), Idx(j), Idx(a), Idx(b), x))
  }

  /** Printed integers are words. */
  lemma IntToStringToken(n: int)
    ensures IsToken(Numbers.IntToString(n))
  {
    var s := Numbers.IntToString(n);
    assert Numbers.AllDigits(Numbers.NatToString(if n < 0 then -n else n));
    if n < 0 {
      assert forall k :: 1 <= k < |s| ==> s[k] == Numbers.NatToString(-n)[k - 1];
    }
  }

  /** A row printed with 1-based indices is read back with the 0-based
      ones. */
  lemma EtsecRowPrinted(i: nat, j: nat, a: nat, b: nat, coeff: string)
    requires IsToken(coeff) && Numbers.ParseReal(coeff).Some?
    ensures EtsecRow(Split(Spaced([Numbers.IntToString(i + 1), Numbers.IntToString(j + 1),
      Numbers.IntToString(a + 1), Numbers.IntToString(b + 1), coeff])))
      == Ok(Etsec(i, j, a, b, Numbers.ParseReal(coeff).value))
  {
    var ts := [Numbers.IntToString(i + 1), Numbers.IntToString(j + 1), Numbers.IntToString(a + 1), Numbers.IntToString(b + 1), coeff];
    IntToStringToken(i + 1);
    IntToStringToken(j + 1);
    IntToStringToken(a + 1);
    IntToStringToken(b + 1);
    SplitSpaced(ts);
    Numbers.ParseShowInt(i + 1);
    Numbers.ParseShowInt(j + 1);
    Numbers.ParseShowInt(a + 1);
    Numbers.ParseShowInt(b + 1);
    EtsecRowWords(ts, i, j, a, b);
  }

  /** Words that read as the 1-based indices give the 0-based ones. */
  lemma EtsecRowWords(ts: seq<string>, i: nat, j: nat, a: nat, b: nat)
    requires |ts| == 5 && Numbers.ParseReal(ts[4]).Some?
    requires Numbers.ParseInt(ts[0]) == Some(i + 1) && Numbers.ParseInt(ts[1]) == Some(j + 1)
    requires Numbers.ParseInt(ts[2]) == Some(a + 1) && Numbers.ParseInt(ts[3]) == Some(b + 1)
    ensures EtsecRow(ts) == Ok(Etsec(i, j, a, b, Numbers.ParseReal(ts[4]).value))
  {
  }

  /** The rows from `line` on, up to the first line `stop` holds for, each
      read by `row`; the step stops on that line. */
  function Rows<T>(line: string, c: LineCursor, stop: string -> bool, row: string -> Result<T>): (r: Result<Step<seq<T>>>)
    ensures r.Ok? ==> stop(r.value.line) && Advanced(c, r.value.rest)
    ensures r.Ok? && c.pos <= |c.lines| ==> r.value.rest.pos <= |c.lines|
    ensures stop(line) ==> r == Ok(Step(line, c, []))
    decreases c.Remaining()
  {
    if stop(line) then Ok(Step(line, c, []))
    else
      var x :- row(line);
      if c.pos < |c.lines| then
        var s :- Rows(c.lines[c.pos], LineCursor(c.lines, c.pos + 1), stop, row);
        Ok(Step(s.line, s.rest, [x] + s.value))
      else Err(EndOfInput)
  }

  /** One row per line passed over: the listing stops on the line after
      its last row, and holds as many rows as the lines before it. */
  lemma {:induction false} RowsCount<T>(line: string, c: LineCursor, stop: string -> bool, row: string -> Result<T>)
    requires c.pos <= |c.lines|
    ensures Rows(line, c, stop, row).Ok? ==>
      var s := Rows(line, c, stop, row).value;
      |s.value| == s.rest.pos - c.pos
      && (s.rest.pos == c.pos ==> s.line == line)
      && (s.rest.pos > c.pos ==> s.line == c.lines[s.rest.pos - 1])
    decreases c.Remaining()
  {
    if !stop(line) && row(line).Ok? && c.pos < |c.lines| {
      RowsCount(c.lines[c.pos], LineCursor(c.lines, c.pos + 1), stop, row);
    }
  }

  /** Row `k` is read from line `k` of the listing, counting the opening
      line, the one just before the cursor, as line 0; no line read as a
      row stops the listing. */
  lemma {:induction false} RowsAt<T>(line: string, c: LineCursor, stop: string -> bool, row: string -> Result<T>, k: nat)
    requires 1 <= c.pos <= |c.lines| && line == c.lines[c.pos - 1]
    ensures Rows(line, c, stop, row).Ok? && k < |Rows(line, c, stop, row).value.value| ==>
      && c.pos - 1 + k < |c.lines|
      && !stop(c.lines[c.pos - 1 + k])
      && row(c.lines[c.pos - 1 + k]) == Ok(Rows(line, c, stop, row).value.value[k])
    decreases k
  {
    if k > 0 && !stop(line) && row(line).Ok? && c.pos < |c.lines| {
      RowsAt(c.lines[c.pos], LineCursor(c.lines, c.pos + 1), stop, row, k - 1);
    }
  }

  /** Where the listing with properties is: the energy, how many dashed
      lines have passed since the eigenvalue line that starts it, whether
      it has started, whether the current line may hold a row, the rows,
      and the multiplicity. */
  datatype Listing = Listing(energy: real, dashes: nat, parse: bool, keep: bool, secs: seq<Etsec>, mult: string)

  /** An eigenvalue line restates the energy and starts the listing. */
  function Eigen(line: string, l: Listing): (r: Result<Listing>)
    ensures r.Ok? ==> r.value == l.(energy := r.value.energy, parse := l.parse || EigenvalueLine(line))
    ensures r.Ok? && EigenvalueLine(line) ==> Numbers.Field(line, 2) == Ok(r.value.energy)
    ensures !EigenvalueLine(line) ==> r == Ok(l)
  {
    if EigenvalueLine(line) then
      var e :- Numbers.Field(line, 2);
      Ok(l.(energy := e, parse := true))
    else Ok(l)
  }

  /** Between the second and third dashed lines, each line is a row. */
  function ReadRow(tokens: seq<string>, l: Listing): (r: Result<Listing>)
    ensures r.Ok? ==> r.value == l.(secs := r.value.secs)
    ensures r.Ok? && l.parse && l.keep && l.dashes == 2 ==> EtsecRow(tokens).Ok? && r.value.secs == l.secs + [EtsecRow(tokens).value]
    ensures !(l.parse && l.keep && l.dashes == 2) ==> r == Ok(l)
  {
    if l.parse && l.keep && l.dashes == 2 then
      var x :- EtsecRow(tokens);
      Ok(l.(secs := l.secs + [x]))
    else Ok(l)
  }

  /** After the third dashed line, a `The state is a` line names the
      multiplicity in word 4: `triplet`, or else a singlet. */
  function ReadMult(line: string, tokens: seq<string>, l: Listing): (r: Result<Listing>)
    ensures r.Ok? ==> r.value == l.(mult := r.value.mult)
    ensures r.Ok? && r.value.mult != l.mult ==>
      && r.value.mult in {"Singlet", "Triplet"}
      && l.parse && l.keep && l.dashes == 3 && StateLine(line)
    ensures r.Ok? && l.parse && l.keep && l.dashes == 3 && StateLine(line) ==>
      |tokens| >= 5 && (r.value.mult == "Triplet" <==> tokens[4] == "triplet")
    ensures !(l.parse && l.keep && l.dashes == 3 && StateLine(line)) ==> r == Ok(l)
  {
    if l.parse && l.keep && l.dashes == 3 && StateLine(line) then
      var m :- PySeq.At(tokens, 4);
      Ok(l.(mult := if m == "triplet" then "Triplet" else "Singlet"))
    else Ok(l)
  }

  /** One line of the listing. Rows are read only while a line may hold
      one, which every line may: the flag is cleared on a dashed line and
      set again on the same line, after the dashed line is counted. */
  function ListingLine(line: string, l: Listing): (r: Result<Listing>)
    ensures r.Ok? ==> (r.value.parse <==> l.parse || EigenvalueLine(line))
    ensures r.Ok? ==> r.value.dashes == l.dashes + (if r.value.parse && Dashed(line) then 1 else 0)
    ensures r.Ok? && l.keep ==> r.value.keep
    ensures r.Ok? && !EigenvalueLine(line) ==> r.value.energy == l.energy
    ensures r.Ok? && EigenvalueLine(line) ==> Numbers.Field(line, 2) == Ok(r.value.energy)
    ensures !l.parse && !EigenvalueLine(line) ==> r == Ok(l)
    ensures r.Ok? && l.keep && r.value.parse && l.dashes == 2 && !Dashed(line) ==>
      && EtsecRow(Split(line)).Ok?
      && r.value.secs == l.secs + [EtsecRow(Split(line)).value]
    ensures r.Ok? && l.keep && !(r.value.parse && l.dashes == 2 && !Dashed(line)) ==> r.value.secs == l.secs
    ensures r.Ok? && r.value.mult != l.mult ==>
      && r.value.mult in {"Singlet", "Triplet"}
      && l.dashes == 3 && StateLine(line) && !Dashed(line)
  {
    var tokens := Split(line);
    var l1 :- Eigen(line, l);
    var l2 := if l1.parse && Dashed(line) then l1.(keep := false) else l1;
    var l3 :- ReadRow(tokens, l2);
    var l4 :- ReadMult(line, tokens, l3);
    if l4.parse && Dashed(line) then Ok(l4.(dashes := l4.dashes + 1, keep := true)) else Ok(l4)
  }

  /** What one line does to a listing. */
  type ListingStep = (string, Listing) -> Result<Listing>

  /** The lines from `line` on up to the `Right Transition Moment` line. */
  function Listings(line: string, c: LineCursor, l: Listing, step: ListingStep): (r: Result<Step<Listing>>)
    ensures r.Ok? ==> MomentLine(r.value.line) && Advanced(c, r.value.rest)
    ensures r.Ok? && c.pos <= |c.lines| ==> r.value.rest.pos <= |c.lines|
    ensures MomentLine(line) ==> r == Ok(Step(line, c, l))
    decreases c.Remaining()
  {
    if MomentLine(line) then Ok(Step(line, c, l))
    else
      var l1 :- step(line, l);
      if c.pos < |c.lines| then Listings(c.lines[c.pos], LineCursor(c.lines, c.pos + 1), l1, step)
      else Err(EndOfInput)
  }

  /** What holds of a listing throughout: a line may hold a row, the
      multiplicity is one of the two names, and nothing is counted or kept
      before the listing starts; rows are only ever added. */
  predicate Settled(l: Listing) {
    l.keep && l.mult in {"Singlet", "Triplet"} && (!l.parse ==> l.dashes == 0 && l.secs == [])
  }

  /** A step that keeps a listing settled and only adds rows. */
  ghost predicate Keeps(step: ListingStep) {
    forall line, l :: Settled(l) && step(line, l).Ok? ==> Settled(step(line, l).value) && l.secs <= step(line, l).value.secs
  }

  /** One line keeps a listing settled and only adds rows. */
  lemma ListingLineKeeps(line: string, l: Listing)
    requires Settled(l)
    ensures ListingLine(line, l).Ok? ==> Settled(ListingLine(line, l).value) && l.secs <= ListingLine(line, l).value.secs
  {
  }

  /** The listing after every line is settled and extends the one before. */
  lemma {:induction false} ListingsKeep(line: string, c: LineCursor, l: Listing, step: ListingStep)
    requires Settled(l) && Keeps(step)
    ensures Listings(line, c, l, step).Ok? ==>
      Settled(Listings(line, c, l, step).value.value) && l.secs <= Listings(line, c, l, step).value.value.secs
    decreases c.Remaining()
  {
    if !MomentLine(line) && step(line, l).Ok? && c.pos < |c.lines| {
      ListingsKeep(c.lines[c.pos], LineCursor(c.lines, c.pos + 1), step(line, l).value, step);
    }
  }

  /** The last of the lines `lo .. hi - 1` that is an eigenvalue line. */
  function LastEigen(lines: seq<string>, lo: nat, hi: nat): (k: Option<nat>)
    requires lo <= hi <= |lines|
    ensures k.Some? ==> lo <= k.value < hi
    decreases hi - lo
  {
    if lo == hi then None
    else
      match LastEigen(lines, lo + 1, hi)
      case Some(k) => Some(k)
      case None => if EigenvalueLine(lines[lo]) then Some(lo) else None
  }

  /** `LastEigen` finds an eigenvalue line with none after it, and finds
      nothing only when there is no eigenvalue line at all. */
  lemma {:induction false} LastEigenIsLast(lines: seq<string>, lo: nat, hi: nat)
    requires lo <= hi <= |lines|
    ensures var k := LastEigen(lines, lo, hi);
      && (k.Some? ==> EigenvalueLine(lines[k.value]))
      && (k.Some? ==> (forall j :: k.value < j < hi ==> !EigenvalueLine(lines[j])))
      && (k.None? ==> (forall j :: lo <= j < hi ==> !EigenvalueLine(lines[j])))
    decreases hi - lo
  {
    if lo < hi {
      LastEigenIsLast(lines, lo + 1, hi);
    }
  }

  /** A step keeps the energy except on an eigenvalue line, where `word`
      reads the new one from the line. */
  ghost predicate KeepsEnergy(step: ListingStep, word: string -> Result<real>) {
    forall line, l ::
      && (step(line, l).Ok? && !EigenvalueLine(line) ==> step(line, l).value.energy == l.energy)
      && (step(line, l).Ok? && EigenvalueLine(line) ==> word(line) == Ok(step(line, l).value.energy))
  }

  /** A step changes nothing before the listing starts, except on an
      eigenvalue line. */
  ghost predicate WaitsForEigen(step: ListingStep) {
    forall line: string, l: Listing :: !l.parse && !EigenvalueLine(line) ==> step(line, l) == Ok(l)
  }

  /** The listing's energy is the one `word` reads from the last eigenvalue
      line passed, or the energy it was given when there is none. The
      lines passed are those from `line`, at `p`, up to the
      `Right Transition Moment` line. */
  lemma {:induction false} ListingsEnergy(lines: seq<string>, p: nat, l: Listing, step: ListingStep, word: string -> Result<real>)
    requires p < |lines| && KeepsEnergy(step, word)
    ensures var r := Listings(lines[p], LineCursor(lines, p + 1), l, step);
      r.Ok? ==>
        && p < r.value.rest.pos <= |lines|
        && (LastEigen(lines, p, r.value.rest.pos - 1).None? ==> r.value.value.energy == l.energy)
        && (LastEigen(lines, p, r.value.rest.pos - 1).Some? ==>
              word(lines[LastEigen(lines, p, r.value.rest.pos - 1).value]) == Ok(r.value.value.energy))
    decreases |lines| - p
  {
    var r := Listings(lines[p], LineCursor(lines, p + 1), l, step);
    if r.Ok? && !MomentLine(lines[p]) {
      var l1 := step(lines[p], l).value;
      var r1 := Listings(lines[p + 1], LineCursor(lines, p + 2), l1, step);
      assert r == r1;
      ListingsEnergy(lines, p + 1, l1, step, word);
      var hi := r.value.rest.pos - 1;
      var k1 := LastEigen(lines, p + 1, hi);
      LastEigenFirst(lines, p, hi);
      if k1.None? && EigenvalueLine(lines[p]) {
        assert word(lines[p]) == Ok(l1.energy);
      } else if k1.None? {
        assert l1.energy == l.energy;
      }
    }
  }

  /** A listing that passes no eigenvalue line before it starts is left as
      it was. */
  lemma {:induction false} ListingsUnstarted(lines: seq<string>, p: nat, l: Listing, step: ListingStep)
    requires p < |lines| && WaitsForEigen(step) && !l.parse
    ensures var r := Listings(lines[p], LineCursor(lines, p + 1), l, step);
      r.Ok? && LastEigen(lines, p, r.value.rest.pos - 1).None? ==> r.value.value == l
    decreases |lines| - p
  {
    var r := Listings(lines[p], LineCursor(lines, p + 1), l, step);
    if r.Ok? && !MomentLine(lines[p]) {
      var hi := r.value.rest.pos - 1;
      LastEigenFirst(lines, p, hi);
      if LastEigen(lines, p, hi).None? {
        assert step(lines[p], l) == Ok(l);
        assert r == Listings(lines[p + 1], LineCursor(lines, p + 2), l, step);
        ListingsUnstarted(lines, p + 1, l, step);
      }
    }
  }

  /** The last eigenvalue line from `lo` is the last one after `lo`, or
      `lo` itself when there is none after it. */
  lemma LastEigenFirst(lines: seq<string>, lo: nat, hi: nat)
    requires lo < hi <= |lines|
    ensures var k1 := LastEigen(lines, lo + 1, hi);
      LastEigen(lines, lo, hi) == if k1.Some? then k1 else if EigenvalueLine(lines[lo]) then Some(lo) else None
  {
  }

  /** With properties, the state is the listing read from the line after
      the eigenvalue line. */
  lemma WithPropsIsListings(c: LineCursor, e: real, step: ListingStep)
    ensures var r := WithProps(c, e, step);
      var l0 := Listing(e, 0, false, true, [], "Singlet");
      r.Ok? ==>
        && c.pos < |c.lines|
        && var s := Listings(c.lines[c.pos], LineCursor(c.lines, c.pos + 1), l0, step);
        && s.Ok?
        && r.value == Step(s.value.line, s.value.rest, Excitation(s.value.value.energy, s.value.value.secs, s.value.value.mult))
  {
  }

  /** With properties, a step that reads energies as `ListingLine` does
      gives the energy `word` reads from the last eigenvalue line in the
      listing, or the one the state opened with when there is none. */
  lemma WithPropsEnergyBy(c: LineCursor, e: real, step: ListingStep, word: string -> Result<real>)
    requires KeepsEnergy(step, word)
    ensures var r := WithProps(c, e, step);
      r.Ok? ==>
        && c.pos < r.value.rest.pos <= |c.lines|
        && (LastEigen(c.lines, c.pos, r.value.rest.pos - 1).None? ==> r.value.value.energy == e)
        && (LastEigen(c.lines, c.pos, r.value.rest.pos - 1).Some? ==>
              word(c.lines[LastEigen(c.lines, c.pos, r.value.rest.pos - 1).value]) == Ok(r.value.value.energy))
  {
    var r := WithProps(c, e, step);
    WithPropsIsListings(c, e, step);
    if r.Ok? {
      var l0 := Listing(e, 0, false, true, [], "Singlet");
      var s := Listings(c.lines[c.pos], LineCursor(c.lines, c.pos + 1), l0, step);
      ListingsEnergy(c.lines, c.pos, l0, step, word);
      assert r.value.rest == s.value.rest && r.value.value.energy == s.value.value.energy;
    }
  }

  /** With properties, a step that waits for an eigenvalue line reads no
      rows and keeps the singlet when the listing has no eigenvalue line. */
  lemma WithPropsUnstartedBy(c: LineCursor, e: real, step: ListingStep)
    requires WaitsForEigen(step)
    ensures var r := WithProps(c, e, step);
      r.Ok? && LastEigen(c.lines, c.pos, r.value.rest.pos - 1).None? ==>
        r.value.value == Excitation(e, [], "Singlet")
  {
    WithPropsIsListings(c, e, step);
    if c.pos < |c.lines| {
      ListingsUnstarted(c.lines, c.pos, Listing(e, 0, false, true, [], "Singlet"), step);
    }
  }

  /** With properties, the energy is word 2 of the last eigenvalue line in
      the listing; when there is none it is the one the state opened with,
      and no rows are read. */
  lemma WithPropsEnergy(c: LineCursor, e: real)
    ensures var r := WithProps(c, e, ListingStepOf());
      r.Ok? ==>
        && c.pos < r.value.rest.pos <= |c.lines|
        && (LastEigen(c.lines, c.pos, r.value.rest.pos - 1).None? ==>
              r.value.value.energy == e && r.value.value.secs == [] && r.value.value.mult == "Singlet")
        && (LastEigen(c.lines, c.pos, r.value.rest.pos - 1).Some? ==>
              Numbers.Field(c.lines[LastEigen(c.lines, c.pos, r.value.rest.pos - 1).value], 2) == Ok(r.value.value.energy))
  {
    ListingStepEnergy();
    WithPropsEnergyBy(c, e, ListingStepOf(), WordTwo());
    WithPropsUnstartedBy(c, e, ListingStepOf());
  }

  /** `ListingLine` as a step. */
  function ListingStepOf(): ListingStep {
    (line, l) => ListingLine(line, l)
  }

  lemma ListingStepKeeps()
    ensures Keeps(ListingStepOf())
  {
    forall line, l | Settled(l) && ListingStepOf()(line, l).Ok?
      ensures Settled(ListingStepOf()(line, l).value) && l.secs <= ListingStepOf()(line, l).value.secs
    {
      ListingLineKeeps(line, l);
    }
  }

  /** Word 2 of a line as a real: where an eigenvalue line holds its energy. */
  function WordTwo(): string -> Result<real> {
    line => Numbers.Field(line, 2)
  }

  lemma ListingStepEnergy()
    ensures KeepsEnergy(ListingStepOf(), WordTwo()) && WaitsForEigen(ListingStepOf())
  {
    forall line, l
      ensures
        && (ListingStepOf()(line, l).Ok? && !EigenvalueLine(line) ==> ListingStepOf()(line, l).value.energy == l.energy)
        && (ListingStepOf()(line, l).Ok? && EigenvalueLine(line) ==> WordTwo()(line) == Ok(ListingStepOf()(line, l).value.energy))
        && (!l.parse && !EigenvalueLine(line) ==> ListingStepOf()(line, l) == Ok(l))
    {
      assert ListingStepOf()(line, l) == ListingLine(line, l);
    }
  }

  /** One excited state: its energy, its configurations and its
      multiplicity. */
  datatype Excitation = Excitation(energy: real, secs: seq<Etsec>, mult: string)

  /** `EtsecRow` on a line. */
  function RowOf(): string -> Result<Etsec> {
    line => EtsecRow(Split(line))
  }

  /** Without properties: the rows from the seventh line after the
      eigenvalue up to a dashed line, and a singlet. */
  function Plain(c: LineCursor, e: real, row: string -> Result<Etsec>): (r: Result<Step<Excitation>>)
    ensures r.Ok? ==> Advanced(c, r.value.rest) && r.value.rest.pos > c.pos
    ensures r.Ok? && c.pos <= |c.lines| ==> r.value.rest.pos <= |c.lines|
    ensures r.Ok? ==> Dashed(r.value.line) && r.value.value.mult == "Singlet" && r.value.value.energy == e
  {
    var c1 :- Skip(c, 6);
    var rd :- Next(c1);
    var s :- Rows(rd.line, rd.rest, Dashed, row);
    Ok(Step(s.line, s.rest, Excitation(e, s.value, "Singlet")))
  }

  /** With properties: the lines after the eigenvalue up to the
      `Right Transition Moment` line. */
  function WithProps(c: LineCursor, e: real, step: ListingStep): (r: Result<Step<Excitation>>)
    ensures r.Ok? ==> Advanced(c, r.value.rest) && r.value.rest.pos > c.pos
    ensures r.Ok? && c.pos <= |c.lines| ==> r.value.rest.pos <= |c.lines|
    ensures r.Ok? ==> MomentLine(r.value.line)
  {
    var rd :- Next(c);
    var s :- Listings(rd.line, rd.rest, Listing(e, 0, false, true, [], "Singlet"), step);
    Ok(Step(s.line, s.rest, Excitation(s.value.energy, s.value.secs, s.value.mult)))
  }

  /** The excited state whose eigenvalue line has the words `tokens`, with
      `c` just past it; `props` says whether excited-state properties are
      printed. */
  function Excited(tokens: seq<string>, c: LineCursor, props: bool): (r: Result<Step<Excitation>>)
    ensures r.Ok? ==> Advanced(c, r.value.rest) && r.value.rest.pos > c.pos
    ensures r.Ok? && c.pos <= |c.lines| ==> r.value.rest.pos <= |c.lines|
    ensures r.Ok? && props ==> MomentLine(r.value.line)
    ensures r.Ok? && !props ==>
      && Dashed(r.value.line) && r.value.value.mult == "Singlet"
      && Numbers.RealAt(tokens, 2) == Ok(r.value.value.energy)
    ensures Numbers.RealAt(tokens, 2).Err? ==> r.Err?
  {
    var e :- Numbers.RealAt(tokens, 2);
    if props then WithProps(c, e, ListingStepOf()) else Plain(c, e, RowOf())
  }

  /** Every excited state is a singlet or a triplet. */
  lemma ExcitedMult(tokens: seq<string>, c: LineCursor, props: bool)
    ensures Excited(tokens, c, props).Ok? ==> Excited(tokens, c, props).value.value.mult in {"Singlet", "Triplet"}
  {
    if props && Numbers.RealAt(tokens, 2).Ok? {
      WithPropsMult(c, Numbers.RealAt(tokens, 2).value);
    }
  }

  /** With properties, the state is a singlet or a triplet. */
  lemma WithPropsMult(c: LineCursor, e: real)
    ensures WithProps(c, e, ListingStepOf()).Ok? ==> WithProps(c, e, ListingStepOf()).value.value.mult in {"Singlet", "Triplet"}
  {
    ListingStepKeeps();
    WithPropsKeeps(c, e, ListingStepOf());
  }

  /** A step that keeps listings settled gives a singlet or a triplet. */
  lemma WithPropsKeeps(c: LineCursor, e: real, step: ListingStep)
    requires Keeps(step)
    ensures WithProps(c, e, step).Ok? ==> WithProps(c, e, step).value.value.mult in {"Singlet", "Triplet"}
  {
    if c.pos < |c.lines| {
      ListingsKeep(c.lines[c.pos], LineCursor(c.lines, c.pos + 1), Listing(e, 0, false, true, [], "Singlet"), step);
    }
  }

  /** Without properties, the listing is the rows from the seventh line
      after the eigenvalue on. */
  lemma PlainIsRows(c: LineCursor, e: real, row: string -> Result<Etsec>)
    ensures Plain(c, e, row).Ok? ==>
      && c.pos + 7 <= |c.lines|
      && Rows(c.lines[c.pos + 6], LineCursor(c.lines, c.pos + 7), Dashed, row).Ok?
      && var r := Rows(c.lines[c.pos + 6], LineCursor(c.lines, c.pos + 7), Dashed, row).value;
      Plain(c, e, row).value == Step(r.line, r.rest, Excitation(e, r.value, "Singlet"))
  {
  }

  /** Each of `secs` is read from its line, from `lines[at]` on, and none
      of those lines is dashed. */
  predicate ReadFrom(lines: seq<string>, at: nat, secs: seq<Etsec>, row: string -> Result<Etsec>) {
    forall k :: 0 <= k < |secs| ==> ReadAt(lines, at + k, secs[k], row)
  }

  /** `sec` is read from `lines[at]`, which is not dashed. */
  predicate ReadAt(lines: seq<string>, at: nat, sec: Etsec, row: string -> Result<Etsec>) {
    at < |lines| && !Dashed(lines[at]) && row(lines[at]) == Ok(sec)
  }

  /** A row read from `lines[p]` followed by rows read from the next line on. */
  lemma ReadFromCons(lines: seq<string>, p: nat, x: Etsec, tail: seq<Etsec>, row: string -> Result<Etsec>)
    requires p < |lines| && !Dashed(lines[p]) && row(lines[p]) == Ok(x)
    requires ReadFrom(lines, p + 1, tail, row)
    ensures ReadFrom(lines, p, [x] + tail, row)
  {
    var secs := [x] + tail;
    forall k | 0 <= k < |secs|
      ensures ReadAt(lines, p + k, secs[k], row)
    {
      if k > 0 {
        assert secs[k] == tail[k - 1];
        assert ReadAt(lines, (p + 1) + (k - 1), tail[k - 1], row);
      }
    }
  }

  /** The rows read from `lines[p]` on, each from its own line. */
  lemma {:induction false} RowsReadFrom(lines: seq<string>, p: nat, row: string -> Result<Etsec>)
    requires p < |lines|
    ensures var r := Rows(lines[p], LineCursor(lines, p + 1), Dashed, row);
      r.Ok? ==> ReadFrom(lines, p, r.value.value, row)
    decreases |lines| - p
  {
    var r := Rows(lines[p], LineCursor(lines, p + 1), Dashed, row);
    if r.Ok? && !Dashed(lines[p]) && p + 1 < |lines| {
      var rest := Rows(lines[p + 1], LineCursor(lines, p + 2), Dashed, row);
      var x := row(lines[p]);
      assert x.Ok? && rest.Ok?;
      RowsReadFrom(lines, p + 1, row);
      var tail := rest.value.value;
      assert ReadFrom(lines, p + 1, tail, row);
      ReadFromCons(lines, p, x.value, tail, row);
      assert r.value.value == [x.value] + tail;
    }
  }

  /** Without properties, each row is read from its line, from the seventh
      after the eigenvalue on. */
  lemma PlainReadFrom(c: LineCursor, e: real, row: string -> Result<Etsec>)
    requires c.pos <= |c.lines|
    ensures Plain(c, e, row).Ok? ==> ReadFrom(c.lines, c.pos + 6, Plain(c, e, row).value.value.secs, row)
  {
    PlainIsRows(c, e, row);
    if c.pos + 7 <= |c.lines| {
      RowsReadFrom(c.lines, c.pos + 6, row);
    }
  }

  /** Without properties, the rows are read one per line from the seventh
      line after the eigenvalue up to the first dashed line, which the
      step stops on. */
  lemma PlainRows(c: LineCursor, e: real, row: string -> Result<Etsec>)
    requires c.pos <= |c.lines|
    ensures Plain(c, e, row).Ok? ==>
      var s := Plain(c, e, row).value;
      && s.rest.pos == c.pos + 7 + |s.value.secs| && s.line == c.lines[c.pos + 6 + |s.value.secs|]
      && ReadFrom(c.lines, c.pos + 6, s.value.secs, row)
  {
    PlainIsRows(c, e, row);
    PlainReadFrom(c, e, row);
    if c.pos + 7 <= |c.lines| {
      RowsCount(c.lines[c.pos + 6], LineCursor(c.lines, c.pos + 7), Dashed, row);
    }
  }

  /** The `etsyms` entry: the multiplicity and the irrep's label. A
      symmetry block the irrep numbering does not know is a `KeyError`. */
  function Sym(mult: string, numbering: map<string, string>, irrep: string): (r: Result<string>)
    ensures r.Ok? <==> irrep in numbering
    ensures r.Ok? ==> r.value == mult + "-" + numbering[irrep]
  {
    if irrep in numbering then Ok(mult + "-" + numbering[irrep]) else Err(Malformed("KeyError"))
  }
}

=== FILE: cfour_labels.dfy ===
/** CFOUR symmetry labels in cclib's normal form.

    CFOUR writes a double prime as two single quotes, marks some labels
    with `+`, writes the degenerate representations of linear molecules as
    a bare number with a parity (`1g` for E1g), and the linear ones as
    two-letter abbreviations (`SG`, `PI`, `DE`, `PH`), optionally followed
    by a parity letter.
 */
module CfourLabels {
  import opened Results
  import opened Text

  /** The two replacements the normal form starts with: every `''` becomes
      `"`, then every `+` is dropped. */
  function Cleaned(sym: string): string {
    Replace(Replace(sym, "''", "\""), "+", "")
  }

  /** The abbreviation `ab` at the head of `t` spelled out as `name`,
      with the third character after a dot when there is one. */
  function Spelled(t: string, a: char, b: char, name: string): (r: string)
    requires |name| >= 1
    ensures |t| >= 2 && t[0] == a && t[1] == b && |t| == 2 ==> r == name
    ensures |t| >= 2 && t[0] == a && t[1] == b && |t| > 2 ==> r == name + "." + [t[2]]
    ensures |t| >= 2 && t[0] == a && t[1] == b ==> r[0] == name[0]
    ensures !(|t| >= 2 && t[0] == a && t[1] == b) ==> r == t
  {
    if |t| >= 2 && t[0] == a && t[1] == b then (if |t| == 2 then name else name + "." + [t[2]]) else t
  }

  /** The name of the abbreviation at the head of `t`, if there is one. */
  function Linear(t: string): Option<string> {
    if |t| < 2 then None
    else if t[0] == 'S' && t[1] == 'G' then Some("sigma")
    else if t[0] == 'P' && t[1] == 'I' then Some("pi")
    else if t[0] == 'D' && t[1] == 'E' then Some("delta")
    else if t[0] == 'P' && t[1] == 'H' then Some("phi")
    else None
  }

  /** `normalisesym`. A label that starts with a digit (the `int` of its
      first character succeeds) gets an `E` in front; a label of two or
      more characters has its abbreviation spelled out, each in turn, so
      at most one applies; anything else is returned as cleaned. CFOUR's
      parser also tests for a bare `u` or `g`, but under the length test,
      where they can never succeed, so they are not written out. */
  function NormaliseSym(sym: string): (r: string)
    ensures var t := Cleaned(sym);
      && (|t| >= 1 && IsDigit(t[0]) ==> r == "E" + t)
      && (!(|t| >= 1 && IsDigit(t[0])) && Linear(t).Some? ==>
            r == Linear(t).value + (if |t| == 2 then "" else "." + [t[2]]))
      && (!(|t| >= 1 && IsDigit(t[0])) && !(Linear(t).Some?) ==> r == t)
  {
    var t := Cleaned(sym);
    if |t| >= 1 && IsDigit(t[0]) then "E" + t
    else if |t| >= 2 then
      var t1 := Spelled(t, 'S', 'G', "sigma");
      var t2 := Spelled(t1, 'P', 'I', "pi");
      var t3 := Spelled(t2, 'D', 'E', "delta");
      Spelled(t3, 'P', 'H', "phi")
    else t
  }

  /** No `''` anywhere in `s`. */
  predicate NoPair(s: string) {
    forall k :: 0 <= k < |s| - 1 ==> !(s[k] == '\'' && s[k + 1] == '\'')
  }

  /** No `+` anywhere in `s`. */
  predicate NoPlus(s: string) {
    forall k :: 0 <= k < |s| ==> s[k] != '+'
  }

  /** Replacing `''` leaves no `''` behind, adds no `+`, and starts with
      `"` or with the text's own first character. */
  lemma {:induction false} ReplacePairSpec(s: string)
    ensures NoPair(Replace(s, "''", "\""))
    ensures NoPlus(s) ==> NoPlus(Replace(s, "''", "\""))
    ensures |s| >= 1 ==> |Replace(s, "''", "\"")| >= 1
    ensures |s| >= 1 ==> Replace(s, "''", "\"")[0] == (if |s| >= 2 && s[..2] == "''" then '"' else s[0])
    decreases |s|
  {
    var r := Replace(s, "''", "\"");
    if |s| >= 2 {
      if s[..2] == "''" {
        ReplacePairSpec(s[2..]);
        assert r == "\"" + Replace(s[2..], "''", "\"");
      } else {
        ReplacePairSpec(s[1..]);
        var u := Replace(s[1..], "''", "\"");
        assert r == [s[0]] + u;
        assert (|s| >= 3 && s[1..][..2] == "''") <==> (|s| >= 3 && s[1] == '\'' && s[2] == '\'');
        if s[0] == '\'' {
          assert s[1] != '\'';
        }
        assert NoPlus(s) ==> NoPlus(s[1..]) by {
          if NoPlus(s) {
            forall k | 0 <= k < |s[1..]| ensures s[1..][k] != '+' {
              assert s[1..][k] == s[k + 1];
            }
          }
        }
        forall k | 0 <= k < |r| - 1 ensures !(r[k] == '\'' && r[k + 1] == '\'') {
          if k > 0 {
            assert r[k] == u[k - 1] && r[k + 1] == u[k];
          }
        }
      }
    }
  }

  /** Dropping every `+` leaves none, and leaves a text without `+` as it is. */
  lemma {:induction false} DropPlusSpec(s: string)
    ensures NoPlus(Replace(s, "+", ""))
    ensures NoPlus(s) ==> Replace(s, "+", "") == s
    decreases |s|
  {
    if |s| >= 1 {
      DropPlusSpec(s[1..]);
      if s[..1] != "+" {
        assert NoPlus(s) ==> NoPlus(s[1..]) by {
          if NoPlus(s) {
            forall k | 0 <= k < |s[1..]| ensures s[1..][k] != '+' {
              assert s[1..][k] == s[k + 1];
            }
          }
        }
        assert s == [s[0]] + s[1..];
      }
    }
  }

  /** A text with no `''` is left alone by the first replacement. */
  lemma {:induction false} ReplacePairAbsent(s: string)
    requires NoPair(s)
    ensures Replace(s, "''", "\"") == s
    decreases |s|
  {
    if |s| >= 2 {
      assert s[..2] != "''" by {
        assert !(s[0] == '\'' && s[1] == '\'');
      }
      assert NoPair(s[1..]) by {
        forall k | 0 <= k < |s[1..]| - 1 ensures !(s[1..][k] == '\'' && s[1..][k + 1] == '\'') {
          assert s[1..][k] == s[k + 1] && s[1..][k + 1] == s[k + 2];
        }
      }
      ReplacePairAbsent(s[1..]);
      assert s == [s[0]] + s[1..];
    }
  }

  /** A cleaned label has no `+`; one cleaned from a label without `+`
      has no `''` either, and cleaning it again changes nothing. */
  lemma CleanedSpec(sym: string)
    ensures NoPlus(Cleaned(sym))
    ensures NoPlus(sym) ==> NoPair(Cleaned(sym)) && Cleaned(Cleaned(sym)) == Cleaned(sym)
  {
    var once := Replace(sym, "''", "\"");
    ReplacePairSpec(sym);
    DropPlusSpec(once);
    if NoPlus(sym) {
      var t := Cleaned(sym);
      assert t == once;
      ReplacePairAbsent(t);
      DropPlusSpec(t);
    }
  }

  /** The normal form never holds a `+`. */
  lemma NormaliseSymNoPlus(sym: string)
    ensures NoPlus(NormaliseSym(sym))
  {
    CleanedSpec(sym);
    var t := Cleaned(sym);
    if |t| >= 1 && IsDigit(t[0]) {
      assert NoPlus("E");
      JoinNoPlus("E", t);
    } else if Linear(t).Some? && |t| > 2 {
      var name := Linear(t).value;
      assert NoPlus(name);
      assert t[2] != '+';
      assert NoPlus("." + [t[2]]);
      JoinNoPlus(name, "." + [t[2]]);
    }
  }

  /** Joining two texts without `+` gives one without `+`. */
  lemma JoinNoPlus(a: string, b: string)
    requires NoPlus(a) && NoPlus(b)
    ensures NoPlus(a + b)
  {
    forall k | 0 <= k < |a + b|
      ensures (a + b)[k] != '+'
    {
      if k >= |a| {
        assert (a + b)[k] == b[k - |a|];
      }
    }
  }

  /** A text with no `+`, no `''`, no leading digit and no abbreviation
      at its head is its own normal form. */
  lemma FixedPoint(r: string)
    requires NoPlus(r) && NoPair(r)
    requires !(|r| >= 1 && IsDigit(r[0])) && !(Linear(r).Some?)
    ensures NormaliseSym(r) == r
  {
    ReplacePairAbsent(r);
    DropPlusSpec(r);
  }

  /** A cleaned label that starts with a digit keeps its `E` form. */
  lemma DigitFixed(t: string)
    requires NoPlus(t) && NoPair(t) && |t| >= 1 && IsDigit(t[0])
    ensures NormaliseSym("E" + t) == "E" + t
  {
    var r := "E" + t;
    assert NoPlus(r) by {
      forall k | 0 <= k < |r| ensures r[k] != '+' {
        if k > 0 {
          assert r[k] == t[k - 1];
        }
      }
    }
    assert NoPair(r) by {
      forall k | 0 <= k < |r| - 1 ensures !(r[k] == '\'' && r[k + 1] == '\'') {
        if k > 0 {
          assert r[k] == t[k - 1] && r[k + 1] == t[k];
        }
      }
    }
    FixedPoint(r);
  }

  /** A spelled-out abbreviation keeps its form. */
  lemma SpelledFixed(t: string)
    requires NoPlus(t) && Linear(t).Some?
    ensures var r := Linear(t).value + (if |t| == 2 then "" else "." + [t[2]]);
      NormaliseSym(r) == r
  {
    var name := Linear(t).value;
    var tail := if |t| == 2 then "" else "." + [t[2]];
    var r := name + tail;
    assert |t| > 2 ==> t[2] != '+';
    forall k | 0 <= k < |r| ensures r[k] != '+' && (k < |r| - 1 ==> r[k] != '\'') {
      if k < |name| {
        assert r[k] == name[k];
      } else {
        assert r[k] == tail[k - |name|];
      }
    }
    assert r[0] == name[0] && r[1] == name[1];
    FixedPoint(r);
  }

  /** A label with no `+` in it is in normal form once normalised: the
      normal form is its own normal form. */
  lemma {:induction false} NormaliseSymIdempotent(sym: string)
    requires NoPlus(sym)
    ensures NormaliseSym(NormaliseSym(sym)) == NormaliseSym(sym)
  {
    CleanedSpec(sym);
    var t := Cleaned(sym);
    if |t| >= 1 && IsDigit(t[0]) {
      DigitFixed(t);
    } else if Linear(t).Some? {
      SpelledFixed(t);
    } else {
      FixedPoint(t);
    }
  }

  /** Why the normal form needs a label without `+`: dropping the `+`
      between two single quotes makes a `''`, which a second pass turns
      into a double quote. */
  lemma PlusBetweenQuotes()
    ensures NormaliseSym("A'+'") == "A''"
  {
    assert Replace("'", "''", "\"") == "'";
    assert Replace("+'", "''", "\"") == "+'";
    assert Replace("'+'", "''", "\"") == "'+'";
    assert Replace("A'+'", "''", "\"") == "A'+'";
    assert Replace("'", "+", "") == "'";
    assert Replace("+'", "+", "") == "'";
    assert Replace("'+'", "+", "") == "''";
    assert Replace("A'+'", "+", "") == "A''";
  }

  /** The `+` of a sigma label is dropped before the abbreviation is read. */
  lemma SigmaExample()
    ensures NormaliseSym("SG+") == "sigma"
  {
    ReplacePairAbsent("SG+");
    assert Replace("+", "+", "") == "";
    assert Replace("G+", "+", "") == "G";
    assert Replace("SG+", "+", "") == "SG";
  }
}

=== FILE: cfour_mp.dfy ===
/** The Møller–Plesset energies of a CFOUR log (`mpenergies`).

    A `Total MP2 energy` line opens a new group holding its energy; the
    third- and fourth-order energies printed after it join the last group.
    The list is created by the first MP2 line, so a higher-order line
    before any MP2 line is an `AttributeError`.
 */
module CfourMp {
  import opened Results
  import opened Text
  import Numbers
  import PySeq

  predicate Mp2Line(line: string) {
    Contains(line, "Total MP2 energy")
  }

  predicate Mp3Line(line: string) {
    Contains(line, "D-MBPT(3)")
  }

  predicate Mp4Line(line: string) {
    Contains(line, "Total MBPT(4)       energy:")
  }

  /** Every group holds at least its MP2 energy. */
  predicate Grouped(groups: seq<seq<real>>) {
    forall k :: 0 <= k < |groups| ==> |groups[k]| >= 1
  }

  /** `groups[-1].append(x)`: a missing list or an empty one fails. */
  function JoinLast(groups: Option<seq<seq<real>>>, x: real): (r: Result<seq<seq<real>>>)
    ensures r.Ok? <==> groups.Some? && |groups.value| >= 1
    ensures r.Ok? ==> |r.value| == |groups.value|
    ensures r.Ok? ==> r.value[|r.value| - 1] == groups.value[|groups.value| - 1] + [x]
    ensures r.Ok? ==> forall k :: 0 <= k < |r.value| - 1 ==> r.value[k] == groups.value[k]
  {
    var gs :- if groups.Some? then Ok(groups.value) else Err(Malformed("AttributeError: mpenergies"));
    var _ :- Need(|gs| >= 1, "list index out of range");
    Ok(gs[|gs| - 1 := gs[|gs| - 1] + [x]])
  }

  /** The groups so far; none before the first MP2 line. */
  function Groups(groups: Option<seq<seq<real>>>): seq<seq<real>> {
    if groups.Some? then groups.value else []
  }

  /** An MP2 line opens a new group holding the energy in word 4. */
  function Open(line: string, tokens: seq<string>, groups: Option<seq<seq<real>>>): (r: Result<Option<seq<seq<real>>>>)
    ensures r.Ok? && Mp2Line(line) ==>
      && |tokens| >= 5 && Numbers.ParseReal(tokens[4]).Some?
      && r.value == Some(Groups(groups) + [[Numbers.ParseReal(tokens[4]).value]])
    ensures !Mp2Line(line) ==> r == Ok(groups)
  {
    if Mp2Line(line) then
      var e :- Numbers.RealAt(tokens, 4);
      Ok(Some(Groups(groups) + [[e]]))
    else Ok(groups)
  }

  /** A higher-order line joins the energy in word `k` to the last group. */
  function Join(joins: bool, tokens: seq<string>, k: nat, groups: Option<seq<seq<real>>>): (r: Result<Option<seq<seq<real>>>>)
    ensures r.Ok? && joins ==>
      && groups.Some? && |groups.value| >= 1 && k < |tokens| && Numbers.ParseReal(tokens[k]).Some?
      && r.value.Some? && |r.value.value| == |groups.value|
      && r.value.value[|groups.value| - 1] == groups.value[|groups.value| - 1] + [Numbers.ParseReal(tokens[k]).value]
      && (forall j :: 0 <= j < |groups.value| - 1 ==> r.value.value[j] == groups.value[j])
    ensures joins && groups.None? ==> r.Err?
    ensures !joins ==> r == Ok(groups)
  {
    if joins then
      var e :- Numbers.RealAt(tokens, k);
      var gs :- JoinLast(groups, e);
      Ok(Some(gs))
    else Ok(groups)
  }

  /** What one line does to the groups; `tokens` are the words the three
      tests read. */
  function MpLine(line: string, tokens: seq<string>, groups: Option<seq<seq<real>>>): (r: Result<Option<seq<seq<real>>>>)
    ensures !Mp2Line(line) && !Mp3Line(line) && !Mp4Line(line) ==> r == Ok(groups)
  {
    var g1 :- Open(line, tokens, groups);
    var g2 :- Join(Mp3Line(line), tokens, 2, g1);
    Join(Mp4Line(line), tokens, 3, g2)
  }

  /** One line opens a group exactly when it is an MP2 line, and then
      the new group starts with its energy; the groups before the last
      one are left alone; every group keeps at least its MP2 energy; a
      higher-order line before any MP2 line fails. */
  lemma MpLineSpec(line: string, tokens: seq<string>, groups: Option<seq<seq<real>>>)
    ensures MpLine(line, tokens, groups).Ok? ==>
      var r := MpLine(line, tokens, groups).value;
      && (r.Some? <==> groups.Some? || Mp2Line(line))
      && (r.Some? ==>
        && |r.value| == |Groups(groups)| + (if Mp2Line(line) then 1 else 0)
        && (Grouped(Groups(groups)) ==> Grouped(r.value))
        && (forall k :: 0 <= k < |Groups(groups)| - 1 ==> r.value[k] == Groups(groups)[k])
        && (Mp2Line(line) ==> forall k :: 0 <= k < |Groups(groups)| ==> r.value[k] == Groups(groups)[k]))
    ensures MpLine(line, tokens, groups).Ok? && Mp2Line(line) ==>
      && |tokens| >= 5 && Numbers.ParseReal(tokens[4]).Some?
      && MpLine(line, tokens, groups).value.Some?
      && var gs := MpLine(line, tokens, groups).value.value;
      |gs[|gs| - 1]| >= 1 && gs[|gs| - 1][0] == Numbers.ParseReal(tokens[4]).value
    ensures (Mp3Line(line) || Mp4Line(line)) && !Mp2Line(line) && groups.None? ==> MpLine(line, tokens, groups).Err?
  {
  }

  /** The lines in turn, each with its own words. */
  function MpLines(lines: seq<string>, groups: Option<seq<seq<real>>>): (r: Result<Option<seq<seq<real>>>>)
    ensures lines == [] ==> r == Ok(groups)
    decreases |lines|
  {
    if lines == [] then Ok(groups)
    else
      var g :- MpLine(lines[0], Split(lines[0]), groups);
      MpLines(lines[1..], g)
  }

  /** How many of `lines` are MP2 lines. */
  function Opened(lines: seq<string>): nat
    decreases |lines|
  {
    if lines == [] then 0 else (if Mp2Line(lines[0]) then 1 else 0) + Opened(lines[1..])
  }

  /** Over a run of lines there is one group per MP2 line, each holding at
      least its MP2 energy, and the groups that were complete before the
      run are left alone. */
  lemma {:induction false} MpLinesGroups(lines: seq<string>, groups: Option<seq<seq<real>>>)
    requires Grouped(Groups(groups))
    ensures MpLines(lines, groups).Ok? && MpLines(lines, groups).value.Some? ==>
      var gs := MpLines(lines, groups).value.value;
      && |gs| == |Groups(groups)| + Opened(lines)
      && Grouped(gs)
      && forall k :: 0 <= k < |Groups(groups)| - 1 ==> gs[k] == Groups(groups)[k]
    decreases |lines|
  {
    if lines != [] {
      MpLineSpec(lines[0], Split(lines[0]), groups);
      var g := MpLine(lines[0], Split(lines[0]), groups);
      if g.Ok? {
        MpLinesGroups(lines[1..], g.value);
      }
    }
  }
}

=== FILE: cfour_orbitals.dfy ===
/** The orbital energy tables of a CFOUR log, one per spin.

    A table opens on its `ORBITAL EIGENVALUES` header; its first row is the
    fourth line after the header. A row gives (among others) the orbital
    energy in word 2, the symmetry label in word 5 and, in parentheses, the
    irrep's number in word 6. Blank lines are passed over, and a line of
    `+++++` marks the HOMO: the orbital number (word 0) of the row before it,
    less one. The alpha table ends on `VSCF finished.`, on the beta header or
    on `SCF failed to converge in`; the beta table on the first or the last.
    The alpha table also numbers the irreps: a label not yet among the
    numbering's values is filed under the irrep number of its row.
 */
module CfourOrbitals {
  import opened Results
  import opened Text
  import opened Cursor
  import Numbers
  import PySeq

  const AlphaHeader := "ORBITAL EIGENVALUES (ALPHA)  (1H = 27.2113834 eV)"
  const BetaHeader := "ORBITAL EIGENVALUES ( BETA)  (1H = 27.2113834 eV)"

  /** Which table: 0 for alpha, 1 for beta; it is also the `homos` entry
      the table sets. */
  type Spin = s: nat | s < 2

  predicate HomoMarker(line: string) {
    Contains(line, "+++++")
  }

  /** A line that is not a row: the HOMO marker or a blank line. */
  predicate Passed(line: string) {
    HomoMarker(line) || IsBlank(line)
  }

  /** The line that ends a table. */
  predicate Ends(spin: Spin, line: string) {
    Contains(line, "VSCF finished.")
    || (spin == 0 && Contains(line, BetaHeader))
    || Contains(line, "SCF failed to converge in")
  }

  /** What a table has read so far: energies and normalised labels, one per
      row; the HOMO indices; the irrep numbering; and the last row read,
      which CFOUR's parser keeps in a variable of the whole extract call. */
  datatype Table = Table(
    energies: seq<real>,
    syms: seq<string>,
    homos: Option<seq<int>>,
    numbering: map<string, string>,
    last: Option<string>)

  /** `homos[spin]` from the row before a marker: a marker before any row
      is an `UnboundLocalError`, a missing `homos` an `AttributeError`,
      and the beta entry of a one-entry `homos` an `IndexError`. */
  function Homo(t: Table, spin: Spin): (r: Result<Table>)
    ensures r.Ok? <==> t.last.Some? && t.homos.Some? && spin < |t.homos.value|
                       && Numbers.IntField(t.last.value, 0).Ok?
    ensures r.Ok? ==> r.value == t.(homos := Some(t.homos.value[spin := Numbers.IntField(t.last.value, 0).value - 1]))
  {
    var _ :- Need(t.last.Some?, "local variable 'last_line' referenced before assignment");
    var _ :- Need(t.homos.Some?, "'CFOUR' object has no attribute 'homos'");
    var n :- Numbers.IntField(t.last.value, 0);
    var homos :- PySeq.Update(t.homos.value, spin, n - 1);
    Ok(t.(homos := Some(homos)))
  }

  /** The irrep numbering after a row with label `name` and irrep word
      `irrep` (the number inside its parentheses). */
  function Number(numbering: map<string, string>, name: string, irrep: string): map<string, string> {
    if name in numbering.Values then numbering else numbering[Sub(irrep, 1, -1) := name]
  }

  /** Filing a label makes it one of the numbering's values, and no value
      other than the one under the irrep's key is dropped. */
  lemma NumberFiles(numbering: map<string, string>, name: string, irrep: string)
    ensures name in Number(numbering, name, irrep).Values
    ensures forall k :: k in numbering && k != Sub(irrep, 1, -1) ==>
      k in Number(numbering, name, irrep) && Number(numbering, name, irrep)[k] == numbering[k]
    ensures name in numbering.Values ==> Number(numbering, name, irrep) == numbering
  {
    var m := Number(numbering, name, irrep);
    if name !in numbering.Values {
      assert m[Sub(irrep, 1, -1)] == name;
    }
  }

  /** One line of a table. A row appends its energy (word 2, read as
      `utils.float` reads it, Fortran `D` exponents included) and its label
      in normal form (`norm` is the normaliser; the alpha table also files
      it); the marker sets the HOMO; a blank line changes nothing. */
  function Level(line: string, spin: Spin, t: Table, norm: string -> string): (r: Result<Table>)
    ensures IsBlank(line) && !HomoMarker(line) ==> r == Ok(t)
    ensures HomoMarker(line) ==> r == Homo(t, spin)
    ensures !Passed(line) && r.Ok? ==>
      var ws := Split(line);
      |ws| >= 6 && |r.value.energies| == |t.energies| + 1
      && r.value.energies[..|t.energies|] == t.energies
      && Numbers.FortranReal(ws[2]) == Ok(r.value.energies[|t.energies|])
      && r.value.syms == t.syms + [norm(ws[5])]
      && r.value.homos == t.homos && r.value.last == Some(line)
      && (spin == 1 || norm(ws[5]) in t.numbering.Values ==> r.value.numbering == t.numbering)
      && (spin == 0 && norm(ws[5]) !in t.numbering.Values ==>
            |ws| >= 7 && r.value.numbering == Number(t.numbering, norm(ws[5]), ws[6]))
  {
    if HomoMarker(line) then Homo(t, spin)
    else if IsBlank(line) then Ok(t)
    else
      var ws := Split(line);
      var word :- PySeq.At(ws, 2);
      var energy :- Numbers.FortranReal(word);
      var sym :- PySeq.At(ws, 5);
      var name := norm(sym);
      var numbering :- if spin == 1 || name in t.numbering.Values then Ok(t.numbering)
                       else (var irrep :- PySeq.At(ws, 6); Ok(Number(t.numbering, name, irrep)));
      Ok(Table(t.energies + [energy], t.syms + [name], t.homos, numbering, Some(line)))
  }

  /** What one line does to a table. */
  type LineStep = (string, Table) -> Result<Table>

  /** The lines of a table from `line` on, up to the line that ends it,
      each applied with `step`. */
  function Levels(line: string, c: LineCursor, spin: Spin, t: Table, step: LineStep): (r: Result<Step<Table>>)
    ensures r.Ok? ==> Ends(spin, r.value.line) && Advanced(c, r.value.rest)
    ensures r.Ok? && c.pos <= |c.lines| ==> r.value.rest.pos <= |c.lines|
    ensures Ends(spin, line) ==> r == Ok(Step(line, c, t))
    decreases c.Remaining()
  {
    if Ends(spin, line) then Ok(Step(line, c, t))
    else
      var t1 :- step(line, t);
      if c.pos < |c.lines| then Levels(c.lines[c.pos], LineCursor(c.lines, c.pos + 1), spin, t1, step)
      else Err(EndOfInput)
  }

  /** The number of rows among `xs[i..j]`. */
  ghost function Rows(xs: seq<string>, i: nat, j: nat): nat
    requires i <= j <= |xs|
    decreases j
  {
    if i == j then 0 else Rows(xs, i, j - 1) + (if Passed(xs[j - 1]) then 0 else 1)
  }

  lemma {:induction false} RowsFront(xs: seq<string>, i: nat, j: nat)
    requires i < j <= |xs|
    ensures Rows(xs, i, j) == Rows(xs, i + 1, j) + (if Passed(xs[i]) then 0 else 1)
    decreases j
  {
    if j > i + 1 {
      RowsFront(xs, i, j - 1);
    }
  }

  /** Whether a line is a row: 1 for a row, 0 for a passed line. */
  function Row(line: string): nat {
    if Passed(line) then 0 else 1
  }

  /** One line adds its rows to the energies and labels. */
  lemma LevelSize(line: string, spin: Spin, t: Table, norm: string -> string)
    ensures Level(line, spin, t, norm).Ok? ==>
      |Level(line, spin, t, norm).value.energies| == |t.energies| + Row(line)
      && |Level(line, spin, t, norm).value.syms| == |t.syms| + Row(line)
  {
  }

  /** A step that adds one energy and one label per row, and nothing for a
      passed line. */
  ghost predicate Grows(step: LineStep) {
    forall line, t :: step(line, t).Ok? ==>
      |step(line, t).value.energies| == |t.energies| + Row(line) && |step(line, t).value.syms| == |t.syms| + Row(line)
  }

  /** A table that stops where it starts has read nothing. */
  lemma {:induction false} LevelsStop(line: string, c: LineCursor, spin: Spin, t: Table, step: LineStep)
    ensures Levels(line, c, spin, t, step).Ok? && Levels(line, c, spin, t, step).value.rest.pos == c.pos ==>
      Levels(line, c, spin, t, step).value.value == t
    decreases c.Remaining()
  {
    if !Ends(spin, line) && c.pos < |c.lines| && step(line, t).Ok? {
      LevelsStop(c.lines[c.pos], LineCursor(c.lines, c.pos + 1), spin, step(line, t).value, step);
    }
  }

  /** A table keeps one energy and one label per row: the lines it passes
      over (the opening one and those before the line that ends it) add
      exactly their rows to both lists. */
  lemma {:induction false} LevelsCount(line: string, c: LineCursor, spin: Spin, t: Table, step: LineStep)
    requires c.pos <= |c.lines| && Grows(step)
    ensures Levels(line, c, spin, t, step).Ok? && Levels(line, c, spin, t, step).value.rest.pos > c.pos ==>
      var s := Levels(line, c, spin, t, step).value;
      |s.value.energies| == |t.energies| + Row(line) + Rows(c.lines, c.pos, s.rest.pos - 1)
      && |s.value.syms| == |t.syms| + Row(line) + Rows(c.lines, c.pos, s.rest.pos - 1)
    decreases c.Remaining()
  {
    if !Ends(spin, line) && c.pos < |c.lines| && step(line, t).Ok? {
      var t1 := step(line, t).value;
      var next := c.lines[c.pos];
      var c1 := LineCursor(c.lines, c.pos + 1);
      var r := Levels(next, c1, spin, t1, step);
      if r.Ok? {
        var e := r.value.rest.pos;
        if e > c.pos + 1 {
          LevelsCount(next, c1, spin, t1, step);
          RowsFront(c.lines, c.pos, e - 1);
        } else {
          LevelsStop(next, c1, spin, t1, step);
        }
      }
    }
  }

  /** A table from its header: the row the scan starts on is the fourth
      line after the header, and the lists start empty. */
  function Block(c: LineCursor, spin: Spin, homos: Option<seq<int>>, numbering: map<string, string>, last: Option<string>, norm: string -> string): (r: Result<Step<Table>>)
    ensures r.Ok? ==> Ends(spin, r.value.line) && Advanced(c, r.value.rest) && r.value.rest.pos >= c.pos + 4
    ensures r.Ok? && c.pos <= |c.lines| ==> r.value.rest.pos <= |c.lines|
    ensures c.pos + 4 > |c.lines| ==> r.Err?
  {
    var c1 :- Skip(c, 3);
    var rd :- Next(c1);
    Levels(rd.line, rd.rest, spin, Table([], [], homos, numbering, last), LevelStep(spin, norm))
  }

  /** `Level` as a step of a table. */
  function LevelStep(spin: Spin, norm: string -> string): LineStep {
    (line, t) => Level(line, spin, t, norm)
  }

  /** Each line of a table adds one energy and one label per row. */
  lemma LevelGrows(spin: Spin, norm: string -> string)
    ensures Grows(LevelStep(spin, norm))
  {
    forall line, t ensures LevelStep(spin, norm)(line, t).Ok? ==>
      |LevelStep(spin, norm)(line, t).value.energies| == |t.energies| + Row(line)
      && |LevelStep(spin, norm)(line, t).value.syms| == |t.syms| + Row(line)
    {
      LevelSize(line, spin, t, norm);
    }
  }

  /** The lines of a beta table leave the irrep numbering alone. */
  lemma LevelKeeps(norm: string -> string)
    ensures KeepsNumbering(LevelStep(1, norm))
  {
    forall line, t ensures LevelStep(1, norm)(line, t).Ok? ==> LevelStep(1, norm)(line, t).value.numbering == t.numbering {
      LevelNumbering(line, t, norm);
    }
  }

  /** A table read from its header starts from its fourth line. */
  lemma BlockIsLevels(c: LineCursor, spin: Spin, homos: Option<seq<int>>, numbering: map<string, string>, last: Option<string>, norm: string -> string)
    requires c.pos + 4 <= |c.lines|
    ensures Block(c, spin, homos, numbering, last, norm)
      == Levels(c.lines[c.pos + 3], LineCursor(c.lines, c.pos + 4), spin, Table([], [], homos, numbering, last), LevelStep(spin, norm))
  {
    var c1 := LineCursor(c.lines, c.pos + 3);
    assert Skip(c, 3) == Ok(c1);
    assert Next(c1) == Ok(Read(c.lines[c.pos + 3], LineCursor(c.lines, c.pos + 4)));
  }

  /** A table read from its header pairs its energies with its labels,
      and the beta table leaves the irrep numbering alone. */
  lemma BlockSpec(c: LineCursor, spin: Spin, homos: Option<seq<int>>, numbering: map<string, string>, last: Option<string>, norm: string -> string)
    ensures Block(c, spin, homos, numbering, last, norm).Ok? ==>
      |Block(c, spin, homos, numbering, last, norm).value.value.energies| == |Block(c, spin, homos, numbering, last, norm).value.value.syms|
    ensures Block(c, spin, homos, numbering, last, norm).Ok? && spin == 1 ==>
      Block(c, spin, homos, numbering, last, norm).value.value.numbering == numbering
  {
    if c.pos + 4 <= |c.lines| {
      var line, c1 := c.lines[c.pos + 3], LineCursor(c.lines, c.pos + 4);
      var t := Table([], [], homos, numbering, last);
      var step := LevelStep(spin, norm);
      BlockIsLevels(c, spin, homos, numbering, last, norm);
      var r := Levels(line, c1, spin, t, step);
      LevelGrows(spin, norm);
      LevelsCount(line, c1, spin, t, step);
      LevelsStop(line, c1, spin, t, step);
      if spin == 1 {
        LevelKeeps(norm);
        LevelsNumbering(line, c1, spin, t, step);
      }
    }
  }

  /** A beta line leaves the irrep numbering alone. */
  lemma LevelNumbering(line: string, t: Table, norm: string -> string)
    ensures Level(line, 1, t, norm).Ok? ==> Level(line, 1, t, norm).value.numbering == t.numbering
  {
  }

  /** A step that leaves the irrep numbering alone. */
  ghost predicate KeepsNumbering(step: LineStep) {
    forall line, t :: step(line, t).Ok? ==> step(line, t).value.numbering == t.numbering
  }

  /** The beta table leaves the irrep numbering alone. */
  lemma {:induction false} LevelsNumbering(line: string, c: LineCursor, spin: Spin, t: Table, step: LineStep)
    requires KeepsNumbering(step)
    ensures Levels(line, c, spin, t, step).Ok? ==> Levels(line, c, spin, t, step).value.value.numbering == t.numbering
    decreases c.Remaining()
  {
    if !Ends(spin, line) && c.pos < |c.lines| && step(line, t).Ok? {
      LevelsNumbering(c.lines[c.pos], LineCursor(c.lines, c.pos + 1), spin, step(line, t).value, step);
    }
  }
}

=== FILE: cfour_post.dfy ===
/** What the CFOUR scanner derives once every line has been read: the
    success flag when no timing line was seen, `optdone`, the counts of
    atoms, basis functions and orbitals, and the excited states in
    ascending order of energy.
 */
module CfourPost {
  import opened Results
  import CfourExcited
  import PySeq

  /** A run without a timing line did not succeed. */
  function Success(noTime: bool, success: Option<bool>): (r: Option<bool>)
    ensures noTime ==> r == Some(false)
    ensures !noTime ==> r == success
  {
    if noTime then Some(false) else success
  }

  /** The steps from `from` on whose first geometry value is below the
      target. */
  function Below(values: seq<seq<real>>, targets: seq<real>, from: nat): (r: Result<seq<nat>>)
    requires from <= |values|
    ensures r.Ok? ==> forall k :: 0 <= k < |r.value| ==> from <= r.value[k] < |values|
    decreases |values| - from
  {
    if from == |values| then Ok([])
    else
      var _ :- Need(|values[from]| >= 1 && |targets| >= 1, "list index out of range");
      var rest :- Below(values, targets, from + 1);
      Ok(if values[from][0] < targets[0] then [from] + rest else rest)
  }

  /** Strictly increasing. */
  predicate Increasing(xs: seq<nat>) {
    forall a, b :: 0 <= a < b < |xs| ==> xs[a] < xs[b]
  }

  /** The steps that converged are exactly those whose first value is
      below the first target, listed in increasing order; reading them
      fails only on a step without values or when there is no target. */
  lemma {:induction false} BelowSpec(values: seq<seq<real>>, targets: seq<real>, from: nat)
    requires from <= |values|
    ensures Below(values, targets, from).Ok? <==>
      from == |values| || (|targets| >= 1 && forall k :: from <= k < |values| ==> |values[k]| >= 1)
    ensures Below(values, targets, from).Ok? ==>
      && Increasing(Below(values, targets, from).value)
      && forall k :: from <= k < |values| ==> (k in Below(values, targets, from).value <==> values[k][0] < targets[0])
    decreases |values| - from
  {
    if from < |values| {
      BelowSpec(values, targets, from + 1);
    }
  }

  /** `optdone`: produced only when both the geometry values and targets
      are. */
  function Optdone(values: Option<seq<seq<real>>>, targets: Option<seq<real>>, optdone: Option<seq<nat>>): (r: Result<Option<seq<nat>>>)
    ensures values.None? || targets.None? ==> r == Ok(optdone)
    ensures values.Some? && targets.Some? ==> (r.Ok? <==>
      || |values.value| == 0
      || (|targets.value| >= 1 && forall k :: 0 <= k < |values.value| ==> |values.value[k]| >= 1))
    ensures r.Ok? && values.Some? && targets.Some? ==>
      && r.value.Some?
      && Increasing(r.value.value)
      && (|values.value| >= 1 ==> |targets.value| >= 1)
      && forall k :: 0 <= k < |values.value| ==>
           |values.value[k]| >= 1 && (k in r.value.value <==> values.value[k][0] < targets.value[0])
  {
    if values.Some? && targets.Some? then
      BelowSpec(values.value, targets.value, 0);
      var done :- Below(values.value, targets.value, 0);
      Ok(Some(done))
    else Ok(optdone)
  }

  /** `natom`: the number of atomic numbers, once a geometry was read. */
  function Natom(geometries: Option<nat>, atomnos: Option<seq<int>>, natom: Option<nat>): (r: Result<Option<nat>>)
    ensures r.Ok? <==> geometries.None? || geometries.value == 0 || atomnos.Some?
    ensures r.Ok? && geometries.Some? && geometries.value >= 1 ==> r.value == Some(|atomnos.value|)
    ensures geometries.None? || geometries.value == 0 ==> r == Ok(natom)
  {
    if geometries.Some? && geometries.value >= 1 then
      if atomnos.Some? then Ok(Some(|atomnos.value|)) else Err(Malformed("AttributeError: atomnos"))
    else Ok(natom)
  }

  /** `nbasis`: the number of basis function names. */
  function Nbasis(aonames: Option<seq<string>>, nbasis: Option<nat>): (r: Option<nat>)
    ensures aonames.Some? ==> r == Some(|aonames.value|)
    ensures aonames.None? ==> r == nbasis
  {
    if aonames.Some? then Some(|aonames.value|) else nbasis
  }

  /** `nmo`: the number of alpha orbital energies. */
  function Nmo(moenergies: Option<seq<seq<real>>>, nmo: Option<nat>): (r: Option<nat>)
    ensures moenergies.Some? && |moenergies.value| >= 1 ==> r == Some(|moenergies.value[0]|)
    ensures !(moenergies.Some? && |moenergies.value| >= 1) ==> r == nmo
  {
    if moenergies.Some? && |moenergies.value| >= 1 then Some(|moenergies.value[0]|) else nmo
  }

  // The excited states are sorted by `numpy.argsort` of the energies.
  // The model's sort is stable: states of equal energy keep their order.

  /** The indices `idx` in ascending order of energy. */
  predicate SortedBy(es: seq<real>, idx: seq<nat>)
    requires forall k :: 0 <= k < |idx| ==> idx[k] < |es|
  {
    forall a, b :: 0 <= a < b < |idx| ==> es[idx[a]] <= es[idx[b]]
  }

  /** Every index is one of the energies'. */
  predicate Within(es: seq<real>, idx: seq<nat>) {
    forall k :: 0 <= k < |idx| ==> idx[k] < |es|
  }

  /** Index `i` placed after the indices of energies up to its own. */
  function Insert(es: seq<real>, i: nat, idx: seq<nat>): (r: seq<nat>)
    requires i < |es| && Within(es, idx)
    ensures Within(es, r) && |r| == |idx| + 1
    ensures multiset(r) == multiset(idx) + multiset{i}
    decreases |idx|
  {
    if idx == [] then [i]
    else if es[i] < es[idx[0]] then [i] + idx
    else
      assert idx == [idx[0]] + idx[1..];
      [idx[0]] + Insert(es, i, idx[1..])
  }

  /** Inserting keeps the indices in ascending order of energy. */
  lemma {:induction false} InsertSorted(es: seq<real>, i: nat, idx: seq<nat>)
    requires i < |es| && Within(es, idx) && SortedBy(es, idx)
    ensures SortedBy(es, Insert(es, i, idx))
    decreases |idx|
  {
    if idx != [] && es[i] >= es[idx[0]] {
      InsertSorted(es, i, idx[1..]);
      var r := Insert(es, i, idx);
      var t := Insert(es, i, idx[1..]);
      assert r == [idx[0]] + t;
      forall k | 0 <= k < |t| ensures es[idx[0]] <= es[t[k]] {
        assert t[k] in multiset(idx[1..]) + multiset{i} by {
          assert t[k] in multiset(t);
        }
        if t[k] != i {
          assert t[k] in idx[1..];
          var j :| 0 <= j < |idx[1..]| && idx[1..][j] == t[k];
          assert idx[j + 1] == t[k];
        }
      }
    }
  }

  /** `argsort` of the first `n` energies. */
  function ArgSort(es: seq<real>, n: nat): (r: seq<nat>)
    requires n <= |es|
    ensures Within(es, r) && |r| == n
    decreases n
  {
    if n == 0 then [] else Insert(es, n - 1, ArgSort(es, n - 1))
  }

  /** The indices 0 to `n - 1`. */
  function Range(n: nat): (r: seq<nat>)
    ensures |r| == n && forall k :: 0 <= k < n ==> r[k] == k
  {
    if n == 0 then [] else Range(n - 1) + [n - 1]
  }

  /** A permutation of the indices 0 to `n - 1` holds every one of them
      and nothing else. */
  lemma RangeMembers(p: seq<nat>, n: nat)
    requires multiset(p) == multiset(Range(n))
    ensures forall k :: 0 <= k < |p| ==> p[k] < n
    ensures forall m :: 0 <= m < n ==> m in p
  {
    forall k | 0 <= k < |p| ensures p[k] < n {
      assert p[k] in multiset(Range(n));
    }
    forall m | 0 <= m < n ensures m in p {
      assert Range(n)[m] == m;
      assert m in multiset(p);
    }
  }

  /** `argsort` puts the energies in ascending order. */
  lemma {:induction false} ArgSortSorted(es: seq<real>, n: nat)
    requires n <= |es|
    ensures SortedBy(es, ArgSort(es, n))
    decreases n
  {
    if n > 0 {
      ArgSortSorted(es, n - 1);
      InsertSorted(es, n - 1, ArgSort(es, n - 1));
    }
  }

  /** `argsort` is a permutation of the indices. */
  lemma {:induction false} ArgSortPermutes(es: seq<real>, n: nat)
    requires n <= |es|
    ensures multiset(ArgSort(es, n)) == multiset(Range(n))
    decreases n
  {
    if n > 0 {
      ArgSortPermutes(es, n - 1);
    }
  }

  /** `xs` taken in the order of `idx`: an index past the end of `xs` is
      an `IndexError`. */
  function Permute<T>(xs: seq<T>, idx: seq<nat>): (r: Result<seq<T>>)
    ensures r.Ok? <==> forall k :: 0 <= k < |idx| ==> idx[k] < |xs|
    ensures r.Ok? ==> |r.value| == |idx| && forall k :: 0 <= k < |idx| ==> r.value[k] == xs[idx[k]]
    decreases |idx|
  {
    if idx == [] then Ok([])
    else
      var x :- PySeq.At(xs, idx[0]);
      var rest :- Permute(xs, idx[1..]);
      Ok([x] + rest)
  }

  /** Taking `xs` in the order of a permutation of its first `n` indices
      fails exactly when `xs` is shorter than `n`. */
  lemma PermuteRange<T>(xs: seq<T>, p: seq<nat>, n: nat)
    requires multiset(p) == multiset(Range(n))
    ensures Permute(xs, p).Ok? <==> |xs| >= n
  {
    RangeMembers(p, n);
    if n >= 1 {
      assert n - 1 in p;
      var k :| 0 <= k < |p| && p[k] == n - 1;
    }
  }

  /** Taking `xs` in the order of an inserted index adds that element. */
  lemma {:induction false} PermuteInsert<T>(xs: seq<T>, es: seq<real>, i: nat, idx: seq<nat>)
    requires i < |es| && Within(es, idx) && |xs| == |es|
    ensures Permute(xs, Insert(es, i, idx)).Ok? && Permute(xs, idx).Ok?
    ensures multiset(Permute(xs, Insert(es, i, idx)).value) == multiset(Permute(xs, idx).value) + multiset{xs[i]}
    decreases |idx|
  {
    var r := Permute(xs, Insert(es, i, idx)).value;
    var p := Permute(xs, idx).value;
    if idx == [] {
      assert r == [xs[i]];
    } else if es[i] < es[idx[0]] {
      assert r == [xs[i]] + p;
    } else {
      PermuteInsert(xs, es, i, idx[1..]);
      var q := Permute(xs, idx[1..]).value;
      var t := Permute(xs, Insert(es, i, idx[1..])).value;
      assert p == [xs[idx[0]]] + q;
      assert r == [xs[idx[0]]] + t;
    }
  }

  /** The first `n` elements are the first `n - 1` and one more. */
  lemma TakeOneMore<T>(xs: seq<T>, n: nat)
    requires 1 <= n <= |xs|
    ensures multiset(xs[..n]) == multiset(xs[..n - 1]) + multiset{xs[n - 1]}
  {
    assert xs[..n] == xs[..n - 1] + [xs[n - 1]];
  }

  /** Taking a list in `argsort` order is a permutation of its first `n`
      elements. */
  lemma {:induction false} PermuteArgSort<T>(xs: seq<T>, es: seq<real>, n: nat)
    requires n <= |es| && |xs| == |es|
    ensures Permute(xs, ArgSort(es, n)).Ok?
    ensures multiset(Permute(xs, ArgSort(es, n)).value) == multiset(xs[..n])
    decreases n
  {
    if n > 0 {
      PermuteArgSort(xs, es, n - 1);
      PermuteInsert(xs, es, n - 1, ArgSort(es, n - 1));
      TakeOneMore(xs, n);
    }
  }

  /** The excited states: energies, configurations and symmetries, which
      are created together. */
  datatype States = States(energies: seq<real>, secs: seq<seq<CfourExcited.Etsec>>, syms: seq<string>)

  /** The states in ascending order of energy, the configurations,
      symmetries and oscillator strengths taken in the same order. The
      oscillator strengths are kept only when excited-state properties
      were on, and are emptied otherwise; an unknown setting is an
      `AttributeError` once there is a state to move. */
  function SortStates(st: States, oscs: Option<seq<real>>, props: Option<bool>): (r: Result<(States, Option<seq<real>>)>)
    ensures r.Ok? ==>
      var p := ArgSort(st.energies, |st.energies|);
      && Permute(st.energies, p) == Ok(r.value.0.energies)
      && Permute(st.secs, p) == Ok(r.value.0.secs)
      && Permute(st.syms, p) == Ok(r.value.0.syms)
    ensures r.Ok? <==>
      || st.energies == []
      || (&& |st.secs| >= |st.energies| && |st.syms| >= |st.energies|
          && (oscs.Some? ==> props.Some? && (props.value ==> |oscs.value| >= |st.energies|)))
    ensures r.Ok? ==> (r.value.1.Some? <==> oscs.Some?)
    ensures r.Ok? && oscs.Some? && st.energies != [] ==>
      if props.value then Permute(oscs.value, ArgSort(st.energies, |st.energies|)) == Ok(r.value.1.value)
      else r.value.1.value == []
  {
    var n := |st.energies|;
    var p := ArgSort(st.energies, n);
    ArgSortPermutes(st.energies, n);
    PermuteRange(st.energies, p, n);
    PermuteRange(st.secs, p, n);
    PermuteRange(st.syms, p, n);
    PermuteRange(if oscs.Some? then oscs.value else [], p, n);
    var energies := Permute(st.energies, p).value;
    var _ :- Need(n == 0 || oscs.None? || props.Some?, "AttributeError: estate_prop_on");
    var oscs' :- if oscs.Some? && n >= 1 && props.value then
                   (var o :- Permute(oscs.value, p); Ok(Some(o)))
                 else Ok(if oscs.Some? then Some([]) else None);
    var secs :- Permute(st.secs, p);
    var syms :- Permute(st.syms, p);
    Ok((States(energies, secs, syms), oscs'))
  }

  /** Ascending. */
  predicate Ascending(xs: seq<real>) {
    forall a, b :: 0 <= a < b < |xs| ==> xs[a] <= xs[b]
  }

  /** The energies taken in `argsort` order are ascending and are the
      same energies, each as often. */
  lemma {:induction false} SortedEnergies(es: seq<real>)
    ensures Permute(es, ArgSort(es, |es|)).Ok?
    ensures var e := Permute(es, ArgSort(es, |es|)).value;
      Ascending(e) && multiset(e) == multiset(es)
  {
    var p := ArgSort(es, |es|);
    ArgSortSorted(es, |es|);
    PermuteArgSort(es, es, |es|);
    assert es[..|es|] == es;
  }

  /** After sorting, the energies are in ascending order and are the same
      energies as before, each as often. */
  lemma {:induction false} SortStatesOrder(st: States, oscs: Option<seq<real>>, props: Option<bool>)
    ensures SortStates(st, oscs, props).Ok? ==>
      var e := SortStates(st, oscs, props).value.0.energies;
      Ascending(e) && multiset(e) == multiset(st.energies)
  {
    SortedEnergies(st.energies);
  }
}

=== FILE: cfour_scan.dfy ===
/** The forward pass of the CFOUR log scanner over the modelled triggers,
    and what it derives once every line has been read.

    Each line is offered to the triggers in the order the scanner tests
    them, together with its words. A trigger may read further lines, and
    the triggers after it see the line it stopped at. The orbital and
    excited-state blocks split that line into words again; the
    coupled-cluster block does not, so the triggers after it see the new
    line with the words of the old one. The next pass starts after the last
    line read.
 */
module CfourScan {
  import opened Results
  import opened Text
  import opened Cursor
  import Numbers
  import CfourLabels
  import CfourTargets
  import CfourCc
  import CfourOrbitals
  import CfourExcited
  import CfourMp
  import CfourPost

  /** What the scanner knows so far. */
  datatype State = State(
    unrestricted: Option<bool>,
    homos: Option<seq<int>>,
    scfTarget: Option<real>,
    geotargets: Option<seq<real>>,
    geovalues: Option<seq<seq<real>>>,
    noTime: bool,
    success: Option<bool>,
    cpuTime: Option<real>,
    wallTime: Option<real>,
    estateProps: Option<bool>,
    ccenergies: Option<seq<string>>,
    moenergies: Option<seq<seq<real>>>,
    mosyms: Option<seq<seq<string>>>,
    numbering: map<string, string>,
    currSym: string,
    states: Option<CfourPost.States>,
    etoscs: Option<seq<real>>,
    mpenergies: Option<seq<seq<real>>>)

  /** A list that is created on first use: empty until then. */
  function OrEmpty<T>(xs: Option<seq<T>>): (r: seq<T>)
    ensures xs.Some? ==> r == xs.value
    ensures xs.None? ==> r == []
  {
    if xs.Some? then xs.value else []
  }

  /** The orbital energies and labels pair up: one list of labels per
      spin, one label per energy. */
  predicate Paired(energies: Option<seq<seq<real>>>, syms: Option<seq<seq<string>>>) {
    && (energies.Some? <==> syms.Some?)
    && (energies.Some? ==>
          && |energies.value| == |syms.value|
          && forall k :: 0 <= k < |energies.value| ==> |energies.value[k]| == |syms.value[k]|)
  }

  /** One more spin of as many labels as energies keeps the lists paired. */
  lemma PairedAppend(es: seq<seq<real>>, ss: seq<seq<string>>, e: seq<real>, t: seq<string>)
    ensures Paired(Some(es), Some(ss)) && |e| == |t| ==> Paired(Some(es + [e]), Some(ss + [t]))
  {
    if Paired(Some(es), Some(ss)) && |e| == |t| {
      forall k | 0 <= k < |es + [e]|
        ensures |(es + [e])[k]| == |(ss + [t])[k]|
      {
        if k < |es| {
          assert (es + [e])[k] == es[k] && (ss + [t])[k] == ss[k];
        }
      }
    }
  }

  /** What holds between lines: every excited state has its
      configurations and its symmetry, every geometry step one value and
      the geometry target one entry, every MP group its MP2 energy, the
      orbital lists pair up, and success is recorded exactly when a timing
      line was seen. */
  predicate Inv(st: State) {
    && (st.states.Some? ==>
          |st.states.value.secs| == |st.states.value.energies| && |st.states.value.syms| == |st.states.value.energies|)
    && (st.geovalues.Some? ==> forall k :: 0 <= k < |st.geovalues.value| ==> |st.geovalues.value[k]| == 1)
    && (st.geotargets.Some? ==> |st.geotargets.value| == 1)
    && (st.mpenergies.Some? ==> CfourMp.Grouped(st.mpenergies.value))
    && Paired(st.moenergies, st.mosyms)
    && st.success == (if st.noTime then None else Some(true))
  }

  /** The state before the first line: no timing seen, the current
      symmetry `"0"`, an empty irrep numbering and nothing read. */
  function BeforeParsing(): (st: State)
    ensures st.noTime && st.success.None? && st.currSym == "0" && st.numbering == map[]
    ensures st.states.None? && st.ccenergies.None? && st.geovalues.None? && st.mpenergies.None?
    ensures Inv(st)
  {
    State(None, None, None, None, None, true, None, None, None, None, None, None, None,
          map[], "0", None, None, None)
  }

  /** What no trigger undoes: a timing line once seen stays seen, the
      coupled-cluster energies and the excited-state energies only grow at
      the end, and the invariant is kept. */
  predicate Keeps(a: State, b: State) {
    && (!a.noTime ==> !b.noTime)
    && (a.ccenergies.Some? ==> b.ccenergies.Some? && a.ccenergies.value <= b.ccenergies.value)
    && (a.states.Some? ==> b.states.Some? && a.states.value.energies <= b.states.value.energies)
    && (Inv(a) ==> Inv(b))
  }

  /** Where the pass over a line stands: the line the triggers see, its
      words as the scanner holds them, the cursor after the last line read,
      and the state. */
  datatype Scan = Scan(line: string, tokens: seq<string>, rest: LineCursor, st: State)

  /** A scan that moved forward and kept what no trigger undoes. */
  predicate Forward(s: Scan, t: Scan) {
    Advanced(s.rest, t.rest) && Keeps(s.st, t.st)
  }

  // The triggers that read only the line itself.

  /** The lists that blocks build, and the symmetry bookkeeping, are as
      they were. */
  predicate Untouched(a: State, b: State) {
    && b.ccenergies == a.ccenergies && b.states == a.states
    && b.moenergies == a.moenergies && b.mosyms == a.mosyms
    && b.mpenergies == a.mpenergies && b.etoscs == a.etoscs
    && b.numbering == a.numbering && b.currSym == a.currSym
  }

  predicate ReferenceLine(line: string) {
    Contains(line, "REFERENCE            IREFNC")
  }

  /** The reference line sets `unrestricted` and the initial HOMOs. */
  function Reference(line: string, tokens: seq<string>, st: State): (r: Result<State>)
    ensures r.Ok? ==> Keeps(st, r.value) && Untouched(st, r.value)
    ensures !ReferenceLine(line) ==> r == Ok(st)
    ensures ReferenceLine(line) ==> (r.Ok? <==> CfourTargets.ParseReference(tokens).Ok?)
    ensures ReferenceLine(line) && r.Ok? ==>
      var rf := CfourTargets.ParseReference(tokens).value;
      r.value == st.(unrestricted := Some(rf.unrestricted), homos := Some(rf.homos))
  {
    if ReferenceLine(line) then
      var rf :- CfourTargets.ParseReference(tokens);
      Ok(st.(unrestricted := Some(rf.unrestricted), homos := Some(rf.homos)))
    else Ok(st)
  }

  predicate ScfConvLine(line: string) {
    Contains(line, "SCF_CONV             ISCFCV")
  }

  predicate GeoConvLine(line: string) {
    Contains(line, "GEO_CONV             ICONTL")
  }

  /** The SCF and geometry convergence targets; the geometry target is
      a one-entry list. */
  function Targets(line: string, tokens: seq<string>, st: State): (r: Result<State>)
    ensures r.Ok? ==> Keeps(st, r.value) && Untouched(st, r.value)
    ensures r.Ok? <==>
      && (ScfConvLine(line) ==> CfourTargets.ScfTarget(tokens).Ok?)
      && (GeoConvLine(line) ==> CfourTargets.GeoTarget(tokens).Ok?)
    ensures r.Ok? ==> r.value == st.(scfTarget := r.value.scfTarget, geotargets := r.value.geotargets)
    ensures r.Ok? ==>
      && r.value.scfTarget == (if ScfConvLine(line) then Some(CfourTargets.ScfTarget(tokens).value) else st.scfTarget)
      && r.value.geotargets == (if GeoConvLine(line) then Some(CfourTargets.GeoTarget(tokens).value) else st.geotargets)
    ensures r.Ok? && GeoConvLine(line) ==> |r.value.geotargets.value| == 1
  {
    var st1 :- if ScfConvLine(line) then
                 (var x :- CfourTargets.ScfTarget(tokens); Ok(st.(scfTarget := Some(x))))
               else Ok(st);
    if GeoConvLine(line) then
      var g :- CfourTargets.GeoTarget(tokens);
      Ok(st1.(geotargets := Some(g)))
    else Ok(st1)
  }

  predicate ForceLine(line: string) {
    Contains(line, "Minimum force:") && Contains(line, "RMS force:")
  }

  /** A force line adds a geometry step holding the value of word 6. */
  function Forces(line: string, tokens: seq<string>, st: State): (r: Result<State>)
    ensures r.Ok? ==> Keeps(st, r.value) && Untouched(st, r.value)
    ensures !ForceLine(line) ==> r == Ok(st)
    ensures ForceLine(line) ==> (r.Ok? <==> |tokens| >= 7 && Numbers.ParseReal(tokens[6]).Some?)
    ensures ForceLine(line) && r.Ok? ==>
      r.value == st.(geovalues := Some(OrEmpty(st.geovalues) + [[Numbers.ParseReal(tokens[6]).value]]))
  {
    if ForceLine(line) then
      var x :- Numbers.RealAt(tokens, 6);
      Ok(st.(geovalues := Some(OrEmpty(st.geovalues) + [[x]])))
    else Ok(st)
  }

  predicate CheckoutLine(line: string) {
    Contains(line, "@CHECKOUT-I, Total execution time (CPU/WALL):")
  }

  /** The timing line: the run succeeded, and the CPU time (word 5 without
      its last character) and the wall time (word 6) are recorded. */
  function Checkout(line: string, tokens: seq<string>, st: State): (r: Result<State>)
    ensures r.Ok? ==> Keeps(st, r.value) && Untouched(st, r.value)
    ensures !CheckoutLine(line) ==> r == Ok(st)
    ensures CheckoutLine(line) ==> (r.Ok? <==>
      && |tokens| >= 7
      && Numbers.ParseReal(Sub(tokens[5], 0, -1)).Some?
      && Numbers.ParseReal(tokens[6]).Some?)
    ensures CheckoutLine(line) && r.Ok? ==>
      r.value == st.(noTime := false, success := Some(true),
                     cpuTime := Numbers.ParseReal(Sub(tokens[5], 0, -1)),
                     wallTime := Numbers.ParseReal(tokens[6]))
  {
    if CheckoutLine(line) then
      var _ :- Need(|tokens| >= 7, "list index out of range");
      var cpu :- Numbers.Real(Sub(tokens[5], 0, -1));
      var wall :- Numbers.Real(tokens[6]);
      Ok(st.(noTime := false, success := Some(true), cpuTime := Some(cpu), wallTime := Some(wall)))
    else Ok(st)
  }

  predicate PropsLine(line: string) {
    Contains(line, "ESTATE_PROP          IEXPRP")
  }

  /** Excited-state properties are on unless word 2 is `OFF`. */
  function EstateProps(line: string, tokens: seq<string>, st: State): (r: Result<State>)
    ensures r.Ok? ==> Keeps(st, r.value) && Untouched(st, r.value)
    ensures !PropsLine(line) ==> r == Ok(st)
    ensures PropsLine(line) ==> (r.Ok? <==> |tokens| >= 3)
    ensures PropsLine(line) && r.Ok? ==> r.value == st.(estateProps := Some(tokens[2] != "OFF"))
  {
    if PropsLine(line) then
      var _ :- Need(|tokens| >= 3, "list index out of range");
      Ok(st.(estateProps := Some(tokens[2] != "OFF")))
    else Ok(st)
  }

  /** The triggers that read only the line, in the scanner's order. They
      leave the lists that blocks build alone. */
  function Settings(line: string, tokens: seq<string>, st: State): (r: Result<State>)
    ensures r.Ok? ==> Keeps(st, r.value) && Untouched(st, r.value)
  {
    var st1 :- Reference(line, tokens, st);
    var st2 :- Targets(line, tokens, st1);
    var st3 :- Forces(line, tokens, st2);
    var st4 :- Checkout(line, tokens, st3);
    EstateProps(line, tokens, st4)
  }

  // The triggers that may read further lines.

  /** The coupled-cluster block adds its energy to `ccenergies`; the
      words stay those of the line that opened it. */
  function Cc(s: Scan): (r: Result<Scan>)
    ensures r.Ok? ==> Forward(s, r.value)
    ensures !CfourCc.CcLine(s.line) ==> r == Ok(s)
    ensures CfourCc.CcLine(s.line) ==> (r.Ok? <==> CfourCc.Block(s.line, s.rest).Ok?)
    ensures CfourCc.CcLine(s.line) && r.Ok? ==>
      var b := CfourCc.Block(s.line, s.rest).value;
      r.value == Scan(b.line, s.tokens, b.rest, s.st.(ccenergies := Some(OrEmpty(s.st.ccenergies) + [b.value])))
  {
    if CfourCc.CcLine(s.line) then
      var b :- CfourCc.Block(s.line, s.rest);
      Ok(Scan(b.line, s.tokens, b.rest, s.st.(ccenergies := Some(OrEmpty(s.st.ccenergies) + [b.value]))))
    else Ok(s)
  }

  /** The alpha orbital table replaces the orbital lists with its own
      energies and labels, sets the alpha HOMO and numbers the irreps. It
      also hands on the last row it read, which the beta table of the same
      pass starts from. */
  function Alpha(s: Scan): (r: Result<(Scan, Option<string>)>)
    ensures r.Ok? ==> Forward(s, r.value.0)
    ensures !Contains(s.line, CfourOrbitals.AlphaHeader) ==> r == Ok((s, None))
    ensures Contains(s.line, CfourOrbitals.AlphaHeader) && r.Ok? ==>
      var t := r.value.0.st;
      && CfourOrbitals.Ends(0, r.value.0.line) && r.value.0.tokens == Split(r.value.0.line)
      && t.moenergies.Some? && |t.moenergies.value| == 1
      && t.mosyms.Some? && |t.mosyms.value| == 1
      && |t.moenergies.value[0]| == |t.mosyms.value[0]|
    ensures Contains(s.line, CfourOrbitals.AlphaHeader) ==>
      var b := CfourOrbitals.Block(s.rest, 0, s.st.homos, s.st.numbering, None, CfourLabels.NormaliseSym);
      && (r.Ok? <==> b.Ok?)
      && (r.Ok? ==>
            var t := b.value.value;
            && r.value.0.line == b.value.line && r.value.0.rest == b.value.rest && r.value.1 == t.last
            && r.value.0.st == s.st.(moenergies := Some([t.energies]), mosyms := Some([t.syms]),
                                     homos := t.homos, numbering := t.numbering))
  {
    if Contains(s.line, CfourOrbitals.AlphaHeader) then
      var b :- CfourOrbitals.Block(s.rest, 0, s.st.homos, s.st.numbering, None, CfourLabels.NormaliseSym);
      CfourOrbitals.BlockSpec(s.rest, 0, s.st.homos, s.st.numbering, None, CfourLabels.NormaliseSym);
      var t := b.value;
      var st := s.st.(moenergies := Some([t.energies]), mosyms := Some([t.syms]),
                      homos := t.homos, numbering := t.numbering);
      Ok((Scan(b.line, Split(b.line), b.rest, st), t.last))
    else Ok((s, None))
  }

  /** The beta orbital table adds a second spin to the orbital lists,
      which the alpha table must have made, and sets the beta HOMO; the
      irrep numbering is left alone. */
  function Beta(s: Scan, last: Option<string>): (r: Result<Scan>)
    ensures r.Ok? ==> Forward(s, r.value)
    ensures !Contains(s.line, CfourOrbitals.BetaHeader) ==> r == Ok(s)
    ensures Contains(s.line, CfourOrbitals.BetaHeader) && r.Ok? ==>
      && s.st.moenergies.Some? && s.st.mosyms.Some?
      && CfourOrbitals.Ends(1, r.value.line) && r.value.tokens == Split(r.value.line)
      && r.value.st.numbering == s.st.numbering
      && r.value.st.moenergies.Some? && |r.value.st.moenergies.value| == |s.st.moenergies.value| + 1
      && r.value.st.moenergies.value[..|s.st.moenergies.value|] == s.st.moenergies.value
    ensures Contains(s.line, CfourOrbitals.BetaHeader) ==>
      var b := CfourOrbitals.Block(s.rest, 1, s.st.homos, s.st.numbering, last, CfourLabels.NormaliseSym);
      && (r.Ok? <==> b.Ok? && s.st.moenergies.Some? && s.st.mosyms.Some?)
      && (r.Ok? ==>
            var t := b.value.value;
            && r.value.line == b.value.line && r.value.rest == b.value.rest
            && r.value.st == s.st.(moenergies := Some(s.st.moenergies.value + [t.energies]),
                                   mosyms := Some(s.st.mosyms.value + [t.syms]), homos := t.homos))
  {
    if Contains(s.line, CfourOrbitals.BetaHeader) then
      var b :- CfourOrbitals.Block(s.rest, 1, s.st.homos, s.st.numbering, last, CfourLabels.NormaliseSym);
      var _ :- Need(s.st.moenergies.Some? && s.st.mosyms.Some?, "'CFOUR' object has no attribute 'moenergies'");
      CfourOrbitals.BlockSpec(s.rest, 1, s.st.homos, s.st.numbering, last, CfourLabels.NormaliseSym);
      var t := b.value;
      var st := s.st.(moenergies := Some(s.st.moenergies.value + [t.energies]),
                      mosyms := Some(s.st.mosyms.value + [t.syms]), homos := t.homos);
      PairedAppend(s.st.moenergies.value, s.st.mosyms.value, t.energies, t.syms);
      Ok(Scan(b.line, Split(b.line), b.rest, st))
    else Ok(s)
  }

  predicate SymmetryLine(line: string) {
    Contains(line, "Beginning symmetry block")
  }

  /** A symmetry block makes word 3, without its last character, the
      current symmetry. */
  function Symmetry(s: Scan): (r: Result<Scan>)
    ensures r.Ok? ==> Forward(s, r.value)
    ensures !SymmetryLine(s.line) ==> r == Ok(s)
    ensures SymmetryLine(s.line) ==> (r.Ok? <==> |s.tokens| >= 4)
    ensures SymmetryLine(s.line) && r.Ok? ==> r.value == s.(st := s.st.(currSym := Sub(s.tokens[3], 0, -1)))
  {
    if SymmetryLine(s.line) then
      var _ :- Need(|s.tokens| >= 4, "list index out of range");
      Ok(s.(st := s.st.(currSym := Sub(s.tokens[3], 0, -1))))
    else Ok(s)
  }

  /** The excited states so far: none until the first eigenvalue line. */
  function StatesOf(st: State): CfourPost.States {
    if st.states.Some? then st.states.value else CfourPost.States([], [], [])
  }

  /** The state with one more excited state, added at the end; the
      invariant is kept when the state has its configurations and
      symmetry. */
  function Record(st: State, energy: real, secs: seq<CfourExcited.Etsec>, sym: string): (r: State)
    ensures Keeps(st, r) && r == st.(states := r.states) && r.states.Some?
    ensures var was, now := StatesOf(st), r.states.value;
      && |now.energies| == |was.energies| + 1 && now.energies[..|was.energies|] == was.energies
      && now.energies[|was.energies|] == energy
      && |now.secs| == |was.secs| + 1 && now.secs[..|was.secs|] == was.secs && now.secs[|was.secs|] == secs
      && |now.syms| == |was.syms| + 1 && now.syms[..|was.syms|] == was.syms && now.syms[|was.syms|] == sym
  {
    var was := StatesOf(st);
    st.(states := Some(CfourPost.States(was.energies + [energy], was.secs + [secs], was.syms + [sym])))
  }

  /** An eigenvalue line adds one excited state: its energy, its
      configurations, and its symmetry, the multiplicity joined to the name
      the irrep numbering gives the current symmetry. Whether properties
      were printed must be known. The energy is word 2 of the words held;
      with properties, an eigenvalue line inside the listing, before the
      `Right Transition Moment` line, restates it and starts the rows, so
      the last such line gives the energy, and without one no rows are
      read (`CfourExcited.WithPropsEnergy`). */
  function Eigen(s: Scan): (r: Result<Scan>)
    ensures r.Ok? ==> Forward(s, r.value)
    ensures !CfourExcited.EigenvalueLine(s.line) ==> r == Ok(s)
    ensures CfourExcited.EigenvalueLine(s.line) && r.Ok? ==>
      && s.st.estateProps.Some? && s.st.currSym in s.st.numbering
      && r.value.tokens == Split(r.value.line)
      && exists e, secs, mult :: mult in {"Singlet", "Triplet"}
           && (!s.st.estateProps.value ==> Numbers.RealAt(s.tokens, 2) == Ok(e))
           && r.value.st == Record(s.st, e, secs, mult + "-" + s.st.numbering[s.st.currSym])
    ensures CfourExcited.EigenvalueLine(s.line) && s.st.estateProps.Some? ==>
      var x := CfourExcited.Excited(s.tokens, s.rest, s.st.estateProps.value);
      && (r.Ok? <==> x.Ok? && CfourExcited.Sym(x.value.value.mult, s.st.numbering, s.st.currSym).Ok?)
      && (r.Ok? ==>
            var sym := CfourExcited.Sym(x.value.value.mult, s.st.numbering, s.st.currSym).value;
            r.value == Scan(x.value.line, Split(x.value.line), x.value.rest,
                            Record(s.st, x.value.value.energy, x.value.value.secs, sym)))
  {
    if CfourExcited.EigenvalueLine(s.line) then
      var _ :- Need(s.st.estateProps.Some?, "'CFOUR' object has no attribute 'estate_prop_on'");
      var x :- CfourExcited.Excited(s.tokens, s.rest, s.st.estateProps.value);
      var sym :- CfourExcited.Sym(x.value.mult, s.st.numbering, s.st.currSym);
      CfourExcited.ExcitedMult(s.tokens, s.rest, s.st.estateProps.value);
      Ok(Scan(x.line, Split(x.line), x.rest, Record(s.st, x.value.energy, x.value.secs, sym)))
    else Ok(s)
  }

  predicate OscillatorLine(line: string) {
    Contains(line, "Norm of oscillator strength :")
  }

  /** An oscillator strength line adds its last word to `etoscs`. */
  function Oscillator(s: Scan): (r: Result<Scan>)
    ensures r.Ok? ==> Forward(s, r.value)
    ensures !OscillatorLine(s.line) ==> r == Ok(s)
    ensures OscillatorLine(s.line) ==> (r.Ok? <==> |s.tokens| >= 1 && Numbers.ParseReal(s.tokens[|s.tokens| - 1]).Some?)
    ensures OscillatorLine(s.line) && r.Ok? ==>
      r.value == s.(st := s.st.(etoscs := Some(OrEmpty(s.st.etoscs) + [Numbers.ParseReal(s.tokens[|s.tokens| - 1]).value])))
  {
    if OscillatorLine(s.line) then
      var x :- Numbers.RealAt(s.tokens, -1);
      Ok(s.(st := s.st.(etoscs := Some(OrEmpty(s.st.etoscs) + [x]))))
    else Ok(s)
  }

  /** The MP2, MBPT(3) and MBPT(4) lines. */
  function Mp(s: Scan): (r: Result<Scan>)
    ensures r.Ok? ==> Forward(s, r.value)
    ensures r.Ok? <==> CfourMp.MpLine(s.line, s.tokens, s.st.mpenergies).Ok?
    ensures r.Ok? ==> r.value == s.(st := s.st.(mpenergies := CfourMp.MpLine(s.line, s.tokens, s.st.mpenergies).value))
  {
    var groups :- CfourMp.MpLine(s.line, s.tokens, s.st.mpenergies);
    CfourMp.MpLineSpec(s.line, s.tokens, s.st.mpenergies);
    Ok(s.(st := s.st.(mpenergies := groups)))
  }

  // The pass over one line hands over from trigger to trigger; each
  // function below is the rest of the pass from one trigger on.

  /** The pass over `line`, with `c` just past it: the line the triggers
      left, the cursor after the last line read, and the new state. */
  function Extract(line: string, c: LineCursor, st: State): (r: Result<Step<State>>)
    ensures r.Ok? ==> Advanced(c, r.value.rest) && Keeps(st, r.value.value)
  {
    var tokens := Split(line);
    var st1 :- Settings(line, tokens, st);
    var s2 :- Cc(Scan(line, tokens, c, st1));
    var s3 :- FromOrbitals(s2);
    Ok(Step(s3.line, s3.rest, s3.st))
  }

  /** The orbital tables, then the later triggers. */
  function FromOrbitals(s: Scan): (r: Result<Scan>)
    ensures r.Ok? ==> Forward(s, r.value)
  {
    var a :- Alpha(s);
    var s1 :- Beta(a.0, a.1);
    FromSymmetry(s1)
  }

  /** The current symmetry and the excited states, then the later
      triggers. */
  function FromSymmetry(s: Scan): (r: Result<Scan>)
    ensures r.Ok? ==> Forward(s, r.value)
  {
    var s1 :- Symmetry(s);
    var s2 :- Eigen(s1);
    FromOscillator(s2)
  }

  /** The oscillator strengths and the MP energies. */
  function FromOscillator(s: Scan): (r: Result<Scan>)
    ensures r.Ok? ==> Forward(s, r.value)
  {
    var s1 :- Oscillator(s);
    Mp(s1)
  }

  /** What one pass over a line does. */
  type Pass = (string, LineCursor, State) -> Result<Step<State>>

  /** A pass that only moves forward and keeps what no trigger undoes. */
  ghost predicate Sound(pass: Pass) {
    forall line, c, st :: pass(line, c, st).Ok? ==>
      Advanced(c, pass(line, c, st).value.rest) && Keeps(st, pass(line, c, st).value.value)
  }

  /** The scan of the lines from the cursor on: one pass per line, each
      starting after the last line the one before read. */
  function Run(c: LineCursor, st: State, pass: Pass): (r: Result<State>)
    requires Sound(pass)
    ensures r.Ok? ==> Keeps(st, r.value)
    ensures c.pos >= |c.lines| ==> r == Ok(st)
    decreases c.Remaining()
  {
    if c.pos >= |c.lines| then Ok(st)
    else
      var s :- pass(c.lines[c.pos], LineCursor(c.lines, c.pos + 1), st);
      Run(s.rest, s.value, pass)
  }

  /** The scan of a whole log: what it ends with satisfies the invariant. */
  function Parse(lines: seq<string>): (r: Result<State>)
    ensures lines == [] ==> r == Ok(BeforeParsing())
    ensures r.Ok? ==> Inv(r.value)
  {
    Run(LineCursor(lines, 0), BeforeParsing(), (line, c, st) => Extract(line, c, st))
  }

  /** What the parse reports once the post pass has run. */
  datatype Summary = Summary(
    success: Option<bool>,
    optdone: Option<seq<nat>>,
    natom: Option<nat>,
    nbasis: Option<nat>,
    nmo: Option<nat>,
    states: Option<CfourPost.States>,
    etoscs: Option<seq<real>>)

  /** The post pass. The geometries and atomic numbers come from the
      coordinate blocks and the basis function names from the coefficient
      blocks, which are not part of this model, so they are inputs. */
  function AfterParsing(st: State, geometries: Option<nat>, atomnos: Option<seq<int>>, aonames: Option<seq<string>>): (r: Result<Summary>)
    ensures r.Ok? ==> r.value.success == CfourPost.Success(st.noTime, st.success)
    ensures r.Ok? ==> r.value.nbasis == CfourPost.Nbasis(aonames, None) && r.value.nmo == CfourPost.Nmo(st.moenergies, None)
    ensures r.Ok? && st.states.Some? ==>
      && CfourPost.SortStates(st.states.value, st.etoscs, st.estateProps).Ok?
      && r.value.states == Some(CfourPost.SortStates(st.states.value, st.etoscs, st.estateProps).value.0)
  {
    var optdone :- CfourPost.Optdone(st.geovalues, st.geotargets, None);
    var natom :- CfourPost.Natom(geometries, atomnos, None);
    var sorted :- if st.states.Some? then
                    (var p :- CfourPost.SortStates(st.states.value, st.etoscs, st.estateProps); Ok((Some(p.0), p.1)))
                  else Ok((None, st.etoscs));
    Ok(Summary(CfourPost.Success(st.noTime, st.success), optdone, natom, CfourPost.Nbasis(aonames, None),
               CfourPost.Nmo(st.moenergies, None), sorted.0, sorted.1))
  }

  /** After a scan (whose end state satisfies the invariant), the post
      pass fails only on a missing `atomnos` or on oscillator strengths it
      cannot sort. */
  lemma AfterParsingFails(st: State, geometries: Option<nat>, atomnos: Option<seq<int>>, aonames: Option<seq<string>>)
    requires Inv(st)
    ensures AfterParsing(st, geometries, atomnos, aonames).Ok? <==>
      && (geometries.Some? && geometries.value >= 1 ==> atomnos.Some?)
      && (st.states.Some? && st.states.value.energies != [] && st.etoscs.Some? ==>
            st.estateProps.Some? && (st.estateProps.value ==> |st.etoscs.value| >= |st.states.value.energies|))
  {
  }

  /** After a scan, success is reported exactly when a timing line was
      seen, `optdone` lists the steps whose force is below the target, and
      `nmo` counts the alpha orbital labels. */
  lemma AfterParsingReports(st: State, geometries: Option<nat>, atomnos: Option<seq<int>>, aonames: Option<seq<string>>)
    requires Inv(st)
    ensures AfterParsing(st, geometries, atomnos, aonames).Ok? ==>
      var sum := AfterParsing(st, geometries, atomnos, aonames).value;
      && sum.success == Some(!st.noTime)
      && (st.geovalues.Some? && st.geotargets.Some? ==>
            sum.optdone.Some?
            && forall k :: 0 <= k < |st.geovalues.value| ==>
                 (k in sum.optdone.value <==> st.geovalues.value[k][0] < st.geotargets.value[0]))
      && (st.moenergies.Some? && |st.moenergies.value| >= 1 ==> sum.nmo == Some(|st.mosyms.value[0]|))
  {
  }

  /** After a scan, the excited-state energies come out in ascending
      order, the same energies as before, each as often. */
  lemma AfterParsingSorts(st: State, geometries: Option<nat>, atomnos: Option<seq<int>>, aonames: Option<seq<string>>)
    requires Inv(st)
    ensures AfterParsing(st, geometries, atomnos, aonames).Ok? && st.states.Some? ==>
      var sum := AfterParsing(st, geometries, atomnos, aonames).value;
      && sum.states.Some?
      && CfourPost.Ascending(sum.states.value.energies)
      && multiset(sum.states.value.energies) == multiset(st.states.value.energies)
  {
    if st.states.Some? {
      CfourPost.SortStatesOrder(st.states.value, st.etoscs, st.estateProps);
    }
  }
}

=== FILE: cfour_targets.dfy ===
/** The one-line settings of a CFOUR log that the scan keeps: the kind of
    reference (`REFERENCE            IREFNC`), the SCF convergence target
    (`SCF_CONV             ISCFCV`) and the geometry convergence target
    (`GEO_CONV             ICONTL`). Each reads the line's words.
 */
module CfourTargets {
  import opened Results
  import opened Text
  import Numbers
  import PySeq

  /** Whether the reference is unrestricted, and the initial HOMO indices
      (one per spin that gets its own orbitals). */
  datatype Reference = Reference(unrestricted: bool, homos: seq<int>)

  /** The reference name is word 2: a name starting with `U` is
      unrestricted with two HOMOs, `ROHF` is restricted with two HOMOs, and
      any other name is restricted with one. */
  function ParseReference(tokens: seq<string>): (r: Result<Reference>)
    ensures r.Ok? <==> |tokens| >= 3 && |tokens[2]| >= 1
    ensures r.Ok? ==> (r.value.unrestricted <==> tokens[2][0] == 'U')
    ensures r.Ok? ==> (|r.value.homos| == 2 <==> tokens[2][0] == 'U' || tokens[2] == "ROHF")
    ensures r.Ok? ==> 1 <= |r.value.homos| <= 2 && forall k :: 0 <= k < |r.value.homos| ==> r.value.homos[k] == 0
  {
    var name :- PySeq.At(tokens, 2);
    var _ :- Need(|name| >= 1, "string index out of range");
    if name[0] == 'U' then Ok(Reference(true, [0, 0]))
    else if name == "ROHF" then Ok(Reference(false, [0, 0]))
    else Ok(Reference(false, [0]))
  }

  /** No `sep` anywhere in `s`. */
  predicate Lacks(s: string, sep: char) {
    forall k :: 0 <= k < |s| ==> s[k] != sep
  }

  /** Text without the separator is one piece. */
  lemma {:induction false} SplitOnAbsent(s: string, sep: char)
    requires Lacks(s, sep)
    ensures SplitOn(s, sep) == [s]
    decreases |s|
  {
    if s != [] {
      SplitOnAbsent(s[1..], sep);
      assert [s[0]] + s[1..] == s;
    }
  }

  /** Text before the first separator is the first piece, and the rest is
      split on its own. */
  lemma {:induction false} SplitOnJoin(m: string, s: string, sep: char)
    requires Lacks(m, sep)
    ensures SplitOn(m + [sep] + s, sep) == [m] + SplitOn(s, sep)
    decreases |m|
  {
    var t := m + [sep] + s;
    if m == [] {
      assert t == [sep] + s && t[1..] == s;
    } else {
      assert t[1..] == m[1..] + [sep] + s;
      SplitOnJoin(m[1..], s, sep);
      assert [m[0]] + m[1..] == m;
    }
  }

  /** The decimal text of an integer holds no letter. */
  lemma IntToStringLacks(n: int, c: char)
    requires !IsDigit(c) && c != '-'
    ensures Lacks(Numbers.IntToString(n), c)
  {
    if n < 0 {
      assert forall k :: 1 <= k < |Numbers.IntToString(n)| ==> Numbers.IntToString(n)[k] == Numbers.NatToString(-n)[k - 1];
    }
  }

  /** 10 to the power `n`. */
  function Pow10(n: int): real {
    Numbers.Shift(1.0, n)
  }

  /** The SCF target, 10 to a power. When word 3 is `***` the exponent is
      the text after the first `D` of word 2 (up to any second `D`);
      otherwise the exponent is printed split over the last character of
      word 2 and the whole of word 3. */
  function ScfTarget(tokens: seq<string>): (r: Result<real>)
    ensures r.Ok? ==> |tokens| >= 4
    ensures r.Ok? ==> exists n :: r.value == Pow10(n)
  {
    var _ :- Need(|tokens| >= 4, "list index out of range");
    var starred, mantissa := tokens[3], tokens[2];
    if starred == "***" then
      var e :- PySeq.At(SplitOn(mantissa, 'D'), 1);
      var n :- Numbers.Int(e);
      Ok(Pow10(n))
    else
      var _ :- Need(|mantissa| >= 1, "string index out of range");
      var n :- Numbers.Int([mantissa[|mantissa| - 1]] + starred);
      Ok(Pow10(n))
  }

  /** A target printed as a mantissa, `D` and the exponent, followed by
      `***`, is read back as 10 to that exponent. */
  lemma ScfTargetStarred(a: string, b: string, m: string, n: int)
    requires Lacks(m, 'D')
    ensures ScfTarget([a, b, m + "D" + Numbers.IntToString(n), "***"]) == Ok(Pow10(n))
  {
    var s := Numbers.IntToString(n);
    SplitOnJoin(m, s, 'D');
    IntToStringLacks(n, 'D');
    SplitOnAbsent(s, 'D');
    Numbers.ParseShowInt(n);
  }

  /** An exponent printed across words 2 and 3, split after its first
      character, is read back whole. */
  lemma ScfTargetSplit(a: string, b: string, m: string, n: int)
    requires |Numbers.IntToString(n)| >= 2
    ensures var s := Numbers.IntToString(n);
      ScfTarget([a, b, m + s[..1], s[1..]]) == Ok(Pow10(n))
  {
    var s := Numbers.IntToString(n);
    assert s[1..][0] != '*' by {
      if n < 0 {
        assert s[1..] == Numbers.NatToString(-n);
      } else {
        assert Numbers.AllDigits(s);
      }
    }
    assert [(m + s[..1])[|m + s[..1]| - 1]] + s[1..] == s;
    Numbers.ParseShowInt(n);
  }

  /** The geometry target: a one-element list holding 10 to the minus the
      integer in word 2. */
  function GeoTarget(tokens: seq<string>): (r: Result<seq<real>>)
    ensures r.Ok? <==> |tokens| >= 3 && Numbers.ParseInt(tokens[2]).Some?
    ensures r.Ok? ==> |r.value| == 1 && exists n :: r.value == [Pow10(n)]
  {
    var w :- PySeq.At(tokens, 2);
    var n :- Numbers.Int(w);
    Ok([Pow10(-n)])
  }

  /** A printed integer `n` in word 2 gives the target 10 to the minus `n`. */
  lemma GeoTargetRoundTrip(a: string, b: string, n: int, more: seq<string>)
    ensures GeoTarget([a, b, Numbers.IntToString(n)] + more) == Ok([Pow10(-n)])
  {
    Numbers.ParseShowInt(n);
  }
}

=== FILE: cursor.dfy ===
/** The forward-only line source of one scan.

    A cursor is the whole log plus the position of the next unread line; reading
    past the last line is the `EndOfInput` failure (`next(inputfile)` raising
    `StopIteration`). There is no way back: every operation returns a cursor at
    the same or a later position over the same lines.
 */
module Cursor {
  import opened Results

  datatype LineCursor = LineCursor(lines: seq<string>, pos: nat) {

    /** How many lines are still unread. */
    function Remaining(): nat {
      if pos <= |lines| then |lines| - pos else 0
    }
  }

  /** `c1` is `c0` moved forward over the same lines. */
  predicate Advanced(c0: LineCursor, c1: LineCursor) {
    c1.lines == c0.lines && c0.pos <= c1.pos
  }

  datatype Read = Read(line: string, rest: LineCursor)

  /** `next(inputfile)`. */
  function Next(c: LineCursor): (r: Result<Read>)
    ensures r.Ok? <==> c.pos < |c.lines|
    ensures r.Ok? ==> (r.value.line == c.lines[c.pos]
                       && r.value.rest == LineCursor(c.lines, c.pos + 1))
    ensures r.Err? ==> r.failure == EndOfInput
  {
    if c.pos < |c.lines| then Ok(Read(c.lines[c.pos], LineCursor(c.lines, c.pos + 1)))
    else Err(EndOfInput)
  }

  /** `skip_line` / `skip_lines`: consume `n` lines without looking at them. */
  function Skip(c: LineCursor, n: nat): (r: Result<LineCursor>)
    ensures r.Ok? <==> c.pos + n <= |c.lines|
    ensures r.Ok? ==> r.value == LineCursor(c.lines, c.pos + n)
    ensures r.Err? ==> r.failure == EndOfInput
  {
    if c.pos + n <= |c.lines| then Ok(LineCursor(c.lines, c.pos + n)) else Err(EndOfInput)
  }

  /** `skip_lines` returns the lines it consumed. */
  function SkipLines(c: LineCursor, n: nat): (r: Result<(seq<string>, LineCursor)>)
    ensures r.Ok? <==> c.pos + n <= |c.lines|
    ensures r.Ok? ==> (r.value.0 == c.lines[c.pos..c.pos + n]
                       && r.value.1 == LineCursor(c.lines, c.pos + n))
  {
    if c.pos + n <= |c.lines| then Ok((c.lines[c.pos..c.pos + n], LineCursor(c.lines, c.pos + n)))
    else Err(EndOfInput)
  }

  /** What a block parser leaves behind: the line the scan continues with
      (the last one it read), the cursor after it, and its results. */
  datatype Step<S> = Step(line: string, rest: LineCursor, value: S)
}

=== FILE: firefly_pattern.dfy ===
/** The Firefly banner pattern `Firefly version\s([\d.]*)\D*(\d*)\s*\*`
    as predicates on positions, and a matcher for the part after the version
    run that picks the way Python's backtracking matcher prefers.
 */
module FireflyPattern {
  import opened Results
  import opened Text

  const Banner: string := "Firefly version"

  predicate VersionChar(c: char) {
    IsDigit(c) || c == '.'
  }

  /** The pattern `Firefly version\s([\d.]*)\D*(\d*)\s*\*` from the banner's
      end: `\D*` covers `d` characters, `(\d*)` covers `n`, `\s*` covers `w`,
      and a `*` follows. */
  predicate TailAt(s: string, b: nat, d: nat, n: nat, w: nat) {
    && b + d + n + w < |s|
    && (forall k :: b <= k < b + d ==> !IsDigit(s[k]))
    && (forall k :: b + d <= k < b + d + n ==> IsDigit(s[k]))
    && (forall k :: b + d + n <= k < b + d + n + w ==> IsSpace(s[k]))
    && s[b + d + n + w] == '*'
  }

  /** The banner text and one whitespace character start at `p`. */
  predicate BannerAt(s: string, p: nat) {
    OccursAt(s, Banner, p) && p + |Banner| < |s| && IsSpace(s[p + |Banner|])
  }

  /** The whole pattern matches from `p`, with `([\d.]*)` covering `a` characters. */
  predicate MatchAt(s: string, p: nat, a: nat, d: nat, n: nat, w: nat) {
    var q := p + |Banner| + 1;
    && BannerAt(s, p)
    && q + a <= |s|
    && (forall k :: q <= k < q + a ==> VersionChar(s[k]))
    && TailAt(s, q + a, d, n, w)
  }

  datatype Tail = Tail(d: nat, n: nat, w: nat)

  predicate TailLe(x: Tail, y: Tail) {
    x.d < y.d || (x.d == y.d && (x.n < y.n || (x.n == y.n && x.w <= y.w)))
  }

  /** Some way of finishing the pattern starts at `b`. */
  ghost predicate HasTail(s: string, b: nat) {
    exists d: nat, n: nat, w: nat :: TailAt(s, b, d, n, w)
  }

  /** `t` finishes the pattern from `b`, and is the way a backtracking matcher
      with greedy repetitions tries first: the longest `\D*`, then the longest
      `(\d*)`, then the longest `\s*`. */
  ghost predicate BestTail(s: string, b: nat, t: Tail) {
    && TailAt(s, b, t.d, t.n, t.w)
    && forall d: nat, n: nat, w: nat :: TailAt(s, b, d, n, w) ==> TailLe(Tail(d, n, w), t)
  }

  /** The pattern matches from `p` in some way. */
  ghost predicate AnyMatchAt(s: string, p: nat) {
    exists a: nat, d: nat, n: nat, w: nat :: MatchAt(s, p, a, d, n, w)
  }

  /** From `p`, the match with the longest version run and, for that run, the
      greediest tail. */
  ghost predicate BestAt(s: string, p: nat, a: nat, t: Tail) {
    && MatchAt(s, p, a, t.d, t.n, t.w)
    && forall a': nat, d: nat, n: nat, w: nat :: MatchAt(s, p, a', d, n, w) ==>
         a' < a || (a' == a && TailLe(Tail(d, n, w), t))
  }

  /** The match `re.search` reports: the leftmost start, and from it the way
      the backtracking matcher tries first. */
  ghost predicate Preferred(s: string, p: nat, a: nat, t: Tail) {
    && BestAt(s, p, a, t)
    && forall p': nat :: AnyMatchAt(s, p') ==> p <= p'
  }

  /** The last `*` in `s[lo..hi]`, or -1. */
  function LastStar(s: string, lo: nat, hi: nat): (k: int)
    requires lo <= hi <= |s|
    ensures k == -1 || (lo <= k < hi && s[k] == '*')
    decreases hi - lo
  {
    if hi == lo then -1
    else if s[hi - 1] == '*' then hi - 1
    else LastStar(s, lo, hi - 1)
  }

  /** `LastStar` finds the last `*`: none lies after it, and there is none
      at all when it reports -1. */
  lemma {:induction false} LastStarLast(s: string, lo: nat, hi: nat)
    requires lo <= hi <= |s|
    ensures LastStar(s, lo, hi) == -1 ==> forall j :: lo <= j < hi ==> s[j] != '*'
    ensures LastStar(s, lo, hi) != -1 ==> forall j :: LastStar(s, lo, hi) < j < hi ==> s[j] != '*'
    decreases hi - lo
  {
    if hi > lo && s[hi - 1] != '*' {
      LastStarLast(s, lo, hi - 1);
    }
  }

  /** The character classes the pattern repeats. */
  datatype Class = VersionChars | NonDigits | Digits | Spaces

  predicate InClass(k: Class, c: char) {
    match k
    case VersionChars => VersionChar(c)
    case NonDigits => !IsDigit(c)
    case Digits => IsDigit(c)
    case Spaces => IsSpace(c)
  }

  /** Where the run of class `k` that starts at `i` ends. */
  function RunEnd(s: string, k: Class, i: nat): (e: nat)
    requires i <= |s|
    ensures i <= e <= |s|
    decreases |s| - i
  {
    if i == |s| || !InClass(k, s[i]) then i else RunEnd(s, k, i + 1)
  }

  /** The run `RunEnd` measures is maximal: every character up to its end is of
      the class, and the character at its end is not. */
  lemma {:induction false} RunEndMaximal(s: string, k: Class, i: nat)
    requires i <= |s|
    ensures forall j :: i <= j < RunEnd(s, k, i) ==> InClass(k, s[j])
    ensures RunEnd(s, k, i) < |s| ==> !InClass(k, s[RunEnd(s, k, i)])
    decreases |s| - i
  {
    if i < |s| && InClass(k, s[i]) {
      RunEndMaximal(s, k, i + 1);
    }
  }

  /** The preferred way to finish the pattern from position `b`, if there is one. */
  function TailFrom(s: string, b: nat): Option<Tail>
    requires b <= |s|
  {
    var e := RunEnd(s, NonDigits, b);
    var m := RunEnd(s, Digits, e);
    var t := RunEnd(s, Spaces, m);
    if t < |s| && s[t] == '*' then
      Some(Tail(e - b, m - e, t - m))
    else
      var z := LastStar(s, b, e);
      if z == -1 then None else Some(Tail(z - b, 0, 0))
  }

  /** The three runs `TailFrom` measures from `b`, as plain character facts. */
  lemma ThreeRuns(s: string, b: nat, e: nat, m: nat, t: nat)
    requires b <= |s|
    requires e == RunEnd(s, NonDigits, b) && m == RunEnd(s, Digits, e) && t == RunEnd(s, Spaces, m)
    ensures b <= e <= m <= t <= |s|
    ensures forall k :: b <= k < e ==> !IsDigit(s[k])
    ensures e < |s| ==> IsDigit(s[e])
    ensures forall k :: e <= k < m ==> IsDigit(s[k])
    ensures m < |s| ==> !IsDigit(s[m])
    ensures forall k :: m <= k < t ==> IsSpace(s[k])
    ensures t < |s| ==> !IsSpace(s[t])
  {
    RunEndMaximal(s, NonDigits, b);
    RunEndMaximal(s, Digits, e);
    RunEndMaximal(s, Spaces, m);
    forall k | b <= k < e ensures !IsDigit(s[k]) { assert InClass(NonDigits, s[k]); }
    forall k | e <= k < m ensures IsDigit(s[k]) { assert InClass(Digits, s[k]); }
    forall k | m <= k < t ensures IsSpace(s[k]) { assert InClass(Spaces, s[k]); }
  }

  /** `TailFrom` finds the preferred tail, and finds none only when there is none. */
  lemma TailFromBest(s: string, b: nat)
    requires b <= |s|
    ensures TailFrom(s, b).Some? ==> BestTail(s, b, TailFrom(s, b).value)
    ensures TailFrom(s, b).None? ==> !HasTail(s, b)
  {
    var e := RunEnd(s, NonDigits, b);
    var m := RunEnd(s, Digits, e);
    var t := RunEnd(s, Spaces, m);
    ThreeRuns(s, b, e, m, t);
    Runs(s, b, e, m, t);
    if t < |s| && s[t] == '*' {
      assert TailFrom(s, b) == Some(Tail(e - b, m - e, t - m));
    } else if LastStar(s, b, e) == -1 {
      assert TailFrom(s, b).None?;
    } else {
      var z := LastStar(s, b, e);
      assert TailFrom(s, b) == Some(Tail(z - b, 0, 0));
    }
  }

  /** The case analysis behind `TailFrom`, with the three runs from `b` given:
      non-digits up to `e`, digits up to `m`, whitespace up to `t`. */
  lemma Runs(s: string, b: nat, e: nat, m: nat, t: nat)
    requires b <= e <= m <= t <= |s|
    requires forall k :: b <= k < e ==> !IsDigit(s[k])
    requires e < |s| ==> IsDigit(s[e])
    requires forall k :: e <= k < m ==> IsDigit(s[k])
    requires m < |s| ==> !IsDigit(s[m])
    requires forall k :: m <= k < t ==> IsSpace(s[k])
    requires t < |s| ==> !IsSpace(s[t])
    ensures t < |s| && s[t] == '*' ==> BestTail(s, b, Tail(e - b, m - e, t - m))
    ensures !(t < |s| && s[t] == '*') && LastStar(s, b, e) == -1 ==> !HasTail(s, b)
    ensures !(t < |s| && s[t] == '*') && LastStar(s, b, e) != -1 ==>
      BestTail(s, b, Tail(LastStar(s, b, e) - b, 0, 0))
  {
    var z := LastStar(s, b, e);
    LastStarLast(s, b, e);
    forall d, n, w | TailAt(s, b, d, n, w)
      ensures t < |s| && s[t] == '*' ==> TailLe(Tail(d, n, w), Tail(e - b, m - e, t - m))
      ensures !(t < |s| && s[t] == '*') ==> z != -1 && TailLe(Tail(d, n, w), Tail(z - b, 0, 0))
    {
      TailBounds(s, b, e, m, t, d, n, w);
    }
  }

  /** Where a tail can end, given the runs that start at `b`: either it takes
      the whole non-digit run, the whole digit run after it and the whole
      whitespace run after that, or it stops at a `*` inside the non-digit run. */
  lemma TailBounds(s: string, b: nat, e: nat, m: nat, t: nat, d: nat, n: nat, w: nat)
    requires b <= e <= m <= t <= |s|
    requires forall k :: b <= k < e ==> !IsDigit(s[k])
    requires e < |s| ==> IsDigit(s[e])
    requires forall k :: e <= k < m ==> IsDigit(s[k])
    requires m < |s| ==> !IsDigit(s[m])
    requires forall k :: m <= k < t ==> IsSpace(s[k])
    requires t < |s| ==> !IsSpace(s[t])
    requires TailAt(s, b, d, n, w)
    ensures d <= e - b
    ensures d == e - b ==> n == m - e && w == t - m && t < |s| && s[t] == '*'
    ensures d < e - b ==> n == 0 && b + d + w < e && s[b + d + w] == '*' && (w > 0 ==> IsSpace(s[b + d]))
  {
    var x := b + d + n + w;
    // The characters the case analysis looks at; naming them lets the run
    // facts above apply to them.
    var atM := if m < |s| then s[m] else ' ';
    var atT := if t < |s| then s[t] else ' ';
    var atE := if e < |s| then s[e] else ' ';
    var atD := s[b + d];
    var atN := s[b + d + n];
    var atX := s[x];
  }
}

=== FILE: gamess_aolabels.dfy ===
/** The atomic-orbital labels at the left of a GAMESS eigenvector table.

    Each row of the first block of coefficients starts with a label such as
    `  12  C  3  XX`: the orbital number, the element, the atom number and
    the orbital type. From these the scan files the orbital under its atom
    (`atombasis`) and names it (`aonames`, like `C3_XX`). GAMESS prints the
    atom number in two digits, so atom 100 comes out as 0; the scan adds
    100 each time a run of zeros starts. PC GAMESS leaves the atom number
    out for some F orbitals, and those rows reuse the last atom seen.
 */
module GamessAoLabels {
  import opened Results
  import opened Text
  import Numbers
  import PySeq

  /** The character classes of the label pattern
      `(\d+)\s*([A-Z][A-Z]?)\s*(\d+)\s*([A-Z]+)`. */
  datatype Class = Digits | Blanks | Capitals

  predicate InClass(c: char, k: Class) {
    match k
    case Digits => IsDigit(c)
    case Blanks => IsSpace(c)
    case Capitals => IsUpper(c)
  }

  predicate AllIn(s: string, k: Class) {
    forall i :: 0 <= i < |s| ==> InClass(s[i], k)
  }

  /** The end of the longest run of class `k` that starts at `i`. */
  function RunEnd(s: string, i: nat, k: Class): (j: nat)
    requires i <= |s|
    ensures i <= j <= |s|
    ensures j == |s| || !InClass(s[j], k)
    decreases |s| - i
  {
    if i == |s| || !InClass(s[i], k) then i else RunEnd(s, i + 1, k)
  }

  lemma {:induction false} RunEndAll(s: string, i: nat, k: Class)
    requires i <= |s|
    ensures AllIn(s[i..RunEnd(s, i, k)], k)
    decreases |s| - i
  {
    if i < |s| && InClass(s[i], k) {
      RunEndAll(s, i + 1, k);
      assert forall t :: 1 <= t < RunEnd(s, i, k) - i ==> s[i..RunEnd(s, i, k)][t] == s[i + 1..RunEnd(s, i, k)][t - 1];
    }
  }

  /** A run of class `k` followed by a character outside it ends there. */
  lemma {:induction false} RunEndAt(s: string, i: nat, j: nat, k: Class)
    requires i <= j <= |s|
    requires forall t :: i <= t < j ==> InClass(s[t], k)
    requires j == |s| || !InClass(s[j], k)
    ensures RunEnd(s, i, k) == j
    decreases j - i
  {
    if i < j {
      RunEndAt(s, i + 1, j, k);
    }
  }

  /** The four groups of a label. */
  datatype AoMatch = AoMatch(orbital: string, element: string, atom: string, kind: string)

  /** The label pattern matched at `i`, each part taking as much as it can.
      Taking less never helps: every part is followed by one that cannot
      start with the characters the previous part would give back, so this
      is the match the pattern has at `i` whenever it has one. */
  function MatchAt(s: string, i: nat): (r: Option<AoMatch>)
    requires i <= |s|
  {
    var a := RunEnd(s, i, Digits);
    var b := RunEnd(s, a, Blanks);
    if a == i || b == |s| || !IsUpper(s[b]) then None
    else
      var e := if b + 1 < |s| && IsUpper(s[b + 1]) then b + 2 else b + 1;
      match MatchTail(s, e)
      case None => None
      case Some(t) =>
        Some(AoMatch(s[i..a], s[b..e], t.0, t.1))
  }

  /** The part of the pattern after the element: blanks, the atom number,
      blanks and the orbital type. */
  function MatchTail(s: string, e: nat): (r: Option<(string, string)>)
    requires e <= |s|
  {
    var c := RunEnd(s, e, Blanks);
    var d := RunEnd(s, c, Digits);
    var f := RunEnd(s, d, Blanks);
    var g := RunEnd(s, f, Capitals);
    if d == c || g == f then None else Some((s[c..d], s[f..g]))
  }

  /** `re.search`: the match at the first position that has one. */
  function SearchFrom(s: string, i: nat): (r: Option<AoMatch>)
    requires i <= |s|
    decreases |s| - i
  {
    match MatchAt(s, i)
    case Some(m) => Some(m)
    case None => if i == |s| then None else SearchFrom(s, i + 1)
  }

  /** The orbital and atom numbers of a match are runs of digits. */
  lemma MatchDigits(s: string, i: nat)
    requires i <= |s| && MatchAt(s, i).Some?
    ensures |MatchAt(s, i).value.orbital| >= 1 && Numbers.AllDigits(MatchAt(s, i).value.orbital)
    ensures |MatchAt(s, i).value.atom| >= 1 && Numbers.AllDigits(MatchAt(s, i).value.atom)
  {
    var a := RunEnd(s, i, Digits);
    var e := MatchParts(s, i);
    RunEndAll(s, i, Digits);
    DigitsOf(s[i..a]);
    TailDigits(s, e);
  }

  /** Where a match's orbital number and atom number come from. */
  lemma MatchParts(s: string, i: nat) returns (e: nat)
    requires i <= |s| && MatchAt(s, i).Some?
    ensures e <= |s| && MatchTail(s, e).Some?
    ensures MatchAt(s, i).value.orbital == s[i..RunEnd(s, i, Digits)]
    ensures MatchAt(s, i).value.atom == MatchTail(s, e).value.0
  {
    var a := RunEnd(s, i, Digits);
    var b := RunEnd(s, a, Blanks);
    e := if b + 1 < |s| && IsUpper(s[b + 1]) then b + 2 else b + 1;
  }

  lemma TailDigits(s: string, e: nat)
    requires e <= |s| && MatchTail(s, e).Some?
    ensures |MatchTail(s, e).value.0| >= 1 && Numbers.AllDigits(MatchTail(s, e).value.0)
  {
    var c := RunEnd(s, e, Blanks);
    RunEndAll(s, c, Digits);
    DigitsOf(s[c..RunEnd(s, c, Digits)]);
  }

  lemma DigitsOf(x: string)
    requires AllIn(x, Digits)
    ensures Numbers.AllDigits(x)
  {
    assert forall i :: 0 <= i < |x| ==> InClass(x[i], Digits);
  }

  lemma {:induction false} SearchDigits(s: string, i: nat)
    requires i <= |s| && SearchFrom(s, i).Some?
    ensures |SearchFrom(s, i).value.orbital| >= 1 && Numbers.AllDigits(SearchFrom(s, i).value.orbital)
    ensures |SearchFrom(s, i).value.atom| >= 1 && Numbers.AllDigits(SearchFrom(s, i).value.atom)
    decreases |s| - i
  {
    if MatchAt(s, i).Some? {
      MatchDigits(s, i);
    } else {
      SearchDigits(s, i + 1);
    }
  }

  /** The search finds the match at the first position that has one, and
      nothing when no position from `i` on has one. */
  lemma {:induction false} SearchFinds(s: string, i: nat, j: nat)
    requires i <= j <= |s|
    requires forall t :: i <= t < j ==> MatchAt(s, t).None?
    ensures SearchFrom(s, i) == if j == |s| && MatchAt(s, j).None? then None else SearchFrom(s, j)
    decreases j - i
  {
    if i < j {
      SearchFinds(s, i + 1, j);
    }
  }

  lemma {:induction false} SearchNone(s: string, i: nat)
    requires i <= |s|
    requires forall t :: i <= t <= |s| ==> MatchAt(s, t).None?
    ensures SearchFrom(s, i).None?
    decreases |s| - i
  {
    if i < |s| {
      SearchNone(s, i + 1);
    }
  }

  /** A label whose characters run as the orbital number, blanks, a one- or
      two-letter element, blanks, the atom number, blanks and the orbital
      type (ending at `p7`) is read back into exactly those four parts. */
  lemma MatchOfParts(s: string, p1: nat, p2: nat, p3: nat, p4: nat, p5: nat, p6: nat, p7: nat)
    requires 0 < p1 <= p2 < p3 <= p2 + 2 && p3 <= p4 < p5 <= p6 < p7 <= |s|
    requires forall t :: 0 <= t < p1 ==> IsDigit(s[t])
    requires forall t :: p1 <= t < p2 ==> IsSpace(s[t])
    requires forall t :: p2 <= t < p3 ==> IsUpper(s[t])
    requires forall t :: p3 <= t < p4 ==> IsSpace(s[t])
    requires forall t :: p4 <= t < p5 ==> IsDigit(s[t])
    requires forall t :: p5 <= t < p6 ==> IsSpace(s[t])
    requires forall t :: p6 <= t < p7 ==> IsUpper(s[t])
    requires p7 == |s| || !IsUpper(s[p7])
    ensures MatchAt(s, 0) == Some(AoMatch(s[..p1], s[p2..p3], s[p4..p5], s[p6..p7]))
  {
    RunEndAt(s, 0, p1, Digits);
    RunEndAt(s, p1, p2, Blanks);
    assert IsUpper(s[p2]);
    assert !IsUpper(s[p3]) by {
      if p3 < p4 {
        assert IsSpace(s[p3]);
      } else {
        assert IsDigit(s[p3]);
      }
    }
    assert p3 == p2 + 2 ==> IsUpper(s[p2 + 1]);
    TailOfParts(s, p3, p4, p5, p6, p7);
    MatchOfEnds(s, p1, p2, p3, (s[p4..p5], s[p6..p7]));
  }

  /** The match once the runs' ends are known. */
  lemma MatchOfEnds(s: string, p1: nat, p2: nat, p3: nat, tail: (string, string))
    requires 0 < p1 <= p2 < |s| && RunEnd(s, 0, Digits) == p1 && RunEnd(s, p1, Blanks) == p2 && IsUpper(s[p2])
    requires p3 == if p2 + 1 < |s| && IsUpper(s[p2 + 1]) then p2 + 2 else p2 + 1
    requires MatchTail(s, p3) == Some(tail)
    ensures MatchAt(s, 0) == Some(AoMatch(s[..p1], s[p2..p3], tail.0, tail.1))
  {
    assert s[0..p1] == s[..p1];
  }

  lemma TailOfParts(s: string, p3: nat, p4: nat, p5: nat, p6: nat, p7: nat)
    requires p3 <= p4 < p5 <= p6 < p7 <= |s|
    requires forall t :: p3 <= t < p4 ==> IsSpace(s[t])
    requires forall t :: p4 <= t < p5 ==> IsDigit(s[t])
    requires forall t :: p5 <= t < p6 ==> IsSpace(s[t])
    requires forall t :: p6 <= t < p7 ==> IsUpper(s[t])
    requires p7 == |s| || !IsUpper(s[p7])
    ensures MatchTail(s, p3) == Some((s[p4..p5], s[p6..p7]))
  {
    RunEndAt(s, p3, p4, Blanks);
    RunEndAt(s, p4, p5, Digits);
    RunEndAt(s, p5, p6, Blanks);
    RunEndAt(s, p6, p7, Capitals);
  }

  /** The counter for atom numbers past 99: what has been added so far
      (`i_atom`), and whether the next 0 starts a new hundred (`flag_w`). */
  datatype Wrap = Wrap(offset: int, armed: bool)

  const Unwrapped: Wrap := Wrap(0, true)

  /** One printed atom number: a 0 while armed adds 100 and disarms; any
      other number arms again. The atom's true number is the printed one
      plus the new offset. */
  function WrapStep(w: Wrap, raw: int): (r: Wrap)
    ensures r.armed <==> raw != 0
  {
    var w1 := if raw == 0 && w.armed then Wrap(w.offset + 100, false) else w;
    if raw != 0 then w1.(armed := true) else w1
  }

  /** The counter after the printed numbers `raws`, in order. */
  function WrapAll(w: Wrap, raws: seq<int>): Wrap
    decreases |raws|
  {
    if raws == [] then w else WrapStep(WrapAll(w, raws[..|raws| - 1]), raws[|raws| - 1])
  }

  /** How many maximal runs of zeros `raws` holds. */
  function ZeroRuns(raws: seq<int>): nat
    decreases |raws|
  {
    if raws == [] then 0
    else
      var n := |raws| - 1;
      ZeroRuns(raws[..n]) + (if raws[n] == 0 && (n == 0 || raws[n - 1] != 0) then 1 else 0)
  }

  /** The offset grows by exactly 100 per maximal run of zeros, and the
      counter is armed exactly when the last number was not 0. */
  lemma {:induction false} WrapCounts(raws: seq<int>)
    ensures WrapAll(Unwrapped, raws) == Wrap(100 * ZeroRuns(raws), raws == [] || raws[|raws| - 1] != 0)
    decreases |raws|
  {
    if raws != [] {
      var n := |raws| - 1;
      WrapCounts(raws[..n]);
      if n > 0 {
        assert raws[..n][n - 1] == raws[n - 1];
      }
    }
  }

  /** What the label rows build: the counter, the last atom number as text
      (`oldatom`), the orbitals filed under each atom and the orbital names. */
  datatype AoState = AoState(wrap: Wrap, oldatom: string, atombasis: seq<seq<int>>, aonames: seq<string>)

  /** `atombasis[atomno].append(orbno)`, with Python's negative positions. */
  function File(atombasis: seq<seq<int>>, atomno: int, orbno: int): (r: Result<seq<seq<int>>>)
    ensures r.Ok? <==> -|atombasis| <= atomno < |atombasis|
    ensures r.Ok? ==> |r.value| == |atombasis|
    ensures 0 <= atomno < |atombasis| ==> r == Ok(atombasis[atomno := atombasis[atomno] + [orbno]])
    ensures -|atombasis| <= atomno < 0 ==>
      r == Ok(atombasis[|atombasis| + atomno := atombasis[|atombasis| + atomno] + [orbno]])
  {
    var xs :- PySeq.At(atombasis, atomno);
    PySeq.Update(atombasis, atomno, xs + [orbno])
  }

  /** The name of an orbital: the element capitalised, the atom number, an
      underscore and the orbital type. */
  function AoName(element: string, atom: string, kind: string): string {
    Capitalize(element) + atom + "_" + kind
  }

  /** The atom a matched label names: its printed number plus the
      counter's offset once the number is counted. */
  function TrueAtom(m: AoMatch, w: Wrap): int
    requires Numbers.AllDigits(m.atom)
  {
    var raw := Numbers.DigitsValue(m.atom);
    raw + WrapStep(w, raw).offset
  }

  /** A label row with the pattern: orbital `n - 1` is filed under the
      atom whose printed number, corrected by the counter, is `raw + offset`,
      and that number becomes the last atom seen. */
  function Matched(m: AoMatch, st: AoState): (r: Result<AoState>)
    requires Numbers.AllDigits(m.atom) && Numbers.AllDigits(m.orbital)
    ensures r.Ok? <==> -|st.atombasis| < TrueAtom(m, st.wrap) <= |st.atombasis|
    ensures r.Ok? ==> r.value.wrap == WrapStep(st.wrap, Numbers.DigitsValue(m.atom))
    ensures r.Ok? ==> r.value.oldatom == Numbers.IntToString(TrueAtom(m, st.wrap))
    ensures r.Ok? ==> r.value.aonames == st.aonames + [AoName(m.element, Numbers.IntToString(TrueAtom(m, st.wrap)), m.kind)]
    ensures r.Ok? && TrueAtom(m, st.wrap) >= 1 ==> (
      var k := TrueAtom(m, st.wrap) - 1;
      r.value.atombasis == st.atombasis[k := st.atombasis[k] + [Numbers.DigitsValue(m.orbital) - 1]])
  {
    var raw := Numbers.DigitsValue(m.atom);
    var w := WrapStep(st.wrap, raw);
    var g2 := raw + w.offset;
    var ab :- File(st.atombasis, g2 - 1, Numbers.DigitsValue(m.orbital) - 1);
    Ok(AoState(w, Numbers.IntToString(g2), ab, st.aonames + [AoName(m.element, Numbers.IntToString(g2), m.kind)]))
  }

  /** A label row without the pattern (a PC GAMESS F orbital): its second
      and third words are the element and the type, and the orbital goes to
      the last atom seen, or to the last atom of all (position -1) before
      any was seen. */
  function Unmatched(line: string, st: AoState): (r: Result<AoState>)
    ensures r.Ok? ==> |Split(line)| >= 3 && Numbers.Int(st.oldatom).Ok?
    ensures r.Ok? ==> r.value.wrap == st.wrap && r.value.oldatom == st.oldatom
    ensures r.Ok? ==> r.value.aonames == st.aonames + [AoName(Split(line)[1], st.oldatom, Split(line)[2])]
    ensures r.Ok? ==> |r.value.atombasis| == |st.atombasis|
  {
    var g := Split(line);
    var element :- PySeq.At(g, 1);
    var kind :- PySeq.At(g, 2);
    var atom :- Numbers.Int(st.oldatom);
    var orbital :- Numbers.Int(g[0]);
    var ab :- File(st.atombasis, atom - 1, orbital - 1);
    Ok(AoState(st.wrap, st.oldatom, ab, st.aonames + [AoName(element, st.oldatom, kind)]))
  }

  /** One label row: the pattern is looked for in the stripped first 17
      columns. */
  function AoLine(line: string, st: AoState): (r: Result<AoState>)
    ensures r.Ok? ==> |r.value.aonames| == |st.aonames| + 1 && r.value.aonames[..|st.aonames|] == st.aonames
    ensures r.Ok? ==> |r.value.atombasis| == |st.atombasis|
  {
    var start := Strip(PySeq.Take(line, 17));
    match SearchFrom(start, 0)
    case Some(m) => SearchDigits(start, 0); Matched(m, st)
    case None => Unmatched(line, st)
  }
}

=== FILE: gamess_basis.dfy ===
/** The `ATOMIC BASIS SET` section of a GAMESS log, read into `gbasis`.

    Each atom's shells are printed as blocks of primitive rows separated by
    blank lines; a row gives the shell number, the angular momentum letter,
    the primitive number, the exponent and the contraction coefficient. An
    `L` row describes an S and a P primitive with one exponent, and comes
    out as one S and one P shell. PC GAMESS prints the coefficients a
    second time, normalised, in parentheses, and those are the ones kept.
    GAMESS prints the basis of a run of identical atoms once, and the jump
    in shell numbers tells how many times that atom's shells repeat.
 */
module GamessBasis {
  import opened Results
  import opened Text
  import opened Cursor
  import Numbers
  import PySeq

  /** One primitive: its exponent and its contraction coefficient. */
  datatype Prim = Prim(exponent: real, coefficient: real)

  /** A contracted shell: the angular momentum letter and its primitives. */
  datatype Shell = Shell(sym: string, prims: seq<Prim>)

  /** One primitive filed under an angular momentum letter. */
  datatype Entry = Entry(sym: string, prim: Prim)

  /** What one row contributes: its own letter and its entries. */
  datatype Row = Row(sym: string, entries: seq<Entry>)

  predicate KnownSym(s: string) {
    s == "S" || s == "P" || s == "D" || s == "F" || s == "G" || s == "L"
  }

  /** `float(w[:-1])` of a word that must end in `)`. */
  function Parenthesised(w: string): (r: Result<real>)
    ensures r.Ok? ==> |w| >= 1 && w[|w| - 1] == ')' && Numbers.Real(w[..|w| - 1]) == r
  {
    var _ :- Need(|w| >= 1 && w[|w| - 1] == ')', "assert temp[6][-1] == ')'");
    Numbers.Real(w[..|w| - 1])
  }

  /** The entries a row files: an `L` row files an S and then a
      P entry, any other row one entry under its own letter. */
  predicate Shaped(row: Row) {
    if row.sym == "L" then |row.entries| == 2 && row.entries[0].sym == "S" && row.entries[1].sym == "P"
    else |row.entries| == 1 && row.entries[0].sym == row.sym
  }

  /** The entries of one primitive row, given as its words. A row of the
      GAMESS US layout has five words (six for `L`); any other length is
      read as the PC GAMESS layout, whose coefficients are words 6 (and 9
      for `L`). */
  function RowEntries(temp: seq<string>): (r: Result<Row>)
    ensures r.Ok? ==> |temp| >= 5 && r.value.sym == temp[1] && KnownSym(temp[1])
    ensures r.Ok? ==> Shaped(r.value)
    ensures r.Ok? ==> Numbers.Real(temp[3]) == Ok(r.value.entries[0].prim.exponent)
  {
    var sym :- PySeq.At(temp, 1);
    var _ :- Need(KnownSym(sym), "assert sym in ['S', 'P', 'D', 'F', 'G', 'L']");
    if sym == "L" then SpRow(temp) else LetterRow(temp, sym)
  }

  /** An `L` row: one exponent, then an S and a P coefficient. */
  function SpRow(temp: seq<string>): (r: Result<Row>)
    requires |temp| >= 2 && temp[1] == "L"
    ensures r.Ok? ==> |temp| >= 6 && r.value.sym == "L" && Shaped(r.value)
    ensures r.Ok? ==> Numbers.Real(temp[3]) == Ok(r.value.entries[0].prim.exponent)
    ensures r.Ok? ==> r.value.entries[0].prim.exponent == r.value.entries[1].prim.exponent
  {
    if |temp| == 6 then
      var e :- Numbers.Real(temp[3]);
      var s :- Numbers.Real(temp[4]);
      var p :- Numbers.Real(temp[5]);
      Ok(Row("L", [Entry("S", Prim(e, s)), Entry("P", Prim(e, p))]))
    else
      var w9 :- PySeq.At(temp, 9);
      var _ :- Need(|temp[6]| >= 1 && temp[6][|temp[6]| - 1] == ')' && |w9| >= 1 && w9[|w9| - 1] == ')',
        "assert temp[6][-1] == temp[9][-1] == ')'");
      var e :- Numbers.Real(temp[3]);
      var s :- Parenthesised(temp[6]);
      var p :- Parenthesised(w9);
      Ok(Row("L", [Entry("S", Prim(e, s)), Entry("P", Prim(e, p))]))
  }

  /** A row of any other letter: one exponent and one coefficient. */
  function LetterRow(temp: seq<string>, sym: string): (r: Result<Row>)
    requires sym != "L"
    ensures r.Ok? ==> |temp| >= 5 && r.value.sym == sym && Shaped(r.value)
    ensures r.Ok? ==> Numbers.Real(temp[3]) == Ok(r.value.entries[0].prim.exponent)
  {
    if |temp| == 5 then
      var e :- Numbers.Real(temp[3]);
      var v :- Numbers.Real(temp[4]);
      Ok(Row(sym, [Entry(sym, Prim(e, v))]))
    else
      var w6 :- PySeq.At(temp, 6);
      var e :- Numbers.Real(temp[3]);
      var v :- Parenthesised(w6);
      Ok(Row(sym, [Entry(sym, Prim(e, v))]))
  }

  /** An `L` row of the GAMESS US layout gives an S and a P primitive with
      the same exponent, word 3, and the coefficients of words 4 and 5. */
  lemma LRowSplits(temp: seq<string>, e: real, s: real, p: real)
    requires |temp| == 6 && temp[1] == "L"
    requires Numbers.Real(temp[3]) == Ok(e) && Numbers.Real(temp[4]) == Ok(s) && Numbers.Real(temp[5]) == Ok(p)
    ensures RowEntries(temp) == Ok(Row("L", [Entry("S", Prim(e, s)), Entry("P", Prim(e, p))]))
  {
  }

  /** A row of any other letter in the GAMESS US layout gives one
      primitive of that letter, from words 3 and 4. */
  lemma LetterRowReads(temp: seq<string>, e: real, v: real)
    requires |temp| == 5 && KnownSym(temp[1]) && temp[1] != "L"
    requires Numbers.Real(temp[3]) == Ok(e) && Numbers.Real(temp[4]) == Ok(v)
    ensures RowEntries(temp) == Ok(Row(temp[1], [Entry(temp[1], Prim(e, v))]))
  {
  }

  /** The primitives filed under `s`, in the order they were added: what
      `coeff[s]` holds after `coeff.setdefault(sym, []).append(...)` for
      each entry in turn. */
  function Prims(es: seq<Entry>, s: string): seq<Prim>
    decreases |es|
  {
    if es == [] then []
    else Prims(es[..|es| - 1], s) + (if es[|es| - 1].sym == s then [es[|es| - 1].prim] else [])
  }

  /** Appending to the dictionary only extends each letter's list. */
  lemma {:induction false} PrimsAppend(a: seq<Entry>, b: seq<Entry>, s: string)
    ensures Prims(a + b, s) == Prims(a, s) + Prims(b, s)
    decreases |b|
  {
    if b != [] {
      var ab := a + b;
      assert ab[..|ab| - 1] == a + b[..|b| - 1];
      assert ab[|ab| - 1] == b[|b| - 1];
      PrimsAppend(a, b[..|b| - 1], s);
    } else {
      assert a + b == a;
    }
  }

  /** The rows of one block so far: every entry added, and the letter of the
      last row (none before the first row). */
  datatype Block = Block(entries: seq<Entry>, sym: Option<string>)

  /** The shells a block adds: the S and P lists for an `L` block, otherwise
      the list of the last row's letter; a block without rows fails (the
      letter is unset or the fresh dictionary lacks it). */
  function ShellsOf(b: Block): (r: Result<seq<Shell>>)
    ensures r.Ok? ==> b.sym.Some?
    ensures r.Ok? && b.sym.value == "L" ==> r.value == [Shell("S", Prims(b.entries, "S")), Shell("P", Prims(b.entries, "P"))]
    ensures r.Ok? && b.sym.value != "L" ==> r.value == [Shell(b.sym.value, Prims(b.entries, b.sym.value))]
    ensures r.Ok? ==> forall i :: 0 <= i < |r.value| ==> |r.value[i].prims| > 0
  {
    match b.sym
    case None => Err(Malformed("local variable 'sym' referenced before assignment"))
    case Some(s) =>
      if s == "L" then
        var _ :- Need(|Prims(b.entries, "S")| > 0 && |Prims(b.entries, "P")| > 0, "KeyError");
        Ok([Shell("S", Prims(b.entries, "S")), Shell("P", Prims(b.entries, "P"))])
      else
        var _ :- Need(|Prims(b.entries, s)| > 0, "KeyError");
        Ok([Shell(s, Prims(b.entries, s))])
  }

  /** A row's own letter always finds its entries, whatever came before:
      the block that ends with it adds its shells without a `KeyError`. */
  lemma RowFiled(before: seq<Entry>, row: Row)
    requires Shaped(row)
    ensures ShellsOf(Block(before + row.entries, Some(row.sym))).Ok?
  {
    if row.sym == "L" {
      PrimsAppend(before, row.entries, "S");
      PrimsAppend(before, row.entries, "P");
      assert row.entries[..1] == [row.entries[0]];
      assert [row.entries[0]][..0] == [];
    } else {
      PrimsAppend(before, row.entries, row.sym);
      assert row.entries[..0] == [];
    }
  }

  /** The words of a line, read as a primitive row. */
  function RowOfLine(line: string): Result<Row> {
    RowEntries(Split(line))
  }

  /** The rows of one block, up to the blank line that ends it; `read`
      gives a row's entries (`RowOfLine` in the scan). */
  function ShellRows(read: string -> Result<Row>, line: string, c: LineCursor, b: Block): (r: Result<Step<Block>>)
    ensures r.Ok? ==> IsBlank(r.value.line) && Advanced(c, r.value.rest)
    ensures r.Ok? ==> b.entries <= r.value.value.entries
    ensures r.Ok? && !IsBlank(line) ==> r.value.value.sym.Some?
    ensures IsBlank(line) ==> r == Ok(Step(line, c, b))
    decreases c.Remaining()
  {
    if IsBlank(line) then Ok(Step(line, c, b))
    else
      var row :- read(line);
      var rd :- Next(c);
      ShellRows(read, rd.line, rd.rest, Block(b.entries + row.entries, Some(row.sym)))
  }

  /** The entries of `rows`, in the order they are added. */
  function Flatten(rows: seq<Row>): (es: seq<Entry>)
    decreases |rows|
  {
    if rows == [] then [] else Flatten(rows[..|rows| - 1]) + rows[|rows| - 1].entries
  }

  /** The letter a block remembers after its first `k` rows. */
  function LastSym(rows: seq<Row>, k: nat): Option<string>
    requires k <= |rows|
  {
    if k == 0 then None else Some(rows[k - 1].sym)
  }

  /** Lines `base..` hold the rows `rows`, and a blank line ends them. */
  predicate BlockRows(read: string -> Result<Row>, lines: seq<string>, base: nat, rows: seq<Row>) {
    && base + |rows| < |lines|
    && (forall i :: 0 <= i < |rows| ==> !IsBlank(lines[base + i]) && read(lines[base + i]) == Ok(rows[i]))
    && IsBlank(lines[base + |rows|])
  }

  /** Reading a block from its row `k` on collects the entries of all its
      rows and stops at the blank line after them. */
  lemma {:induction false} ShellRowsRead(read: string -> Result<Row>, lines: seq<string>, base: nat, rows: seq<Row>, k: nat)
    requires k <= |rows| && BlockRows(read, lines, base, rows)
    ensures ShellRows(read, lines[base + k], LineCursor(lines, base + k + 1), Block(Flatten(rows[..k]), LastSym(rows, k)))
         == Ok(Step(lines[base + |rows|], LineCursor(lines, base + |rows| + 1), Block(Flatten(rows), LastSym(rows, |rows|))))
    decreases |rows| - k
  {
    if k == |rows| {
      assert rows[..k] == rows;
    } else {
      assert rows[..k + 1][..k] == rows[..k];
      assert Flatten(rows[..k + 1]) == Flatten(rows[..k]) + rows[k].entries;
      assert !IsBlank(lines[base + k]) && read(lines[base + k]) == Ok(rows[k]);
      ShellRowsRead(read, lines, base, rows, k + 1);
    }
  }

  /** Each row adds exactly the primitive `qs[i]` under `s`, so the block
      collects them in order. */
  lemma {:induction false} PrimsOfRows(rows: seq<Row>, s: string, qs: seq<Prim>)
    requires |rows| == |qs|
    requires forall i :: 0 <= i < |rows| ==> Prims(rows[i].entries, s) == [qs[i]]
    ensures Prims(Flatten(rows), s) == qs
    decreases |rows|
  {
    if rows != [] {
      var n := |rows| - 1;
      PrimsOfRows(rows[..n], s, qs[..n]);
      PrimsAppend(Flatten(rows[..n]), rows[n].entries, s);
      assert qs == qs[..n] + [qs[n]];
    }
  }

  /** The rows of a block of one letter other than `L`. */
  function LetterRows(s: string, prims: seq<Prim>): (rows: seq<Row>)
    ensures |rows| == |prims|
  {
    seq(|prims|, i requires 0 <= i < |prims| => Row(s, [Entry(s, prims[i])]))
  }

  /** A block whose rows all have one letter other than `L` adds a single
      shell of that letter holding every row's primitive in order. */
  lemma LetterBlock(read: string -> Result<Row>, lines: seq<string>, base: nat, s: string, prims: seq<Prim>)
    requires |prims| > 0 && s != "L" && BlockRows(read, lines, base, LetterRows(s, prims))
    ensures var r := ShellRows(read, lines[base], LineCursor(lines, base + 1), Block([], None));
      && r.Ok?
      && r.value.rest == LineCursor(lines, base + |prims| + 1)
      && ShellsOf(r.value.value) == Ok([Shell(s, prims)])
  {
    var rows := LetterRows(s, prims);
    assert rows[..0] == [];
    ShellRowsRead(read, lines, base, rows, 0);
    LetterRowsPrims(s, prims);
  }

  lemma LetterRowsPrims(s: string, prims: seq<Prim>)
    ensures Prims(Flatten(LetterRows(s, prims)), s) == prims
  {
    var rows := LetterRows(s, prims);
    forall i | 0 <= i < |rows|
      ensures Prims(rows[i].entries, s) == [prims[i]]
    {
      assert rows[i].entries[..0] == [];
    }
    PrimsOfRows(rows, s, prims);
  }

  /** One row of an `L` block: the shared exponent and the S and P
      coefficients. */
  datatype SpPrim = SpPrim(exponent: real, s: real, p: real)

  function SpRows(ps: seq<SpPrim>): (rows: seq<Row>)
    ensures |rows| == |ps|
  {
    seq(|ps|, i requires 0 <= i < |ps| =>
      Row("L", [Entry("S", Prim(ps[i].exponent, ps[i].s)), Entry("P", Prim(ps[i].exponent, ps[i].p))]))
  }

  function SPrims(ps: seq<SpPrim>): (r: seq<Prim>)
    ensures |r| == |ps|
  {
    seq(|ps|, i requires 0 <= i < |ps| => Prim(ps[i].exponent, ps[i].s))
  }

  function PPrims(ps: seq<SpPrim>): (r: seq<Prim>)
    ensures |r| == |ps|
  {
    seq(|ps|, i requires 0 <= i < |ps| => Prim(ps[i].exponent, ps[i].p))
  }

  /** A block of `L` rows adds an S shell and then a P shell, the two with
      the same exponents, row by row. */
  lemma SpBlock(read: string -> Result<Row>, lines: seq<string>, base: nat, ps: seq<SpPrim>)
    requires |ps| > 0 && BlockRows(read, lines, base, SpRows(ps))
    ensures var r := ShellRows(read, lines[base], LineCursor(lines, base + 1), Block([], None));
      && r.Ok?
      && r.value.rest == LineCursor(lines, base + |ps| + 1)
      && ShellsOf(r.value.value) == Ok([Shell("S", SPrims(ps)), Shell("P", PPrims(ps))])
  {
    var rows := SpRows(ps);
    assert rows[..0] == [];
    ShellRowsRead(read, lines, base, rows, 0);
    SpRowsPrims(ps);
  }

  /** The two entries of an `L` row, each under its own letter. */
  lemma SpEntryPrims(e: Entry, f: Entry)
    requires e.sym == "S" && f.sym == "P"
    ensures Prims([e, f], "S") == [e.prim] && Prims([e, f], "P") == [f.prim]
  {
    assert [e, f][..1] == [e] && [e][..0] == [];
    assert Prims([e], "S") == [e.prim] && Prims([e], "P") == [];
  }

  lemma SpRowsPrims(ps: seq<SpPrim>)
    ensures Prims(Flatten(SpRows(ps)), "S") == SPrims(ps)
    ensures Prims(Flatten(SpRows(ps)), "P") == PPrims(ps)
  {
    var rows := SpRows(ps);
    forall i | 0 <= i < |rows|
      ensures Prims(rows[i].entries, "S") == [SPrims(ps)[i]]
      ensures Prims(rows[i].entries, "P") == [PPrims(ps)[i]]
    {
      SpEntryPrims(rows[i].entries[0], rows[i].entries[1]);
    }
    PrimsOfRows(rows, "S", SPrims(ps));
    PrimsOfRows(rows, "P", PPrims(ps));
  }

  /** The shells of one atom and how many blocks they came in, read until
      the line naming the next atom (a single word) or the section's end. */
  function AtomShells(line: string, c: LineCursor, shells: seq<Shell>, size: nat): (r: Result<Step<(seq<Shell>, nat)>>)
    ensures r.Ok? ==> Advanced(c, r.value.rest)
    ensures r.Ok? ==> |Split(r.value.line)| == 1 || Contains(r.value.line, "TOTAL NUMBER")
    ensures r.Ok? ==> r.value.value.1 >= size && |r.value.value.0| >= |shells| + r.value.value.1 - size
    ensures r.Ok? ==> shells <= r.value.value.0
    decreases c.Remaining()
  {
    if |Split(line)| == 1 || Contains(line, "TOTAL NUMBER") then Ok(Step(line, c, (shells, size)))
    else
      var blk :- ShellRows(RowOfLine, line, c, Block([], None));
      var add :- ShellsOf(blk.value);
      var rd :- Next(blk.rest);
      AtomShells(rd.line, rd.rest, shells + add, size + 1)
  }

  /** How many times an atom's shells are stored: one plus the number of
      further copies the gap in shell numbers leaves room for. The block
      size is positive here, where Dafny's division is Python's `//`. */
  function Copies(gap: int, size: nat): (n: int)
    requires size > 0
  {
    1 + gap / size
  }

  /** A gap of `k` whole copies of the atom's shells gives `k + 1` copies;
      a shell number at or behind the counter gives one copy or none. */
  lemma CopiesOfGap(k: int, extra: int, size: nat)
    requires size > 0 && 0 <= extra < size
    ensures Copies(k * size + extra, size) == k + 1
  {
    var a := k * size + extra;
    var d := a / size - k;
    assert a == (a / size) * size + a % size;
    assert d * size == extra - a % size;
  }

  /** The atoms of the section: for each, the shell number of its first
      row sets the gap from `counter`, the shell number the previous atom
      would end at, and the atom's shells are appended once per copy. */
  function Atoms(line: string, c: LineCursor, counter: int, gbasis: seq<seq<Shell>>): (r: Result<Step<seq<seq<Shell>>>>)
    ensures r.Ok? ==> Contains(r.value.line, "TOTAL NUMBER") && Advanced(c, r.value.rest)
    ensures r.Ok? ==> gbasis <= r.value.value
    ensures Contains(line, "TOTAL NUMBER") ==> r == Ok(Step(line, c, gbasis))
    decreases c.Remaining()
  {
    if Contains(line, "TOTAL NUMBER") then Ok(Step(line, c, gbasis))
    else
      var c1 :- Skip(c, 1);
      var rd :- Next(c1);
      var w :- PySeq.At(Split(rd.line), 0);
      var shellno :- Numbers.Int(w);
      var atom :- AtomShells(rd.line, rd.rest, [], 0);
      var size := atom.value.1;
      var _ :- Need(size != 0, "integer division or modulo by zero");
      var more := PySeq.Repeat(atom.value.0, Copies(shellno - counter, size));
      Atoms(atom.line, atom.rest, shellno + size, gbasis + more)
  }

  /** The line that opens the section: the title at columns 5-20. */
  predicate BasisLine(line: string) {
    Sub(line, 5, 21) == "ATOMIC BASIS SET"
  }

  /** Lines up to and including the first one that mentions `SHELL`. */
  function ToShell(c: LineCursor): (r: Result<Read>)
    ensures r.Ok? ==> Contains(r.value.line, "SHELL") && Advanced(c, r.value.rest) && r.value.rest.pos > c.pos
    decreases c.Remaining()
  {
    var rd :- Next(c);
    if Contains(rd.line, "SHELL") then Ok(rd) else ToShell(rd.rest)
  }

  /** The whole section: past the column headings, a blank line and the
      first atom's name, then the atoms until `TOTAL NUMBER`. */
  function Basis(line: string, c: LineCursor): (r: Result<Step<seq<seq<Shell>>>>)
    requires BasisLine(line)
    ensures r.Ok? ==> Contains(r.value.line, "TOTAL NUMBER") && Advanced(c, r.value.rest) && r.value.rest.pos > c.pos
  {
    var hd :- ToShell(c);
    var c1 :- Skip(hd.rest, 2);
    Atoms(hd.line, c1, 1, [])
  }
}

=== FILE: gamess_cc.dfy ===
/** The coupled-cluster energies of a GAMESS log.

    A CCD run prints one `CCD ENERGY:` line. A CCSD run prints `CCSD ENERGY:`
    and, when triples were requested, `CCSD[T] ENERGY:` and `CCSD(T) ENERGY:`
    on the lines right after it. Only the highest level printed is kept, so
    each block adds exactly one energy, while every level reached is named
    in the methods.
 */
module GamessCC {
  import opened Results
  import opened Text
  import opened Cursor
  import Numbers
  import PySeq

  /** The methods named so far and the `ccenergies` list, absent until the
      first coupled-cluster block. */
  datatype CcState = CcState(methods: seq<string>, ccenergies: Option<seq<real>>)

  function Entries(cc: Option<seq<real>>): seq<real> {
    if cc.Some? then cc.value else []
  }

  /** The CCD energy line: its label sits at columns 12-22. */
  predicate CcdLine(line: string) {
    Sub(line, 12, 23) == "CCD ENERGY:"
  }

  /** The line that opens a CCSD block: its first two words. */
  predicate CcsdLine(line: string) {
    Find(line, "CCSD") >= 0 && PySeq.Take(Split(line), 2) == ["CCSD", "ENERGY:"]
  }

  /** The levels a CCSD block can reach, in the order they are printed. */
  function Levels(): seq<string> {
    ["CCSD", "CCSD[T]", "CCSD(T)"]
  }

  /** The line after level `i - 1` reports level `i` (1 or 2): its label
      sits at columns 8-22. */
  predicate PrintsLevel(line: string, i: nat)
    requires 1 <= i <= 2
  {
    Sub(line, 8, 23) == if i == 1 then "CCSD[T] ENERGY:" else "CCSD(T) ENERGY:"
  }

  /** A CCD line appends its energy and names the method. */
  function Ccd(line: string, st: CcState): (r: Result<CcState>)
    requires CcdLine(line)
    ensures r.Ok? <==> Numbers.Field(line, 2).Ok?
    ensures r.Ok? ==> r.value.methods == st.methods + ["CCD"]
    ensures r.Ok? ==> (
      var es := Entries(r.value.ccenergies);
      && r.value.ccenergies.Some?
      && |es| == |Entries(st.ccenergies)| + 1
      && es[..|es| - 1] == Entries(st.ccenergies)
      && es[|es| - 1] == Numbers.Field(line, 2).value)
  {
    var e :- Numbers.Field(line, 2);
    Ok(CcState(st.methods + ["CCD"], Some(Entries(st.ccenergies) + [e])))
  }


  /** A CCSD block: one to three levels are reached, and the block fails when
      its own energy is unreadable or no line follows it. */
  function Ccsd(line: string, c: LineCursor, st: CcState): (r: Result<Step<CcState>>)
    requires CcsdLine(line)
    ensures r.Ok? ==> Advanced(c, r.value.rest)
    ensures Numbers.Field(line, 2).Err? ==> r.Err?
    ensures c.pos >= |c.lines| ==> r.Err?
    ensures r.Ok? ==> |r.value.value.methods| - |st.methods| in {1, 2, 3}
  {
    var e :- Numbers.Field(line, 2);
    var rd :- Next(c);
    AfterCcsd(e, rd.line, rd.rest, st)
  }

  /** The line after `CCSD ENERGY:`: either it reports CCSD[T], or the
      block ends with the CCSD energy `e` and the scan goes on from it. */
  function AfterCcsd(e: real, next: string, rest: LineCursor, st: CcState): (r: Result<Step<CcState>>)
    ensures r.Ok? ==> Advanced(rest, r.value.rest)
    ensures !PrintsLevel(next, 1) ==> r == Ok(Step(next, rest, CcState(st.methods + ["CCSD"], With(st, e))))
    ensures r.Ok? ==> |r.value.value.methods| - |st.methods| in {1, 2, 3}
  {
    if !PrintsLevel(next, 1) then
      Ok(Step(next, rest, CcState(st.methods + ["CCSD"], With(st, e))))
    else
      var e1 :- Numbers.Field(next, 2);
      var rd :- Next(rest);
      AfterBracketT(e1, rd.line, rd.rest, st)
  }

  /** The line after `CCSD[T] ENERGY:`: either it reports CCSD(T), whose
      energy is then kept, or the CCSD[T] energy `e1` is kept. */
  function AfterBracketT(e1: real, next: string, rest: LineCursor, st: CcState): (r: Result<Step<CcState>>)
    ensures r.Ok? ==> r.value.rest == rest
    ensures !PrintsLevel(next, 2) ==> r == Ok(Step(next, rest, CcState(st.methods + ["CCSD", "CCSD[T]"], With(st, e1))))
    ensures PrintsLevel(next, 2) ==> (
      && (r.Ok? <==> Numbers.Field(next, 2).Ok?)
      && (r.Ok? ==> r.value == Step(next, rest, CcState(st.methods + Levels(), With(st, Numbers.Field(next, 2).value)))))
  {
    if !PrintsLevel(next, 2) then
      Ok(Step(next, rest, CcState(st.methods + ["CCSD", "CCSD[T]"], With(st, e1))))
    else
      var e2 :- Numbers.Field(next, 2);
      Ok(Step(next, rest, CcState(st.methods + Levels(), With(st, e2))))
  }

  /** The energies a block appends to: the list so far, or a new one. */
  function With(st: CcState, e: real): (r: Option<seq<real>>)
    ensures r.Some? && Entries(r) == Entries(st.ccenergies) + [e]
  {
    Some(Entries(st.ccenergies) + [e])
  }

  /** CCSD alone: the line after the block's first does not report CCSD[T],
      so the CCSD energy is kept and the scan goes on from that line. */
  lemma CcsdOnly(line: string, c: LineCursor, st: CcState, e: real)
    requires CcsdLine(line) && Numbers.Field(line, 2) == Ok(e)
    requires c.pos < |c.lines| && !PrintsLevel(c.lines[c.pos], 1)
    ensures Ccsd(line, c, st) == Ok(Step(c.lines[c.pos], LineCursor(c.lines, c.pos + 1),
      CcState(st.methods + ["CCSD"], With(st, e))))
  {
  }

  /** CCSD and CCSD[T]: the CCSD[T] energy replaces the CCSD one, and the
      line after it, which does not report CCSD(T), is where the scan goes on. */
  lemma CcsdBracketT(line: string, c: LineCursor, st: CcState, e: real, e1: real)
    requires CcsdLine(line) && Numbers.Field(line, 2) == Ok(e)
    requires c.pos + 1 < |c.lines|
    requires PrintsLevel(c.lines[c.pos], 1) && Numbers.Field(c.lines[c.pos], 2) == Ok(e1)
    requires !PrintsLevel(c.lines[c.pos + 1], 2)
    ensures Ccsd(line, c, st) == Ok(Step(c.lines[c.pos + 1], LineCursor(c.lines, c.pos + 2),
      CcState(st.methods + ["CCSD", "CCSD[T]"], With(st, e1))))
  {
    var rest := LineCursor(c.lines, c.pos + 1);
    var r := AfterBracketT(e1, c.lines[c.pos + 1], LineCursor(c.lines, c.pos + 2), st);
    assert AfterCcsd(e, c.lines[c.pos], rest, st) == r;
  }

  /** All three levels: only the CCSD(T) energy is kept, and all three
      methods are named. */
  lemma CcsdParenT(line: string, c: LineCursor, st: CcState, e: real, e1: real, e2: real)
    requires CcsdLine(line) && Numbers.Field(line, 2) == Ok(e)
    requires c.pos + 1 < |c.lines|
    requires PrintsLevel(c.lines[c.pos], 1) && Numbers.Field(c.lines[c.pos], 2) == Ok(e1)
    requires PrintsLevel(c.lines[c.pos + 1], 2) && Numbers.Field(c.lines[c.pos + 1], 2) == Ok(e2)
    ensures Ccsd(line, c, st) == Ok(Step(c.lines[c.pos + 1], LineCursor(c.lines, c.pos + 2),
      CcState(st.methods + Levels(), With(st, e2))))
  {
    var rest := LineCursor(c.lines, c.pos + 1);
    var r := AfterBracketT(e1, c.lines[c.pos + 1], LineCursor(c.lines, c.pos + 2), st);
    assert AfterCcsd(e, c.lines[c.pos], rest, st) == r;
  }
}

=== FILE: gamess_coeffs.dfy ===
/** One row of a GAMESS eigenvector table, cut into coefficients.

    After the 15 columns of the orbital label, each coefficient takes 11
    columns, and a slice is read as long as it starts at least five columns
    before the end of the line. Row `i` of a table whose first orbital is
    `base` fills column `i` of rows `base`, `base + 1`, ... of the
    coefficient matrix.
 */
module GamessCoeffs {
  import opened Results
  import opened Text
  import Numbers
  import PySeq

  /** `coeffs[j*11:(j+1)*11]` for `j`, `j + 1`, ... while `j*11 + 4 < len(coeffs)`. */
  function Chunks(coeffs: string, j: nat): (r: seq<string>)
    decreases |coeffs| - j * 11
  {
    if j * 11 + 4 < |coeffs| then [Sub(coeffs, j * 11, (j + 1) * 11)] + Chunks(coeffs, j + 1) else []
  }

  /** How many slices a text of length `n` gives, counting from `j`. */
  lemma {:induction false} ChunkCount(coeffs: string, j: nat)
    ensures |Chunks(coeffs, j)| == if (|coeffs| + 6) / 11 > j then (|coeffs| + 6) / 11 - j else 0
    decreases |coeffs| - j * 11
  {
    var n := (|coeffs| + 6) / 11;
    if j * 11 + 4 < |coeffs| {
      assert j < n;
      ChunkCount(coeffs, j + 1);
    } else {
      assert j >= n;
    }
  }

  /** The concatenation of 11-column fields: field `j` sits at `11*j`. */
  lemma {:induction false} ConcatFields(ws: seq<string>, j: nat)
    requires forall k :: 0 <= k < |ws| ==> |ws[k]| == 11
    requires j < |ws|
    ensures |PySeq.Concat(ws)| == 11 * |ws|
    ensures PySeq.Concat(ws)[11 * j..11 * j + 11] == ws[j]
    decreases |ws|
  {
    var rest := ws[1..];
    if |rest| > 0 {
      ConcatFields(rest, if j > 0 then j - 1 else 0);
    } else {
      assert PySeq.Concat(rest) == [];
    }
    if j > 0 {
      assert PySeq.Concat(ws)[11 * j..11 * j + 11] == PySeq.Concat(rest)[11 * (j - 1)..11 * (j - 1) + 11];
    }
  }

  /** Fields printed 11 columns wide are sliced back into those fields. */
  lemma {:induction false} ChunksOfFields(ws: seq<string>, j: nat)
    requires forall k :: 0 <= k < |ws| ==> |ws[k]| == 11
    requires j <= |ws|
    ensures Chunks(PySeq.Concat(ws), j) == ws[j..]
    decreases |ws| - j
  {
    var s := PySeq.Concat(ws);
    if j < |ws| {
      ConcatFields(ws, j);
      assert Sub(s, j * 11, (j + 1) * 11) == ws[j];
      ChunksOfFields(ws, j + 1);
      assert ws[j..] == [ws[j]] + ws[j + 1..];
    } else if |ws| > 0 {
      ConcatFields(ws, 0);
    }
  }

  /** The coefficients of a row: everything after column 15, sliced. */
  function CoeffRow(line: string): (r: Result<seq<real>>)
    ensures r.Ok? ==> |r.value| == |Chunks(From(line, 15), 0)|
  {
    Numbers.Floats(Chunks(From(line, 15), 0))
  }

  /** A row printed as a 15-column label and then 11-column fields reads
      back the values of those fields. */
  lemma CoeffRowOfFields(head: string, ws: seq<string>)
    requires |head| == 15 && forall k :: 0 <= k < |ws| ==> |ws[k]| == 11
    ensures CoeffRow(head + PySeq.Concat(ws)) == Numbers.Floats(ws)
  {
    var line := head + PySeq.Concat(ws);
    assert From(line, 15) == PySeq.Concat(ws);
    ChunksOfFields(ws, 0);
  }

  /** A matrix whose every row has `cols` entries, and `rows` rows. */
  predicate Rect(m: seq<seq<real>>, rows: nat, cols: nat) {
    |m| == rows && forall k :: 0 <= k < |m| ==> |m[k]| == cols
  }

  /** `numpy.zeros((rows, cols))`. */
  function Zeros(rows: nat, cols: nat): (m: seq<seq<real>>)
    ensures Rect(m, rows, cols)
  {
    seq(rows, k => seq(cols, l => 0.0))
  }

  /** `m[r, c] = v`: outside the matrix it is an `IndexError`. */
  function Put(m: seq<seq<real>>, r: nat, c: nat, v: real): (res: Result<seq<seq<real>>>)
    ensures res.Ok? <==> r < |m| && c < |m[r]|
    ensures res.Ok? ==> res.value == m[r := m[r][c := v]]
  {
    if r < |m| && c < |m[r]| then Ok(m[r := m[r][c := v]]) else Err(Malformed("index out of bounds"))
  }

  /** `m[base + j, i] = vals[j]` for each `j` in turn. */
  function Column(m: seq<seq<real>>, base: nat, i: nat, vals: seq<real>): (r: Result<seq<seq<real>>>)
    ensures r.Ok? ==> |r.value| == |m| && forall k :: 0 <= k < |m| ==> |r.value[k]| == |m[k]|
    decreases |vals|
  {
    if vals == [] then Ok(m)
    else
      var m1 :- Put(m, base, i, vals[0]);
      Column(m1, base + 1, i, vals[1..])
  }

  /** In an `rows` by `cols` matrix, column `i < cols` takes the values
      exactly when they fit below row `base`; those cells get the values,
      and every other cell is unchanged. */
  lemma {:induction false} ColumnSets(m: seq<seq<real>>, rows: nat, cols: nat, base: nat, i: nat, vals: seq<real>)
    requires Rect(m, rows, cols) && i < cols
    ensures Column(m, base, i, vals).Ok? <==> vals == [] || base + |vals| <= rows
    ensures Column(m, base, i, vals).Ok? ==> Rect(Column(m, base, i, vals).value, rows, cols)
    ensures Column(m, base, i, vals).Ok? ==> forall k, l :: 0 <= k < rows && 0 <= l < cols ==>
      Column(m, base, i, vals).value[k][l] == if l == i && base <= k < base + |vals| then vals[k - base] else m[k][l]
    decreases |vals|
  {
    if vals != [] && base < rows {
      var m1 := m[base := m[base][i := vals[0]]];
      ColumnSets(m1, rows, cols, base + 1, i, vals[1..]);
    }
  }
}

=== FILE: gamess_ecp.dfy ===
/** The core electrons an effective core potential replaces, per atom
    (`coreelectrons`), from the `ECP POTENTIALS` section of a GAMESS log.

    Past a rule and a blank line, each potential opens with a header line
    whose first word is `PARAMETERS`, with the atom number in columns
    34-39. The potential is either given explicitly, with `WITH ZCORE` in
    columns 40-49 and the core electron count in columns 50-54 (and the
    maximum angular momentum in columns 63-66), or copied from another
    atom, with `ARE THE SAME AS` in columns 40-54 and that atom's number
    from column 60 on. The potential's lines follow up to a blank line,
    and the next header comes after it. Atom numbers count from 1 and
    index the list as Python does, so 0 names the last atom.
 */
module GamessEcp {
  import opened Results
  import opened Text
  import opened Cursor
  import Numbers
  import PySeq

  predicate EcpLine(line: string) {
    Contains(line, "ECP POTENTIALS")
  }

  /** What a header line says about one atom's potential. */
  datatype Header =
    | Zcore(atom: int, zcore: int)
    | SameAs(atom: int, other: int)
    | Other(atom: int)

  /** The header of a potential. The maximum angular momentum is read and
      must be a number, though it is not kept. */
  function ParseHeader(header: string): (r: Result<Header>)
    ensures r.Ok? ==> Numbers.Int(Sub(header, 34, 40)) == Ok(r.value.atom)
    ensures r.Ok? && Sub(header, 40, 50) == "WITH ZCORE" ==>
      r.value.Zcore? && Numbers.Int(Sub(header, 50, 55)) == Ok(r.value.zcore) && Numbers.Int(Sub(header, 63, 67)).Ok?
    ensures r.Ok? && Sub(header, 40, 50) != "WITH ZCORE" && Sub(header, 40, 55) == "ARE THE SAME AS" ==>
      r.value.SameAs? && Numbers.Int(From(header, 60)) == Ok(r.value.other)
    ensures r.Ok? && Sub(header, 40, 50) != "WITH ZCORE" && Sub(header, 40, 55) != "ARE THE SAME AS" ==> r.value.Other?
  {
    var atom :- Numbers.Int(Sub(header, 34, 40));
    if Sub(header, 40, 50) == "WITH ZCORE" then
      var zcore :- Numbers.Int(Sub(header, 50, 55));
      var _ :- Numbers.Int(Sub(header, 63, 67));
      Ok(Zcore(atom, zcore))
    else if Sub(header, 40, 55) == "ARE THE SAME AS" then
      var other :- Numbers.Int(From(header, 60));
      Ok(SameAs(atom, other))
    else Ok(Other(atom))
  }

  /** What a header does to the core electron counts: an explicit
      potential sets the atom's count, a copied one takes the other atom's
      count, and any other header leaves the counts alone. */
  function Apply(core: seq<int>, h: Header): (r: Result<seq<int>>)
    ensures r.Ok? ==> |r.value| == |core|
    ensures h.Other? ==> r == Ok(core)
    ensures h.Zcore? ==> r == PySeq.Update(core, h.atom - 1, h.zcore)
    ensures h.SameAs? ==> (r.Ok? <==> PySeq.At(core, h.other - 1).Ok? && -|core| <= h.atom - 1 < |core|)
  {
    match h
    case Zcore(atom, zcore) => PySeq.Update(core, atom - 1, zcore)
    case SameAs(atom, other) =>
      var z :- PySeq.At(core, other - 1);
      PySeq.Update(core, atom - 1, z)
    case Other(_) => Ok(core)
  }

  /** An atom whose potential copies another's gets that atom's count,
      whether the other was set explicitly before or not; no other atom
      changes. */
  lemma SameAsCopies(core: seq<int>, atom: nat, other: nat)
    requires 1 <= atom <= |core| && 1 <= other <= |core|
    ensures Apply(core, SameAs(atom, other)).Ok?
    ensures Apply(core, SameAs(atom, other)).value[atom - 1] == core[other - 1]
    ensures forall k :: 0 <= k < |core| && k != atom - 1 ==> Apply(core, SameAs(atom, other)).value[k] == core[k]
  {
  }

  /** An explicit potential for one atom followed by a copy of it to
      another gives both atoms the same count. */
  lemma ZcoreThenSameAs(core: seq<int>, a: nat, b: nat, z: int)
    requires 1 <= a <= |core| && 1 <= b <= |core|
    ensures Apply(core, Zcore(a, z)).Ok?
    ensures Apply(Apply(core, Zcore(a, z)).value, SameAs(b, a)).Ok?
    ensures var r := Apply(Apply(core, Zcore(a, z)).value, SameAs(b, a)).value; r[a - 1] == z && r[b - 1] == z
  {
  }

  /** Lines up to and including the next blank one (the line after the
      header is read in any case). */
  function ToBlank(c: LineCursor): (r: Result<Read>)
    ensures r.Ok? ==> IsBlank(r.value.line) && Advanced(c, r.value.rest) && r.value.rest.pos > c.pos
    decreases c.Remaining()
  {
    var rd :- Next(c);
    if IsBlank(rd.line) then Ok(rd) else ToBlank(rd.rest)
  }

  /** The potentials, from the header line `header` on, as long as a
      header's first word is `PARAMETERS`; a blank line where a header
      should be is an `IndexError`. */
  function Potentials(line: string, header: string, c: LineCursor, core: seq<int>): (r: Result<Step<seq<int>>>)
    ensures r.Ok? ==> |r.value.value| == |core| && Advanced(c, r.value.rest)
    ensures Split(header) == [] ==> r.Err?
    ensures Split(header) != [] && Split(header)[0] != "PARAMETERS" ==> r == Ok(Step(line, c, core))
    decreases c.Remaining()
  {
    var ws := Split(header);
    var _ :- Need(ws != [], "list index out of range");
    if ws[0] != "PARAMETERS" then Ok(Step(line, c, core))
    else
      var h :- ParseHeader(header);
      var core1 :- Apply(core, h);
      var blank :- ToBlank(c);
      var next :- Next(blank.rest);
      Potentials(blank.line, next.line, next.rest, core1)
  }

  /** The section: the counts read before, or else one count of 0 per
      atom (so `natom` must be known); past the rule and blank line, then
      the potentials. */
  function Ecp(line: string, c: LineCursor, natom: Option<nat>, prior: Option<seq<int>>): (r: Result<Step<seq<int>>>)
    requires EcpLine(line)
    ensures prior.None? && natom.None? ==> r.Err?
    ensures r.Ok? ==> Advanced(c, r.value.rest)
    ensures r.Ok? ==> |r.value.value| == if prior.Some? then |prior.value| else natom.value
  {
    var core :- if prior.Some? then Ok(prior.value)
                else (var _ :- Need(natom.Some?, "'GAMESS' object has no attribute 'natom'");
                      Ok(PySeq.Repeat(0, natom.value)));
    var c1 :- Skip(c, 2);
    var header :- Next(c1);
    Potentials(line, header.line, header.rest, core)
  }
}

=== FILE: gamess_gradients.dfy ===
/** The maximum and RMS gradient lines of a GAMESS geometry optimisation.

    Newer versions print both values on one line of eight words, older ones
    on two lines of four words each, and FMO runs prefix the one-line form
    with `(1)`. Lines that merely mention the gradients (the advice printed
    at the end of an optimisation) are recognised by their first word and
    end the scan of that line.
 */
module GamessGradients {
  import opened Results
  import opened Text
  import opened Cursor
  import Numbers

  /** One entry of `geovalues`: the maximum and the RMS gradient. */
  datatype GradPair = GradPair(maximum: real, rms: real)

  predicate GradientLine(line: string) {
    Contains(line, "MAXIMUM GRADIENT") || Contains(line, "RMS GRADIENT")
  }

  /** The first words of the lines that carry values. */
  predicate Leader(w: string) {
    w == "MAXIMUM" || w == "RMS" || w == "(1)"
  }

  /** The maximum and RMS gradients as words `i` and `j` of a line. */
  function PairAt(line: string, i: nat, j: nat): (r: Result<GradPair>)
    ensures r.Ok? <==> Numbers.Field(line, i).Ok? && Numbers.Field(line, j).Ok?
    ensures r.Ok? ==> r.value == GradPair(Numbers.Field(line, i).value, Numbers.Field(line, j).value)
  {
    var maximum :- Numbers.Field(line, i);
    var rms :- Numbers.Field(line, j);
    Ok(GradPair(maximum, rms))
  }

  /** The line after a four-word maximum line: the RMS gradient is its word
      3, unless it has nine words, in which case it is read like an FMO line
      and its values replace both. */
  function RmsLine(maximum: real, next: string): (r: Result<GradPair>)
    ensures r.Ok? ==> Numbers.Field(next, 3).Ok?
    ensures |Split(next)| == 9 && Numbers.Field(next, 3).Ok? ==> r == PairAt(next, 4, 8)
    ensures r.Ok? && |Split(next)| != 9 ==> r.value == GradPair(maximum, Numbers.Field(next, 3).value)
    ensures |Split(next)| != 9 && Numbers.Field(next, 3).Ok? ==> r.Ok?
  {
    var rms :- Numbers.Field(next, 3);
    if |Split(next)| == 9 then PairAt(next, 4, 8) else Ok(GradPair(maximum, rms))
  }

  /** The older two-line form: the maximum from this line, the rest from the
      next, where the scan goes on. */
  function TwoLines(line: string, c: LineCursor): (r: Result<Step<GradPair>>)
    ensures r.Ok? ==>
      && c.pos < |c.lines|
      && r.value.line == c.lines[c.pos]
      && r.value.rest == LineCursor(c.lines, c.pos + 1)
      && Numbers.Field(line, 3).Ok?
      && RmsLine(Numbers.Field(line, 3).value, c.lines[c.pos]) == Ok(r.value.value)
    ensures c.pos >= |c.lines| && Numbers.Field(line, 3).Ok? ==> r == Err(EndOfInput)
    ensures c.pos < |c.lines| && Numbers.Field(line, 3).Ok? && RmsLine(Numbers.Field(line, 3).value, c.lines[c.pos]).Ok?
      ==> r.Ok?
  {
    var maximum :- Numbers.Field(line, 3);
    var rd :- Next(c);
    var p :- RmsLine(maximum, rd.line);
    Ok(Step(rd.line, rd.rest, p))
  }

  /** The values of a gradient line: `None` for a line that only mentions the
      gradients (the block returns without touching `geovalues`), one pair
      for each of the three layouts, and a failure for a line of any other
      length. */
  function Gradient(line: string, c: LineCursor): (r: Result<Step<Option<GradPair>>>)
    ensures r.Ok? ==> Advanced(c, r.value.rest)
    ensures var parts := Split(line);
      r.Ok? && r.value.value.None? <==> |parts| >= 1 && !Leader(parts[0])
    ensures r.Ok? && r.value.value.None? ==> r.value.line == line && r.value.rest == c
    ensures var parts := Split(line);
      |parts| >= 1 && Leader(parts[0]) && |parts| == 8 ==>
        r == (var p :- PairAt(line, 3, 7); Ok(Step(line, c, Some(p))))
    ensures var parts := Split(line);
      |parts| >= 1 && Leader(parts[0]) && |parts| == 9 ==>
        r == (var p :- PairAt(line, 4, 8); Ok(Step(line, c, Some(p))))
    ensures var parts := Split(line);
      |parts| >= 1 && Leader(parts[0]) && |parts| == 4 ==>
        r == (var s :- TwoLines(line, c); Ok(Step(s.line, s.rest, Some(s.value))))
    ensures var parts := Split(line);
      |parts| == 0 || (Leader(parts[0]) && |parts| != 4 && |parts| != 8 && |parts| != 9) ==>
        r.Err? && r.failure.Malformed?
  {
    var parts := Split(line);
    if |parts| == 0 then Err(Malformed("list index out of range"))
    else if !Leader(parts[0]) then Ok(Step(line, c, None))
    else if |parts| == 8 then
      var p :- PairAt(line, 3, 7);
      Ok(Step(line, c, Some(p)))
    else if |parts| == 4 then
      var s :- TwoLines(line, c);
      Ok(Step(s.line, s.rest, Some(s.value)))
    else if |parts| == 9 then
      var p :- PairAt(line, 4, 8);
      Ok(Step(line, c, Some(p)))
    else
      Err(Malformed("local variable 'maximum' referenced before assignment"))
  }

  /** A value word: a number printed without whitespace. */
  predicate NumberWord(w: string) {
    IsToken(w) && Numbers.Real(w).Ok?
  }

  function OneLineWords(m: string, rms: string): seq<string> {
    ["MAXIMUM", "GRADIENT", "=", m, "RMS", "GRADIENT", "=", rms]
  }

  function FmoWords(m: string, rms: string): seq<string> {
    ["(1)", "MAXIMUM", "GRADIENT", "=", m, "RMS", "GRADIENT", "=", rms]
  }

  lemma LiteralTokens()
    ensures IsToken("MAXIMUM") && IsToken("GRADIENT") && IsToken("=") && IsToken("RMS") && IsToken("(1)")
  {
  }

  /** Every word of a list drawn from known tokens is a token. */
  lemma TokensFrom(ws: seq<string>, words: set<string>)
    requires forall w :: w in words ==> IsToken(w)
    requires forall k :: 0 <= k < |ws| ==> ws[k] in words
    ensures forall k :: 0 <= k < |ws| ==> IsToken(ws[k])
  {
  }

  /** Every word of the printed forms is a token. */
  lemma WordsAreTokens(m: string, rms: string)
    requires IsToken(m) && IsToken(rms)
    ensures var ws := OneLineWords(m, rms); forall k :: 0 <= k < |ws| ==> IsToken(ws[k])
    ensures var ws := FmoWords(m, rms); forall k :: 0 <= k < |ws| ==> IsToken(ws[k])
  {
    LiteralTokens();
    var words := {"MAXIMUM", "GRADIENT", "=", "RMS", "(1)", m, rms};
    var ws := FmoWords(m, rms);
    assert forall k :: 0 <= k < |ws| ==> ws[k] in words;
    TokensFrom(ws, words);
    var ws1 := OneLineWords(m, rms);
    assert forall k :: 0 <= k < |ws1| ==> ws1[k] == ws[k + 1];
  }

  /** The same for the two lines of the older form. */
  lemma TwoLineWordsAreTokens(m: string, rms: string)
    requires IsToken(m) && IsToken(rms)
    ensures var ws := ["MAXIMUM", "GRADIENT", "=", m]; forall k :: 0 <= k < |ws| ==> IsToken(ws[k])
    ensures var ws := ["RMS", "GRADIENT", "=", rms]; forall k :: 0 <= k < |ws| ==> IsToken(ws[k])
  {
    LiteralTokens();
    var words := {"MAXIMUM", "GRADIENT", "=", "RMS", m, rms};
    TokensFrom(["MAXIMUM", "GRADIENT", "=", m], words);
    TokensFrom(["RMS", "GRADIENT", "=", rms], words);
  }

  lemma MaximumWords()
    ensures OccursAt(Spaced(["MAXIMUM", "GRADIENT"]), "MAXIMUM GRADIENT", 0)
  {
    assert Spaced(["GRADIENT"]) == "GRADIENT ";
    assert Spaced(["MAXIMUM", "GRADIENT"]) == "MAXIMUM GRADIENT ";
  }

  lemma FmoMaximumWords()
    ensures OccursAt(Spaced(["(1)", "MAXIMUM", "GRADIENT"]), "MAXIMUM GRADIENT", 4)
  {
    SpacedAppend(["(1)"], ["MAXIMUM", "GRADIENT"]);
    assert ["(1)"] + ["MAXIMUM", "GRADIENT"] == ["(1)", "MAXIMUM", "GRADIENT"];
    assert Spaced(["(1)"]) == "(1) ";
    MaximumWords();
  }

  lemma {:induction false} OneLineMarker(ws: seq<string>)
    requires |ws| >= 2 && ws[..2] == ["MAXIMUM", "GRADIENT"]
    ensures GradientLine(Spaced(ws))
  {
    MaximumWords();
    assert ws == ["MAXIMUM", "GRADIENT"] + ws[2..];
    ContainsSpacedPrefix(["MAXIMUM", "GRADIENT"], ws[2..], "MAXIMUM GRADIENT", 0);
  }

  lemma {:induction false} FmoMarker(ws: seq<string>)
    requires |ws| >= 3 && ws[..3] == ["(1)", "MAXIMUM", "GRADIENT"]
    ensures GradientLine(Spaced(ws))
  {
    FmoMaximumWords();
    assert ws == ["(1)", "MAXIMUM", "GRADIENT"] + ws[3..];
    ContainsSpacedPrefix(["(1)", "MAXIMUM", "GRADIENT"], ws[3..], "MAXIMUM GRADIENT", 4);
  }

  /** The values at words `i` and `j` of a line printed from tokens. */
  lemma PairOfSpaced(ws: seq<string>, i: nat, j: nat)
    requires forall k :: 0 <= k < |ws| ==> IsToken(ws[k])
    requires i < |ws| && j < |ws| && Numbers.Real(ws[i]).Ok? && Numbers.Real(ws[j]).Ok?
    ensures PairAt(Spaced(ws), i, j) == Ok(GradPair(Numbers.Real(ws[i]).value, Numbers.Real(ws[j]).value))
  {
    Numbers.FieldOfSpaced(ws, i);
    Numbers.FieldOfSpaced(ws, j);
  }

  /** Any line of eight words led by a value word yields the pair at words
      3 and 7, and keeps the scan on that line. */
  lemma EightWords(line: string, c: LineCursor, p: GradPair)
    requires |Split(line)| == 8 && Leader(Split(line)[0]) && PairAt(line, 3, 7) == Ok(p)
    ensures Gradient(line, c) == Ok(Step(line, c, Some(p)))
  {
  }

  /** Any line of nine words led by a value word (the FMO form) yields the
      pair at words 4 and 8. */
  lemma NineWords(line: string, c: LineCursor, p: GradPair)
    requires |Split(line)| == 9 && Leader(Split(line)[0]) && PairAt(line, 4, 8) == Ok(p)
    ensures Gradient(line, c) == Ok(Step(line, c, Some(p)))
  {
  }

  /** The newer one-line form, printed with single spaces, is a gradient
      line whose words are the ones printed. */
  lemma OneLinePrinted(m: string, rms: string)
    requires IsToken(m) && IsToken(rms)
    ensures GradientLine(Spaced(OneLineWords(m, rms)))
    ensures Split(Spaced(OneLineWords(m, rms))) == OneLineWords(m, rms)
  {
    OneLineMarker(OneLineWords(m, rms));
    WordsAreTokens(m, rms);
    SplitSpaced(OneLineWords(m, rms));
  }

  /** The same for the FMO form. */
  lemma FmoPrinted(m: string, rms: string)
    requires IsToken(m) && IsToken(rms)
    ensures GradientLine(Spaced(FmoWords(m, rms)))
    ensures Split(Spaced(FmoWords(m, rms))) == FmoWords(m, rms)
  {
    FmoMarker(FmoWords(m, rms));
    WordsAreTokens(m, rms);
    SplitSpaced(FmoWords(m, rms));
  }

  /** The same for the two lines of the older form. */
  lemma TwoLinesPrinted(m: string, rms: string)
    requires IsToken(m) && IsToken(rms)
    ensures GradientLine(Spaced(["MAXIMUM", "GRADIENT", "=", m]))
    ensures Split(Spaced(["MAXIMUM", "GRADIENT", "=", m])) == ["MAXIMUM", "GRADIENT", "=", m]
    ensures Split(Spaced(["RMS", "GRADIENT", "=", rms])) == ["RMS", "GRADIENT", "=", rms]
  {
    OneLineMarker(["MAXIMUM", "GRADIENT", "=", m]);
    TwoLineWordsAreTokens(m, rms);
    SplitSpaced(["MAXIMUM", "GRADIENT", "=", m]);
    SplitSpaced(["RMS", "GRADIENT", "=", rms]);
  }

  /** A line with the words of the newer one-line form reads back the two
      values, and the scan stays on that line. */
  lemma OneLineReadsBack(line: string, m: string, rms: string, c: LineCursor)
    requires NumberWord(m) && NumberWord(rms) && Split(line) == OneLineWords(m, rms)
    ensures Gradient(line, c) == Ok(Step(line, c, Some(GradPair(Numbers.Real(m).value, Numbers.Real(rms).value))))
  {
    assert Numbers.Field(line, 3) == Numbers.Real(m) by { assert Split(line)[3] == m; }
    assert Numbers.Field(line, 7) == Numbers.Real(rms) by { assert Split(line)[7] == rms; }
    EightWords(line, c, GradPair(Numbers.Real(m).value, Numbers.Real(rms).value));
  }

  /** A line with the words of the FMO form reads back the same way. */
  lemma FmoReadsBack(line: string, m: string, rms: string, c: LineCursor)
    requires NumberWord(m) && NumberWord(rms) && Split(line) == FmoWords(m, rms)
    ensures Gradient(line, c) == Ok(Step(line, c, Some(GradPair(Numbers.Real(m).value, Numbers.Real(rms).value))))
  {
    assert Numbers.Field(line, 4) == Numbers.Real(m) by { assert Split(line)[4] == m; }
    assert Numbers.Field(line, 8) == Numbers.Real(rms) by { assert Split(line)[8] == rms; }
    NineWords(line, c, GradPair(Numbers.Real(m).value, Numbers.Real(rms).value));
  }

  /** A four-word maximum line followed by a four-word RMS line gives the
      maximum of the first and the RMS of the second. */
  lemma RmsOfFour(maximum: real, next: string, rms: real)
    requires |Split(next)| == 4 && Numbers.Field(next, 3) == Ok(rms)
    ensures RmsLine(maximum, next) == Ok(GradPair(maximum, rms))
  {
  }

  /** The older form moves the scan to the RMS line. */
  lemma TwoLinesOfRms(line: string, c: LineCursor, maximum: real, p: GradPair)
    requires c.pos < |c.lines|
    requires Numbers.Field(line, 3) == Ok(maximum) && RmsLine(maximum, c.lines[c.pos]) == Ok(p)
    ensures TwoLines(line, c) == Ok(Step(c.lines[c.pos], LineCursor(c.lines, c.pos + 1), p))
  {
  }

  /** Lines with the words of the older two-line form give the maximum of the
      first and the RMS gradient of the second, where the scan goes on. */
  lemma TwoLinesReadBack(line: string, m: string, rms: string, c: LineCursor)
    requires NumberWord(m) && NumberWord(rms)
    requires Split(line) == ["MAXIMUM", "GRADIENT", "=", m]
    requires c.pos < |c.lines| && Split(c.lines[c.pos]) == ["RMS", "GRADIENT", "=", rms]
    ensures Gradient(line, c)
      == Ok(Step(c.lines[c.pos], LineCursor(c.lines, c.pos + 1), Some(GradPair(Numbers.Real(m).value, Numbers.Real(rms).value))))
  {
    var maximum := Numbers.Real(m).value;
    var p := GradPair(maximum, Numbers.Real(rms).value);
    RmsOfFour(maximum, c.lines[c.pos], Numbers.Real(rms).value);
    TwoLinesOfRms(line, c, maximum, p);
  }
}

=== FILE: gamess_labels.dfy ===
/** GAMESS symmetry labels in cclib's normal form. */
module GamessLabels {
  import opened Text

  /** The tail letters GAMESS prints in upper case: `U` and `G` become `u` and `g`. */
  function LowerUG(c: char): char {
    if c == 'U' then 'u' else if c == 'G' then 'g' else c
  }

  /** `normalisesym`: a tail of exactly two single quotes becomes one double
      quote; otherwise the first character stays and the tail has its `U` and
      `G` lower-cased, so the length is kept. Labels come from `split()`, so
      they are never empty. */
  function NormaliseSym(sym: string): (r: string)
    requires |sym| >= 1
    ensures sym[1..] == "''" ==> r == [sym[0], '"']
    ensures sym[1..] != "''" ==> (
      && |r| == |sym|
      && r[0] == sym[0]
      && forall i :: 1 <= i < |sym| ==> r[i] == LowerUG(sym[i]))
  {
    var tail := sym[1..];
    if tail == "''" then [sym[0]] + "\""
    else
      ReplaceChar(tail, 'U', 'u');
      ReplaceChar(SwapChar(tail, 'U', 'u'), 'G', 'g');
      [sym[0]] + Replace(Replace(tail, "U", "u"), "G", "g")
  }

  /** A normal sym is its own normal form. */
  lemma NormaliseSymIdempotent(sym: string)
    requires |sym| >= 1
    ensures NormaliseSym(NormaliseSym(sym)) == NormaliseSym(sym)
  {
    var once := NormaliseSym(sym);
    if sym[1..] == "''" {
      assert once[1..] == "\"";
    } else {
      assert once[1..] != "''" by {
        if |once| == 3 {
          assert once[1] == LowerUG(sym[1]);
          assert sym[1..] != "''" && |sym| == 3;
          assert sym[1] != '\'' || sym[2] != '\'';
        }
      }
      assert NormaliseSym(once) == once;
    }
  }
}

=== FILE: gamess_orbitals.dfy ===
/** The molecular orbitals of a GAMESS log: `moenergies`, `mosyms` and
    `mocoeffs`, and on the first table also `atombasis` and `aonames`.

    The final report of the orbitals is a table printed five orbitals at a
    time: a blank line, the orbital numbers, their energies, their
    symmetries, then one row per basis function. An unrestricted run
    prints the alpha table, then a `BETA SET` banner and the beta table.
    Several early exits leave a table unfinished: a line that is not blank
    where a block should start, the `BETA SET` banner where the orbital
    numbers should be, a rule of dashes or unreadable energies where the
    energies should be.
 */
module GamessOrbitals {
  import opened Results
  import opened Text
  import opened Cursor
  import Numbers
  import GamessLabels
  import GamessAoLabels
  import GamessCoeffs

  /** The lines that open an orbital table, by where their title sits. */
  predicate OrbitalsLine(line: string) {
    Find(line, "EIGENVECTORS") == 10 || Find(line, "MOLECULAR ORBITALS") == 10 || Find(line, "INITIAL GUESS ORBITALS") == 30
  }

  /** What the table of one spin gives: the orbital energies, their
      symmetries and the coefficient matrix (orbitals by basis functions). */
  datatype Spin = Spin(energies: seq<real>, syms: seq<string>, coeffs: seq<seq<real>>)

  /** The symmetries of a line, each in normal form. */
  function Syms(line: string): (r: seq<string>)
    ensures |r| == |Split(line)|
  {
    var ws := Split(line);
    SplitSpec(line);
    seq(|ws|, i requires 0 <= i < |ws| => assert ws[i] in ws; GamessLabels.NormaliseSym(ws[i]))
  }

  /** Each symmetry is the normal form of the word at its place. */
  lemma SymsEach(line: string, i: nat)
    requires i < |Split(line)|
    ensures |Split(line)[i]| >= 1 && Syms(line)[i] == GamessLabels.NormaliseSym(Split(line)[i])
  {
    SplitSpec(line);
    assert Split(line)[i] in Split(line);
  }

  /** The same number of rows, each as long as before. */
  predicate SameShape(a: seq<seq<real>>, b: seq<seq<real>>) {
    |a| == |b| && forall k :: 0 <= k < |a| ==> |a[k]| == |b[k]|
  }

  /** The rows of one alpha block: up to `nbasis` lines, or fewer when a
      blank line comes first. Row `i` fills column `i` of the block's
      orbitals; on the first block, while the labels are still unread,
      each row's label is filed too. */
  function AlphaRows(line: string, c: LineCursor, i: nat, nbasis: nat, base: nat, coeffs: seq<seq<real>>,
                     ao: Option<GamessAoLabels.AoState>): (r: Result<Step<(seq<seq<real>>, Option<GamessAoLabels.AoState>)>>)
    ensures r.Ok? ==> Advanced(c, r.value.rest) && SameShape(r.value.value.0, coeffs)
    ensures r.Ok? ==> (r.value.value.1.Some? <==> ao.Some?)
    ensures r.Ok? && ao.Some? ==> |r.value.value.1.value.atombasis| == |ao.value.atombasis|
    decreases nbasis - i
  {
    if i >= nbasis then Ok(Step(line, c, (coeffs, ao)))
    else
      var rd :- Next(c);
      if IsBlank(rd.line) then Ok(Step(rd.line, rd.rest, (coeffs, ao)))
      else
        var ao1 :- FileLabel(rd.line, base, ao);
        var vals :- GamessCoeffs.CoeffRow(rd.line);
        var m :- GamessCoeffs.Column(coeffs, base, i, vals);
        AlphaRows(rd.line, rd.rest, i + 1, nbasis, base, m, ao1)
  }

  /** Where column `l` of a block's rows lands: row `l - i` of `vs` fills
      rows `base`, `base + 1`, ... of column `l`; every other cell keeps
      its value. */
  ghost predicate Filled(m: seq<seq<real>>, m0: seq<seq<real>>, rows: nat, cols: nat, base: nat, i: nat, vs: seq<seq<real>>) {
    GamessCoeffs.Rect(m, rows, cols) && GamessCoeffs.Rect(m0, rows, cols) &&
    forall k, l :: 0 <= k < rows && 0 <= l < cols ==>
      m[k][l] == if i <= l < i + |vs| && base <= k < base + |vs[l - i]| then vs[l - i][k - base] else m0[k][l]
  }

  /** Lines `pos`, `pos + 1`, ... are coefficient rows reading `vs`, each
      fitting below orbital `base` of `rows`. */
  ghost predicate RowsAt(lines: seq<string>, pos: nat, vs: seq<seq<real>>, base: nat, rows: nat) {
    pos + |vs| <= |lines| &&
    forall t :: 0 <= t < |vs| ==> GamessCoeffs.CoeffRow(lines[pos + t]) == Ok(vs[t]) && base + |vs[t]| <= rows
  }

  lemma RowsAtRest(lines: seq<string>, pos: nat, vs: seq<seq<real>>, base: nat, rows: nat)
    requires RowsAt(lines, pos, vs, base, rows) && |vs| > 0
    ensures GamessCoeffs.CoeffRow(lines[pos]) == Ok(vs[0]) && base + |vs[0]| <= rows
    ensures RowsAt(lines, pos + 1, vs[1..], base, rows)
  {
    assert lines[pos + 0] == lines[pos];
    forall t | 0 <= t < |vs| - 1
      ensures GamessCoeffs.CoeffRow(lines[pos + 1 + t]) == Ok(vs[1..][t]) && base + |vs[1..][t]| <= rows
    {
      assert lines[pos + 1 + t] == lines[pos + (t + 1)];
    }
  }

  /** Lines `pos` to `pos + n` are none of them blank. */
  ghost predicate TextAt(lines: seq<string>, pos: nat, n: nat) {
    pos + n <= |lines| && forall t :: pos <= t < pos + n ==> !IsBlank(lines[t])
  }

  /** Filling column `i` with `vs[0]` and then the columns after it with
      the rest of `vs` fills the columns from `i` on with `vs`. */
  lemma FilledStep(m2: seq<seq<real>>, m1: seq<seq<real>>, m: seq<seq<real>>, rows: nat, cols: nat, base: nat, i: nat, vs: seq<seq<real>>)
    requires |vs| >= 1 && GamessCoeffs.Rect(m, rows, cols) && GamessCoeffs.Rect(m1, rows, cols)
    requires forall k, l :: 0 <= k < rows && 0 <= l < cols ==>
      m1[k][l] == if l == i && base <= k < base + |vs[0]| then vs[0][k - base] else m[k][l]
    requires Filled(m2, m1, rows, cols, base, i + 1, vs[1..])
    ensures Filled(m2, m, rows, cols, base, i, vs)
  {
    forall k, l | 0 <= k < rows && 0 <= l < cols
      ensures m2[k][l] == if i <= l < i + |vs| && base <= k < base + |vs[l - i]| then vs[l - i][k - base] else m[k][l]
    {
      if l > i && l < i + |vs| {
        assert vs[1..][l - (i + 1)] == vs[l - i];
      }
    }
  }

  /** One row of an alpha block that is not blank and has no label to file. */
  lemma AlphaRowStep(line: string, c: LineCursor, i: nat, nbasis: nat, base: nat, m: seq<seq<real>>,
                     ao: Option<GamessAoLabels.AoState>, v: seq<real>)
    requires i < nbasis && c.pos < |c.lines| && !IsBlank(c.lines[c.pos])
    requires ao.None? || base != 0
    requires GamessCoeffs.CoeffRow(c.lines[c.pos]) == Ok(v) && GamessCoeffs.Column(m, base, i, v).Ok?
    ensures AlphaRows(line, c, i, nbasis, base, m, ao)
         == AlphaRows(c.lines[c.pos], LineCursor(c.lines, c.pos + 1), i + 1, nbasis, base, GamessCoeffs.Column(m, base, i, v).value, ao)
  {
  }

  /** An alpha block whose rows are not blank, carry no labels to file, and
      whose values fit below orbital `base` fills column `i + t` with the
      values of row `t`. */
  lemma {:induction false} AlphaRowsRead(line: string, c: LineCursor, i: nat, nbasis: nat, base: nat, m: seq<seq<real>>,
                                         ao: Option<GamessAoLabels.AoState>, rows: nat, cols: nat, vs: seq<seq<real>>)
    requires GamessCoeffs.Rect(m, rows, cols) && nbasis <= cols && i <= nbasis && |vs| == nbasis - i
    requires ao.None? || base != 0
    requires RowsAt(c.lines, c.pos, vs, base, rows) && TextAt(c.lines, c.pos, |vs|)
    ensures AlphaRows(line, c, i, nbasis, base, m, ao).Ok?
    ensures AlphaRows(line, c, i, nbasis, base, m, ao).value.rest.pos == c.pos + |vs|
    ensures Filled(AlphaRows(line, c, i, nbasis, base, m, ao).value.value.0, m, rows, cols, base, i, vs)
    decreases nbasis - i
  {
    if i < nbasis {
      var c1 := LineCursor(c.lines, c.pos + 1);
      RowsAtRest(c.lines, c.pos, vs, base, rows);
      GamessCoeffs.ColumnSets(m, rows, cols, base, i, vs[0]);
      var m1 := GamessCoeffs.Column(m, base, i, vs[0]).value;
      AlphaRowStep(line, c, i, nbasis, base, m, ao, vs[0]);
      var r1 := AlphaRows(c.lines[c.pos], c1, i + 1, nbasis, base, m1, ao);
      AlphaRowsRead(c.lines[c.pos], c1, i + 1, nbasis, base, m1, ao, rows, cols, vs[1..]);
      assert r1.value.rest.pos == c.pos + |vs|;
      FilledStep(r1.value.value.0, m1, m, rows, cols, base, i, vs);
    } else {
      assert vs == [];
    }
  }

  /** The label of a row is read only on the first block, and only when
      the orbitals' atoms are not known yet. */
  function FileLabel(line: string, base: nat, ao: Option<GamessAoLabels.AoState>): (r: Result<Option<GamessAoLabels.AoState>>)
    ensures r.Ok? ==> (r.value.Some? <==> ao.Some?)
    ensures r.Ok? && ao.Some? ==> |r.value.value.atombasis| == |ao.value.atombasis|
    ensures ao.None? || base != 0 ==> r == Ok(ao)
  {
    if ao.Some? && base == 0 then
      var a :- GamessAoLabels.AoLine(line, ao.value);
      Ok(Some(a))
    else Ok(ao)
  }

  /** Lines up to the first that is not blank. */
  function NextText(c: LineCursor): (r: Result<Read>)
    ensures r.Ok? ==> !IsBlank(r.value.line) && Advanced(c, r.value.rest) && r.value.rest.pos > c.pos
    decreases c.Remaining()
  {
    var rd :- Next(c);
    if IsBlank(rd.line) then NextText(rd.rest) else Ok(rd)
  }

  /** The orbital numbers of a block, past an `ALPHA SET` banner and the
      line after it. */
  function NumbersLine(c: LineCursor): (r: Result<Read>)
    ensures r.Ok? ==> Advanced(c, r.value.rest) && r.value.rest.pos > c.pos
    ensures r.Ok? && c.pos < |c.lines| && !Contains(c.lines[c.pos], "ALPHA SET") ==>
      r.value == Read(c.lines[c.pos], LineCursor(c.lines, c.pos + 1))
  {
    var rd :- Next(c);
    if Contains(rd.line, "ALPHA SET") then
      var c1 :- Skip(rd.rest, 1);
      Next(c1)
    else Ok(rd)
  }

  /** The alpha blocks, five orbitals each, from orbital `base` on. */
  function AlphaGroups(line: string, c: LineCursor, base: nat, nmo: nat, nbasis: nat, sp: Spin,
                       ao: Option<GamessAoLabels.AoState>): (r: Result<Step<(Spin, Option<GamessAoLabels.AoState>)>>)
    ensures r.Ok? ==> Advanced(c, r.value.rest)
    ensures r.Ok? ==> SameShape(r.value.value.0.coeffs, sp.coeffs)
    ensures r.Ok? ==> sp.energies <= r.value.value.0.energies && sp.syms <= r.value.value.0.syms
    ensures r.Ok? ==> (r.value.value.1.Some? <==> ao.Some?)
    ensures r.Ok? && ao.Some? ==> |r.value.value.1.value.atombasis| == |ao.value.atombasis|
    ensures base >= nmo ==> r == Ok(Step(line, c, (sp, ao)))
    decreases c.Remaining()
  {
    if base >= nmo then Ok(Step(line, c, (sp, ao)))
    else
      var rd :- Next(c);
      if !IsBlank(rd.line) then Ok(Step(rd.line, rd.rest, (sp, ao)))
      else
        var nums :- NumbersLine(rd.rest);
        if Contains(nums.line, "BETA SET") then Ok(Step(nums.line, nums.rest, (sp, ao)))
        else
          var ev :- NextText(nums.rest);
          if Contains(ev.line, "--------") then Ok(Step(ev.line, ev.rest, (sp, ao)))
          else
            match Numbers.Floats(Split(ev.line))
            case Err(_) => Ok(Step(ev.line, ev.rest, (sp, ao)))
            case Ok(es) =>
              var sy :- Next(ev.rest);
              var syms := if IsBlank(sy.line) then sp.syms else sp.syms + Syms(sy.line);
              var rows :- AlphaRows(sy.line, sy.rest, 0, nbasis, base, sp.coeffs, ao);
              AlphaGroups(rows.line, rows.rest, base + 5, nmo, nbasis, Spin(sp.energies + es, syms, rows.value.0), rows.value.1)
  }

  /** The rows of one beta block: always `nbasis` lines. */
  function BetaRows(line: string, c: LineCursor, i: nat, nbasis: nat, base: nat, coeffs: seq<seq<real>>): (r: Result<Step<seq<seq<real>>>>)
    ensures r.Ok? ==> SameShape(r.value.value, coeffs)
    ensures r.Ok? ==> r.value.rest == LineCursor(c.lines, c.pos + (if nbasis > i then nbasis - i else 0))
    decreases nbasis - i
  {
    if i >= nbasis then Ok(Step(line, c, coeffs))
    else
      var rd :- Next(c);
      var vals :- GamessCoeffs.CoeffRow(rd.line);
      var m :- GamessCoeffs.Column(coeffs, base, i, vals);
      BetaRows(rd.line, rd.rest, i + 1, nbasis, base, m)
  }

  /** One row of a beta block. */
  lemma BetaRowStep(line: string, c: LineCursor, i: nat, nbasis: nat, base: nat, m: seq<seq<real>>, v: seq<real>)
    requires i < nbasis && c.pos < |c.lines|
    requires GamessCoeffs.CoeffRow(c.lines[c.pos]) == Ok(v) && GamessCoeffs.Column(m, base, i, v).Ok?
    ensures BetaRows(line, c, i, nbasis, base, m)
         == BetaRows(c.lines[c.pos], LineCursor(c.lines, c.pos + 1), i + 1, nbasis, base, GamessCoeffs.Column(m, base, i, v).value)
  {
  }

  /** A beta block whose values fit below orbital `base` fills column
      `i + t` with the values of row `t`. */
  lemma {:induction false} BetaRowsRead(line: string, c: LineCursor, i: nat, nbasis: nat, base: nat, m: seq<seq<real>>,
                                        rows: nat, cols: nat, vs: seq<seq<real>>)
    requires GamessCoeffs.Rect(m, rows, cols) && nbasis <= cols && i <= nbasis && |vs| == nbasis - i
    requires RowsAt(c.lines, c.pos, vs, base, rows)
    ensures BetaRows(line, c, i, nbasis, base, m).Ok?
    ensures Filled(BetaRows(line, c, i, nbasis, base, m).value.value, m, rows, cols, base, i, vs)
    decreases nbasis - i
  {
    if i < nbasis {
      var c1 := LineCursor(c.lines, c.pos + 1);
      RowsAtRest(c.lines, c.pos, vs, base, rows);
      GamessCoeffs.ColumnSets(m, rows, cols, base, i, vs[0]);
      var m1 := GamessCoeffs.Column(m, base, i, vs[0]).value;
      BetaRowStep(line, c, i, nbasis, base, m, vs[0]);
      BetaRowsRead(c.lines[c.pos], c1, i + 1, nbasis, base, m1, rows, cols, vs[1..]);
      FilledStep(BetaRows(line, c, i, nbasis, base, m).value.value, m1, m, rows, cols, base, i, vs);
    } else {
      assert vs == [];
    }
  }

  /** The beta blocks: two lines between blocks, and a line mentioning
      properties (in any case) where the energies should be ends them. */
  function BetaGroups(line: string, c: LineCursor, base: nat, nmo: nat, nbasis: nat, sp: Spin): (r: Result<Step<Spin>>)
    ensures r.Ok? ==> Advanced(c, r.value.rest)
    ensures r.Ok? ==> SameShape(r.value.value.coeffs, sp.coeffs)
    ensures r.Ok? ==> sp.energies <= r.value.value.energies && sp.syms <= r.value.value.syms
    decreases c.Remaining()
  {
    if base >= nmo then Ok(Step(line, c, sp))
    else
      var c1 :- if base != 0 then Skip(c, 2) else Ok(c);
      var rd :- Next(c1);
      if Contains(Lower(rd.line), "properties") then Ok(Step(rd.line, rd.rest, sp))
      else
        var es :- Numbers.Floats(Split(rd.line));
        var sy :- Next(rd.rest);
        var rows :- BetaRows(sy.line, sy.rest, 0, nbasis, base, sp.coeffs);
        BetaGroups(rows.line, rows.rest, base + 5, nmo, nbasis, Spin(sp.energies + es, sp.syms + Syms(sy.line), rows.value))
  }

  /** A line of dashes only, once stripped. */
  predicate AllDashes(line: string) {
    var t := Strip(line);
    |t| > 0 && forall k :: 0 <= k < |t| ==> t[k] == '-'
  }

  /** The beta table, from its `BETA SET` banner: past the line after the
      banner, and past the `EIGENVECTORS` title when a rule of dashes shows
      it is there, then the blocks and one more line. */
  function Beta(c: LineCursor, nmo: nat, nbasis: nat): (r: Result<Step<Spin>>)
    ensures r.Ok? ==> Advanced(c, r.value.rest) && r.value.rest.pos > c.pos
    ensures r.Ok? ==> GamessCoeffs.Rect(r.value.value.coeffs, nmo, nbasis)
  {
    var c1 :- Skip(c, 1);
    var rd :- Next(c1);
    var start :- if AllDashes(rd.line) then (var c2 :- Skip(rd.rest, 3); Next(c2)) else Ok(rd);
    var g :- BetaGroups(start.line, start.rest, 0, nmo, nbasis, Spin([], [], GamessCoeffs.Zeros(nmo, nbasis)));
    var after :- Next(g.rest);
    Ok(Step(after.line, after.rest, g.value))
  }

  /** Past an `LZ VALUE ANALYSIS` section, when one follows. */
  function SkipLz(rd: Read): (r: Result<Read>)
    ensures r.Ok? ==> Advanced(rd.rest, r.value.rest)
    ensures Strip(rd.line) != "LZ VALUE ANALYSIS FOR THE MOS" ==> r == Ok(rd)
  {
    if Strip(rd.line) == "LZ VALUE ANALYSIS FOR THE MOS" then
      var blank :- ToBlank(rd);
      Next(blank.rest)
    else Ok(rd)
  }

  /** `while line.strip(): line = next(inputfile)`. */
  function ToBlank(rd: Read): (r: Result<Read>)
    ensures r.Ok? ==> IsBlank(r.value.line) && Advanced(rd.rest, r.value.rest)
    decreases rd.rest.Remaining()
  {
    if IsBlank(rd.line) then Ok(rd)
    else
      var nx :- Next(rd.rest);
      ToBlank(nx)
  }

  /** The orbitals a table gives, and the atoms of the basis functions. */
  datatype Orbitals = Orbitals(nmo: nat, alpha: Spin, beta: Option<Spin>, atombasis: seq<seq<int>>, aonames: seq<string>)

  /** What the scan knows when a table starts: `natom`, `nbasis`, `nmo`,
      and `atombasis` with `aonames` from an earlier table. */
  datatype Known = Known(natom: Option<nat>, nbasis: Option<nat>, nmo: Option<nat>, atoms: Option<(seq<seq<int>>, seq<string>)>)

  /** Where the labels are read from: nothing when the atoms are known,
      otherwise one empty list per atom (`natom` must be known). */
  function LabelStart(k: Known): (r: Result<Option<GamessAoLabels.AoState>>)
    ensures r.Ok? <==> k.atoms.Some? || k.natom.Some?
    ensures r.Ok? ==> (r.value.Some? <==> k.atoms.None?)
    ensures r.Ok? && k.atoms.None? ==> |r.value.value.atombasis| == k.natom.value && r.value.value.aonames == []
  {
    if k.atoms.Some? then Ok(None)
    else
      var natom :- Need(k.natom.Some?, "'GAMESS' object has no attribute 'natom'");
      Ok(Some(GamessAoLabels.AoState(GamessAoLabels.Unwrapped, "0", seq(k.natom.value, _ => []), [])))
  }

  /** What follows the alpha blocks: two more lines unless the beta banner
      ended them, an `LZ VALUE ANALYSIS` section when one is there, and the
      beta table when its banner is there. */
  function AfterAlpha(line: string, c: LineCursor, nmo: nat, nbasis: nat): (r: Result<Step<Option<Spin>>>)
    ensures r.Ok? ==> Advanced(c, r.value.rest)
    ensures r.Ok? && r.value.value.Some? ==> GamessCoeffs.Rect(r.value.value.value.coeffs, nmo, nbasis)
  {
    var past :- if Contains(line, "BETA SET") then Ok(Read(line, c))
                else (var c2 :- Skip(c, 1); Next(c2));
    var lz :- SkipLz(past);
    if Contains(lz.line, "BETA SET") then
      var b :- Beta(lz.rest, nmo, nbasis);
      Ok(Step(b.line, b.rest, Some(b.value)))
    else Ok(Step(lz.line, lz.rest, None))
  }

  /** A whole orbital table: `nmo` defaults to `nbasis`, which must be
      known; the alpha blocks; two more lines unless the beta banner ended
      them; an `LZ VALUE ANALYSIS` section; and the beta table when its
      banner is there. */
  function Eigenvectors(line: string, c: LineCursor, k: Known): (r: Result<Step<Orbitals>>)
    requires OrbitalsLine(line)
    ensures k.nbasis.None? ==> r.Err?
    ensures r.Ok? ==> Advanced(c, r.value.rest)
    ensures r.Ok? ==> r.value.value.nmo == (if k.nmo.Some? then k.nmo.value else k.nbasis.value)
    ensures r.Ok? ==> GamessCoeffs.Rect(r.value.value.alpha.coeffs, r.value.value.nmo, k.nbasis.value)
    ensures r.Ok? && r.value.value.beta.Some? ==> GamessCoeffs.Rect(r.value.value.beta.value.coeffs, r.value.value.nmo, k.nbasis.value)
    ensures r.Ok? && k.atoms.Some? ==> (r.value.value.atombasis, r.value.value.aonames) == k.atoms.value
    ensures r.Ok? && k.atoms.None? ==> k.natom.Some? && |r.value.value.atombasis| == k.natom.value
  {
    var _ :- Need(k.nbasis.Some?, "'GAMESS' object has no attribute 'nbasis'");
    var nbasis := k.nbasis.value;
    var nmo := if k.nmo.Some? then k.nmo.value else nbasis;
    var ao :- LabelStart(k);
    var c1 :- Skip(c, 1);
    var a :- AlphaGroups(line, c1, 0, nmo, nbasis, Spin([], [], GamessCoeffs.Zeros(nmo, nbasis)), ao);
    var atoms := if a.value.1.Some? then (a.value.1.value.atombasis, a.value.1.value.aonames) else k.atoms.value;
    var b :- AfterAlpha(a.line, a.rest, nmo, nbasis);
    Ok(Step(b.line, b.rest, Orbitals(nmo, a.value.0, b.value, atoms.0, atoms.1)))
  }
}

=== FILE: gamess_overlap.dfy ===
/** The one-electron overlap matrix of a GAMESS log (`aooverlaps`).

    The matrix is printed as its lower triangle, five columns at a time.
    Each block of columns starts past three lines (blank, column numbers,
    blank) and has one row per basis function from the block's first
    column on, so each block is one row shorter than the last by five.
    A row gives the basis function's number, atom symbol, atom number and
    shell, then the values; each value is written to its cell and to the
    mirrored cell, so the matrix stays symmetric.
 */
module GamessOverlap {
  import opened Results
  import opened Text
  import opened Cursor
  import Numbers
  import GamessCoeffs
  import PySeq

  /** The title of the matrix, at column 0 or 1. */
  predicate OverlapLine(line: string) {
    Find(line, "OVERLAP MATRIX") == 0 || Find(line, "OVERLAP MATRIX") == 1
  }

  /** The words of a row. A four-character second word is a two-character
      atom symbol fused with its atom number; it is split in two, so the
      values always start at word 4. */
  function RowWords(line: string): (r: Result<seq<string>>)
    ensures r.Ok? <==> |Split(line)| >= 2
    ensures r.Ok? && |Split(line)[1]| != 4 ==> r.value == Split(line)
    ensures r.Ok? && |Split(line)[1]| == 4 ==>
      var ws := Split(line);
      r.value == [ws[0], ws[1][..2], ws[1][2..]] + ws[2..]
  {
    var ws := Split(line);
    var _ :- Need(|ws| >= 2, "list index out of range");
    if |ws[1]| == 4 then Ok([ws[0], ws[1][..2], ws[1][2..]] + ws[2..]) else Ok(ws)
  }

  /** A fused second word leaves every later word one place further on. */
  lemma RowWordsShift(line: string, j: nat)
    requires |Split(line)| >= 2 && |Split(line)[1]| == 4 && 2 <= j < |Split(line)|
    ensures RowWords(line).value[j + 1] == Split(line)[j]
  {
  }

  /** `m[a, b] = v` and then `m[b, a] = v`. */
  function PutBoth(m: seq<seq<real>>, a: nat, b: nat, v: real): (r: Result<seq<seq<real>>>)
    ensures r.Ok? ==> |r.value| == |m|
  {
    var m1 :- GamessCoeffs.Put(m, a, b, v);
    GamessCoeffs.Put(m1, b, a, v)
  }

  /** An `n` by `n` matrix equal to its transpose. */
  ghost predicate Symmetric(m: seq<seq<real>>, n: nat) {
    GamessCoeffs.Rect(m, n, n) && forall k, l :: 0 <= k < n && 0 <= l < n ==> m[k][l] == m[l][k]
  }

  /** Writing a value and its mirror: it succeeds exactly when both indices
      are in range, sets the two cells, keeps the matrix symmetric and
      changes nothing else. */
  lemma PutBothSpec(m: seq<seq<real>>, n: nat, a: nat, b: nat, v: real)
    requires GamessCoeffs.Rect(m, n, n)
    ensures PutBoth(m, a, b, v).Ok? <==> a < n && b < n
    ensures PutBoth(m, a, b, v).Ok? ==>
      var r := PutBoth(m, a, b, v).value;
      GamessCoeffs.Rect(r, n, n) && r[a][b] == v && r[b][a] == v &&
      forall k, l :: 0 <= k < n && 0 <= l < n && (k, l) != (a, b) && (k, l) != (b, a) ==> r[k][l] == m[k][l]
    ensures PutBoth(m, a, b, v).Ok? && Symmetric(m, n) ==> Symmetric(PutBoth(m, a, b, v).value, n)
  {
  }

  /** The values of one row, from column `a` on, into row `b` and its mirror. */
  function Cells(m: seq<seq<real>>, a: nat, b: nat, vals: seq<real>): (r: Result<seq<seq<real>>>)
    ensures r.Ok? ==> |r.value| == |m|
    decreases |vals|
  {
    if vals == [] then Ok(m)
    else
      var m1 :- PutBoth(m, a, b, vals[0]);
      Cells(m1, a + 1, b, vals[1..])
  }

  /** A row's values land in row `b` from column `a` on and in the mirrored
      cells; it succeeds exactly when they fit in the matrix, cells outside
      the written cells are unchanged, and symmetry is kept. */
  lemma {:induction false} CellsSpec(m: seq<seq<real>>, n: nat, a: nat, b: nat, vals: seq<real>)
    requires GamessCoeffs.Rect(m, n, n)
    ensures Cells(m, a, b, vals).Ok? <==> vals == [] || (b < n && a + |vals| <= n)
    ensures Cells(m, a, b, vals).Ok? ==> GamessCoeffs.Rect(Cells(m, a, b, vals).value, n, n)
    ensures Cells(m, a, b, vals).Ok? ==>
      forall t :: 0 <= t < |vals| ==> Cells(m, a, b, vals).value[a + t][b] == vals[t] && Cells(m, a, b, vals).value[b][a + t] == vals[t]
    ensures Cells(m, a, b, vals).Ok? ==>
      forall k, l :: 0 <= k < n && 0 <= l < n && !(l == b && a <= k < a + |vals|) && !(k == b && a <= l < a + |vals|) ==>
        Cells(m, a, b, vals).value[k][l] == m[k][l]
    ensures Cells(m, a, b, vals).Ok? && Symmetric(m, n) ==> Symmetric(Cells(m, a, b, vals).value, n)
    decreases |vals|
  {
    if vals != [] {
      PutBothSpec(m, n, a, b, vals[0]);
      if a < n && b < n {
        var m1 := PutBoth(m, a, b, vals[0]).value;
        CellsSpec(m1, n, a + 1, b, vals[1..]);
        if Cells(m, a, b, vals).Ok? {
          var r := Cells(m, a, b, vals).value;
          forall t | 0 <= t < |vals|
            ensures r[a + t][b] == vals[t] && r[b][a + t] == vals[t]
          {
            if t > 0 {
              assert vals[1..][t - 1] == vals[t];
              assert a + 1 + (t - 1) == a + t;
            }
          }
        }
      }
    }
  }

  /** One row: its values go to column `base + i` from row `base` on. */
  function Row(line: string, m: seq<seq<real>>, base: nat, i: nat): (r: Result<seq<seq<real>>>)
    ensures r.Ok? ==> |r.value| == |m|
  {
    var ws :- RowWords(line);
    var vals :- Numbers.Floats(PySeq.Drop(ws, 4));  // words 4 on, none when there are fewer
    Cells(m, base, base + i, vals)
  }

  /** The rows of one block: one for each basis function from `base` on. */
  function Rows(line: string, c: LineCursor, i: nat, count: nat, base: nat, m: seq<seq<real>>): (r: Result<Step<seq<seq<real>>>>)
    ensures r.Ok? ==> |r.value.value| == |m|
    ensures r.Ok? ==> r.value.rest == LineCursor(c.lines, c.pos + (if count > i then count - i else 0))
    decreases count - i
  {
    if i >= count then Ok(Step(line, c, m))
    else
      var rd :- Next(c);
      var m1 :- Row(rd.line, m, base, i);
      Rows(rd.line, rd.rest, i + 1, count, base, m1)
  }

  /** The blocks from column `base` on, five columns each. */
  function Blocks(line: string, c: LineCursor, base: nat, nbasis: nat, m: seq<seq<real>>): (r: Result<Step<seq<seq<real>>>>)
    ensures r.Ok? ==> |r.value.value| == |m| && Advanced(c, r.value.rest)
    ensures base >= nbasis ==> r == Ok(Step(line, c, m))
    decreases nbasis - base
  {
    if base >= nbasis then Ok(Step(line, c, m))
    else
      var c1 :- Skip(c, 3);
      var rows :- Rows(line, c1, 0, nbasis - base, base, m);
      Blocks(rows.line, rows.rest, base + 5, nbasis, rows.value)
  }

  /** The rows of a block keep a symmetric matrix symmetric. */
  lemma {:induction false} RowsSymmetric(line: string, c: LineCursor, i: nat, count: nat, base: nat, m: seq<seq<real>>, n: nat)
    requires Symmetric(m, n)
    ensures Rows(line, c, i, count, base, m).Ok? ==> Symmetric(Rows(line, c, i, count, base, m).value.value, n)
    decreases count - i
  {
    if i < count && c.pos < |c.lines| {
      var rd := Read(c.lines[c.pos], LineCursor(c.lines, c.pos + 1));
      var row := Row(rd.line, m, base, i);
      if row.Ok? {
        var ws := RowWords(rd.line).value;
        CellsSpec(m, n, base, base + i, Numbers.Floats(PySeq.Drop(ws, 4)).value);
        RowsSymmetric(rd.line, rd.rest, i + 1, count, base, row.value, n);
      }
    }
  }

  /** All the blocks keep a symmetric matrix symmetric. */
  lemma {:induction false} BlocksSymmetric(line: string, c: LineCursor, base: nat, nbasis: nat, m: seq<seq<real>>, n: nat)
    requires Symmetric(m, n)
    ensures Blocks(line, c, base, nbasis, m).Ok? ==> Symmetric(Blocks(line, c, base, nbasis, m).value.value, n)
    decreases nbasis - base
  {
    if base < nbasis && Skip(c, 3).Ok? {
      var c1 := Skip(c, 3).value;
      var rows := Rows(line, c1, 0, nbasis - base, base, m);
      RowsSymmetric(line, c1, 0, nbasis - base, base, m, n);
      if rows.Ok? {
        BlocksSymmetric(rows.value.line, rows.value.rest, base + 5, nbasis, rows.value.value, n);
      }
    }
  }

  /** The overlap section: a matrix of zeros unless one was read before,
      then the blocks; `nbasis` must be known. */
  function Overlap(line: string, c: LineCursor, nbasis: Option<nat>, prior: Option<seq<seq<real>>>): (r: Result<Step<seq<seq<real>>>>)
    ensures nbasis.None? ==> r.Err?
    ensures r.Ok? ==> Advanced(c, r.value.rest)
    ensures r.Ok? && prior.None? ==> |r.value.value| == nbasis.value
  {
    var _ :- Need(nbasis.Some?, "'GAMESS' object has no attribute 'nbasis'");
    var m := if prior.Some? then prior.value else GamessCoeffs.Zeros(nbasis.value, nbasis.value);
    Blocks(line, c, 0, nbasis.value, m)
  }

  /** The matrix read into a fresh matrix of zeros is symmetric. */
  lemma OverlapSymmetric(line: string, c: LineCursor, n: nat)
    ensures Overlap(line, c, Some(n), None).Ok? ==> Symmetric(Overlap(line, c, Some(n), None).value.value, n)
  {
    BlocksSymmetric(line, c, 0, n, GamessCoeffs.Zeros(n, n), n);
  }
}

=== FILE: gamess_scan.dfy ===
/** The forward pass of the GAMESS log scanner over the modelled triggers.

    Each line of the log is offered to the triggers in the order the
    scanner tests them; a trigger may read further lines, and the triggers
    after it see the line it stopped at. Two triggers end the pass over a
    line early: an echoed input card, and a line that only mentions the
    gradients. The next pass starts after the last line read.
 */
module GamessScan {
  import opened Results
  import opened Text
  import opened Cursor
  import Numbers
  import GamessVersion
  import GamessCC
  import GamessGradients
  import GamessVibrations
  import GamessBasis
  import GamessOrbitals
  import GamessOverlap
  import GamessEcp

  /** What the scanner knows so far. Counts are the integers printed in the
      log, negative ones included. */
  datatype State = State(
    firststdorient: bool,
    cihamtyp: string,
    scftype: string,
    metadata: map<string, string>,
    success: bool,
    cc: GamessCC.CcState,
    geovalues: Option<seq<GamessGradients.GradPair>>,
    vibrations: Option<GamessVibrations.Analysis>,
    gbasis: Option<seq<seq<GamessBasis.Shell>>>,
    natom: Option<int>,
    nbasis: Option<int>,
    nmo: Option<int>,
    orbitals: Option<GamessOrbitals.Orbitals>,
    atoms: Option<(seq<seq<int>>, seq<string>)>,
    aooverlaps: Option<seq<seq<real>>>,
    coreelectrons: Option<seq<int>>)

  /** The state before the first line: the three cross-trigger flags at
      their starting values and nothing read. */
  function BeforeParsing(): (st: State)
    ensures st.firststdorient && st.cihamtyp == "none" && st.scftype == "none"
    ensures !st.success && st.metadata == map[] && st.cc.methods == [] && st.cc.ccenergies.None?
    ensures st.natom.None? && st.nbasis.None? && st.nmo.None?
  {
    State(true, "none", "none", map[], false, GamessCC.CcState([], None), None, None, None,
          None, None, None, None, None, None, None)
  }

  /** A count used as the length of a list or a `range`: a negative count
      gives nothing. */
  function Clamp(n: int): (r: nat)
    ensures n >= 0 ==> r == n
    ensures n < 0 ==> r == 0
  {
    if n < 0 then 0 else n
  }

  /** A count used as a `numpy.zeros` dimension: a negative one fails. */
  function Dim(n: Option<int>): (r: Result<Option<nat>>)
    ensures r.Ok? <==> n.None? || n.value >= 0
    ensures r.Ok? ==> (r.value.Some? <==> n.Some?) && (n.Some? ==> r.value.value == n.value)
  {
    if n.None? then Ok(None)
    else if n.value < 0 then Err(Malformed("negative dimensions are not allowed"))
    else Ok(Some(n.value))
  }

  /** What no trigger undoes: a successful run stays successful, `natom`
      is read once, and the cross-trigger flags keep their values. */
  predicate Keeps(a: State, b: State) {
    && (a.success ==> b.success)
    && (a.natom.Some? ==> b.natom == a.natom)
    && b.firststdorient == a.firststdorient && b.cihamtyp == a.cihamtyp && b.scftype == a.scftype
  }

  /** Where the first triggers leave the pass over a line: ended, or
      going on to the later triggers. */
  datatype Outcome = Stop(step: Step<State>) | Go(step: Step<State>)

  /** A step that moved forward and kept what no trigger undoes. */
  predicate Forward(s: Step<State>, t: Step<State>) {
    Advanced(s.rest, t.rest) && Keeps(s.value, t.value)
  }

  /** The two version banners; neither reads further lines. */
  function Versions(line: string, st: State): (r: Result<State>)
    ensures r.Ok? ==> Keeps(st, r.value)
    ensures r.Ok? ==> r.value == st.(metadata := r.value.metadata)
    ensures GamessVersion.FireflyMatch(line).None? && GamessVersion.PackageVersion in st.metadata ==> r == Ok(st)
    ensures var md := GamessVersion.GamessVersionLine(line, GamessVersion.FireflyVersion(line, st.metadata));
      && (r.Ok? <==> md.Ok?)
      && (r.Ok? ==> r.value.metadata == md.value)
  {
    var md :- GamessVersion.GamessVersionLine(line, GamessVersion.FireflyVersion(line, st.metadata));
    Ok(st.(metadata := md))
  }

  /** The coupled-cluster lines: a CCD energy, then a CCSD block. */
  function CoupledCluster(s: Step<State>): (r: Result<Step<State>>)
    ensures r.Ok? ==> Forward(s, r.value)
    ensures r.Ok? ==> Advanced(s.rest, r.value.rest) && r.value.value == s.value.(cc := r.value.value.cc)
    ensures !GamessCC.CcdLine(s.line) && !GamessCC.CcsdLine(s.line) ==> r == Ok(s)
    ensures GamessCC.CcdLine(s.line) && !GamessCC.CcsdLine(s.line) ==>
      var cc := GamessCC.Ccd(s.line, s.value.cc);
      && (r.Ok? <==> cc.Ok?)
      && (r.Ok? ==> r.value == Step(s.line, s.rest, s.value.(cc := cc.value)))
    ensures !GamessCC.CcdLine(s.line) && GamessCC.CcsdLine(s.line) ==>
      var b := GamessCC.Ccsd(s.line, s.rest, s.value.cc);
      && (r.Ok? <==> b.Ok?)
      && (r.Ok? ==> r.value == Step(b.value.line, b.value.rest, s.value.(cc := b.value.value)))
    ensures GamessCC.CcdLine(s.line) && GamessCC.CcsdLine(s.line) ==>
      var cc := GamessCC.Ccd(s.line, s.value.cc);
      && (r.Ok? <==> cc.Ok? && GamessCC.Ccsd(s.line, s.rest, cc.value).Ok?)
      && (r.Ok? ==>
            var b := GamessCC.Ccsd(s.line, s.rest, cc.value).value;
            r.value == Step(b.line, b.rest, s.value.(cc := b.value)))
  {
    var s1 :- if GamessCC.CcdLine(s.line) then
                (var cc :- GamessCC.Ccd(s.line, s.value.cc); Ok(Step(s.line, s.rest, s.value.(cc := cc))))
              else Ok(s);
    if GamessCC.CcsdLine(s1.line) then
      var b :- GamessCC.Ccsd(s1.line, s1.rest, s1.value.cc);
      Ok(Step(b.line, b.rest, s1.value.(cc := b.value)))
    else Ok(s1)
  }

  /** The gradient lines: `None` when the pass over this line ends here,
      otherwise the state with one more pair in `geovalues`. */
  function Gradients(s: Step<State>): (r: Result<Option<Step<State>>>)
    ensures r.Ok? && r.value.Some? ==> Forward(s, r.value.value)
    ensures r.Ok? && r.value.Some? ==> Advanced(s.rest, r.value.value.rest)
    ensures r.Ok? && r.value.Some? && GamessGradients.GradientLine(s.line) ==>
      var g := r.value.value.value.geovalues;
      var before := if s.value.geovalues.Some? then s.value.geovalues.value else [];
      g.Some? && |g.value| == |before| + 1 && g.value[..|before|] == before
    ensures !GamessGradients.GradientLine(s.line) ==> r == Ok(Some(s))
    ensures GamessGradients.GradientLine(s.line) ==>
      var g := GamessGradients.Gradient(s.line, s.rest);
      && (r.Ok? <==> g.Ok?)
      && (r.Ok? ==> (r.value.None? <==> g.value.value.None?))
      && (r.Ok? && r.value.Some? ==>
            var before := if s.value.geovalues.Some? then s.value.geovalues.value else [];
            r.value.value == Step(g.value.line, g.value.rest, s.value.(geovalues := Some(before + [g.value.value.value]))))
  {
    if !GamessGradients.GradientLine(s.line) then Ok(Some(s))
    else
      var g :- GamessGradients.Gradient(s.line, s.rest);
      match g.value
      case None => Ok(None)
      case Some(p) =>
        var before := if s.value.geovalues.Some? then s.value.geovalues.value else [];
        Ok(Some(Step(g.line, g.rest, s.value.(geovalues := Some(before + [p])))))
  }

  predicate VibrationsLine(line: string) {
    Contains(line, "NORMAL COORDINATE ANALYSIS IN THE HARMONIC APPROXIMATION")
  }

  /** The analysis a normal-coordinate block starts from: the one read
      before, or nothing. */
  function Prior(st: State): (a: GamessVibrations.Analysis)
    ensures st.vibrations.Some? ==> a == st.vibrations.value
    ensures st.vibrations.None? ==> a.atommasses.None? && a.modes.freqs == [] && a.modes.disps == [] && a.modes.rmasses.None?
  {
    if st.vibrations.Some? then st.vibrations.value
    else GamessVibrations.Analysis(None, GamessVibrations.Modes([], [], [], None, None))
  }

  /** The normal-coordinate block; `natom` must be known and `ir` converts
      IR intensities to km/mol. */
  function Vibrations(s: Step<State>, ir: real -> real): (r: Result<Step<State>>)
    ensures r.Ok? ==> Forward(s, r.value)
    ensures r.Ok? ==> Advanced(s.rest, r.value.rest) && r.value.value == s.value.(vibrations := r.value.value.vibrations)
    ensures VibrationsLine(s.line) && s.value.natom.None? ==> r.Err?
    ensures !VibrationsLine(s.line) ==> r == Ok(s)
    ensures VibrationsLine(s.line) && s.value.natom.Some? ==>
      var b := GamessVibrations.Block(s.line, s.rest, Clamp(s.value.natom.value), ir, Prior(s.value));
      && (r.Ok? <==> b.Ok?)
      && (r.Ok? ==> r.value == Step(b.value.line, b.value.rest, s.value.(vibrations := Some(b.value.value))))
  {
    if !VibrationsLine(s.line) then Ok(s)
    else
      var _ :- Need(s.value.natom.Some?, "'GAMESS' object has no attribute 'natom'");
      var b :- GamessVibrations.Block(s.line, s.rest, Clamp(s.value.natom.value), ir, Prior(s.value));
      Ok(Step(b.line, b.rest, s.value.(vibrations := Some(b.value))))
  }

  /** The basis set section: `gbasis` is read afresh. */
  function BasisSet(s: Step<State>): (r: Result<Step<State>>)
    ensures r.Ok? ==> Forward(s, r.value)
    ensures r.Ok? ==> Advanced(s.rest, r.value.rest) && r.value.value == s.value.(gbasis := r.value.value.gbasis)
    ensures r.Ok? && GamessBasis.BasisLine(s.line) ==> r.value.value.gbasis.Some? && Contains(r.value.line, "TOTAL NUMBER")
    ensures !GamessBasis.BasisLine(s.line) ==> r == Ok(s)
    ensures GamessBasis.BasisLine(s.line) ==>
      var b := GamessBasis.Basis(s.line, s.rest);
      && (r.Ok? <==> b.Ok?)
      && (r.Ok? ==> r.value == Step(b.value.line, b.value.rest, s.value.(gbasis := Some(b.value.value))))
  {
    if !GamessBasis.BasisLine(s.line) then Ok(s)
    else
      var b :- GamessBasis.Basis(s.line, s.rest);
      Ok(Step(b.line, b.rest, s.value.(gbasis := Some(b.value))))
  }

  /** The number of atoms as a length, when it is known. */
  function AtomsKnown(st: State): (n: Option<nat>)
    ensures n.Some? <==> st.natom.Some?
    ensures n.Some? && st.natom.value >= 0 ==> n.value == st.natom.value
  {
    if st.natom.Some? then Some(Clamp(st.natom.value)) else None
  }

  /** What an orbital table is read with: the counts as `numpy.zeros`
      dimensions, and the atoms of the basis functions when known. */
  function OrbitalInputs(st: State): (r: Result<GamessOrbitals.Known>)
    ensures r.Ok? <==> Dim(st.nbasis).Ok? && Dim(st.nmo).Ok?
    ensures r.Ok? ==> r.value.natom == AtomsKnown(st) && r.value.atoms == st.atoms
    ensures r.Ok? ==> r.value.nbasis == Dim(st.nbasis).value && r.value.nmo == Dim(st.nmo).value
  {
    var nbasis :- Dim(st.nbasis);
    var nmo :- Dim(st.nmo);
    Ok(GamessOrbitals.Known(AtomsKnown(st), nbasis, nmo, st.atoms))
  }

  /** An orbital table: `nmo` is the table's, and the atoms of the basis
      functions are known from then on. */
  function Orbitals(s: Step<State>): (r: Result<Step<State>>)
    ensures r.Ok? ==> Forward(s, r.value)
    ensures r.Ok? ==> Advanced(s.rest, r.value.rest)
    ensures r.Ok? ==> r.value.value == s.value.(orbitals := r.value.value.orbitals, nmo := r.value.value.nmo, atoms := r.value.value.atoms)
    ensures r.Ok? && GamessOrbitals.OrbitalsLine(s.line) ==>
      && r.value.value.orbitals.Some? && r.value.value.atoms.Some?
      && r.value.value.nmo == Some(r.value.value.orbitals.value.nmo as int)
      && (s.value.atoms.Some? ==> r.value.value.atoms == s.value.atoms)
    ensures GamessOrbitals.OrbitalsLine(s.line) && s.value.nbasis.None? ==> r.Err?
    ensures !GamessOrbitals.OrbitalsLine(s.line) ==> r == Ok(s)
    ensures GamessOrbitals.OrbitalsLine(s.line) ==>
      && (r.Ok? <==> OrbitalInputs(s.value).Ok? && GamessOrbitals.Eigenvectors(s.line, s.rest, OrbitalInputs(s.value).value).Ok?)
      && (r.Ok? ==>
            var o := GamessOrbitals.Eigenvectors(s.line, s.rest, OrbitalInputs(s.value).value).value;
            && r.value.line == o.line && r.value.rest == o.rest
            && r.value.value.orbitals == Some(o.value)
            && r.value.value.atoms == Some((o.value.atombasis, o.value.aonames)))
  {
    if !GamessOrbitals.OrbitalsLine(s.line) then Ok(s)
    else
      var known :- OrbitalInputs(s.value);
      var o :- GamessOrbitals.Eigenvectors(s.line, s.rest, known);
      Ok(Step(o.line, o.rest, s.value.(orbitals := Some(o.value), nmo := Some(o.value.nmo as int),
                                       atoms := Some((o.value.atombasis, o.value.aonames)))))
  }

  /** `natom`, read once from the first line that mentions the number of
      atoms in any case. */
  function AtomCount(line: string, st: State): (r: Result<State>)
    ensures r.Ok? ==> Keeps(st, r.value)
    ensures r.Ok? ==> r.value == st.(natom := r.value.natom)
    ensures st.natom.Some? ==> r == Ok(st)
    ensures st.natom.None? && Contains(Upper(line), "NUMBER OF ATOMS") ==>
      r == (var n :- Numbers.IntField(line, -1); Ok(st.(natom := Some(n))))
    ensures !Contains(Upper(line), "NUMBER OF ATOMS") ==> r == Ok(st)
  {
    if st.natom.None? && Contains(Upper(line), "NUMBER OF ATOMS") then
      var n :- Numbers.IntField(line, -1);
      Ok(st.(natom := Some(n)))
    else Ok(st)
  }

  predicate BasisCountLine(line: string) {
    Find(line, "NUMBER OF CARTESIAN GAUSSIAN BASIS") == 1 || Find(line, "TOTAL NUMBER OF BASIS FUNCTIONS") == 1
  }
  predicate DroppedLine(line: string) {
    Find(line, "TOTAL NUMBER OF CONTAMINANTS DROPPED") >= 0
  }
  predicate SphericalLine(line: string) {
    Find(line, "SPHERICAL HARMONICS KEPT IN THE VARIATION SPACE") >= 0
  }
  predicate MoCountLine(line: string) {
    Find(line, "TOTAL NUMBER OF MOS IN VARIATION SPACE") == 1
  }

  /** The size of the overlap matrix to read: a negative `nbasis` fails as
      a `numpy.zeros` dimension, but with a matrix read before it gives no
      columns. */
  function OverlapSize(st: State): (r: Result<Option<nat>>)
    ensures r.Ok? <==> st.nbasis.None? || st.nbasis.value >= 0 || st.aooverlaps.Some?
    ensures r.Ok? ==> (r.value.Some? <==> st.nbasis.Some?)
    ensures r.Ok? && st.nbasis.Some? ==> r.value.value == Clamp(st.nbasis.value)
  {
    if st.nbasis.Some? && st.nbasis.value < 0 then
      (if st.aooverlaps.None? then Err(Malformed("negative dimensions are not allowed")) else Ok(Some(0)))
    else Dim(st.nbasis)
  }

  /** The overlap matrix, into a matrix of zeros or the one read before.
      A negative `nbasis` fails as a `numpy.zeros` dimension, but when a
      matrix was read before the blocks are read into it with no columns. */
  function Overlap(s: Step<State>): (r: Result<Step<State>>)
    ensures r.Ok? ==> Forward(s, r.value)
    ensures r.Ok? ==> r.value.value == s.value.(aooverlaps := r.value.value.aooverlaps)
    ensures r.Ok? && GamessOverlap.OverlapLine(s.line) ==> r.value.value.aooverlaps.Some?
    ensures GamessOverlap.OverlapLine(s.line) && s.value.nbasis.None? ==> r.Err?
    ensures !GamessOverlap.OverlapLine(s.line) ==> r == Ok(s)
    ensures GamessOverlap.OverlapLine(s.line) ==>
      && (r.Ok? <==> OverlapSize(s.value).Ok? && GamessOverlap.Overlap(s.line, s.rest, OverlapSize(s.value).value, s.value.aooverlaps).Ok?)
      && (r.Ok? ==>
            var m := GamessOverlap.Overlap(s.line, s.rest, OverlapSize(s.value).value, s.value.aooverlaps).value;
            r.value == Step(m.line, m.rest, s.value.(aooverlaps := Some(m.value))))
  {
    if !GamessOverlap.OverlapLine(s.line) then Ok(s)
    else
      var nbasis :- OverlapSize(s.value);
      var m :- GamessOverlap.Overlap(s.line, s.rest, nbasis, s.value.aooverlaps);
      Ok(Step(m.line, m.rest, s.value.(aooverlaps := Some(m.value))))
  }

  /** The chain of counts and the overlap matrix, of which at most one
      applies to a line: `nbasis`; `nmo` lowered by the dropped
      contaminants (from `nbasis` when `nmo` is unknown); `nmo` from the
      spherical harmonics kept or the MOs in the variation space; the
      overlap matrix. */
  function Counts(s: Step<State>): (r: Result<Step<State>>)
    ensures r.Ok? ==> Forward(s, r.value)
    ensures r.Ok? ==> Advanced(s.rest, r.value.rest)
    ensures r.Ok? ==> r.value.value == s.value.(nbasis := r.value.value.nbasis, nmo := r.value.value.nmo, aooverlaps := r.value.value.aooverlaps)
    ensures BasisCountLine(s.line) ==> r == (var n :- Numbers.IntField(s.line, -1); Ok(Step(s.line, s.rest, s.value.(nbasis := Some(n)))))
    ensures !BasisCountLine(s.line) && DroppedLine(s.line) ==>
      (r.Ok? <==> Numbers.IntField(s.line, -1).Ok? && (s.value.nmo.Some? || s.value.nbasis.Some?)) &&
      (r.Ok? ==> r.value.value.nmo == Some((if s.value.nmo.Some? then s.value.nmo.value else s.value.nbasis.value) - Numbers.IntField(s.line, -1).value))
    ensures !BasisCountLine(s.line) && !DroppedLine(s.line) && (SphericalLine(s.line) || MoCountLine(s.line)) ==>
      r == (var n :- Numbers.IntField(s.line, -1); Ok(Step(s.line, s.rest, s.value.(nmo := Some(n)))))
    ensures !BasisCountLine(s.line) && !DroppedLine(s.line) && !SphericalLine(s.line) && !MoCountLine(s.line) ==> r == Overlap(s)
    ensures !BasisCountLine(s.line) && !DroppedLine(s.line) && !SphericalLine(s.line) && !MoCountLine(s.line) && !GamessOverlap.OverlapLine(s.line) ==> r == Ok(s)
  {
    var line := s.line;
    if BasisCountLine(line) then
      var n :- Numbers.IntField(line, -1);
      Ok(Step(line, s.rest, s.value.(nbasis := Some(n))))
    else if DroppedLine(line) then
      var dropped :- Numbers.IntField(line, -1);
      var from :- if s.value.nmo.Some? then Ok(s.value.nmo.value)
                  else (var _ :- Need(s.value.nbasis.Some?, "'GAMESS' object has no attribute 'nbasis'"); Ok(s.value.nbasis.value));
      Ok(Step(line, s.rest, s.value.(nmo := Some(from - dropped))))
    else if SphericalLine(line) || MoCountLine(line) then
      var n :- Numbers.IntField(line, -1);
      Ok(Step(line, s.rest, s.value.(nmo := Some(n))))
    else Overlap(s)
  }

  /** The effective core potentials. */
  function Ecp(s: Step<State>): (r: Result<Step<State>>)
    ensures r.Ok? ==> Forward(s, r.value)
    ensures r.Ok? ==> Advanced(s.rest, r.value.rest) && r.value.value == s.value.(coreelectrons := r.value.value.coreelectrons)
    ensures r.Ok? && GamessEcp.EcpLine(s.line) ==> r.value.value.coreelectrons.Some?
    ensures !GamessEcp.EcpLine(s.line) ==> r == Ok(s)
    ensures GamessEcp.EcpLine(s.line) ==>
      var e := GamessEcp.Ecp(s.line, s.rest, AtomsKnown(s.value), s.value.coreelectrons);
      && (r.Ok? <==> e.Ok?)
      && (r.Ok? ==> r.value == Step(e.value.line, e.value.rest, s.value.(coreelectrons := Some(e.value.value))))
  {
    if !GamessEcp.EcpLine(s.line) then Ok(s)
    else
      var e :- GamessEcp.Ecp(s.line, s.rest, AtomsKnown(s.value), s.value.coreelectrons);
      Ok(Step(e.line, e.rest, s.value.(coreelectrons := Some(e.value))))
  }

  /** The lines that show the run ended normally. */
  predicate SuccessLine(line: string) {
    || Sub(line, 0, 30) == " ddikick.x: exited gracefully."
    || Sub(line, 0, 41) == " EXECUTION OF FIREFLY TERMINATED NORMALLY"
    || Sub(line, 0, 40) == " EXECUTION OF GAMESS TERMINATED NORMALLY"
  }

  /** `success` is set by a sentinel line and never cleared. */
  function Success(line: string, st: State): (r: State)
    ensures r.success <==> st.success || SuccessLine(line)
    ensures r == st.(success := r.success)
  {
    if SuccessLine(line) then st.(success := true) else st
  }

  // The pass over one line hands over from trigger to trigger. Each
  // function below is the rest of the pass from one trigger on: it returns
  // the line the triggers left, the cursor after the last line read, and
  // the state.

  /** The first triggers of the pass over `line`, with `c` just past it:
      the version banners, the input card echo that ends the pass, the
      coupled-cluster energies, and the gradients, whose bare mention also
      ends it. `Stop` is where the pass ends, `Go` where it goes on. */
  function Opening(line: string, c: LineCursor, st: State): (r: Result<Outcome>)
    ensures r.Ok? ==> Forward(Step(line, c, st), r.value.step)
  {
    var st1 :- Versions(line, st);
    if Sub(line, 1, 12) == "INPUT CARD>" then Ok(Stop(Step(line, c, st1)))
    else
      var s2 :- CoupledCluster(Step(line, c, st1));
      var g :- Gradients(s2);
      match g
      case None => Ok(Stop(s2))
      case Some(s3) => Ok(Go(s3))
  }

  /** The pass over `line`, with `c` just past it. */
  function Extract(line: string, c: LineCursor, st: State, ir: real -> real): (r: Result<Step<State>>)
    ensures r.Ok? ==> Forward(Step(line, c, st), r.value)
  {
    var o :- Opening(line, c, st);
    match o
    case Stop(s) => Ok(s)
    case Go(s) => FromVibrations(s, ir)
  }

  /** The normal modes, then the later triggers. */
  function FromVibrations(s: Step<State>, ir: real -> real): (r: Result<Step<State>>)
    ensures r.Ok? ==> Forward(s, r.value)
  {
    var s1 :- Vibrations(s, ir);
    FromBasis(s1)
  }

  /** The basis set, then the later triggers. */
  function FromBasis(s: Step<State>): (r: Result<Step<State>>)
    ensures r.Ok? ==> Forward(s, r.value)
  {
    var s1 :- BasisSet(s);
    FromOrbitals(s1)
  }

  /** An orbital table, then the later triggers. */
  function FromOrbitals(s: Step<State>): (r: Result<Step<State>>)
    ensures r.Ok? ==> Forward(s, r.value)
  {
    var s1 :- Orbitals(s);
    FromCounts(s1)
  }

  /** The number of atoms, then the chain of counts and the overlap matrix. */
  function FromCounts(s: Step<State>): (r: Result<Step<State>>)
    ensures r.Ok? ==> Forward(s, r.value)
  {
    var st1 :- AtomCount(s.line, s.value);
    var s1 :- Counts(Step(s.line, s.rest, st1));
    FromEcp(s1)
  }

  /** The core potentials, then the success sentinel. */
  function FromEcp(s: Step<State>): (r: Result<Step<State>>)
    ensures r.Ok? ==> Forward(s, r.value)
  {
    var s1 :- Ecp(s);
    Ok(Step(s1.line, s1.rest, Success(s1.line, s1.value)))
  }

  /** What one pass over a line does: from the line and the cursor just
      past it, the line the triggers left, the cursor after the last line
      read, and the new state. */
  type Pass = (string, LineCursor, State) -> Result<Step<State>>

  /** A pass that only moves forward and keeps what no trigger undoes. */
  ghost predicate Sound(pass: Pass) {
    forall line, c, st :: pass(line, c, st).Ok? ==> Forward(Step(line, c, st), pass(line, c, st).value)
  }

  /** The scan of the lines from the cursor on: one pass per line, each
      starting after the last line the one before read. */
  function Run(c: LineCursor, st: State, pass: Pass): (r: Result<State>)
    requires Sound(pass)
    ensures r.Ok? ==> Keeps(st, r.value)
    ensures c.pos >= |c.lines| ==> r == Ok(st)
    decreases c.Remaining()
  {
    if c.pos >= |c.lines| then Ok(st)
    else
      var s :- pass(c.lines[c.pos], LineCursor(c.lines, c.pos + 1), st);
      Run(s.rest, s.value, pass)
  }

  /** The parse of a whole log. */
  function Parse(lines: seq<string>, ir: real -> real): (r: Result<State>)
    ensures lines == [] ==> r == Ok(BeforeParsing())
    ensures r.Ok? ==> r.value.firststdorient && r.value.cihamtyp == "none" && r.value.scftype == "none"
  {
    Run(LineCursor(lines, 0), BeforeParsing(), (line, c, st) => Extract(line, c, st, ir))
  }
}

=== FILE: gamess_version.dfy ===
/** The program version GAMESS and Firefly print in their banners.

    Firefly prints its own banner before a GAMESS-style one, so a version taken
    from the Firefly banner is never overwritten by the later GAMESS line.
 */
module GamessVersion {
  import opened Results
  import opened Text
  import opened FireflyPattern
  import PySeq
  import Numbers

  /** The longest version run from `q` that the rest of the pattern can follow,
      trying `a` characters first and then fewer. */
  function BaseFrom(s: string, q: nat, a: nat): (r: Option<(nat, Tail)>)
    requires q + a <= |s|
    ensures r.Some? ==> r.value.0 <= a && TailFrom(s, q + r.value.0) == Some(r.value.1)
    ensures r.Some? ==> forall b: nat :: q + r.value.0 < b <= q + a ==> TailFrom(s, b).None?
    ensures r.None? ==> forall b: nat :: q <= b <= q + a ==> TailFrom(s, b).None?
    decreases a
  {
    var tf := TailFrom(s, q + a);
    if tf.Some? then Some((a, tf.value))
    else if a == 0 then None
    else BaseFrom(s, q, a - 1)
  }

  /** The run of version characters from `q` is `a` long. */
  function VersionRun(s: string, q: nat): (a: nat)
    requires q <= |s|
    ensures q + a <= |s|
  {
    RunEnd(s, VersionChars, q) - q
  }

  /** Every match from `p` uses a version run no longer than the maximal one,
      and leaves a way to finish the pattern after it. */
  lemma MatchesWithinRun(s: string, p: nat)
    requires BannerAt(s, p)
    ensures var q := p + |Banner| + 1;
      forall a': nat, d: nat, n: nat, w: nat :: MatchAt(s, p, a', d, n, w) ==>
        a' <= VersionRun(s, q) && HasTail(s, q + a')
  {
    var q := p + |Banner| + 1;
    var m := VersionRun(s, q);
    RunEndMaximal(s, VersionChars, q);
    forall a': nat, d: nat, n: nat, w: nat | MatchAt(s, p, a', d, n, w)
      ensures a' <= m && HasTail(s, q + a')
    {
      var next := if q + m < |s| then s[q + m] else '.';
    }
  }

  /** Positions where `TailFrom` finds nothing have no tail at all. */
  lemma NoTails(s: string, lo: nat, hi: nat)
    requires hi <= |s|
    ensures forall b: nat :: lo <= b <= hi && TailFrom(s, b).None? ==> !HasTail(s, b)
  {
    forall b: nat | lo <= b <= hi && TailFrom(s, b).None?
      ensures !HasTail(s, b)
    {
      TailFromBest(s, b);
    }
  }

  /** Nothing matches from `p` when no position of the version run is
      followed by a tail. */
  lemma StartNone(s: string, p: nat)
    requires BannerAt(s, p)
    requires var q := p + |Banner| + 1;
      forall b: nat :: q <= b <= q + VersionRun(s, q) ==> TailFrom(s, b).None?
    ensures !AnyMatchAt(s, p)
  {
    var q := p + |Banner| + 1;
    MatchesWithinRun(s, p);
    NoTails(s, q, q + VersionRun(s, q));
    forall a': nat, d: nat, n: nat, w: nat
      ensures !MatchAt(s, p, a', d, n, w)
    {
    }
  }

  /** The prefix `a` of the version run and a tail `t` after it make a match. */
  lemma StartSomeMatches(s: string, p: nat, a: nat, t: Tail)
    requires BannerAt(s, p)
    requires var q := p + |Banner| + 1;
      a <= VersionRun(s, q) && TailAt(s, q + a, t.d, t.n, t.w)
    ensures MatchAt(s, p, a, t.d, t.n, t.w)
  {
    VersionRunChars(s, p + |Banner| + 1, a);
  }

  /** Every character of a prefix of the version run is a version character. */
  lemma VersionRunChars(s: string, q: nat, a: nat)
    requires q <= |s| && a <= VersionRun(s, q)
    ensures forall k :: q <= k < q + a ==> VersionChar(s[k])
  {
    RunEndMaximal(s, VersionChars, q);
    forall k | q <= k < q + a
      ensures VersionChar(s[k])
    {
      assert InClass(VersionChars, s[k]);
    }
  }

  /** After the banner at `p`, `a` is the longest prefix of the version run
      that some tail follows, and `t` is the tail `TailFrom` finds there. */
  predicate LastTail(s: string, p: nat, a: nat, t: Tail) {
    && BannerAt(s, p)
    && var q := p + |Banner| + 1;
    && a <= VersionRun(s, q)
    && TailFrom(s, q + a) == Some(t)
    && forall b: nat :: q + a < b <= q + VersionRun(s, q) ==> TailFrom(s, b).None?
  }

  /** No match from `p` has a longer version run than `a`. */
  lemma StartSomeLongest(s: string, p: nat, a: nat, t: Tail)
    requires LastTail(s, p, a, t)
    ensures forall a': nat, d: nat, n: nat, w: nat :: MatchAt(s, p, a', d, n, w) ==> a' <= a
  {
    var q := p + |Banner| + 1;
    MatchesWithinRun(s, p);
    NoTails(s, q + a + 1, q + VersionRun(s, q));
  }

  /** No match from `p` with the version run `a` has a greedier tail than `t`. */
  lemma StartSomeGreedy(s: string, p: nat, a: nat, t: Tail)
    requires LastTail(s, p, a, t)
    ensures forall d: nat, n: nat, w: nat :: MatchAt(s, p, a, d, n, w) ==> TailLe(Tail(d, n, w), t)
  {
    var q := p + |Banner| + 1;
    TailFromBest(s, q + a);
    GreedyFromBest(s, p, a, t);
  }

  /** With the version run `a`, a best tail after it bounds every match's tail. */
  lemma GreedyFromBest(s: string, p: nat, a: nat, t: Tail)
    requires BestTail(s, p + |Banner| + 1 + a, t)
    ensures forall d: nat, n: nat, w: nat :: MatchAt(s, p, a, d, n, w) ==> TailLe(Tail(d, n, w), t)
  {
    forall d: nat, n: nat, w: nat | MatchAt(s, p, a, d, n, w)
      ensures TailLe(Tail(d, n, w), t)
    {
      assert TailAt(s, p + |Banner| + 1 + a, d, n, w);
    }
  }

  /** The longest prefix `a` of the version run that a tail can follow, with
      the preferred tail from there, is the preferred match from `p`. */
  lemma StartSome(s: string, p: nat, a: nat, t: Tail)
    requires LastTail(s, p, a, t)
    ensures BestAt(s, p, a, t)
  {
    TailFromBest(s, p + |Banner| + 1 + a);
    StartSomeMatches(s, p, a, t);
    StartSomeLongest(s, p, a, t);
    StartSomeGreedy(s, p, a, t);
  }

  /** What `BaseFrom` over the version run says about the matches from `p`. */
  lemma {:induction false} StartFacts(s: string, p: nat)
    requires BannerAt(s, p)
    ensures var q := p + |Banner| + 1;
      var r := BaseFrom(s, q, VersionRun(s, q));
      && (r.None? ==> !AnyMatchAt(s, p))
      && (r.Some? ==> BestAt(s, p, r.value.0, r.value.1))
  {
    var q := p + |Banner| + 1;
    var r := BaseFrom(s, q, VersionRun(s, q));
    if r.Some? {
      StartSome(s, p, r.value.0, r.value.1);
    } else {
      StartNone(s, p);
    }
  }

  /** The first start at or after `p` where the pattern matches, with the
      preferred way of matching from there. */
  function SearchFrom(s: string, p: nat): (r: Option<(nat, nat, Tail)>)
    ensures r.Some? ==> (
      var (p0, a, t) := r.value;
      && p <= p0
      && BestAt(s, p0, a, t)
      && (forall p': nat :: p <= p' < p0 ==> !AnyMatchAt(s, p')))
    ensures r.None? ==> forall p': nat :: p <= p' ==> !AnyMatchAt(s, p')
    decreases |s| - p
  {
    if p + |Banner| >= |s| then
      None
    else if BannerAt(s, p) then
      var q := p + |Banner| + 1;
      var r := BaseFrom(s, q, VersionRun(s, q));
      StartFacts(s, p);
      match r
      case Some((a, t)) => Some((p, a, t))
      case None => SearchFrom(s, p + 1)
    else
      SearchFrom(s, p + 1)
  }

  /** The two groups of a match: the version and the build number. */
  function Groups(s: string, p: nat, a: nat, t: Tail): (g: (string, string))
    requires MatchAt(s, p, a, t.d, t.n, t.w)
    ensures |g.0| == a && |g.1| == t.n
    ensures forall k :: 0 <= k < |g.0| ==> VersionChar(g.0[k])
    ensures forall k :: 0 <= k < |g.1| ==> IsDigit(g.1[k])
  {
    var q := p + |Banner| + 1;
    (s[q..q + a], s[q + a + t.d..q + a + t.d + t.n])
  }

  /** `re.search` of the Firefly banner pattern: no groups exactly when the
      pattern matches nowhere, and otherwise the groups of the match it prefers. */
  function FireflyMatch(s: string): (r: Option<(string, string)>)
    ensures r.None? <==> forall p: nat :: !AnyMatchAt(s, p)
    ensures r.Some? ==> exists p: nat, a: nat, t: Tail ::
      Preferred(s, p, a, t) && r.value == Groups(s, p, a, t)
  {
    match SearchFrom(s, 0)
    case None => None
    case Some((p, a, t)) =>
      assert AnyMatchAt(s, p) by {
        assert MatchAt(s, p, a, t.d, t.n, t.w);
      }
      assert Preferred(s, p, a, t);
      Some(Groups(s, p, a, t))
  }

  const PackageVersion := "package_version"
  const LegacyPackageVersion := "legacy_package_version"

  /** The Firefly banner: its version and build become the package version,
      and the version alone the legacy one. */
  function FireflyVersion(line: string, metadata: map<string, string>): (r: map<string, string>)
    ensures FireflyMatch(line).None? ==> r == metadata
    ensures FireflyMatch(line).Some? ==> (
      var (base, build) := FireflyMatch(line).value;
      && r == metadata[PackageVersion := base + "+" + build][LegacyPackageVersion := base])
  {
    if !Contains(line, Banner) then
      assert FireflyMatch(line).None? by {
        forall p: nat ensures !AnyMatchAt(line, p) {
          if AnyMatchAt(line, p) {
            ContainsWitness(line, Banner, p);
          }
        }
      }
      metadata
    else
      match FireflyMatch(line)
      case None => metadata
      case Some((base, build)) =>
        metadata[PackageVersion := base + "+" + build][LegacyPackageVersion := base]
  }

  const GamessMarker := "GAMESS VERSION ="

  /** The release: `1` when no `(Rn)` follows the year, and otherwise what the
      parentheses hold. */
  function Release(tokens: seq<string>): string
    requires |tokens| >= 7
  {
    var possible := tokens[|tokens| - 2];
    if possible == tokens[6] then "1" else PySeq.Slice(possible, 2, -1)
  }

  /** The GAMESS banner `GAMESS VERSION = day month year (Rn)`: the year and
      release become the package versions, unless a version is already known.
      A banner with fewer than seven words is malformed (the unpacking of
      `tokens[4:7]` fails). */
  function GamessVersionLine(line: string, metadata: map<string, string>): (r: Result<map<string, string>>)
    ensures !Contains(line, GamessMarker) || PackageVersion in metadata ==> r == Ok(metadata)
    ensures Contains(line, GamessMarker) && PackageVersion !in metadata ==>
      (r.Ok? <==> |Split(line)| >= 7)
    ensures r.Err? ==> r.failure.Malformed?
    ensures r.Ok? ==> forall k :: k in metadata && k != PackageVersion && k != LegacyPackageVersion ==>
      k in r.value && r.value[k] == metadata[k]
    ensures r.Ok? && r.value != metadata ==>
      r.value.Keys == metadata.Keys + {PackageVersion, LegacyPackageVersion}
  {
    if !Contains(line, GamessMarker) || PackageVersion in metadata then Ok(metadata)
    else
      var tokens := Split(line);
      if |tokens| < 7 then Err(Malformed("not enough values to unpack"))
      else
        var year := tokens[6];
        var release := Release(tokens);
        Ok(metadata[PackageVersion := year + ".r" + release][LegacyPackageVersion := year + "R" + release])
  }

  /** The words of a GAMESS banner, with the release marker `(Rn)` present
      when `rel` is not empty. */
  function BannerWords(day: string, month: string, year: string, rel: string): seq<string> {
    ["*", "GAMESS", "VERSION", "=", day, month, year]
    + (if rel == [] then [] else ["(R" + rel + ")"])
    + ["*"]
  }

  /** A line whose words begin `* GAMESS VERSION =` contains the marker. */
  lemma {:induction false} SpacedHasMarker(ws: seq<string>)
    requires |ws| >= 4 && ws[..4] == ["*", "GAMESS", "VERSION", "="]
    ensures Contains(Spaced(ws), GamessMarker)
  {
    SpacedBanner(ws);
    MarkerAfterStar(Spaced(ws[4..]));
    ContainsWitness(Spaced(ws), GamessMarker, 2);
  }

  lemma {:induction false} SpacedBanner(ws: seq<string>)
    requires |ws| >= 4 && ws[..4] == ["*", "GAMESS", "VERSION", "="]
    ensures Spaced(ws) == "* GAMESS VERSION = " + Spaced(ws[4..])
  {
    assert ws == ws[..4] + ws[4..];
    SpacedAppend(ws[..4], ws[4..]);
    SpacedMarkerWords();
  }

  lemma SpacedMarkerWords()
    ensures Spaced(["*", "GAMESS", "VERSION", "="]) == "* GAMESS VERSION = "
  {
    SpacedAppend(["*", "GAMESS"], ["VERSION", "="]);
    assert ["*", "GAMESS"] + ["VERSION", "="] == ["*", "GAMESS", "VERSION", "="];
    assert Spaced(["*", "GAMESS"]) == "* GAMESS " by { assert Spaced(["GAMESS"]) == "GAMESS "; }
    assert Spaced(["VERSION", "="]) == "VERSION = " by { assert Spaced(["="]) == "= "; }
  }

  lemma MarkerAfterStar(rest: string)
    ensures OccursAt("* GAMESS VERSION = " + rest, GamessMarker, 2)
  {
    var line := "* GAMESS VERSION = " + rest;
    assert line[2..2 + |GamessMarker|] == ("* GAMESS VERSION = ")[2..18];
  }

  /** The release read back from the banner words is the one printed. */
  lemma BannerRelease(day: string, month: string, year: string, rel: string)
    requires |year| >= 1 && Numbers.AllDigits(year)
    ensures Release(BannerWords(day, month, year, rel)) == if rel == [] then "1" else rel
  {
    if rel != [] {
      var m := "(R" + rel + ")";
      assert m[0] == '(' && !IsDigit(m[0]);
      assert PySeq.Slice(m, 2, -1) == rel;
    }
  }

  /** Every word of a banner is a token when the day, month, year and
      release are. */
  lemma BannerTokens(day: string, month: string, year: string, rel: string)
    requires IsToken(day) && IsToken(month) && IsToken(year)
    requires forall k :: 0 <= k < |rel| ==> !IsSpace(rel[k])
    ensures var ws := BannerWords(day, month, year, rel);
      forall i :: 0 <= i < |ws| ==> IsToken(ws[i])
  {
    if rel != [] {
      var m := "(R" + rel + ")";
      assert forall k :: 2 <= k < |m| - 1 ==> m[k] == rel[k - 2];
      assert IsToken(m);
    }
  }

  /** A banner for the `rel`-th release of `year` gives the versions
      `year.r<rel>` and `year`R`rel`, and release 1 when no marker is printed. */
  lemma GamessBannerVersion(day: string, month: string, year: string, rel: string,
                            metadata: map<string, string>)
    requires IsToken(day) && IsToken(month)
    requires |year| >= 1 && Numbers.AllDigits(year)
    requires forall k :: 0 <= k < |rel| ==> !IsSpace(rel[k])
    requires PackageVersion !in metadata
    ensures var r := if rel == [] then "1" else rel;
      GamessVersionLine(Spaced(BannerWords(day, month, year, rel)), metadata)
        == Ok(metadata[PackageVersion := year + ".r" + r][LegacyPackageVersion := year + "R" + r])
  {
    var ws := BannerWords(day, month, year, rel);
    BannerTokens(day, month, year, rel);
    SplitSpaced(ws);
    SpacedHasMarker(ws);
    BannerRelease(day, month, year, rel);
  }

  /** Firefly's banner comes first: once it has set the version, a later
      GAMESS banner leaves the metadata as it is. */
  lemma FireflyTakesPrecedence(first: string, later: string, metadata: map<string, string>)
    ensures FireflyMatch(first).Some? ==>
      var m := FireflyVersion(first, metadata);
      PackageVersion in m && GamessVersionLine(later, m) == Ok(m)
  {
  }
}

=== FILE: gamess_vibrations.dfy ===
/** The normal-mode block of a GAMESS log.

    The block opens at `NORMAL COORDINATE ANALYSIS IN THE HARMONIC
    APPROXIMATION`. Before the modes come optional atomic weights and
    warnings, then a `MODES a TO b ARE TAKEN AS ROTATIONS AND TRANSLATIONS`
    line. The modes follow in groups of up to five columns: a FREQUENCY row
    (an `I` after a value marks it imaginary), optional SYMMETRY, REDUCED
    MASS, IR INTENSITY and RAMAN rows, a blank line, three displacement rows
    per atom and the Sayvetz conditions. Once the last group is read, the
    1-based modes `a..b` are cut out of every per-mode list.
 */
module GamessVibrations {
  import opened Results
  import opened Text
  import opened Cursor
  import Numbers
  import PySeq

  // ---------------------------------------------------------------------
  // FREQUENCY rows

  /** How many columns of a FREQUENCY row are values rather than `I` marks. */
  function CountValues(cols: seq<string>): (n: nat)
    ensures n <= |cols|
  {
    if cols == [] then 0 else (if cols[0] == "I" then 0 else 1) + CountValues(cols[1..])
  }

  /** The columns of a FREQUENCY row, read left to right onto `freqs`: a value
      is appended, an `I` negates the value appended last, and fails on an
      empty list (`IndexError`). */
  function FreqColumns(cols: seq<string>, freqs: seq<real>): (r: Result<seq<real>>)
    ensures cols != [] && cols[0] == "I" && freqs == [] ==> r.Err?
    ensures r.Ok? ==> |r.value| == |freqs| + CountValues(cols)
    ensures r.Ok? ==> forall i :: 0 <= i < |freqs| - 1 ==> r.value[i] == freqs[i]
    decreases |cols|
  {
    if cols == [] then Ok(freqs)
    else if cols[0] == "I" then
      if freqs == [] then Err(Malformed("list index out of range"))
      else FreqColumns(cols[1..], freqs[..|freqs| - 1] + [-freqs[|freqs| - 1]])
    else
      var v :- Numbers.Real(cols[0]);
      FreqColumns(cols[1..], freqs + [v])
  }

  /** A FREQUENCY row: every word after the label is a column. */
  function FreqRow(line: string, freqs: seq<real>): Result<seq<real>> {
    FreqColumns(PySeq.Drop(Split(line), 1), freqs)
  }

  /** How GAMESS prints frequencies: each magnitude, followed by `I` when the
      mode is imaginary. */
  function Printed(ws: seq<string>, imaginary: seq<bool>): seq<string>
    requires |ws| == |imaginary|
  {
    if ws == [] then []
    else [ws[0]] + (if imaginary[0] then ["I"] else []) + Printed(ws[1..], imaginary[1..])
  }

  /** The frequencies a printed row stands for: imaginary ones are negative. */
  function Signed(vs: seq<real>, imaginary: seq<bool>): (r: seq<real>)
    requires |vs| == |imaginary|
    ensures |r| == |vs|
  {
    if vs == [] then []
    else [if imaginary[0] then -vs[0] else vs[0]] + Signed(vs[1..], imaginary[1..])
  }

  /** A column that reads as a number is not an `I` mark. */
  lemma NumberIsNotMark(w: string, v: real)
    requires Numbers.Real(w) == Ok(v)
    ensures w != "I"
  {
    assert Numbers.Real("I").Err?;
  }

  /** A value column appends its value. */
  lemma FreqColumnsValue(cols: seq<string>, freqs: seq<real>, v: real)
    requires cols != [] && Numbers.Real(cols[0]) == Ok(v)
    ensures FreqColumns(cols, freqs) == FreqColumns(cols[1..], freqs + [v])
  {
    NumberIsNotMark(cols[0], v);
  }

  /** An `I` column negates the value appended last. */
  lemma FreqColumnsMark(cols: seq<string>, freqs: seq<real>, v: real)
    requires cols != [] && cols[0] == "I"
    ensures FreqColumns(cols, freqs + [v]) == FreqColumns(cols[1..], freqs + [-v])
  {
    assert (freqs + [v])[..|freqs|] == freqs;
  }

  /** Reading a printed row appends the signed frequencies, one per value. */
  lemma {:induction false} FreqColumnsOfPrinted(ws: seq<string>, vs: seq<real>, imaginary: seq<bool>, freqs: seq<real>)
    requires |ws| == |vs| == |imaginary|
    requires forall i :: 0 <= i < |ws| ==> Numbers.Real(ws[i]) == Ok(vs[i])
    ensures FreqColumns(Printed(ws, imaginary), freqs) == Ok(freqs + Signed(vs, imaginary))
    decreases |ws|
  {
    if ws == [] {
      assert freqs + [] == freqs;
    } else {
      var cols := Printed(ws, imaginary);
      var tail := Printed(ws[1..], imaginary[1..]);
      var first := if imaginary[0] then -vs[0] else vs[0];
      assert FreqColumns(tail, freqs + [first]) == Ok(freqs + Signed(vs, imaginary)) by {
        FreqColumnsOfPrinted(ws[1..], vs[1..], imaginary[1..], freqs + [first]);
        assert Signed(vs, imaginary) == [first] + Signed(vs[1..], imaginary[1..]);
        assert freqs + Signed(vs, imaginary) == (freqs + [first]) + Signed(vs[1..], imaginary[1..]);
      }
      assert FreqColumns(cols, freqs) == FreqColumns(tail, freqs + [first]) by {
        PrintedStep(ws, vs, imaginary, freqs);
      }
    }
  }

  /** One printed value, with its mark if any, is read as its signed value. */
  lemma PrintedStep(ws: seq<string>, vs: seq<real>, imaginary: seq<bool>, freqs: seq<real>)
    requires |ws| == |vs| == |imaginary| > 0
    requires Numbers.Real(ws[0]) == Ok(vs[0])
    ensures FreqColumns(Printed(ws, imaginary), freqs)
         == FreqColumns(Printed(ws[1..], imaginary[1..]), freqs + [if imaginary[0] then -vs[0] else vs[0]])
  {
    var cols := Printed(ws, imaginary);
    var tail := Printed(ws[1..], imaginary[1..]);
    if imaginary[0] {
      assert cols == [ws[0]] + ["I"] + tail;
      assert FreqColumns(cols, freqs) == FreqColumns(["I"] + tail, freqs + [vs[0]]) by {
        assert cols[1..] == ["I"] + tail;
        FreqColumnsValue(cols, freqs, vs[0]);
      }
      assert (["I"] + tail)[1..] == tail;
      FreqColumnsMark(["I"] + tail, freqs, vs[0]);
    } else {
      assert cols == [ws[0]] + tail;
      assert cols[1..] == tail;
      FreqColumnsValue(cols, freqs, vs[0]);
    }
  }

  // ---------------------------------------------------------------------
  // The rotations and translations

  /** The per-mode list without the modes `startrot..endrot` (1-based,
      inclusive): `xs[:startrot - 1] + xs[endrot:]`. */
  function Exclude<T>(xs: seq<T>, startrot: int, endrot: int): (r: seq<T>)
    ensures 1 <= startrot <= endrot + 1 && endrot <= |xs| ==> (
      && |r| == |xs| - (endrot - startrot + 1)
      && (forall i :: 0 <= i < startrot - 1 ==> r[i] == xs[i])
      && (forall i :: startrot - 1 <= i < |r| ==> r[i] == xs[i + endrot - startrot + 1]))
  {
    PySeq.Take(xs, startrot - 1) + PySeq.Drop(xs, endrot)
  }

  /** The 1-based modes `startrot..endrot` are the ones cut out: every other
      mode is kept, in order. */
  lemma ExcludeKeepsOthers<T>(xs: seq<T>, startrot: int, endrot: int, k: nat)
    requires 1 <= startrot <= endrot + 1 && endrot <= |xs|
    requires k < |xs| && !(startrot <= k + 1 <= endrot)
    ensures var r := Exclude(xs, startrot, endrot);
      var i := if k < startrot - 1 then k else k - (endrot - startrot + 1);
      0 <= i < |r| && r[i] == xs[k]
  {
  }

  /** Pairs of entries of two per-mode lists. */
  function Zip<A, B>(xs: seq<A>, ys: seq<B>): (r: seq<(A, B)>)
    requires |xs| == |ys|
    ensures |r| == |xs| && forall i :: 0 <= i < |xs| ==> r[i] == (xs[i], ys[i])
  {
    seq(|xs|, i requires 0 <= i < |xs| => (xs[i], ys[i]))
  }

  /** The same cut applied to two lists of the same length keeps them
      aligned: mode `i` of one still belongs with mode `i` of the other. */
  lemma ExcludeAligned<A, B>(xs: seq<A>, ys: seq<B>, startrot: int, endrot: int)
    requires |xs| == |ys|
    ensures |Exclude(xs, startrot, endrot)| == |Exclude(ys, startrot, endrot)|
    ensures Zip(Exclude(xs, startrot, endrot), Exclude(ys, startrot, endrot)) == Exclude(Zip(xs, ys), startrot, endrot)
  {
    var z := Zip(xs, ys);
    var a := Bound(|xs|, startrot - 1);
    var b := Bound(|xs|, endrot);
    assert Exclude(xs, startrot, endrot) == xs[..a] + xs[b..];
    assert Exclude(ys, startrot, endrot) == ys[..a] + ys[b..];
    assert Exclude(z, startrot, endrot) == z[..a] + z[b..];
  }

  function Bound(n: nat, k: int): nat {
    PySeq.Bound(n, k)
  }

  /** The range of the `MODES a TO b` line. Older versions print the end
      fused to `TO` (`MODES 9 TO14`): a third word longer than two characters
      carries the end after its first two. */
  function RotRange(line: string): (r: Result<(int, int)>)
    ensures r.Ok? ==> |Split(line)| >= 3
  {
    var ws := Split(line);
    var a :- PySeq.At(ws, 1);
    var startrot :- Numbers.Int(a);
    var b :- PySeq.At(ws, 2);
    if |b| == 2 then
      var d :- PySeq.At(ws, 3);
      var endrot :- Numbers.Int(d);
      Ok((startrot, endrot))
    else
      var endrot :- Numbers.Int(PySeq.Drop(b, 2));
      Ok((startrot, endrot))
  }

  /** `MODES a TO b ...` gives `(a, b)`. */
  lemma RotRangeSeparate(line: string, startrot: int, endrot: int, rest: seq<string>)
    requires Split(line) == ["MODES", Numbers.IntToString(startrot), "TO", Numbers.IntToString(endrot)] + rest
    ensures RotRange(line) == Ok((startrot, endrot))
  {
    Numbers.ParseShowInt(startrot);
    Numbers.ParseShowInt(endrot);
  }

  /** The fused `MODES a TOb ...` gives `(a, b)` too. */
  lemma RotRangeFused(line: string, startrot: int, endrot: int, rest: seq<string>)
    requires Split(line) == ["MODES", Numbers.IntToString(startrot), "TO" + Numbers.IntToString(endrot)] + rest
    ensures RotRange(line) == Ok((startrot, endrot))
  {
    Numbers.ParseShowInt(startrot);
    Numbers.ParseShowInt(endrot);
    var b := "TO" + Numbers.IntToString(endrot);
    assert PySeq.Drop(b, 2) == Numbers.IntToString(endrot);
  }

  // ---------------------------------------------------------------------
  // The header row of the first group

  /** The length of the run of spaces that ends just before `i`. */
  function SpacesBefore(s: string, i: nat): (n: nat)
    requires i <= |s|
    ensures n <= i
    ensures forall k :: i - n <= k < i ==> s[k] == ' '
    ensures n < i ==> s[i - n - 1] != ' '
  {
    if i == 0 || s[i - 1] != ' ' then 0 else SpacesBefore(s, i - 1) + 1
  }

  /** A `1` at `i` right after 26 spaces: where `re.search(" {26,}1", s)`
      matches. */
  predicate PatternAt(s: string, i: int) {
    0 <= i < |s| && s[i] == '1' && i >= 26 && forall k :: i - 26 <= k < i ==> s[k] == ' '
  }

  /** The column-number row is found by a left-to-right scan. */
  function HeaderFrom(s: string, i: nat): (b: bool)
    requires i <= |s|
    decreases |s| - i
  {
    if i == |s| then false
    else (s[i] == '1' && SpacesBefore(s, i) >= 26) || HeaderFrom(s, i + 1)
  }

  lemma {:induction false} HeaderFromSpec(s: string, i: nat)
    requires i <= |s|
    ensures HeaderFrom(s, i) <==> exists k :: i <= k < |s| && s[k] == '1' && SpacesBefore(s, k) >= 26
    decreases |s| - i
  {
    if i < |s| {
      HeaderFromSpec(s, i + 1);
    }
  }

  /** The scan agrees with the pattern: a `1` with at least 26 spaces right
      before it, in both directions. */
  lemma HeaderIff(s: string)
    ensures HeaderFrom(s, 0) <==> exists i :: PatternAt(s, i)
  {
    HeaderFromSpec(s, 0);
    if HeaderFrom(s, 0) {
      var i :| 0 <= i < |s| && s[i] == '1' && SpacesBefore(s, i) >= 26;
      assert PatternAt(s, i);
    }
    if exists i :: PatternAt(s, i) {
      var i :| PatternAt(s, i);
      SpacesRun(s, i, 26);
    }
  }

  /** A run of `n` spaces right before `i` is at least `n` long. */
  lemma {:induction false} SpacesRun(s: string, i: nat, n: nat)
    requires n <= i <= |s|
    requires forall k :: i - n <= k < i ==> s[k] == ' '
    ensures SpacesBefore(s, i) >= n
    decreases n
  {
    if n > 0 {
      SpacesRun(s, i - 1, n - 1);
    }
  }

  // ---------------------------------------------------------------------
  // Atomic weights

  /** The rows after `ATOMIC WEIGHTS`, up to the blank line that ends them:
      each gives a mass in its third word. */
  function WeightRows(line: string, c: LineCursor, masses: seq<real>): (r: Result<Step<seq<real>>>)
    ensures r.Ok? ==> IsBlank(r.value.line) && Advanced(c, r.value.rest)
    decreases c.Remaining()
  {
    if IsBlank(line) then Ok(Step(line, c, masses))
    else
      var m :- Numbers.Field(line, 2);
      var rd :- Next(c);
      WeightRows(rd.line, rd.rest, masses + [m])
  }

  /** The weights table: a blank line, then the rows. */
  function Weights(c: LineCursor): (r: Result<Step<seq<real>>>)
    ensures r.Ok? ==> IsBlank(r.value.line) && Advanced(c, r.value.rest)
  {
    var c1 :- Skip(c, 1);
    var rd :- Next(c1);
    WeightRows(rd.line, rd.rest, [])
  }

  /** Lines `base..` are non-blank rows with the masses `ms` in their
      third words, and a blank line follows them. */
  predicate MassRows(lines: seq<string>, base: nat, ms: seq<real>) {
    && base + |ms| < |lines|
    && (forall i :: 0 <= i < |ms| ==> !IsBlank(lines[base + i]) && Numbers.Field(lines[base + i], 2) == Ok(ms[i]))
    && IsBlank(lines[base + |ms|])
  }

  /** Mass rows yield their masses in order and stop at the blank line. */
  lemma {:induction false} WeightRowsRead(lines: seq<string>, base: nat, ms: seq<real>, k: nat, masses: seq<real>)
    requires k <= |ms| && MassRows(lines, base, ms)
    ensures WeightRows(lines[base + k], LineCursor(lines, base + k + 1), masses + ms[..k])
         == Ok(Step(lines[base + |ms|], LineCursor(lines, base + |ms| + 1), masses + ms))
    decreases |ms| - k
  {
    if k == |ms| {
      assert ms[..k] == ms;
    } else {
      assert masses + ms[..k] + [ms[k]] == masses + ms[..k + 1];
      WeightRowsRead(lines, base, ms, k + 1, masses);
    }
  }

  /** The table under `ATOMIC WEIGHTS`: a blank line, then the rows. */
  lemma WeightsRead(lines: seq<string>, pos: nat, ms: seq<real>)
    requires MassRows(lines, pos + 1, ms)
    ensures Weights(LineCursor(lines, pos)) == Ok(Step(lines[pos + 1 + |ms|], LineCursor(lines, pos + 2 + |ms|), ms))
  {
    WeightRowsRead(lines, pos + 1, ms, 0, []);
    assert [] + ms[..0] == [] && [] + ms == ms;
  }

  // ---------------------------------------------------------------------
  // Cartesian displacements

  /** The numbers of a displacement row, after its first 21 characters. */
  function CoordRow(line: string): Result<seq<real>> {
    Numbers.Floats(Split(From(line, 21)))
  }

  /** Column `i` of a displacement row belongs to mode `i` of the group; a
      row of more than five columns fails (`IndexError`). */
  function AddColumns(q: seq<seq<real>>, cols: seq<real>): (r: Result<seq<seq<real>>>)
    requires |q| == 5
    ensures r.Ok? <==> |cols| <= 5
    ensures r.Ok? ==> |r.value| == 5
  {
    if |cols| <= 5 then Ok(seq(5, i requires 0 <= i < 5 => if i < |cols| then q[i] + [cols[i]] else q[i]))
    else Err(Malformed("list index out of range"))
  }

  /** Five empty columns: the start of each atom, and of each group. */
  const NoModes: seq<seq<real>> := [[], [], [], [], []]
  const NoDisps: seq<seq<seq<real>>> := [[], [], [], [], []]

  /** Per mode, the coordinates of one atom's x, y and z rows. */
  function Columns(xs: seq<real>, ys: seq<real>, zs: seq<real>): (r: Result<seq<seq<real>>>)
    ensures r.Ok? <==> |xs| <= 5 && |ys| <= 5 && |zs| <= 5
    ensures r.Ok? ==> |r.value| == 5
  {
    var q1 :- AddColumns(NoModes, xs);
    var q2 :- AddColumns(q1, ys);
    AddColumns(q2, zs)
  }

  /** Rows of the same width `m` give each of the first `m` modes the atom's
      x, y and z, and nothing to the others. */
  lemma ColumnsOfUniform(xs: seq<real>, ys: seq<real>, zs: seq<real>, m: nat)
    requires |xs| == |ys| == |zs| == m <= 5
    ensures Columns(xs, ys, zs).Ok?
    ensures forall k :: 0 <= k < 5 ==> Columns(xs, ys, zs).value[k] == if k < m then [xs[k], ys[k], zs[k]] else []
  {
  }

  /** What the rows of one atom give: per mode, the coordinates read, and the
      number of columns of the atom's last row. */
  datatype AtomRows = AtomRows(q: seq<seq<real>>, width: nat, rest: LineCursor)

  /** The x, y and z rows of one atom. */
  function Atom(c: LineCursor, row: string -> Result<seq<real>>): (r: Result<AtomRows>)
    ensures r.Ok? ==> |r.value.q| == 5 && r.value.width <= 5 && r.value.rest == LineCursor(c.lines, c.pos + 3)
    ensures r.Ok? ==> c.pos + 3 <= |c.lines|
  {
    var x :- Next(c);
    var xs :- row(x.line);
    var y :- Next(x.rest);
    var ys :- row(y.line);
    var z :- Next(y.rest);
    var zs :- row(z.line);
    AtomOf(xs, ys, zs, z.rest)
  }

  /** An atom's modes from its three parsed rows. */
  function AtomOf(xs: seq<real>, ys: seq<real>, zs: seq<real>, rest: LineCursor): (r: Result<AtomRows>)
    ensures r.Ok? ==> |r.value.q| == 5 && r.value.width == |zs| <= 5 && r.value.rest == rest
  {
    var q :- Columns(xs, ys, zs);
    Ok(AtomRows(q, |zs|, rest))
  }

  /** Three readable rows are one atom. */
  lemma AtomReads(c: LineCursor, row: string -> Result<seq<real>>, xs: seq<real>, ys: seq<real>, zs: seq<real>)
    requires c.pos + 3 <= |c.lines|
    requires row(c.lines[c.pos]) == Ok(xs) && row(c.lines[c.pos + 1]) == Ok(ys)
    requires row(c.lines[c.pos + 2]) == Ok(zs)
    ensures Atom(c, row) == AtomOf(xs, ys, zs, LineCursor(c.lines, c.pos + 3))
  {
  }

  /** Mode `k` of the group gets the atom's coordinates `q[k]` when `k` is
      below the width of the atom's last row. */
  function Gather(p: seq<seq<seq<real>>>, q: seq<seq<real>>, width: nat): (r: seq<seq<seq<real>>>)
    requires |p| == 5 && |q| == 5
    ensures |r| == 5
  {
    seq(5, k requires 0 <= k < 5 => if k < width then p[k] + [q[k]] else p[k])
  }

  /** The rows of `n` more atoms, and the width of the last row read. */
  function Atoms(c: LineCursor, row: string -> Result<seq<real>>, n: nat, p: seq<seq<seq<real>>>, width: nat)
    : (r: Result<(seq<seq<seq<real>>>, nat, LineCursor)>)
    requires |p| == 5 && width <= 5
    ensures r.Ok? ==> |r.value.0| == 5 && r.value.1 <= 5 && r.value.2 == LineCursor(c.lines, c.pos + 3 * n)
    ensures r.Ok? && n > 0 ==> c.pos + 3 * n <= |c.lines|
    decreases n
  {
    if n == 0 then Ok((p, width, c))
    else
      var a :- Atom(c, row);
      Atoms(a.rest, row, n - 1, Gather(p, a.q, a.width), a.width)
  }

  /** One group's displacements: for each mode, the x, y, z of every atom.
      Without atoms there is no last row to size the group by, and the
      block fails (`cols` is never bound). */
  function Displacements(c: LineCursor, row: string -> Result<seq<real>>, natom: nat): (r: Result<(seq<seq<seq<real>>>, LineCursor)>)
    ensures natom == 0 ==> r.Err?
    ensures r.Ok? ==> |r.value.0| <= 5 && r.value.1 == LineCursor(c.lines, c.pos + 3 * natom)
    ensures r.Ok? ==> c.pos + 3 * natom <= |c.lines|
  {
    if natom == 0 then Err(Malformed("local variable 'cols' referenced before assignment"))
    else
      var (p, width, rest) :- Atoms(c, row, natom, NoDisps, 0);
      Ok((p[..width], rest))
  }

  /** Lines `pos..` of the log are displacement rows `m` numbers wide,
      whose numbers are `rows`. */
  predicate RowsAt(lines: seq<string>, row: string -> Result<seq<real>>, pos: nat, rows: seq<seq<real>>, m: nat)
    decreases |rows|
  {
    rows == [] || (pos < |lines| && |rows[0]| == m && row(lines[pos]) == Ok(rows[0])
                   && RowsAt(lines, row, pos + 1, rows[1..], m))
  }

  lemma {:induction false} RowsAtWidths(lines: seq<string>, row: string -> Result<seq<real>>, pos: nat, rows: seq<seq<real>>, m: nat)
    requires RowsAt(lines, row, pos, rows, m)
    ensures forall i :: 0 <= i < |rows| ==> |rows[i]| == m
    decreases |rows|
  {
    if rows != [] {
      RowsAtWidths(lines, row, pos + 1, rows[1..], m);
      assert forall i :: 1 <= i < |rows| ==> rows[i] == rows[1..][i - 1];
    }
  }

  /** Number `k` of a row; rows `m` wide are only asked for `k < m`. */
  function Cell(r: seq<real>, k: nat): real {
    if k < |r| then r[k] else 0.0
  }

  /** The displacement of atom `j` in mode `k`: its x, y and z. */
  function Disp(rows: seq<seq<real>>, j: nat, k: nat): seq<real>
    requires 3 * j + 2 < |rows|
  {
    [Cell(rows[3 * j], k), Cell(rows[3 * j + 1], k), Cell(rows[3 * j + 2], k)]
  }

  /** The displacements of atom `j` in each of the five columns. */
  function AtomDisps(rows: seq<seq<real>>, m: nat, j: nat): (q: seq<seq<real>>)
    requires m <= 5 && 3 * j + 2 < |rows|
    ensures |q| == 5
  {
    seq(5, k requires 0 <= k < 5 => if k < m then Disp(rows, j, k) else [])
  }

  /** The modes gathered from the first `j` atoms of rows `m` wide. */
  function ModesAfter(rows: seq<seq<real>>, m: nat, j: nat): (p: seq<seq<seq<real>>>)
    requires m <= 5 && 3 * j <= |rows|
    ensures |p| == 5
  {
    if j == 0 then NoDisps else Gather(ModesAfter(rows, m, j - 1), AtomDisps(rows, m, j - 1), m)
  }

  /** Each of the first `m` modes lists the atoms' displacements in atom
      order; the other modes are empty. */
  lemma {:induction false} ModesAfterHolds(rows: seq<seq<real>>, m: nat, j: nat)
    requires m <= 5 && 3 * j <= |rows|
    ensures forall k :: m <= k < 5 ==> ModesAfter(rows, m, j)[k] == []
    ensures forall k :: 0 <= k < m ==> |ModesAfter(rows, m, j)[k]| == j
    ensures forall k, a :: 0 <= k < m && 0 <= a < j ==> ModesAfter(rows, m, j)[k][a] == Disp(rows, a, k)
  {
    if j > 0 {
      ModesAfterHolds(rows, m, j - 1);
      var p := ModesAfter(rows, m, j - 1);
      forall k | 0 <= k < m
        ensures ModesAfter(rows, m, j)[k] == p[k] + [Disp(rows, j - 1, k)]
      {
      }
    }
  }

  /** The first of the rows. */
  lemma RowsAtHead(lines: seq<string>, row: string -> Result<seq<real>>, pos: nat, first: seq<real>, rest: seq<seq<real>>, m: nat)
    requires RowsAt(lines, row, pos, [first] + rest, m)
    ensures pos < |lines| && |first| == m && row(lines[pos]) == Ok(first) && RowsAt(lines, row, pos + 1, rest, m)
  {
    assert ([first] + rest)[1..] == rest;
  }

  /** The rows of the next atom are read as its displacements. */
  lemma AtomOfUniform(lines: seq<string>, row: string -> Result<seq<real>>, pos: nat, xs: seq<real>, ys: seq<real>, zs: seq<real>, rest: seq<seq<real>>, m: nat)
    requires m <= 5 && RowsAt(lines, row, pos, [xs, ys, zs] + rest, m)
    ensures |xs| == |ys| == |zs| == m
    ensures Atom(LineCursor(lines, pos), row).Ok?
    ensures var a := Atom(LineCursor(lines, pos), row).value;
      && a.width == m && a.rest == LineCursor(lines, pos + 3)
      && forall k :: 0 <= k < 5 ==> a.q[k] == if k < m then [xs[k], ys[k], zs[k]] else []
    ensures RowsAt(lines, row, pos + 3, rest, m)
  {
    assert [xs, ys, zs] + rest == [xs] + ([ys, zs] + rest);
    RowsAtHead(lines, row, pos, xs, [ys, zs] + rest, m);
    assert [ys, zs] + rest == [ys] + ([zs] + rest);
    RowsAtHead(lines, row, pos + 1, ys, [zs] + rest, m);
    RowsAtHead(lines, row, pos + 2, zs, rest, m);
    AtomReads(LineCursor(lines, pos), row, xs, ys, zs);
    ColumnsOfUniform(xs, ys, zs, m);
  }

  /** Reading atom `j` of uniform rows gathers it. */
  lemma AtomsUniformStep(lines: seq<string>, row: string -> Result<seq<real>>, base: nat, rows: seq<seq<real>>, m: nat, j: nat, natom: nat, width: nat)
    requires 1 <= m <= 5 && j < natom && |rows| == 3 * natom && width <= 5
    requires RowsAt(lines, row, base + 3 * j, rows[3 * j..], m)
    ensures RowsAt(lines, row, base + 3 * j + 3, rows[3 * j + 3..], m)
    ensures Atoms(LineCursor(lines, base + 3 * j), row, natom - j, ModesAfter(rows, m, j), width)
         == Atoms(LineCursor(lines, base + 3 * j + 3), row, natom - j - 1, ModesAfter(rows, m, j + 1), m)
  {
    assert rows[3 * j..] == [rows[3 * j], rows[3 * j + 1], rows[3 * j + 2]] + rows[3 * j + 3..];
    AtomOfUniform(lines, row, base + 3 * j, rows[3 * j], rows[3 * j + 1], rows[3 * j + 2], rows[3 * j + 3..], m);
    var a := Atom(LineCursor(lines, base + 3 * j), row).value;
    assert a.q == AtomDisps(rows, m, j);
  }

  /** Reading the atoms from `j` on gathers all of them. */
  lemma {:induction false} AtomsOfUniform(lines: seq<string>, row: string -> Result<seq<real>>, base: nat, rows: seq<seq<real>>, m: nat, j: nat, natom: nat, width: nat)
    requires 1 <= m <= 5 && j < natom && |rows| == 3 * natom && width <= 5
    requires RowsAt(lines, row, base + 3 * j, rows[3 * j..], m)
    ensures Atoms(LineCursor(lines, base + 3 * j), row, natom - j, ModesAfter(rows, m, j), width)
         == Ok((ModesAfter(rows, m, natom), m, LineCursor(lines, base + 3 * natom)))
    decreases natom - j, 1
  {
    AtomsUniformStep(lines, row, base, rows, m, j, natom, width);
    if j + 1 < natom {
      AtomsAfter(lines, row, base, rows, m, j, natom);
    } else {
      AtomsNone(LineCursor(lines, base + 3 * j + 3), row, ModesAfter(rows, m, j + 1), m);
    }
  }

  /** The atoms after atom `j`, when there are some. */
  lemma {:induction false} AtomsAfter(lines: seq<string>, row: string -> Result<seq<real>>, base: nat, rows: seq<seq<real>>, m: nat, j: nat, natom: nat)
    requires 1 <= m <= 5 && j + 1 < natom && |rows| == 3 * natom
    requires RowsAt(lines, row, base + 3 * j + 3, rows[3 * j + 3..], m)
    ensures Atoms(LineCursor(lines, base + 3 * j + 3), row, natom - j - 1, ModesAfter(rows, m, j + 1), m)
         == Ok((ModesAfter(rows, m, natom), m, LineCursor(lines, base + 3 * natom)))
    decreases natom - j, 0
  {
    var k := j + 1;
    assert base + 3 * k == base + 3 * j + 3 && natom - k == natom - j - 1;
    assert rows[3 * k..] == rows[3 * j + 3..];
    AtomsOfUniform(lines, row, base, rows, m, k, natom, m);
  }

  lemma AtomsNone(c: LineCursor, row: string -> Result<seq<real>>, p: seq<seq<seq<real>>>, width: nat)
    requires |p| == 5 && width <= 5
    ensures Atoms(c, row, 0, p, width) == Ok((p, width, c))
  {
  }

  /** The modes that rows `m` wide give: mode `k` lists, atom by atom,
      the x, y and z in column `k`. */
  function ModeTable(rows: seq<seq<real>>, m: nat, natom: nat): (t: seq<seq<seq<real>>>)
    requires 3 * natom <= |rows|
    ensures |t| == m && forall k :: 0 <= k < m ==> |t[k]| == natom
  {
    seq(m, k requires 0 <= k < m => seq(natom, j requires 0 <= j < natom => Disp(rows, j, k)))
  }

  /** Rows of `m` columns each (one to five) read back as `m` modes, each
      holding every atom's x, y and z in that column, in atom order. */
  lemma DisplacementsOfUniform(lines: seq<string>, row: string -> Result<seq<real>>, base: nat, rows: seq<seq<real>>, m: nat, natom: nat)
    requires 1 <= m <= 5 && natom >= 1 && |rows| == 3 * natom && RowsAt(lines, row, base, rows, m)
    ensures Displacements(LineCursor(lines, base), row, natom)
         == Ok((ModeTable(rows, m, natom), LineCursor(lines, base + 3 * natom)))
  {
    assert rows[0..] == rows && base + 3 * 0 == base;
    AtomsOfUniform(lines, row, base, rows, m, 0, natom, 0);
    ModesAfterHolds(rows, m, natom);
    var p := ModesAfter(rows, m, natom);
    var t := ModeTable(rows, m, natom);
    forall k | 0 <= k < m
      ensures p[k] == t[k]
    {
    }
    assert p[..m] == t;
  }

  // ---------------------------------------------------------------------
  // One group of up to five modes

  /** The per-mode lists of the block. `rmasses` and `ramans` are absent
      until a REDUCED MASS or RAMAN row is met. */
  datatype Modes = Modes(freqs: seq<real>, irs: seq<real>, disps: seq<seq<seq<real>>>,
                         rmasses: Option<seq<real>>, ramans: Option<seq<real>>)

  function Entries(xs: Option<seq<real>>): seq<real> {
    if xs.Some? then xs.value else []
  }

  /** The numbers of a REDUCED MASS, IR INTENSITY or RAMAN row: every word
      after the two-word label. */
  function RowValues(line: string): Result<seq<real>> {
    Numbers.Floats(PySeq.Drop(Split(line), 2))
  }

  /** IR intensities converted from Debye^2/amu-Angstrom^2 to km/mol by `ir`. */
  function Convert(ir: real -> real, xs: seq<real>): (r: seq<real>)
    ensures |r| == |xs| && forall i :: 0 <= i < |xs| ==> r[i] == ir(xs[i])
  {
    seq(|xs|, i requires 0 <= i < |xs| => ir(xs[i]))
  }

  /** A SYMMETRY row (newer versions) is passed over. */
  function SymmetryRow(rd: Read): (r: Result<Read>)
    ensures r.Ok? ==> Advanced(rd.rest, r.value.rest)
  {
    if Contains(rd.line, "SYMMETRY") then Next(rd.rest) else Ok(rd)
  }

  /** A REDUCED MASS row extends `rmasses`, starting it if absent. */
  function ReducedRow(rd: Read, v: Modes): (r: Result<(Read, Modes)>)
    ensures r.Ok? ==> Advanced(rd.rest, r.value.0.rest)
    ensures r.Ok? ==> r.value.1.freqs == v.freqs && r.value.1.disps == v.disps
    ensures r.Ok? ==> r.value.1.irs == v.irs
  {
    if !Contains(rd.line, "REDUCED") then Ok((rd, v))
    else
      var ms :- RowValues(rd.line);
      var next :- Next(rd.rest);
      Ok((next, v.(rmasses := Some(Entries(v.rmasses) + ms))))
  }

  /** An IR INTENSITY row (absent for numerical Hessians) extends `irs`. */
  function IntensityRow(rd: Read, v: Modes, ir: real -> real): (r: Result<(Read, Modes)>)
    ensures r.Ok? ==> Advanced(rd.rest, r.value.0.rest)
    ensures r.Ok? ==> r.value.1.freqs == v.freqs && r.value.1.disps == v.disps
    ensures r.Ok? ==> |r.value.1.irs| >= |v.irs| && r.value.1.irs[..|v.irs|] == v.irs
  {
    if !Contains(rd.line, "IR INTENSITY") then Ok((rd, v))
    else
      var xs :- RowValues(rd.line);
      var next :- Next(rd.rest);
      Ok((next, v.(irs := v.irs + Convert(ir, xs))))
  }

  /** A RAMAN ACTIVITY row extends `ramans`, starting it if absent; the
      depolarisation row under it is passed over. */
  function RamanRow(rd: Read, v: Modes): (r: Result<(Read, Modes)>)
    ensures r.Ok? ==> Advanced(rd.rest, r.value.0.rest)
    ensures r.Ok? ==> r.value.1.freqs == v.freqs && r.value.1.disps == v.disps
    ensures r.Ok? ==> r.value.1.irs == v.irs
  {
    if !Contains(rd.line, "RAMAN") then Ok((rd, v))
    else
      var xs :- RowValues(rd.line);
      var depolar :- Next(rd.rest);
      var next :- Next(depolar.rest);
      Ok((next, v.(ramans := Some(Entries(v.ramans) + xs))))
  }

  /** The rows between the FREQUENCY row and the blank line before the
      displacements, `rd` being the first of them. */
  function Properties(rd: Read, v: Modes, ir: real -> real): (r: Result<(Read, Modes)>)
    ensures r.Ok? ==> Advanced(rd.rest, r.value.0.rest)
    ensures r.Ok? ==> r.value.1.freqs == v.freqs && r.value.1.disps == v.disps
    ensures r.Ok? ==> |r.value.1.irs| >= |v.irs| && r.value.1.irs[..|v.irs|] == v.irs
  {
    var s :- SymmetryRow(rd);
    var (m, v1) :- ReducedRow(s, v);
    var (i, v2) :- IntensityRow(m, v1, ir);
    RamanRow(i, v2)
  }

  /** The row after the blank line (the displacements, then ten Sayvetz
      rows and a blank one) and the line after them. */
  function Tail(c: LineCursor, natom: nat, v: Modes): (r: Result<Step<Modes>>)
    ensures r.Ok? ==> Advanced(c, r.value.rest) && r.value.rest.pos == c.pos + 3 * natom + 12
    ensures r.Ok? ==> |v.disps| <= |r.value.value.disps| <= |v.disps| + 5
    ensures r.Ok? ==> r.value.value.disps[..|v.disps|] == v.disps
    ensures r.Ok? ==> r.value.value == v.(disps := r.value.value.disps)
  {
    var (p, rest) :- Displacements(c, CoordRow, natom);
    var after :- Skip(rest, 11);
    var rd :- Next(after);
    Ok(Step(rd.line, rd.rest, v.(disps := v.disps + p)))
  }

  /** One group: the FREQUENCY row after the column numbers at `c`, the
      property rows, the blank line the GAMESS parser asserts, and the
      displacements. */
  function Group(c: LineCursor, natom: nat, ir: real -> real, v: Modes): (r: Result<Step<Modes>>)
    ensures r.Ok? ==> Advanced(c, r.value.rest) && r.value.rest.pos > c.pos
    ensures r.Ok? ==> |r.value.value.disps| >= |v.disps| && r.value.value.disps[..|v.disps|] == v.disps
    ensures r.Ok? ==> |r.value.value.irs| >= |v.irs| && r.value.value.irs[..|v.irs|] == v.irs
  {
    var f :- Next(c);
    var freqs :- FreqRow(f.line, v.freqs);
    var first :- Next(f.rest);
    var (blank, w) :- Properties(first, v.(freqs := freqs), ir);
    var _ :- Need(IsBlank(blank.line), "assert line.strip() == ''");
    Tail(blank.rest, natom, w)
  }

  /** A FREQUENCY row as GAMESS prints it appends the signed frequencies. */
  lemma FreqRowOfPrinted(ws: seq<string>, vs: seq<real>, imaginary: seq<bool>, freqs: seq<real>)
    requires |ws| == |vs| == |imaginary|
    requires forall i :: 0 <= i < |ws| ==> IsToken(ws[i]) && Numbers.Real(ws[i]) == Ok(vs[i])
    ensures FreqRow(Spaced(["FREQUENCY:"] + Printed(ws, imaginary)), freqs) == Ok(freqs + Signed(vs, imaginary))
  {
    var ts := ["FREQUENCY:"] + Printed(ws, imaginary);
    PrintedTokens(ws, imaginary);
    assert forall i :: 0 <= i < |ts| ==> IsToken(ts[i]) by {
      assert IsToken("FREQUENCY:");
    }
    SplitSpaced(ts);
    assert PySeq.Drop(ts, 1) == Printed(ws, imaginary);
    FreqColumnsOfPrinted(ws, vs, imaginary, freqs);
  }

  /** Printed frequencies and marks are words. */
  lemma {:induction false} PrintedTokens(ws: seq<string>, imaginary: seq<bool>)
    requires |ws| == |imaginary|
    requires forall i :: 0 <= i < |ws| ==> IsToken(ws[i])
    ensures forall i :: 0 <= i < |Printed(ws, imaginary)| ==> IsToken(Printed(ws, imaginary)[i])
    decreases |ws|
  {
    if ws != [] {
      PrintedTokens(ws[1..], imaginary[1..]);
      assert IsToken("I");
    }
  }

  /** REDUCED MASS and IR INTENSITY rows, as in most GAMESS runs, extend
      `rmasses` and `irs` and stop at the line after them. */
  lemma PropertiesRead(lines: seq<string>, pos: nat, ms: seq<real>, xs: seq<real>, v: Modes, ir: real -> real)
    requires pos + 3 < |lines|
    requires !Contains(lines[pos + 1], "SYMMETRY") && Contains(lines[pos + 1], "REDUCED")
    requires RowValues(lines[pos + 1]) == Ok(ms)
    requires Contains(lines[pos + 2], "IR INTENSITY") && RowValues(lines[pos + 2]) == Ok(xs)
    requires !Contains(lines[pos + 3], "RAMAN")
    ensures Properties(Read(lines[pos + 1], LineCursor(lines, pos + 2)), v, ir)
         == Ok((Read(lines[pos + 3], LineCursor(lines, pos + 4)),
                v.(irs := v.irs + Convert(ir, xs), rmasses := Some(Entries(v.rmasses) + ms))))
  {
    var rd := Read(lines[pos + 1], LineCursor(lines, pos + 2));
    var rd2 := Read(lines[pos + 2], LineCursor(lines, pos + 3));
    var rd3 := Read(lines[pos + 3], LineCursor(lines, pos + 4));
    var v1 := v.(rmasses := Some(Entries(v.rmasses) + ms));
    var v2 := v1.(irs := v.irs + Convert(ir, xs));
    assert SymmetryRow(rd) == Ok(rd);
    assert ReducedRow(rd, v) == Ok((rd2, v1));
    assert IntensityRow(rd2, v1, ir) == Ok((rd3, v2));
    assert RamanRow(rd3, v2) == Ok((rd3, v2));
  }

  /** Displacement rows `m` wide for every atom, the Sayvetz rows and a
      blank one: the group's modes are the columns of the rows, and the
      scan goes on with the line after. */
  lemma TailRead(lines: seq<string>, pos: nat, rows: seq<seq<real>>, m: nat, natom: nat, v: Modes)
    requires 1 <= m <= 5 && natom >= 1 && |rows| == 3 * natom && RowsAt(lines, CoordRow, pos, rows, m)
    requires pos + 3 * natom + 11 < |lines|
    ensures var q := pos + 3 * natom + 11;
      Tail(LineCursor(lines, pos), natom, v)
        == Ok(Step(lines[q], LineCursor(lines, q + 1), v.(disps := v.disps + ModeTable(rows, m, natom))))
  {
    DisplacementsOfUniform(lines, CoordRow, pos, rows, m, natom);
    assert ModeTable(rows, m, natom)[..m] == ModeTable(rows, m, natom);
  }

  // ---------------------------------------------------------------------
  // The whole block

  /** The groups, up to the line that mentions the Sayvetz conditions. */
  function Groups(line: string, c: LineCursor, natom: nat, ir: real -> real, v: Modes): (r: Result<Step<Modes>>)
    ensures r.Ok? ==> Contains(r.value.line, "SAYVETZ") && Advanced(c, r.value.rest)
    ensures r.Ok? ==> |r.value.value.irs| >= |v.irs| && r.value.value.irs[..|v.irs|] == v.irs
    ensures r.Ok? ==> |r.value.value.disps| >= |v.disps| && r.value.value.disps[..|v.disps|] == v.disps
    decreases c.Remaining()
  {
    if Contains(line, "SAYVETZ") then Ok(Step(line, c, v))
    else
      var g :- Group(c, natom, ir, v);
      Groups(g.line, g.rest, natom, ir, g.value)
  }

  /** The lines up to the column numbers of the first group: blank lines
      and lines without the pattern are passed over. */
  function ToHeader(line: string, c: LineCursor): (r: Result<Read>)
    ensures r.Ok? ==> !IsBlank(r.value.line) && HeaderFrom(r.value.line, 0) && Advanced(c, r.value.rest)
    decreases c.Remaining()
  {
    if !IsBlank(line) && HeaderFrom(line, 0) then Ok(Read(line, c))
    else
      var rd :- Next(c);
      ToHeader(rd.line, rd.rest)
  }

  /** The scan stops at the first line from `i` on that has the pattern. */
  lemma {:induction false} ToHeaderFinds(lines: seq<string>, i: nat, j: nat)
    requires i <= j < |lines|
    requires forall k :: i <= k < j ==> IsBlank(lines[k]) || !exists p :: PatternAt(lines[k], p)
    requires !IsBlank(lines[j]) && exists p :: PatternAt(lines[j], p)
    ensures ToHeader(lines[i], LineCursor(lines, i + 1)) == Ok(Read(lines[j], LineCursor(lines, j + 1)))
    decreases j - i
  {
    HeaderIff(lines[i]);
    if i < j {
      ToHeaderFinds(lines, i + 1, j);
    }
  }

  /** Up to the `MODES` line: an ATOMIC WEIGHTS table on the way replaces
      the atom masses, and a mode-selection warning takes two more lines. */
  function ToModes(line: string, c: LineCursor, masses: Option<seq<real>>): (r: Result<Step<Option<seq<real>>>>)
    ensures r.Ok? ==> Contains(r.value.line, "MODES") && Advanced(c, r.value.rest)
    ensures r.Ok? && r.value.value != masses ==> r.value.value.Some?
    decreases c.Remaining()
  {
    if Contains(line, "MODES") then Ok(Step(line, c, masses))
    else
      var rd :- Next(c);
      var w :- if Contains(rd.line, "ATOMIC WEIGHTS") then
                 var t :- Weights(rd.rest);
                 Ok(Step(t.line, t.rest, Some(t.value)))
               else Ok(Step(rd.line, rd.rest, masses));
      var c1 :- if Contains(w.line, "* * * WARNING, MODE") then Skip(w.rest, 2) else Ok(w.rest);
      ToModes(w.line, c1, w.value)
  }

  /** Every per-mode list without the rotations and translations. */
  function ExcludeModes(v: Modes, startrot: int, endrot: int): (r: Modes)
    ensures r.rmasses.Some? <==> v.rmasses.Some?
    ensures r.ramans.Some? <==> v.ramans.Some?
  {
    Modes(Exclude(v.freqs, startrot, endrot), Exclude(v.irs, startrot, endrot), Exclude(v.disps, startrot, endrot),
          if v.rmasses.Some? then Some(Exclude(v.rmasses.value, startrot, endrot)) else None,
          if v.ramans.Some? then Some(Exclude(v.ramans.value, startrot, endrot)) else None)
  }

  /** Lists that agree mode by mode still do after the cut: frequency `i`
      and displacement `i` belong to the same mode before and after. */
  lemma ExcludeModesAligned(v: Modes, startrot: int, endrot: int)
    requires |v.freqs| == |v.disps| == |v.irs|
    ensures var r := ExcludeModes(v, startrot, endrot);
      && |r.freqs| == |r.disps| == |r.irs|
      && Zip(r.freqs, r.disps) == Exclude(Zip(v.freqs, v.disps), startrot, endrot)
      && Zip(r.freqs, r.irs) == Exclude(Zip(v.freqs, v.irs), startrot, endrot)
  {
    ExcludeAligned(v.freqs, v.disps, startrot, endrot);
    ExcludeAligned(v.freqs, v.irs, startrot, endrot);
  }

  /** Every one of the modes `d` lists `n` atoms, each with `w` numbers. */
  predicate Shaped(d: seq<seq<seq<real>>>, n: nat, w: nat) {
    forall i :: 0 <= i < |d| ==> |d[i]| == n && forall a :: 0 <= a < n ==> |d[i][a]| == w
  }

  /** The shape of `d` is read off its first mode and its first atom. */
  predicate Rectangular(d: seq<seq<seq<real>>>) {
    d == [] || Shaped(d, |d[0]|, if |d[0]| == 0 then 0 else |d[0][0]|)
  }

  /** Reading the shape off the first entries loses nothing: the modes have
      some common shape exactly when they have that one. */
  lemma RectangularIffShaped(d: seq<seq<seq<real>>>)
    ensures Rectangular(d) <==> exists n: nat, w: nat :: Shaped(d, n, w)
  {
    if Rectangular(d) {
      if d == [] {
        assert Shaped(d, 0, 0);
      } else {
        assert Shaped(d, |d[0]|, if |d[0]| == 0 then 0 else |d[0][0]|);
      }
    }
    if exists n: nat, w: nat :: Shaped(d, n, w) {
      var n: nat, w: nat :| Shaped(d, n, w);
      ShapedRectangular(d, n, w);
    }
  }

  /** Any common shape is the one the first mode and atom show. */
  lemma ShapedRectangular(d: seq<seq<seq<real>>>, n: nat, w: nat)
    requires Shaped(d, n, w)
    ensures Rectangular(d)
  {
    if d != [] && n > 0 {
      assert |d[0]| == n && |d[0][0]| == w;
    }
  }

  /** `numpy.array(vibdisps, "d")`: a three-dimensional array needs one
      shape for every mode, otherwise numpy raises `ValueError`. */
  function DispArray(d: seq<seq<seq<real>>>): (r: Result<seq<seq<seq<real>>>>)
    ensures r.Ok? <==> exists n: nat, w: nat :: Shaped(d, n, w)
    ensures r.Ok? ==> r.value == d
  {
    RectangularIffShaped(d);
    if Rectangular(d) then Ok(d)
    else Err(Malformed("setting an array element with a sequence. The requested array has an inhomogeneous shape"))
  }

  /** Cutting modes out keeps the shape of the ones left. */
  lemma ExcludeShaped(d: seq<seq<seq<real>>>, startrot: int, endrot: int, n: nat, w: nat)
    requires Shaped(d, n, w)
    ensures Shaped(Exclude(d, startrot, endrot), n, w)
  {
    var r := Exclude(d, startrot, endrot);
    assert r == d[..PySeq.Bound(|d|, startrot - 1)] + d[PySeq.Bound(|d|, endrot)..];
    forall i | 0 <= i < |r|
      ensures r[i] in d
    {
    }
  }

  /** Rows of one width give modes of one shape: `natom` atoms with x, y
      and z each, so the kept modes always make an array. */
  lemma ModeTableArray(rows: seq<seq<real>>, m: nat, natom: nat, startrot: int, endrot: int)
    requires 3 * natom <= |rows|
    ensures DispArray(Exclude(ModeTable(rows, m, natom), startrot, endrot)).Ok?
  {
    var t := ModeTable(rows, m, natom);
    assert Shaped(t, natom, 3);
    ExcludeShaped(t, startrot, endrot, natom, 3);
  }

  /** One atom whose x and y rows are three numbers wide but whose z row is
      five wide gives mode 0 a whole displacement and mode 3 a single
      number, and numpy refuses to make an array of the two. */
  lemma RaggedFails(x: real, y: real, z: real, z3: real)
    ensures DispArray([[[x, y, z]], [[z3]]]).Err?
  {
    var d := [[[x, y, z]], [[z3]]];
    RectangularIffShaped(d);
    assert |d[1][0]| == 1;
  }

  /** The atom masses and modes a normal-coordinate block leaves. */
  datatype Analysis = Analysis(atommasses: Option<seq<real>>, modes: Modes)

  /** `x + y` on two one-dimensional numpy arrays: entry by entry when the
      lengths agree, and a length-1 operand is stretched to the other's
      length; any other pair of lengths cannot be broadcast. */
  function ArraySum(x: seq<real>, y: seq<real>): (r: Result<seq<real>>)
    ensures r.Ok? <==> |x| == |y| || |x| == 1 || |y| == 1
    ensures r.Ok? ==> |r.value| == (if |x| == 1 then |y| else |x|)
    ensures r.Ok? ==> forall i :: 0 <= i < |r.value| ==>
      r.value[i] == (if |x| == 1 then x[0] else x[i]) + (if |y| == 1 then y[0] else y[i])
  {
    if |x| == 1 then Ok(seq(|y|, i requires 0 <= i < |y| => x[0] + y[i]))
    else if |y| == 1 then Ok(seq(|x|, i requires 0 <= i < |x| => x[i] + y[0]))
    else if |x| == |y| then Ok(seq(|x|, i requires 0 <= i < |x| => x[i] + y[i]))
    else Err(Malformed("operands could not be broadcast together"))
  }

  /** `vibrmasses` or `vibramans` once a block's groups are read: `earlier`
      is the array an earlier block left (absent when no earlier block had
      such rows) and `read` the rows of this block. A fresh list loses the
      rotations and translations. An earlier array cannot take new rows,
      as a numpy array has no `extend`; left alone, its two slices are
      added as arrays rather than joined. */
  function Finish(earlier: Option<seq<real>>, read: Option<seq<real>>, startrot: int, endrot: int): (r: Result<Option<seq<real>>>)
    ensures earlier.None? ==> r.Ok? && (r.value.Some? <==> read.Some?)
    ensures earlier.None? && read.Some? ==> r.value.value == Exclude(read.value, startrot, endrot)
    ensures earlier.Some? && read.Some? ==> r.Err?
    ensures earlier.Some? && read.None? ==>
      r == (var a := earlier.value;
            var s :- ArraySum(PySeq.Take(a, startrot - 1), PySeq.Drop(a, endrot)); Ok(Some(s)))
  {
    match (earlier, read)
    case (None, None) => Ok(None)
    case (None, Some(xs)) => Ok(Some(Exclude(xs, startrot, endrot)))
    case (Some(_), Some(_)) => Err(Malformed("'numpy.ndarray' object has no attribute 'extend'"))
    case (Some(a), None) =>
      var s :- ArraySum(PySeq.Take(a, startrot - 1), PySeq.Drop(a, endrot));
      Ok(Some(s))
  }

  /** A second block whose cut leaves slices of the same length adds them
      entry by entry: entry `i` of the result is the sum of the entries on
      either side of the cut. */
  lemma FinishSums(a: seq<real>, startrot: int, endrot: int)
    requires 1 <= startrot <= endrot + 1 <= |a| + 1
    requires startrot - 1 == |a| - endrot
    ensures var r := Finish(Some(a), None, startrot, endrot);
      r.Ok? && r.value.Some? && |r.value.value| == startrot - 1
      && forall i :: 0 <= i < startrot - 1 ==> r.value.value[i] == a[i] + a[endrot + i]
  {
    assert PySeq.Take(a, startrot - 1) == a[..startrot - 1];
    assert PySeq.Drop(a, endrot) == a[endrot..];
  }

  /** The block from its `NORMAL COORDINATE ANALYSIS` line. `vibfreqs`,
      `vibirs` and `vibdisps` start empty, and every list loses the modes of
      the `MODES a TO b` line once all groups are read. `vibrmasses` and
      `vibramans` are gathered afresh and then joined to what an earlier
      block left, as `Finish` states. The kept displacements must share one
      shape to become an array, as `DispArray` states. */
  function Block(line: string, c: LineCursor, natom: nat, ir: real -> real, prior: Analysis): (r: Result<Step<Analysis>>)
    ensures r.Ok? ==> Contains(r.value.line, "SAYVETZ") && Advanced(c, r.value.rest)
    ensures r.Ok? && prior.modes.rmasses.Some? ==> r.value.value.modes.rmasses.Some?
    ensures r.Ok? && prior.modes.ramans.Some? ==> r.value.value.modes.ramans.Some?
    ensures r.Ok? ==> exists n: nat, w: nat :: Shaped(r.value.value.modes.disps, n, w)
  {
    var m :- ToModes(line, c, prior.atommasses);
    var range :- RotRange(m.line);
    var c1 :- Skip(m.rest, 1);
    var rd :- Next(c1);
    var h :- ToHeader(rd.line, rd.rest);
    var g :- Groups(h.line, h.rest, natom, ir, Modes([], [], [], None, None));
    var cut := ExcludeModes(g.value, range.0, range.1);
    var _ :- DispArray(cut.disps);
    var rmasses :- Finish(prior.modes.rmasses, g.value.rmasses, range.0, range.1);
    var ramans :- Finish(prior.modes.ramans, g.value.ramans, range.0, range.1);
    Ok(Step(g.line, g.rest, Analysis(m.value, cut.(rmasses := rmasses, ramans := ramans))))
  }
}

=== FILE: numbers.dfy ===
/** Python's `int(text)` and `float(text)` on decimal text.

    A float is modelled by the exact rational its decimal text denotes, so the
    comparisons the scanners make (`<` against a target, sorting energies) are
    the comparisons of those rationals.
 */
module Numbers {
  import opened Results
  import opened Text
  import PySeq

  function DigitValue(c: char): nat
    requires IsDigit(c)
  {
    c as int - '0' as int
  }

  function DigitChar(d: nat): (c: char)
    requires d < 10
    ensures IsDigit(c) && DigitValue(c) == d
  {
    ('0' as int + d) as char
  }

  predicate AllDigits(s: string) {
    forall i :: 0 <= i < |s| ==> IsDigit(s[i])
  }

  /** The value of a run of decimal digits (0 for the empty run). */
  function DigitsValue(s: string): nat
    requires AllDigits(s)
    decreases |s|
  {
    if s == [] then 0 else DigitsValue(s[..|s| - 1]) * 10 + DigitValue(s[|s| - 1])
  }

  /** An optionally signed, non-empty run of digits, with nothing around it. */
  function SignedDigits(t: string): Option<int> {
    if |t| >= 2 && (t[0] == '-' || t[0] == '+') && AllDigits(t[1..]) then
      Some(if t[0] == '-' then -(DigitsValue(t[1..]) as int) else DigitsValue(t[1..]))
    else if |t| >= 1 && AllDigits(t) then Some(DigitsValue(t))
    else None
  }

  /** `int(s)`: surrounding whitespace is ignored. */
  function ParseInt(s: string): Option<int> {
    SignedDigits(Strip(s))
  }

  function NatToString(n: nat): (s: string)
    ensures |s| >= 1 && AllDigits(s)
    decreases n
  {
    if n < 10 then [DigitChar(n)] else NatToString(n / 10) + [DigitChar(n % 10)]
  }

  /** `str(n)` of an integer. */
  function IntToString(n: int): string {
    if n < 0 then "-" + NatToString(-n) else NatToString(n)
  }

  lemma {:induction false} NatToStringValue(n: nat)
    ensures DigitsValue(NatToString(n)) == n
    decreases n
  {
    if n >= 10 {
      var s := NatToString(n);
      NatToStringValue(n / 10);
      assert s[..|s| - 1] == NatToString(n / 10);
    }
  }

  lemma StripUnchanged(s: string)
    requires |s| >= 1 && !IsSpace(s[0]) && !IsSpace(s[|s| - 1])
    ensures Strip(s) == s
  {
  }

  /** `int(str(n)) == n`. */
  lemma ParseShowInt(n: int)
    ensures ParseInt(IntToString(n)) == Some(n)
  {
    var s := IntToString(n);
    if n < 0 {
      NatToStringValue(-n);
      assert s[1..] == NatToString(-n);
    } else {
      NatToStringValue(n);
    }
    StripUnchanged(s);
  }

  /** `v` times 10 to the power `e`, exactly: the decimal point moved `e`
      places. Each step multiplies or divides by ten, so the value stays a
      linear function of `v`. */
  function Shift(v: real, e: int): (r: real)
    ensures v > 0.0 ==> r > 0.0
    ensures v == 0.0 ==> r == 0.0
    decreases if e < 0 then -e else e
  {
    if e == 0 then v
    else if e > 0 then Shift(v * 10.0, e - 1)
    else Shift(v / 10.0, e + 1)
  }

  /** Where a scan of decimal text is: in the whitespace before it, in the
      digits before the point, in those after it, just after the exponent
      letter, in the exponent, or in the whitespace after it. */
  datatype Part = Lead | Whole | Frac | ExpStart | Exp | Trail

  /** What a scan has read so far: the sign, the mantissa's digits as one
      number, how many of them follow the point, and the exponent. */
  datatype Lex = Lex(part: Part, neg: bool, mantissa: nat, scale: nat, digits: nat, negExp: bool, exp: nat, expDigits: nat)

  /** The text read so far is a whole number: some mantissa digit, and an
      exponent letter only with exponent digits after it. */
  predicate Complete(x: Lex) {
    x.digits > 0 && x.part != Lead && x.part != ExpStart && !(x.part == Exp && x.expDigits == 0)
  }

  /** The number the text read so far denotes. */
  function Value(x: Lex): real {
    var v := Shift(x.mantissa as real, (if x.negExp then -(x.exp as int) else x.exp) - x.scale);
    if x.neg then -v else v
  }

  /** Reads the decimal text `t` from position `i`: whitespace, an optional
      sign, digits with at most one point, then optionally `e` or `E`, an
      optional sign and digits, and whitespace again. */
  function Scan(t: string, i: nat, x: Lex): (r: Option<real>)
    requires i <= |t|
    decreases |t| - i, if x.part == Lead then 1 else 0
  {
    if i == |t| then (if Complete(x) then Some(Value(x)) else None)
    else if IsSpace(t[i]) && x.part != Lead && x.part != Trail then
      if Complete(x) then Scan(t, i + 1, x.(part := Trail)) else None
    else
      var c := t[i];
      match x.part
      case Lead =>
        if IsSpace(c) then Scan(t, i + 1, x)
        else if c == '+' || c == '-' then Scan(t, i + 1, x.(part := Whole, neg := c == '-'))
        else Scan(t, i, x.(part := Whole))
      case Trail =>
        if IsSpace(c) then Scan(t, i + 1, x) else None
      case Whole =>
        if IsDigit(c) then Scan(t, i + 1, x.(mantissa := x.mantissa * 10 + DigitValue(c), digits := x.digits + 1))
        else if c == '.' then Scan(t, i + 1, x.(part := Frac))
        else if (c == 'e' || c == 'E') && x.digits > 0 then Scan(t, i + 1, x.(part := ExpStart))
        else None
      case Frac =>
        if IsDigit(c) then
          Scan(t, i + 1, x.(mantissa := x.mantissa * 10 + DigitValue(c), scale := x.scale + 1, digits := x.digits + 1))
        else if (c == 'e' || c == 'E') && x.digits > 0 then Scan(t, i + 1, x.(part := ExpStart))
        else None
      case ExpStart =>
        if c == '+' || c == '-' then Scan(t, i + 1, x.(part := Exp, negExp := c == '-'))
        else if IsDigit(c) then Scan(t, i + 1, x.(part := Exp, exp := DigitValue(c), expDigits := 1))
        else None
      case Exp =>
        if IsDigit(c) then Scan(t, i + 1, x.(exp := x.exp * 10 + DigitValue(c), expDigits := x.expDigits + 1))
        else None
  }

  const Start: Lex := Lex(Lead, false, 0, 0, 0, false, 0, 0)

  /** `float(s)` on decimal text: an optional sign, digits with an optional
      decimal point, an optional exponent; surrounding whitespace is ignored. */
  function ParseReal(s: string): Option<real> {
    Scan(s, 0, Start)
  }

  /** Scanning a run of digits from `o` accumulates their value. */
  lemma {:induction false} ScanDigits(t: string, o: nat, i: nat, neg: bool)
    requires o < |t| && AllDigits(t[o..]) && o <= i <= |t|
    ensures Scan(t, i, Lex(Whole, neg, DigitsValue(t[o..i]), 0, i - o, false, 0, 0))
         == Some(if neg then -(DigitsValue(t[o..]) as real) else DigitsValue(t[o..]) as real)
    decreases |t| - i
  {
    if i == |t| {
      assert t[o..i] == t[o..];
    } else {
      assert t[o..i + 1][..i - o] == t[o..i];
      assert t[o..i + 1][i - o] == t[i];
      ScanDigits(t, o, i + 1, neg);
    }
  }

  /** `float(str(n)) == n`. */
  lemma ParseShowIntAsReal(n: int)
    ensures ParseReal(IntToString(n)) == Some(n as real)
  {
    var s := IntToString(n);
    if n < 0 {
      assert s[1..] == NatToString(-n);
      NatToStringValue(-n);
      assert s[1..1] == [];
      ScanDigits(s, 1, 1, true);
    } else {
      NatToStringValue(n);
      assert s[0..] == s && s[0..0] == [];
      ScanDigits(s, 0, 0, false);
    }
  }

  /** `float(s)` where a failed conversion aborts the block (Python's `ValueError`). */
  function Real(s: string): Result<real> {
    match ParseReal(s)
    case Some(v) => Ok(v)
    case None => Err(Malformed("could not convert string to float"))
  }

  /** cclib's `utils.float` on text that is not all `*`: a Fortran `D`
      exponent is read as `E`, as `float(s.replace("D", "E"))` does.
      utils.py is not part of this model. */
  function FortranReal(s: string): (r: Result<real>)
    ensures (forall i :: 0 <= i < |s| ==> s[i] != 'D') ==> r == Real(s)
  {
    assert (forall i :: 0 <= i < |s| ==> s[i] != 'D') ==> SwapChar(s, 'D', 'E') == s;
    Real(SwapChar(s, 'D', 'E'))
  }

  /** Scanning a run of mantissa digits from an empty mantissa reads their
      value. */
  lemma {:induction false} ScanWhole(t: string, i: nat, j: nat, x: Lex)
    requires i <= j <= |t| && AllDigits(t[i..j])
    requires x.part == Whole && x.mantissa == 0 && x.digits == 0
    ensures Scan(t, i, x) == Scan(t, j, x.(mantissa := DigitsValue(t[i..j]), digits := j - i))
    decreases j
  {
    if j > i {
      assert t[i..j][..j - 1 - i] == t[i..j - 1];
      assert t[i..j][j - 1 - i] == t[j - 1];
      ScanWhole(t, i, j - 1, x);
    }
  }

  /** Scanning a run of exponent digits from an empty exponent reads their
      value. */
  lemma {:induction false} ScanExp(t: string, i: nat, j: nat, x: Lex)
    requires i <= j <= |t| && AllDigits(t[i..j])
    requires x.part == Exp && x.exp == 0 && x.expDigits == 0
    ensures Scan(t, i, x) == Scan(t, j, x.(exp := DigitsValue(t[i..j]), expDigits := j - i))
    decreases j
  {
    if j > i {
      assert t[i..j][..j - 1 - i] == t[i..j - 1];
      assert t[i..j][j - 1 - i] == t[j - 1];
      ScanExp(t, i, j - 1, x);
    }
  }

  /** A `-` just after the exponent letter negates the exponent. */
  lemma ExpSign(t: string, k: nat, x: Lex)
    requires k < |t| && t[k] == '-' && x.part == ExpStart
    ensures Scan(t, k, x) == Scan(t, k + 1, x.(part := Exp, negExp := true))
  {
  }

  /** A digit just after the exponent letter starts the exponent digits. */
  lemma ExpFirstDigit(t: string, k: nat, x: Lex)
    requires k < |t| && IsDigit(t[k]) && x.part == ExpStart && x.exp == 0 && x.expDigits == 0
    ensures Scan(t, k, x) == Scan(t, k, x.(part := Exp))
  {
    assert Scan(t, k, x) == Scan(t, k + 1, x.(part := Exp, exp := DigitValue(t[k]), expDigits := 1));
  }

  /** At the end of the text a complete number is read as its value. */
  lemma ScanDone(t: string, x: Lex)
    requires Complete(x)
    ensures Scan(t, |t|, x) == Some(Value(x))
  {
  }

  /** The optional `-` and the first exponent digit move the scan into the
      exponent digits, which are the rest of the text. */
  lemma ExpDigitsStart(t: string, k: nat, x: Lex, neg: bool, es: string)
    requires |es| >= 1 && AllDigits(es)
    requires k <= |t| && t[k..] == (if neg then "-" else "") + es
    requires x.part == ExpStart && !x.negExp && x.exp == 0 && x.expDigits == 0
    ensures k + (if neg then 1 else 0) <= |t|
    ensures t[k + (if neg then 1 else 0)..|t|] == es
    ensures Scan(t, k, x) == Scan(t, k + (if neg then 1 else 0), x.(part := Exp, negExp := neg))
  {
    if neg {
      assert t[k] == '-';
      assert t[k + 1..|t|] == t[k..][1..];
      ExpSign(t, k, x);
    } else {
      assert t[k..|t|] == t[k..];
      assert t[k] == es[0];
      ExpFirstDigit(t, k, x);
    }
  }

  /** An optionally negated run of exponent digits after the exponent
      letter, to the end of the text, is read as their value. */
  lemma ScanExpDigits(t: string, k: nat, x: Lex, neg: bool, es: string)
    requires |es| >= 1 && AllDigits(es)
    requires k <= |t| && t[k..] == (if neg then "-" else "") + es
    requires x.part == ExpStart && x.digits > 0 && !x.negExp && x.exp == 0 && x.expDigits == 0
    ensures Scan(t, k, x) == Some(Value(x.(part := Exp, negExp := neg, exp := DigitsValue(es), expDigits := |es|)))
  {
    var q := if neg then 1 else 0;
    var y := x.(part := Exp, negExp := neg);
    ExpDigitsStart(t, k, x, neg, es);
    ScanExp(t, k + q, |t|, y);
    ScanDone(t, y.(exp := DigitsValue(es), expDigits := |es|));
  }

  /** The printed exponent `str(e)` after the exponent letter, to the end
      of the text, is read as `e`. */
  lemma ScanExpTail(t: string, k: nat, x: Lex, e: int)
    requires k <= |t| && t[k..] == IntToString(e)
    requires x.part == ExpStart && x.digits > 0 && !x.negExp && x.exp == 0 && x.expDigits == 0
    ensures Scan(t, k, x) == Some(Value(x.(part := Exp, negExp := e < 0, exp := if e < 0 then -e else e,
                                           expDigits := |NatToString(if e < 0 then -e else e)|)))
  {
    var n: nat := if e < 0 then -e else e;
    NatToStringValue(n);
    ScanExpDigits(t, k, x, e < 0, NatToString(n));
  }

  /** An optional `-` and a run of digits at the start of the text are
      read as the mantissa. */
  lemma ScanMantissa(t: string, neg: bool, ms: string)
    requires |ms| >= 1 && AllDigits(ms)
    requires |t| >= |ms| + (if neg then 1 else 0)
    requires t[..|ms| + (if neg then 1 else 0)] == (if neg then "-" else "") + ms
    ensures var k := |ms| + (if neg then 1 else 0);
      Scan(t, 0, Start) == Scan(t, k, Lex(Whole, neg, DigitsValue(ms), 0, |ms|, false, 0, 0))
  {
    var o := if neg then 1 else 0;
    var k := |ms| + o;
    assert t[o..k] == ms;
    var w := Lex(Whole, neg, 0, 0, 0, false, 0, 0);
    if neg {
      assert t[0] == '-';
    } else {
      assert t[0] == ms[0];
      assert Scan(t, 0, Start) == Scan(t, 0, Start.(part := Whole));
    }
    ScanWhole(t, o, k, w);
  }

  /** The exponent letter after the mantissa digits starts the exponent. */
  lemma ExpLetter(t: string, k: nat, x: Lex)
    requires k < |t| && t[k] == 'E' && x.part == Whole && x.digits > 0
    ensures Scan(t, k, x) == Scan(t, k + 1, x.(part := ExpStart))
  {
  }

  /** Digits, the exponent letter and exponent digits, each run
      optionally negated, are read as the number they spell. */
  lemma ScanPrinted(pre: string, post: string, neg: bool, ms: string, eneg: bool, es: string)
    requires |ms| >= 1 && AllDigits(ms) && |es| >= 1 && AllDigits(es)
    requires pre == (if neg then "-" else "") + ms && post == (if eneg then "-" else "") + es
    ensures ParseReal(pre + "E" + post) == Some(Value(Lex(Exp, neg, DigitsValue(ms), 0, |ms|, eneg, DigitsValue(es), |es|)))
  {
    var t := pre + "E" + post;
    var k := |pre|;
    assert t[..k] == pre;
    ScanMantissa(t, neg, ms);
    var w1 := Lex(Whole, neg, DigitsValue(ms), 0, |ms|, false, 0, 0);
    assert t[k] == 'E';
    ExpLetter(t, k, w1);
    assert t[k + 1..] == post;
    ScanExpDigits(t, k + 1, w1.(part := ExpStart), eneg, es);
  }

  /** `str(n)` is a minus sign for a negative `n`, then the digits of its
      magnitude. */
  lemma IntToStringParts(n: int)
    ensures IntToString(n) == (if n < 0 then "-" else "") + NatToString(if n < 0 then -n else n)
  {
    if n >= 0 {
      assert "" + NatToString(n) == NatToString(n);
    }
  }

  /** A mantissa and an exponent spelled with their signs and digits are
      read as `m` times 10 to the `e`. */
  lemma ScanSigned(pre: string, post: string, m: int, e: int, ms: string, es: string)
    requires |ms| >= 1 && AllDigits(ms) && |es| >= 1 && AllDigits(es)
    requires DigitsValue(ms) == (if m < 0 then -m else m) && DigitsValue(es) == (if e < 0 then -e else e)
    requires pre == (if m < 0 then "-" else "") + ms && post == (if e < 0 then "-" else "") + es
    ensures ParseReal(pre + "E" + post) == Some(if m < 0 then -Shift((-m) as real, e) else Shift(m as real, e))
  {
    ScanPrinted(pre, post, m < 0, ms, e < 0, es);
  }

  /** `float(str(m) + "E" + str(e))` is `m` times 10 to the `e`. */
  lemma ParseExponent(m: int, e: int)
    ensures ParseReal(IntToString(m) + "E" + IntToString(e))
         == Some(if m < 0 then -Shift((-m) as real, e) else Shift(m as real, e))
  {
    var n: nat := if m < 0 then -m else m;
    var p: nat := if e < 0 then -e else e;
    NatToStringValue(n);
    NatToStringValue(p);
    IntToStringParts(m);
    IntToStringParts(e);
    ScanSigned(IntToString(m), IntToString(e), m, e, NatToString(n), NatToString(p));
  }

  /** `utils.float` reads a Fortran-printed number `mDe` as `m` times 10 to
      the `e`. */
  lemma FortranRealOfPrinted(m: int, e: int)
    ensures FortranReal(IntToString(m) + "D" + IntToString(e))
         == Ok(if m < 0 then -Shift((-m) as real, e) else Shift(m as real, e))
  {
    var a := IntToString(m);
    var b := IntToString(e);
    var s := a + "D" + b;
    assert forall i :: 0 <= i < |a| ==> a[i] != 'D' by {
      if m < 0 { assert a[1..] == NatToString(-m); }
    }
    assert forall i :: 0 <= i < |b| ==> b[i] != 'D' by {
      if e < 0 { assert b[1..] == NatToString(-e); }
    }
    assert SwapChar(s, 'D', 'E') == a + "E" + b;
    ParseExponent(m, e);
  }

  /** `int(s)` where a failed conversion aborts the block. */
  function Int(s: string): Result<int> {
    match ParseInt(s)
    case Some(v) => Ok(v)
    case None => Err(Malformed("invalid literal for int()"))
  }

  /** `float(words[k])`, with Python's negative `k`. */
  function RealAt(words: seq<string>, k: int): (r: Result<real>)
    ensures r.Ok? ==> -|words| <= k < |words|
    ensures 0 <= k < |words| ==> r == Real(words[k])
    ensures -|words| <= k < 0 ==> r == Real(words[|words| + k])
  {
    var w :- PySeq.At(words, k);
    Real(w)
  }

  /** `float(line.split()[k])`, with Python's negative `k`. */
  function Field(line: string, k: int): (r: Result<real>)
    ensures r.Ok? ==> -|Split(line)| <= k < |Split(line)|
  {
    RealAt(Split(line), k)
  }

  /** `int(line.split()[k])`, with Python's negative `k`. */
  function IntField(line: string, k: int): (r: Result<int>)
    ensures r.Ok? ==> -|Split(line)| <= k < |Split(line)|
  {
    var w :- PySeq.At(Split(line), k);
    Int(w)
  }

  /** `list(map(float, ws))`: fails at the first word that is not a number. */
  function Floats(ws: seq<string>): (r: Result<seq<real>>)
    ensures r.Ok? ==> |r.value| == |ws|
  {
    if ws == [] then Ok([])
    else
      var v :- Real(ws[0]);
      var vs :- Floats(ws[1..]);
      Ok([v] + vs)
  }

  /** `Floats` converts every word, and fails exactly when one of them is
      not a number. */
  lemma {:induction false} FloatsEach(ws: seq<string>)
    ensures Floats(ws).Ok? <==> forall i :: 0 <= i < |ws| ==> Real(ws[i]).Ok?
    ensures Floats(ws).Ok? ==> forall i :: 0 <= i < |ws| ==> Real(ws[i]) == Ok(Floats(ws).value[i])
  {
    if ws != [] {
      FloatsEach(ws[1..]);
      assert forall i :: 1 <= i < |ws| ==> ws[i] == ws[1..][i - 1];
    }
  }

  /** Word `k` of a line printed from tokens is the `k`-th token. */
  lemma {:induction false} FieldOfSpaced(ts: seq<string>, k: nat)
    requires forall i :: 0 <= i < |ts| ==> IsToken(ts[i])
    requires k < |ts|
    ensures Field(Spaced(ts), k) == Real(ts[k])
  {
    SplitSpaced(ts);
  }
}

=== FILE: optstatus.dfy ===
/** The optimisation status flags and the geometry selectors built on them.

    Each step of an optimisation carries a status whose bits say whether the
    step starts a new optimisation, is unconverged, or is the converged end of
    one; a status of 0 says nothing is known yet.
 */
module OptStatus {
  import opened Results

  const OptUnknown: int := 0
  const OptNew: int := 1
  const OptUnconverged: int := 2
  const OptDone: int := 4

  function Pow2(k: nat): (r: nat)
    ensures r >= 1
  {
    if k == 0 then 1 else 2 * Pow2(k - 1)
  }

  /** Bit `k` of `y` in two's complement: `y & 2**k > 0`. Dafny's division
      rounds toward minus infinity for a positive divisor, as an arithmetic
      shift does. */
  predicate HasBit(y: int, k: nat) {
    (y / Pow2(k)) % 2 == 1
  }

  predicate IsNew(y: int) { HasBit(y, 0) }
  predicate IsUnconverged(y: int) { HasBit(y, 1) }
  predicate IsDone(y: int) { HasBit(y, 2) }
  predicate IsUnknown(y: int) { y == OptUnknown }

  /** The positions of the steps whose status satisfies `keep`, ascending. */
  function Steps(status: seq<int>, keep: int -> bool): (r: seq<nat>)
    ensures forall i: int :: i in r <==> 0 <= i < |status| && keep(status[i])
    ensures forall a, b :: 0 <= a < b < |r| ==> r[a] < r[b]
    ensures forall a :: 0 <= a < |r| ==> r[a] < |status|
    decreases |status|
  {
    if status == [] then []
    else
      var n := |status| - 1;
      var init := Steps(status[..n], keep);
      if keep(status[n]) then init + [n] else init
  }

  /** `atomcoords[indexes]`: numpy raises `IndexError` for a position past the end. */
  function Pick<G>(coords: seq<G>, indexes: seq<nat>): (r: Result<seq<G>>)
    ensures r.Ok? <==> forall j :: 0 <= j < |indexes| ==> indexes[j] < |coords|
    ensures r.Ok? ==> |r.value| == |indexes| && forall j :: 0 <= j < |indexes| ==> r.value[j] == coords[indexes[j]]
  {
    if forall j :: 0 <= j < |indexes| ==> indexes[j] < |coords| then
      Ok(seq(|indexes|, j requires 0 <= j < |indexes| => coords[indexes[j]]))
    else Err(Malformed("index out of bounds"))
  }

  /** The geometries of the steps whose status satisfies `keep`, in step
      order; every geometry when there is no status; `AttributeError`
      without coordinates. */
  function Select<G>(atomcoords: Option<seq<G>>, optstatus: Option<seq<int>>, keep: int -> bool): (r: Result<seq<G>>)
    ensures atomcoords.None? ==> r.Err?
    ensures atomcoords.Some? && optstatus.None? ==> r == Ok(atomcoords.value)
    ensures atomcoords.Some? && optstatus.Some? ==> (
      var coords, status := atomcoords.value, optstatus.value;
      && (r.Ok? <==> forall i :: 0 <= i < |status| && keep(status[i]) ==> i < |coords|)
      && (r.Ok? ==> (
            && |r.value| == |Steps(status, keep)|
            && (forall j :: 0 <= j < |r.value| ==> Steps(status, keep)[j] < |coords| && r.value[j] == coords[Steps(status, keep)[j]])
            && (forall g :: g in r.value ==> exists i :: 0 <= i < |status| && keep(status[i]) && i < |coords| && g == coords[i])
            && (forall i :: 0 <= i < |status| && keep(status[i]) ==> coords[i] in r.value))))
  {
    match atomcoords
    case None => Err(Malformed("no attribute 'atomcoords'"))
    case Some(coords) =>
      match optstatus
      case None => Ok(coords)
      case Some(status) =>
        PickSteps(coords, status, keep);
        Pick(coords, Steps(status, keep))
  }

  /** Picking the selected steps succeeds exactly when every selected step has
      a geometry, and then every selected geometry is in the result. */
  lemma PickSteps<G>(coords: seq<G>, status: seq<int>, keep: int -> bool)
    ensures var r := Pick(coords, Steps(status, keep));
      && (r.Ok? <==> forall i :: 0 <= i < |status| && keep(status[i]) ==> i < |coords|)
      && (r.Ok? ==> forall i :: 0 <= i < |status| && keep(status[i]) ==> coords[i] in r.value)
  {
    var steps := Steps(status, keep);
    var r := Pick(coords, steps);
    if r.Ok? {
      forall i | 0 <= i < |status| && keep(status[i])
        ensures coords[i] in r.value
      {
        var j :| 0 <= j < |steps| && steps[j] == i;
        assert r.value[j] == coords[i];
      }
    } else {
      var j :| 0 <= j < |steps| && steps[j] >= |coords|;
      assert steps[j] in steps;
    }
  }

  /** `converged_geometries`. */
  function ConvergedGeometries<G>(atomcoords: Option<seq<G>>, optstatus: Option<seq<int>>): (r: Result<seq<G>>)
    ensures r.Ok? <==> (atomcoords.Some? && (optstatus.None? ||
      forall i :: 0 <= i < |optstatus.value| && IsDone(optstatus.value[i]) ==> i < |atomcoords.value|))
    ensures atomcoords.Some? && optstatus.None? ==> r == Ok(atomcoords.value)
    ensures r.Ok? && optstatus.Some? ==> (
      && |r.value| == |Steps(optstatus.value, IsDone)|
      && (forall j :: 0 <= j < |r.value| ==>
            Steps(optstatus.value, IsDone)[j] < |atomcoords.value| && r.value[j] == atomcoords.value[Steps(optstatus.value, IsDone)[j]])
      && (forall i :: 0 <= i < |optstatus.value| && IsDone(optstatus.value[i]) ==> atomcoords.value[i] in r.value)
      && (forall g :: g in r.value ==>
            exists i :: 0 <= i < |optstatus.value| && IsDone(optstatus.value[i]) && i < |atomcoords.value| && g == atomcoords.value[i]))
  {
    Select(atomcoords, optstatus, IsDone)
  }

  /** `new_geometries`. */
  function NewGeometries<G>(atomcoords: Option<seq<G>>, optstatus: Option<seq<int>>): (r: Result<seq<G>>)
    ensures r.Ok? <==> (atomcoords.Some? && (optstatus.None? ||
      forall i :: 0 <= i < |optstatus.value| && IsNew(optstatus.value[i]) ==> i < |atomcoords.value|))
    ensures atomcoords.Some? && optstatus.None? ==> r == Ok(atomcoords.value)
    ensures r.Ok? && optstatus.Some? ==> (
      && |r.value| == |Steps(optstatus.value, IsNew)|
      && (forall j :: 0 <= j < |r.value| ==>
            Steps(optstatus.value, IsNew)[j] < |atomcoords.value| && r.value[j] == atomcoords.value[Steps(optstatus.value, IsNew)[j]])
      && (forall i :: 0 <= i < |optstatus.value| && IsNew(optstatus.value[i]) ==> atomcoords.value[i] in r.value)
      && (forall g :: g in r.value ==>
            exists i :: 0 <= i < |optstatus.value| && IsNew(optstatus.value[i]) && i < |atomcoords.value| && g == atomcoords.value[i]))
  {
    Select(atomcoords, optstatus, IsNew)
  }

  /** `unknown_geometries`. */
  function UnknownGeometries<G>(atomcoords: Option<seq<G>>, optstatus: Option<seq<int>>): (r: Result<seq<G>>)
    ensures r.Ok? <==> (atomcoords.Some? && (optstatus.None? ||
      forall i :: 0 <= i < |optstatus.value| && IsUnknown(optstatus.value[i]) ==> i < |atomcoords.value|))
    ensures atomcoords.Some? && optstatus.None? ==> r == Ok(atomcoords.value)
    ensures r.Ok? && optstatus.Some? ==> (
      && |r.value| == |Steps(optstatus.value, IsUnknown)|
      && (forall j :: 0 <= j < |r.value| ==>
            Steps(optstatus.value, IsUnknown)[j] < |atomcoords.value| && r.value[j] == atomcoords.value[Steps(optstatus.value, IsUnknown)[j]])
      && (forall i :: 0 <= i < |optstatus.value| && IsUnknown(optstatus.value[i]) ==> atomcoords.value[i] in r.value)
      && (forall g :: g in r.value ==>
            exists i :: 0 <= i < |optstatus.value| && IsUnknown(optstatus.value[i]) && i < |atomcoords.value| && g == atomcoords.value[i]))
  {
    Select(atomcoords, optstatus, IsUnknown)
  }

  /** `unconverged_geometries`. */
  function UnconvergedGeometries<G>(atomcoords: Option<seq<G>>, optstatus: Option<seq<int>>): (r: Result<seq<G>>)
    ensures r.Ok? <==> (atomcoords.Some? && (optstatus.None? ||
      forall i :: 0 <= i < |optstatus.value| && IsUnconverged(optstatus.value[i]) ==> i < |atomcoords.value|))
    ensures atomcoords.Some? && optstatus.None? ==> r == Ok(atomcoords.value)
    ensures r.Ok? && optstatus.Some? ==> (
      && |r.value| == |Steps(optstatus.value, IsUnconverged)|
      && (forall j :: 0 <= j < |r.value| ==>
            Steps(optstatus.value, IsUnconverged)[j] < |atomcoords.value| && r.value[j] == atomcoords.value[Steps(optstatus.value, IsUnconverged)[j]])
      && (forall i :: 0 <= i < |optstatus.value| && IsUnconverged(optstatus.value[i]) ==> atomcoords.value[i] in r.value)
      && (forall g :: g in r.value ==>
            exists i :: 0 <= i < |optstatus.value| && IsUnconverged(optstatus.value[i]) && i < |atomcoords.value| && g == atomcoords.value[i]))
  {
    Select(atomcoords, optstatus, IsUnconverged)
  }

  /** For statuses built from the three flags, the unknown steps are exactly the
      steps no other selector picks. */
  lemma {:induction false} UnknownIsUnflagged(status: seq<int>)
    requires forall i :: 0 <= i < |status| ==> 0 <= status[i] < 8
    ensures forall i: int :: (i in Steps(status, IsUnknown)) <==>
      (0 <= i < |status| && i !in Steps(status, IsNew) && i !in Steps(status, IsUnconverged) && i !in Steps(status, IsDone))
  {
    forall i | 0 <= i < |status|
      ensures IsUnknown(status[i]) <==> !IsNew(status[i]) && !IsUnconverged(status[i]) && !IsDone(status[i])
    {
      var y := status[i];
      assert Pow2(1) == 2 && Pow2(2) == 4;
      assert y == 0 || y == 1 || y == 2 || y == 3 || y == 4 || y == 5 || y == 6 || y == 7;
    }
  }
}

=== FILE: pyseq.dfy ===
/** Python's indexing and slicing of lists and strings, on Dafny sequences.

    Python accepts negative positions (counted from the end) and clamps slice
    bounds to the length; the scanners rely on both (`tokens[-2]`, `xs[:k-1]`
    with `k == 0`, `label[1:]` of a one-character label).
 */
module PySeq {
  import opened Results

  /** The position a slice bound `k` denotes in a sequence of length `n`. */
  function Bound(n: nat, k: int): (b: nat)
    ensures b <= n
    ensures 0 <= k <= n ==> b == k
    ensures k > n ==> b == n
    ensures k < 0 ==> b == if n + k < 0 then 0 else n + k
  {
    if k < 0 then (if n + k < 0 then 0 else n + k)
    else if k > n then n
    else k
  }

  /** `xs[i:j]`. */
  function Slice<T>(xs: seq<T>, i: int, j: int): (r: seq<T>)
    ensures |r| <= |xs|
  {
    var a := Bound(|xs|, i);
    var b := Bound(|xs|, j);
    if a < b then xs[a..b] else []
  }

  /** `xs[:j]`. */
  function Take<T>(xs: seq<T>, j: int): (r: seq<T>)
    ensures r == xs[..Bound(|xs|, j)]
  {
    Slice(xs, 0, j)
  }

  /** `xs[i:]`. */
  function Drop<T>(xs: seq<T>, i: int): (r: seq<T>)
    ensures r == xs[Bound(|xs|, i)..]
  {
    Slice(xs, i, |xs|)
  }

  /** The position `xs[k]` reads, or `None` where Python raises `IndexError`. */
  function Position(n: nat, k: int): (p: Option<nat>)
    ensures p.Some? <==> -(n as int) <= k < n
    ensures p.Some? ==> p.value < n && (p.value == k || p.value == n + k)
  {
    if 0 <= k < n then Some(k)
    else if -(n as int) <= k < 0 then Some(n + k)
    else None
  }

  /** `xs[k]`. */
  function At<T>(xs: seq<T>, k: int): (r: Result<T>)
    ensures r.Ok? <==> -|xs| <= k < |xs|
    ensures 0 <= k < |xs| ==> r == Ok(xs[k])
    ensures -|xs| <= k < 0 ==> r == Ok(xs[|xs| + k])
  {
    match Position(|xs|, k)
    case Some(p) => Ok(xs[p])
    case None => Err(Malformed("index out of range"))
  }

  /** `xs[k] = v`. */
  function Update<T>(xs: seq<T>, k: int, v: T): (r: Result<seq<T>>)
    ensures r.Ok? <==> -|xs| <= k < |xs|
    ensures r.Ok? ==> |r.value| == |xs|
    ensures 0 <= k < |xs| ==> r == Ok(xs[k := v])
    ensures -|xs| <= k < 0 ==> r == Ok(xs[|xs| + k := v])
  {
    match Position(|xs|, k)
    case Some(p) => Ok(xs[p := v])
    case None => Err(Malformed("assignment index out of range"))
  }

  /** `[x] * n`: Python gives the empty list for a negative count. */
  function Repeat<T>(x: T, n: int): (r: seq<T>)
    ensures |r| == if n < 0 then 0 else n
    ensures forall i :: 0 <= i < |r| ==> r[i] == x
    decreases if n < 0 then 0 else n
  {
    if n <= 0 then [] else [x] + Repeat(x, n - 1)
  }

  /** The concatenation of a sequence of sequences. */
  function Concat<T>(xss: seq<seq<T>>): seq<T>
  {
    if xss == [] then [] else xss[0] + Concat(xss[1..])
  }

  lemma ConcatAppend<T>(xss: seq<seq<T>>, ys: seq<T>)
    ensures Concat(xss + [ys]) == Concat(xss) + ys
  {
    if xss == [] {
      assert xss + [ys] == [ys];
    } else {
      assert (xss + [ys])[1..] == xss[1..] + [ys];
      ConcatAppend(xss[1..], ys);
    }
  }
}

=== FILE: registry.dfy ===
/** The ccData attribute registry: which attributes a parse result may carry,
    and how a result is filled from, and read back into, a name-to-value table.

    A parse result is modelled as the map from the attribute names it holds to
    their values; `hasattr(data, name)` is `name in data.attrs`.
 */
module Registry {
  import opened Results
  import opened Values
  import StrOrder

  datatype Kind = ListType | ArrayType | DictType | IntType | FloatType | BoolType

  /** `_attributes`, in declaration order: each name with its declared type. */
  function Table(): seq<(string, Kind)> {
    [
      ("aonames", ListType),
      ("aooverlaps", ArrayType),
      ("atombasis", ListType),
      ("atomcharges", DictType),
      ("atomcoords", ArrayType),
      ("atommasses", ArrayType),
      ("atomnos", ArrayType),
      ("atomspins", DictType),
      ("ccenergies", ArrayType),
      ("charge", IntType),
      ("coreelectrons", ArrayType),
      ("dispersionenergies", ArrayType),
      ("enthalpy", FloatType),
      ("entropy", FloatType),
      ("etenergies", ArrayType),
      ("etoscs", ArrayType),
      ("etdips", ArrayType),
      ("etveldips", ArrayType),
      ("etmagdips", ArrayType),
      ("etrotats", ArrayType),
      ("etsecs", ListType),
      ("etsyms", ListType),
      ("freeenergy", FloatType),
      ("fonames", ListType),
      ("fooverlaps", ArrayType),
      ("fragnames", ListType),
      ("frags", ListType),
      ("gbasis", ListType),
      ("geotargets", ArrayType),
      ("geovalues", ArrayType),
      ("grads", ArrayType),
      ("hessian", ArrayType),
      ("homos", ArrayType),
      ("metadata", DictType),
      ("mocoeffs", ListType),
      ("moenergies", ListType),
      ("moments", ListType),
      ("mosyms", ListType),
      ("mpenergies", ArrayType),
      ("mult", IntType),
      ("natom", IntType),
      ("nbasis", IntType),
      ("nmo", IntType),
      ("nmrtensors", DictType),
      ("nmrcouplingtensors", DictType),
      ("nocoeffs", ArrayType),
      ("nooccnos", ArrayType),
      ("nsocoeffs", ListType),
      ("nsooccnos", ListType),
      ("optdone", ListType),
      ("optstatus", ArrayType),
      ("polarizabilities", ListType),
      ("pressure", FloatType),
      ("rotconsts", ArrayType),
      ("scancoords", ArrayType),
      ("scanenergies", ListType),
      ("scannames", ListType),
      ("scanparm", ListType),
      ("scfenergies", ArrayType),
      ("scftargets", ArrayType),
      ("scfvalues", ListType),
      ("temperature", FloatType),
      ("time", ArrayType),
      ("transprop", DictType),
      ("vibanharms", ArrayType),
      ("vibdisps", ArrayType),
      ("vibfreqs", ArrayType),
      ("vibfconsts", ArrayType),
      ("vibirs", ArrayType),
      ("vibramans", ArrayType),
      ("vibrmasses", ArrayType),
      ("vibsyms", ListType),
      ("zpve", FloatType)
    ]
  }

  /** The names of a table's entries, or the keys of a dict's items, in order. */
  function Names<V>(t: seq<(string, V)>): (ns: seq<string>)
    ensures |ns| == |t| && forall i :: 0 <= i < |t| ==> ns[i] == t[i].0
  {
    seq(|t|, i requires 0 <= i < |t| => t[i].0)
  }

  function AttributeNames(): seq<string> { Names(Table()) }

  /** `_attrlist`: the attribute names in ascending order. That it holds
      exactly the declared names, and is the only ascending list that does, is
      `StrOrder.SortMembers` and `StrOrder.SortIsTheSortedArrangement`. */
  function AttrList(): seq<string> { StrOrder.Sort(AttributeNames()) }

  datatype CcData = CcData(attrs: map<string, Value>)

  const Empty := CcData(map[])

  /** A parse result holds only attributes named in `attrlist`. */
  predicate Valid(attrlist: seq<string>, d: CcData) {
    forall k :: k in d.attrs ==> k in attrlist
  }

  /** A Python dict never repeats a key. */
  predicate DistinctKeys(es: seq<(string, Value)>) {
    forall i, j :: 0 <= i < j < |es| ==> es[i].0 != es[j].0
  }

  /** The argument of `setattributes`: a dict (its items in insertion order) or
      anything else. */
  datatype Arg = DictArg(entries: seq<(string, Value)>) | OtherArg

  /** The value stored under `k`, if any. */
  function ValueOf(es: seq<(string, Value)>, k: string): (r: Option<Value>)
    ensures r.Some? <==> k in Names(es)
  {
    if es == [] then None
    else if es[0].0 == k then Some(es[0].1)
    else
      assert Names(es) == [es[0].0] + Names(es[1..]);
      ValueOf(es[1..], k)
  }

  /** The `setattr` loop over the names of the dict that are in `known`. */
  function SetKnown(known: seq<string>, attrs: map<string, Value>, es: seq<(string, Value)>): (r: map<string, Value>)
    requires DistinctKeys(es)
    ensures forall k :: k in Names(es) && k in known ==> k in r && Some(r[k]) == ValueOf(es, k)
    ensures forall k :: !(k in Names(es) && k in known) ==> (k in r <==> k in attrs)
    ensures forall k :: !(k in Names(es) && k in known) && k in attrs ==> r[k] == attrs[k]
    decreases |es|
  {
    if es == [] then attrs
    else
      var k0, v0 := es[0].0, es[0].1;
      var rest := SetKnown(known, if k0 in known then attrs[k0 := v0] else attrs, es[1..]);
      assert Names(es) == [k0] + Names(es[1..]);
      assert k0 !in Names(es[1..]);
      rest
  }

  /** The names of the dict that are not in `known`, in the dict's order. */
  function Unknown(known: seq<string>, es: seq<(string, Value)>): (r: seq<string>)
    requires DistinctKeys(es)
    ensures forall k :: k in r <==> k in Names(es) && k !in known
    ensures forall i, j :: 0 <= i < j < |r| ==> r[i] != r[j]
  {
    if es == [] then []
    else
      var rest := Unknown(known, es[1..]);
      assert Names(es) == [es[0].0] + Names(es[1..]);
      assert es[0].0 !in Names(es[1..]);
      if es[0].0 in known then rest else [es[0].0] + rest
  }

  /** `setattributes`, where `attrlist` is the class's `_attrlist`: a non-dict
      argument raises `TypeError`; otherwise every registered name of the dict
      is set to its value, nothing else changes, and the unregistered names come
      back, each once. */
  function SetAttributes(attrlist: seq<string>, d: CcData, arg: Arg): (r: Result<(CcData, seq<string>)>)
    requires arg.DictArg? ==> DistinctKeys(arg.entries)
    ensures r.Ok? <==> arg.DictArg?
    ensures r.Ok? ==> (
      var d', invalid, es := r.value.0, r.value.1, arg.entries;
      && (forall k :: k in invalid <==> k in Names(es) && k !in attrlist)
      && (forall i, j :: 0 <= i < j < |invalid| ==> invalid[i] != invalid[j])
      && (forall k :: k in Names(es) && k in attrlist ==> k in d'.attrs && Some(d'.attrs[k]) == ValueOf(es, k))
      && (forall k :: !(k in Names(es) && k in attrlist) ==> (k in d'.attrs <==> k in d.attrs))
      && (forall k :: !(k in Names(es) && k in attrlist) && k in d.attrs ==> d'.attrs[k] == d.attrs[k]))
    ensures r.Ok? && Valid(attrlist, d) ==> Valid(attrlist, r.value.0)
  {
    match arg
    case OtherArg => Err(Malformed("attributes must be in a dictionary"))
    case DictArg(es) => Ok((CcData(SetKnown(attrlist, d.attrs, es)), Unknown(attrlist, es)))
  }

  /** The held attributes among `names`, each once, in the order of `names`. */
  function Present(d: CcData, names: seq<string>): (r: seq<(string, Value)>)
    ensures DistinctKeys(r)
    ensures forall k :: k in Names(r) <==> k in names && k in d.attrs
    ensures forall i :: 0 <= i < |r| ==> r[i].0 in d.attrs && r[i].1 == d.attrs[r[i].0]
    decreases |names|
  {
    if names == [] then []
    else
      var init := names[..|names| - 1];
      var last := names[|names| - 1];
      var p := Present(d, init);
      assert names == init + [last];
      if last in d.attrs && last !in Names(p) then
        var r := p + [(last, d.attrs[last])];
        assert Names(r) == Names(p) + [last];
        r
      else p
  }

  /** Taken from an ascending list of names, the held attributes are in
      ascending order too. */
  lemma {:induction false} PresentSorted(d: CcData, names: seq<string>)
    requires StrOrder.Sorted(names)
    ensures StrOrder.Sorted(Names(Present(d, names)))
    decreases |names|
  {
    if names != [] {
      var init := names[..|names| - 1];
      var last := names[|names| - 1];
      var p := Present(d, init);
      assert names == init + [last];
      PresentSorted(d, init);
      if last in d.attrs && last !in Names(p) {
        var r := p + [(last, d.attrs[last])];
        assert Names(r) == Names(p) + [last];
        assert forall i :: 0 <= i < |Names(p)| ==> Names(p)[i] in init;
      }
    }
  }

  /** `getattributes()`: the attributes the result holds, in the order of the
      class's `_attrlist`, which is sorted. */
  function GetAttributes(attrlist: seq<string>, d: CcData): (r: seq<(string, Value)>)
    ensures DistinctKeys(r)
    ensures StrOrder.Sorted(attrlist) ==> StrOrder.Sorted(Names(r))
    ensures forall k :: k in Names(r) <==> k in d.attrs && k in attrlist
    ensures forall i :: 0 <= i < |r| ==> r[i].0 in d.attrs && r[i].1 == d.attrs[r[i].0]
  {
    assert StrOrder.Sorted(attrlist) ==> StrOrder.Sorted(Names(Present(d, attrlist))) by {
      if StrOrder.Sorted(attrlist) {
        PresentSorted(d, attrlist);
      }
    }
    Present(d, attrlist)
  }

  /** Reading a valid result out and setting it on an empty one rebuilds it,
      and no name is reported invalid. */
  lemma {:induction false} GetSetRoundTrip(attrlist: seq<string>, d: CcData)
    requires Valid(attrlist, d)
    ensures SetAttributes(attrlist, Empty, DictArg(GetAttributes(attrlist, d))) == Ok((d, []))
  {
    RebuildFrom(attrlist, d);
  }

  lemma {:induction false} RebuildFrom(known: seq<string>, d: CcData)
    requires forall k :: k in d.attrs ==> k in known
    ensures SetKnown(known, map[], Present(d, known)) == d.attrs
    ensures Unknown(known, Present(d, known)) == []
  {
    NoneUnknown(known, Present(d, known));
    RebuildKeys(known, d);
    RebuildValues(known, d);
  }

  lemma RebuildKeys(known: seq<string>, d: CcData)
    requires forall k :: k in d.attrs ==> k in known
    ensures SetKnown(known, map[], Present(d, known)).Keys == d.attrs.Keys
  {
  }

  lemma {:induction false} RebuildValues(known: seq<string>, d: CcData)
    requires forall k :: k in d.attrs ==> k in known
    ensures forall k :: k in d.attrs ==> SetKnown(known, map[], Present(d, known))[k] == d.attrs[k]
  {
    var es := Present(d, known);
    forall k | k in d.attrs
      ensures SetKnown(known, map[], es)[k] == d.attrs[k]
    {
      var i :| 0 <= i < |es| && es[i].0 == k;
      ValueAgrees(es, i);
    }
  }

  lemma NoneUnknown(known: seq<string>, es: seq<(string, Value)>)
    requires DistinctKeys(es)
    requires forall k :: k in Names(es) ==> k in known
    ensures Unknown(known, es) == []
  {
  }

  lemma {:induction false} ValueAgrees(es: seq<(string, Value)>, i: nat)
    requires DistinctKeys(es) && i < |es|
    ensures ValueOf(es, es[i].0) == Some(es[i].1)
  {
    if i > 0 {
      ValueAgrees(es[1..], i - 1);
    }
  }

  /** The negative entries of a list of excitation energies, each as often as
      it occurs. That they keep their order is `NegativesAppend`. */
  function Negatives(es: seq<real>): (r: seq<real>)
    ensures forall x :: x in r <==> x in es && x < 0.0
    ensures forall x :: multiset(r)[x] == if x < 0.0 then multiset(es)[x] else 0
  {
    if es == [] then []
    else
      assert es == [es[0]] + es[1..];
      (if es[0] < 0.0 then [es[0]] else []) + Negatives(es[1..])
  }

  /** The filter commutes with concatenation, so the negative entries of `a`
      come before those of `b`. With the one-element case, which is the
      function's own first branch, this is the list comprehension's order. */
  lemma {:induction false} NegativesAppend(a: seq<real>, b: seq<real>)
    ensures Negatives(a + b) == Negatives(a) + Negatives(b)
  {
    if a != [] {
      assert (a + b)[1..] == a[1..] + b;
      NegativesAppend(a[1..], b);
    } else {
      assert a + b == b;
    }
  }

  /** `check_values`: the negative excitation energies it reports (none reported
      when there are no energies). A list holding a non-number makes the
      comparison raise `TypeError`, and so does a non-empty string or dict,
      whose iteration yields strings; an empty string or dict yields nothing
      and reports nothing. A Boolean or a number cannot be iterated. */
  function CheckValues(d: CcData): (r: Result<seq<real>>)
    ensures "etenergies" !in d.attrs ==> r == Ok([])
    ensures r.Err? <==>
      && "etenergies" in d.attrs
      && var v := d.attrs["etenergies"];
         if v.Items? then Numbers(v.items).None? else v != Str("") && v != Entries([])
    ensures "etenergies" in d.attrs && (d.attrs["etenergies"] == Str("") || d.attrs["etenergies"] == Entries([])) ==>
      r == Ok([])
    ensures r.Ok? && "etenergies" in d.attrs && d.attrs["etenergies"].Items? ==> (
      && Numbers(d.attrs["etenergies"].items).Some?
      && (var es := Numbers(d.attrs["etenergies"].items).value;
          && r.value == Negatives(es)
          && (forall x :: x in r.value <==> x in es && x < 0.0)
          && (forall x :: multiset(r.value)[x] == if x < 0.0 then multiset(es)[x] else 0)
          && (r.value == [] <==> forall i :: 0 <= i < |es| ==> es[i] >= 0.0)))
  {
    if "etenergies" !in d.attrs then Ok([])
    else
      match d.attrs["etenergies"]
      case Items(xs) =>
        (match Numbers(xs)
         case Some(es) =>
           var neg := Negatives(es);
           assert neg == [] <==> forall i :: 0 <= i < |es| ==> es[i] >= 0.0 by {
             if neg != [] {
               assert neg[0] in neg;
             }
             forall i | 0 <= i < |es| && neg == []
               ensures es[i] >= 0.0
             {
               assert es[i] in es;
             }
           }
           Ok(neg)
         case None => Err(Malformed("'<' not supported between instances")))
      case Str(text) =>
        if text == [] then Ok([]) else Err(Malformed("'<' not supported between instances of 'str' and 'int'"))
      case Entries(es) =>
        if es == [] then Ok([]) else Err(Malformed("'<' not supported between instances of 'str' and 'int'"))
      case _ => Err(Malformed("object is not iterable"))
  }

  /** The reduction `ccData_optdone_bool.setattributes` applies after the
      ordinary update, as written: a held `optdone` becomes whether it has any
      element, whatever it already is, so an `optdone` that is already a
      Boolean makes `len` raise `TypeError`. */
  function ReduceOptdoneAsWritten(d: CcData): (r: Result<CcData>)
    ensures "optdone" !in d.attrs ==> r == Ok(d)
    ensures "optdone" in d.attrs ==> (r.Ok? <==> Len(d.attrs["optdone"]).Ok?)
    ensures r.Ok? && "optdone" in d.attrs ==> (
      && r.value.attrs.Keys == d.attrs.Keys
      && r.value.attrs["optdone"] == Flag(Len(d.attrs["optdone"]).value > 0)
      && forall k :: k in d.attrs && k != "optdone" ==> r.value.attrs[k] == d.attrs[k])
  {
    if "optdone" !in d.attrs then Ok(d)
    else
      var n :- Len(d.attrs["optdone"]);
      Ok(CcData(d.attrs["optdone" := Flag(n > 0)]))
  }

  /** `ccData_optdone_bool.setattributes` as written. */
  function OptdoneBoolSetAsWritten(attrlist: seq<string>, d: CcData, arg: Arg): (r: Result<(CcData, seq<string>)>)
    requires arg.DictArg? ==> DistinctKeys(arg.entries)
    ensures r.Ok? ==> "optdone" in r.value.0.attrs ==> r.value.0.attrs["optdone"].Flag?
    ensures r.Ok? ==> arg.DictArg? && r.value.1 == SetAttributes(attrlist, d, arg).value.1
  {
    var (d', invalid) :- SetAttributes(attrlist, d, arg);
    var d'' :- ReduceOptdoneAsWritten(d');
    Ok((d'', invalid))
  }

  /** `optdone` is a declared attribute, so `_attrlist` holds it
      (`StrOrder.SortMembers`). */
  lemma OptdoneDeclared()
    ensures "optdone" in AttributeNames()
  {
    assert AttributeNames()[49] == "optdone";
  }

  /** A second `setattributes` on a result whose `optdone` has been reduced
      fails, even when it sets nothing. */
  lemma OptdoneSecondSetFails(attrlist: seq<string>)
    requires "optdone" in attrlist
    ensures var first := OptdoneBoolSetAsWritten(attrlist, Empty, DictArg([("optdone", Items([Number(3.0)]))]));
            && first.Ok?
            && first.value.0.attrs["optdone"] == Flag(true)
            && OptdoneBoolSetAsWritten(attrlist, first.value.0, DictArg([])).Err?
  {
    var es := [("optdone", Items([Number(3.0)]))];
    assert Names(es) == ["optdone"];
  }

  /** The reduction with the evident intent: only an `optdone` that is not yet
      a Boolean is reduced. */
  function ReduceOptdone(d: CcData): (r: Result<CcData>)
    ensures "optdone" !in d.attrs ==> r == Ok(d)
    ensures "optdone" in d.attrs ==> (r.Ok? <==> d.attrs["optdone"].Flag? || Len(d.attrs["optdone"]).Ok?)
    ensures r.Ok? ==> r.value.attrs.Keys == d.attrs.Keys
    ensures r.Ok? ==> forall k :: k in d.attrs && k != "optdone" ==> r.value.attrs[k] == d.attrs[k]
    ensures r.Ok? && "optdone" in d.attrs ==> (
      r.value.attrs["optdone"] ==
        if d.attrs["optdone"].Flag? then d.attrs["optdone"]
        else Flag(Len(d.attrs["optdone"]).value > 0))
  {
    if "optdone" in d.attrs && d.attrs["optdone"].Flag? then Ok(d)
    else ReduceOptdoneAsWritten(d)
  }

  /** `ccData_optdone_bool.setattributes` with the reduction corrected. */
  function OptdoneBoolSet(attrlist: seq<string>, d: CcData, arg: Arg): (r: Result<(CcData, seq<string>)>)
    requires arg.DictArg? ==> DistinctKeys(arg.entries)
    ensures r.Ok? ==> "optdone" in r.value.0.attrs ==> r.value.0.attrs["optdone"].Flag?
    ensures r.Ok? ==> arg.DictArg? && r.value.1 == SetAttributes(attrlist, d, arg).value.1
  {
    var (d', invalid) :- SetAttributes(attrlist, d, arg);
    var d'' :- ReduceOptdone(d');
    Ok((d'', invalid))
  }

  /** With the correction, setting nothing on a result leaves it as it is: in
      particular a reduced `optdone` survives a later call. */
  lemma OptdoneBoolSetNothing(attrlist: seq<string>, d: CcData)
    requires "optdone" in d.attrs ==> d.attrs["optdone"].Flag?
    ensures OptdoneBoolSet(attrlist, d, DictArg([])) == Ok((d, []))
  {
    var r := SetAttributes(attrlist, d, DictArg([]));
    assert r.value.0.attrs == d.attrs;
  }

  /** The input that breaks the code as written goes through the corrected one. */
  lemma OptdoneSecondSetSucceeds(attrlist: seq<string>)
    requires "optdone" in attrlist
    ensures var first := OptdoneBoolSet(attrlist, Empty, DictArg([("optdone", Items([Number(3.0)]))]));
            && first.Ok?
            && first.value.0.attrs["optdone"] == Flag(true)
            && OptdoneBoolSet(attrlist, first.value.0, DictArg([])) == Ok((first.value.0, []))
  {
    var es := [("optdone", Items([Number(3.0)]))];
    assert Names(es) == ["optdone"];
    var first := OptdoneBoolSet(attrlist, Empty, DictArg(es));
    OptdoneBoolSetNothing(attrlist, first.value.0);
  }
}

=== FILE: results.dfy ===
/** Outcomes of the block parsers.

    Every way a scan can stop early becomes a `Failure`: the line stream running
    out inside a block (Python's `StopIteration` from `next(inputfile)`), and a
    line that does not have the shape the block needs (the `IndexError`,
    `ValueError`, `KeyError` or `AssertionError` the scanners would raise).
 */
module Results {

  datatype Failure =
    | EndOfInput
    | Malformed(reason: string)

  datatype Option<+T> = None | Some(value: T)

  /** A failure-compatible result: usable with `:-`. */
  datatype Result<+T> = Ok(value: T) | Err(failure: Failure) {

    predicate IsFailure() {
      Err?
    }

    function PropagateFailure<U>(): Result<U>
      requires Err?
    {
      Err(failure)
    }

    function Extract(): T
      requires Ok?
    {
      value
    }
  }

  /** `Ok(())` when `condition` holds, otherwise a `Malformed` failure. */
  function Need(condition: bool, reason: string): (r: Result<()>)
    ensures r.Ok? <==> condition
  {
    if condition then Ok(()) else Err(Malformed(reason))
  }
}

=== FILE: strorder.dfy ===
/** Python's ordering of strings and `sorted` on a list of strings.

    Strings compare code point by code point; a proper prefix comes first.
 */
module StrOrder {

  /** `a <= b` on Python strings. */
  predicate Le(a: string, b: string)
    decreases |a|
  {
    a == [] || (b != [] && (a[0] < b[0] || (a[0] == b[0] && Le(a[1..], b[1..]))))
  }

  lemma {:induction false} LeRefl(a: string)
    ensures Le(a, a)
    decreases |a|
  {
    if a != [] {
      LeRefl(a[1..]);
    }
  }

  lemma {:induction false} LeTotal(a: string, b: string)
    ensures Le(a, b) || Le(b, a)
    decreases |a|
  {
    if a != [] && b != [] && a[0] == b[0] {
      LeTotal(a[1..], b[1..]);
    }
  }

  lemma {:induction false} LeTrans(a: string, b: string, c: string)
    requires Le(a, b) && Le(b, c)
    ensures Le(a, c)
    decreases |a|
  {
    if a != [] && a[0] == b[0] && b[0] == c[0] {
      LeTrans(a[1..], b[1..], c[1..]);
    }
  }

  lemma {:induction false} LeAntisym(a: string, b: string)
    requires Le(a, b) && Le(b, a)
    ensures a == b
    decreases |a|
  {
    if a != [] {
      LeAntisym(a[1..], b[1..]);
      assert a == [a[0]] + a[1..];
      assert b == [b[0]] + b[1..];
    }
  }

  predicate Sorted(xs: seq<string>) {
    forall i, j :: 0 <= i < j < |xs| ==> Le(xs[i], xs[j])
  }

  /** `x` placed before the first element it does not exceed. */
  function Insert(x: string, xs: seq<string>): (r: seq<string>)
    ensures multiset(r) == multiset(xs) + multiset{x}
  {
    if xs == [] then [x]
    else if Le(x, xs[0]) then [x] + xs
    else
      assert xs == [xs[0]] + xs[1..];
      [xs[0]] + Insert(x, xs[1..])
  }

  /** Inserting into an ascending list keeps it ascending. */
  lemma {:induction false} InsertSorted(x: string, xs: seq<string>)
    requires Sorted(xs)
    ensures Sorted(Insert(x, xs))
  {
    if xs == [] {
    } else if Le(x, xs[0]) {
      forall j | 0 <= j < |xs|
        ensures Le(x, xs[j])
      {
        if j > 0 {
          LeTrans(x, xs[0], xs[j]);
        }
      }
    } else {
      LeTotal(x, xs[0]);
      var rest := Insert(x, xs[1..]);
      InsertSorted(x, xs[1..]);
      assert xs == [xs[0]] + xs[1..];
      forall y | y in multiset(rest)
        ensures Le(xs[0], y)
      {
        if y != x {
          assert y in multiset(xs[1..]);
          var j :| 0 <= j < |xs[1..]| && xs[1..][j] == y;
          assert xs[j + 1] == y;
        }
      }
      assert forall j :: 0 <= j < |rest| ==> rest[j] in multiset(rest);
    }
  }

  /** `sorted(xs)`: the same strings, in ascending order. */
  function Sort(xs: seq<string>): (r: seq<string>)
    ensures Sorted(r)
    ensures multiset(r) == multiset(xs)
  {
    if xs == [] then []
    else
      assert xs == [xs[0]] + xs[1..];
      var rest := Sort(xs[1..]);
      InsertSorted(xs[0], rest);
      Insert(xs[0], rest)
  }

  lemma MinOfSorted(xs: seq<string>, y: string)
    requires Sorted(xs) && y in multiset(xs)
    ensures Le(xs[0], y)
  {
    var j :| 0 <= j < |xs| && xs[j] == y;
    if j == 0 {
      LeRefl(y);
    }
  }

  lemma MultisetTail(xs: seq<string>)
    requires xs != []
    ensures multiset(xs[1..]) == multiset(xs) - multiset{xs[0]}
  {
    assert xs == [xs[0]] + xs[1..];
  }

  /** There is only one ascending arrangement of a collection of strings, so any
      list that is sorted and holds the same strings is the one `sorted` gives. */
  lemma {:induction false} SortedUnique(xs: seq<string>, ys: seq<string>)
    requires Sorted(xs) && Sorted(ys)
    requires multiset(xs) == multiset(ys)
    ensures xs == ys
    decreases |xs|
  {
    assert |xs| == |multiset(xs)| == |ys|;
    if xs != [] {
      assert xs[0] in multiset(ys) && ys[0] in multiset(xs);
      MinOfSorted(ys, xs[0]);
      MinOfSorted(xs, ys[0]);
      LeAntisym(xs[0], ys[0]);
      MultisetTail(xs);
      MultisetTail(ys);
      assert Sorted(xs[1..]) && Sorted(ys[1..]);
      SortedUnique(xs[1..], ys[1..]);
      forall i | 1 <= i < |xs|
        ensures xs[i] == ys[i]
      {
        assert xs[i] == xs[1..][i - 1] && ys[i] == ys[1..][i - 1];
      }
    }
  }

  /** `sorted` keeps exactly the elements it is given. */
  lemma SortMembers(xs: seq<string>, x: string)
    ensures x in Sort(xs) <==> x in xs
  {
    assert x in Sort(xs) <==> x in multiset(Sort(xs));
    assert x in xs <==> x in multiset(xs);
  }

  /** Any ascending list holding the same strings as `xs` is `sorted(xs)`. */
  lemma {:induction false} SortIsTheSortedArrangement(xs: seq<string>, ys: seq<string>)
    requires Sorted(ys) && multiset(ys) == multiset(xs)
    ensures ys == Sort(xs)
  {
    SortedUnique(ys, Sort(xs));
  }
}

=== FILE: text.dfy ===
/** The string operations the scanners use, with Python's meaning.

    Characters are compared as code points. Whitespace is the set of
    characters Python's `str.isspace()` accepts, which `str.split()`,
    `str.strip()` and the regular-expression class `\s` all use: tab, line
    feed, vertical tab, form feed, carriage return, the four information
    separators U+001C..U+001F, space, U+0085, U+00A0, U+1680,
    U+2000..U+200A, U+2028, U+2029, U+202F, U+205F and U+3000. Letter case
    is changed on ASCII letters only.
 */
module Text {
  import opened Results
  import PySeq

  predicate IsSpace(c: char) {
    || '\t' <= c <= '\r'
    || '\U{1C}' <= c <= ' '
    || c == '\U{85}' || c == '\U{A0}' || c == '\U{1680}'
    || '\U{2000}' <= c <= '\U{200A}'
    || c == '\U{2028}' || c == '\U{2029}' || c == '\U{202F}' || c == '\U{205F}' || c == '\U{3000}'
  }

  predicate IsDigit(c: char) {
    '0' <= c <= '9'
  }

  predicate IsUpper(c: char) {
    'A' <= c <= 'Z'
  }

  predicate IsLower(c: char) {
    'a' <= c <= 'z'
  }

  function ToLower(c: char): char {
    if IsUpper(c) then (c as int + 32) as char else c
  }

  function ToUpper(c: char): char {
    if IsLower(c) then (c as int - 32) as char else c
  }

  /** `s.lower()`. */
  function Lower(s: string): (r: string)
    ensures |r| == |s|
    ensures forall i :: 0 <= i < |s| ==> r[i] == ToLower(s[i])
  {
    seq(|s|, i requires 0 <= i < |s| => ToLower(s[i]))
  }

  /** `s.upper()`. */
  function Upper(s: string): (r: string)
    ensures |r| == |s|
    ensures forall i :: 0 <= i < |s| ==> r[i] == ToUpper(s[i])
  {
    seq(|s|, i requires 0 <= i < |s| => ToUpper(s[i]))
  }

  /** `s.capitalize()`: the first character upper case, the rest lower case. */
  function Capitalize(s: string): (r: string)
    ensures |r| == |s|
  {
    if s == [] then [] else [ToUpper(s[0])] + Lower(s[1..])
  }

  predicate IsBlank(s: string) {
    forall i :: 0 <= i < |s| ==> IsSpace(s[i])
  }

  /** The position after the run of non-whitespace characters starting at `i`. */
  function WordEnd(s: string, i: nat): (j: nat)
    requires i <= |s|
    ensures i <= j <= |s|
    decreases |s| - i
  {
    if i == |s| || IsSpace(s[i]) then i else WordEnd(s, i + 1)
  }

  /** The run `WordEnd` measures is a whole word: no whitespace inside it,
      and whitespace or the end of the line after it. */
  lemma {:induction false} WordEndMaximal(s: string, i: nat)
    requires i <= |s|
    ensures forall k :: i <= k < WordEnd(s, i) ==> !IsSpace(s[k])
    ensures WordEnd(s, i) == |s| || IsSpace(s[WordEnd(s, i)])
    decreases |s| - i
  {
    if i < |s| && !IsSpace(s[i]) {
      WordEndMaximal(s, i + 1);
    }
  }

  function SplitFrom(s: string, i: nat): seq<string>
    requires i <= |s|
    decreases |s| - i
  {
    if i == |s| then []
    else if IsSpace(s[i]) then SplitFrom(s, i + 1)
    else
      var j := WordEnd(s, i);
      [s[i..j]] + SplitFrom(s, j)
  }

  /** `s.split()`: the maximal runs of non-whitespace characters, in order. */
  function Split(s: string): seq<string> {
    SplitFrom(s, 0)
  }

  predicate IsToken(t: string) {
    |t| > 0 && forall k :: 0 <= k < |t| ==> !IsSpace(t[k])
  }

  /** `s` with every whitespace character removed. */
  function Squeeze(s: string): (r: string)
    ensures |r| <= |s|
  {
    if s == [] then [] else (if IsSpace(s[0]) then [] else [s[0]]) + Squeeze(s[1..])
  }

  lemma SqueezeAppend(a: string, b: string)
    ensures Squeeze(a + b) == Squeeze(a) + Squeeze(b)
  {
    if a == [] {
      assert a + b == b;
    } else {
      assert (a + b)[1..] == a[1..] + b;
      SqueezeAppend(a[1..], b);
    }
  }

  lemma SqueezeWord(s: string, i: nat, j: nat)
    requires i <= j <= |s|
    requires forall k :: i <= k < j ==> !IsSpace(s[k])
    ensures Squeeze(s[i..j]) == s[i..j]
    decreases j - i
  {
    if i < j {
      assert s[i..j][1..] == s[i + 1..j];
      SqueezeWord(s, i + 1, j);
    }
  }

  lemma {:induction false} SplitFromSpec(s: string, i: nat)
    requires i <= |s|
    ensures forall t :: t in SplitFrom(s, i) ==> IsToken(t)
    ensures PySeq.Concat(SplitFrom(s, i)) == Squeeze(s[i..])
    decreases |s| - i
  {
    if i == |s| {
    } else if IsSpace(s[i]) {
      SplitFromSpec(s, i + 1);
      assert s[i..] == [s[i]] + s[i + 1..];
      SqueezeAppend([s[i]], s[i + 1..]);
    } else {
      var j := WordEnd(s, i);
      WordEndMaximal(s, i);
      SplitFromSpec(s, j);
      var xs := [s[i..j]] + SplitFrom(s, j);
      assert xs[1..] == SplitFrom(s, j);
      assert s[i..] == s[i..j] + s[j..];
      SqueezeAppend(s[i..j], s[j..]);
      SqueezeWord(s, i, j);
    }
  }

  /** `s.split()` loses exactly the whitespace: its tokens are non-empty, free of
      whitespace, and concatenate to `s` with the whitespace removed. */
  lemma SplitSpec(s: string)
    ensures forall t :: t in Split(s) ==> IsToken(t)
    ensures PySeq.Concat(Split(s)) == Squeeze(s)
  {
    SplitFromSpec(s, 0);
    assert s[0..] == s;
  }

  /** The tokens, each followed by one space: a line `split()` takes apart
      into exactly those tokens. */
  function Spaced(ts: seq<string>): string
    decreases |ts|
  {
    if ts == [] then [] else ts[0] + " " + Spaced(ts[1..])
  }

  lemma {:induction false} SpacedAppend(a: seq<string>, b: seq<string>)
    ensures Spaced(a + b) == Spaced(a) + Spaced(b)
    decreases |a|
  {
    if a == [] {
      assert a + b == b;
    } else {
      assert (a + b)[0] == a[0];
      assert (a + b)[1..] == a[1..] + b;
      SpacedAppend(a[1..], b);
    }
  }

  /** Text found in a prefix is found in the whole. */
  lemma OccursInPrefix(p: string, u: string, q: string, i: nat)
    requires OccursAt(p, q, i)
    ensures OccursAt(p + u, q, i)
  {
    assert (p + u)[i..i + |q|] == p[i..i + |q|];
  }

  /** Text found in the spaced words `a` is found in any line that starts
      with them. */
  lemma ContainsSpacedPrefix(a: seq<string>, b: seq<string>, q: string, i: nat)
    requires OccursAt(Spaced(a), q, i)
    ensures Contains(Spaced(a + b), q)
  {
    SpacedAppend(a, b);
    OccursInPrefix(Spaced(a), Spaced(b), q, i);
    ContainsWitness(Spaced(a + b), q, i);
  }

  lemma {:induction false} WordEndShift(p: string, u: string, k: nat)
    requires k <= |u|
    ensures WordEnd(p + u, |p| + k) == |p| + WordEnd(u, k)
    decreases |u| - k
  {
    if k < |u| && !IsSpace(u[k]) {
      assert (p + u)[|p| + k] == u[k];
      WordEndShift(p, u, k + 1);
    } else if k < |u| {
      assert (p + u)[|p| + k] == u[k];
    }
  }

  /** Splitting after a prefix is splitting the rest on its own. */
  lemma {:induction false} SplitFromShift(p: string, u: string, k: nat)
    requires k <= |u|
    ensures SplitFrom(p + u, |p| + k) == SplitFrom(u, k)
    decreases |u| - k
  {
    if k < |u| {
      if IsSpace(u[k]) {
        SplitFromShiftSpace(p, u, k);
        SplitFromShift(p, u, k + 1);
      } else {
        var j := WordEnd(u, k);
        SplitFromShiftWord(p, u, k);
        SplitFromShift(p, u, j);
      }
    }
  }

  /** One step of `SplitFromShift` at a space. */
  lemma SplitFromShiftSpace(p: string, u: string, k: nat)
    requires k < |u| && IsSpace(u[k])
    ensures SplitFrom(p + u, |p| + k) == SplitFrom(p + u, |p| + k + 1)
    ensures SplitFrom(u, k) == SplitFrom(u, k + 1)
  {
    assert (p + u)[|p| + k] == u[k];
  }

  /** One step of `SplitFromShift` at the start of a word. */
  lemma SplitFromShiftWord(p: string, u: string, k: nat)
    requires k < |u| && !IsSpace(u[k])
    ensures SplitFrom(p + u, |p| + k) == [u[k..WordEnd(u, k)]] + SplitFrom(p + u, |p| + WordEnd(u, k))
    ensures SplitFrom(u, k) == [u[k..WordEnd(u, k)]] + SplitFrom(u, WordEnd(u, k))
  {
    var s := p + u;
    var j := WordEnd(u, k);
    assert s[|p| + k] == u[k];
    WordEndShift(p, u, k);
    assert s[|p| + k..|p| + j] == u[k..j];
  }

  /** `" ".join(ts).split() == ts` for tokens without whitespace. */
  lemma {:induction false} SplitSpaced(ts: seq<string>)
    requires forall i :: 0 <= i < |ts| ==> IsToken(ts[i])
    ensures Split(Spaced(ts)) == ts
    decreases |ts|
  {
    if ts != [] {
      var t := ts[0];
      var rest := Spaced(ts[1..]);
      var s := Spaced(ts);
      assert s == (t + " ") + rest;
      assert s[|t|] == ' ';
      assert forall k :: 0 <= k < |t| ==> s[k] == t[k];
      var j := WordEnd(s, 0);
      WordEndMaximal(s, 0);
      assert j == |t|;
      assert s[0..j] == t;
      assert !IsSpace(s[0]);
      assert SplitFrom(s, 0) == [t] + SplitFrom(s, |t|);
      assert SplitFrom(s, |t|) == SplitFrom(s, |t + " "|);
      SplitFromShift(t + " ", rest, 0);
      SplitSpaced(ts[1..]);
    }
  }

  lemma {:induction false} SplitFromEmpty(s: string, i: nat)
    requires i <= |s|
    ensures SplitFrom(s, i) == [] <==> forall k :: i <= k < |s| ==> IsSpace(s[k])
    decreases |s| - i
  {
    if i < |s| && IsSpace(s[i]) {
      SplitFromEmpty(s, i + 1);
    }
  }

  /** A line has no tokens exactly when it is blank (`line.strip() == ""`). */
  lemma BlankIffNoTokens(s: string)
    ensures IsBlank(s) <==> Split(s) == []
  {
    SplitFromEmpty(s, 0);
  }

  function LeadingSpaces(s: string, i: nat): (j: nat)
    requires i <= |s|
    ensures i <= j <= |s|
    decreases |s| - i
  {
    if i == |s| || !IsSpace(s[i]) then i else LeadingSpaces(s, i + 1)
  }

  lemma {:induction false} LeadingSpacesMaximal(s: string, i: nat)
    requires i <= |s|
    ensures forall k :: i <= k < LeadingSpaces(s, i) ==> IsSpace(s[k])
    ensures LeadingSpaces(s, i) == |s| || !IsSpace(s[LeadingSpaces(s, i)])
    decreases |s| - i
  {
    if i < |s| && IsSpace(s[i]) {
      LeadingSpacesMaximal(s, i + 1);
    }
  }

  function TrailingStart(s: string, j: nat): (i: nat)
    requires j <= |s|
    ensures i <= j
  {
    if j == 0 || !IsSpace(s[j - 1]) then j else TrailingStart(s, j - 1)
  }

  lemma {:induction false} TrailingStartMaximal(s: string, j: nat)
    requires j <= |s|
    ensures forall k :: TrailingStart(s, j) <= k < j ==> IsSpace(s[k])
    ensures TrailingStart(s, j) == 0 || !IsSpace(s[TrailingStart(s, j) - 1])
  {
    if j > 0 && IsSpace(s[j - 1]) {
      TrailingStartMaximal(s, j - 1);
    }
  }

  /** `s.strip()`. */
  function Strip(s: string): (r: string)
    ensures |r| <= |s|
  {
    var a := LeadingSpaces(s, 0);
    var b := TrailingStart(s, |s|);
    if a < b then s[a..b] else []
  }

  /** `strip()` removes exactly the whitespace at both ends: nothing is left
      of a blank line, and otherwise what is left starts and ends with a
      non-whitespace character. */
  lemma StripSpec(s: string)
    ensures Strip(s) == [] <==> IsBlank(s)
    ensures Strip(s) != [] ==> !IsSpace(Strip(s)[0]) && !IsSpace(Strip(s)[|Strip(s)| - 1])
  {
    LeadingSpacesMaximal(s, 0);
    TrailingStartMaximal(s, |s|);
  }

  /** `s.rstrip()`. */
  function RStrip(s: string): (r: string)
    ensures |r| <= |s|
  {
    s[..TrailingStart(s, |s|)]
  }

  predicate StartsWith(s: string, p: string) {
    |p| <= |s| && s[..|p|] == p
  }

  predicate EndsWith(s: string, p: string) {
    |p| <= |s| && s[|s| - |p|..] == p
  }

  predicate OccursAt(s: string, p: string, i: nat) {
    i + |p| <= |s| && s[i..i + |p|] == p
  }

  function FindFrom(s: string, p: string, i: nat): (r: int)
    requires i <= |s|
    ensures r == -1 || i <= r
    decreases |s| - i
  {
    if OccursAt(s, p, i) then i
    else if i == |s| then -1
    else FindFrom(s, p, i + 1)
  }

  lemma {:induction false} FindFromFirst(s: string, p: string, i: nat)
    requires i <= |s|
    ensures FindFrom(s, p, i) != -1 ==> OccursAt(s, p, FindFrom(s, p, i))
    ensures FindFrom(s, p, i) == -1 ==> forall k :: i <= k <= |s| ==> !OccursAt(s, p, k)
    ensures FindFrom(s, p, i) != -1 ==> forall k :: i <= k < FindFrom(s, p, i) ==> !OccursAt(s, p, k)
    decreases |s| - i
  {
    if !OccursAt(s, p, i) && i < |s| {
      FindFromFirst(s, p, i + 1);
    }
  }

  /** `s.find(p)`: the first position where `p` occurs, or -1. */
  function Find(s: string, p: string): (r: int)
    ensures r >= -1
  {
    FindFrom(s, p, 0)
  }

  /** `find` reports -1 only when the text occurs nowhere, and otherwise the
      first place it occurs. */
  lemma FindFirst(s: string, p: string)
    ensures Find(s, p) != -1 ==> OccursAt(s, p, Find(s, p))
    ensures Find(s, p) == -1 <==> forall k :: 0 <= k <= |s| ==> !OccursAt(s, p, k)
    ensures Find(s, p) != -1 ==> forall k :: 0 <= k < Find(s, p) ==> !OccursAt(s, p, k)
  {
    FindFromFirst(s, p, 0);
  }

  /** `p in s`. */
  predicate Contains(s: string, p: string) {
    Find(s, p) >= 0
  }

  /** A blank line contains no text that starts with a printing character. */
  lemma BlankLacks(s: string, p: string)
    requires IsBlank(s) && |p| > 0 && !IsSpace(p[0])
    ensures !Contains(s, p)
  {
    FindFirst(s, p);
  }

  lemma ContainsWitness(s: string, p: string, i: nat)
    requires OccursAt(s, p, i)
    ensures Contains(s, p)
  {
    FindFirst(s, p);
  }

  /** `s.replace(pat, repl)`: every non-overlapping occurrence, left to right. */
  function Replace(s: string, pat: string, repl: string): string
    requires |pat| > 0
    decreases |s|
  {
    if |s| < |pat| then s
    else if s[..|pat|] == pat then repl + Replace(s[|pat|..], pat, repl)
    else [s[0]] + Replace(s[1..], pat, repl)
  }

  /** Every `a` in `s` turned into `b`. */
  function SwapChar(s: string, a: char, b: char): (r: string)
    ensures |r| == |s|
    ensures forall i :: 0 <= i < |s| ==> r[i] == if s[i] == a then b else s[i]
  {
    seq(|s|, i requires 0 <= i < |s| => if s[i] == a then b else s[i])
  }

  /** Replacing a one-character pattern is a pointwise change. */
  lemma {:induction false} ReplaceChar(s: string, a: char, b: char)
    ensures Replace(s, [a], [b]) == SwapChar(s, a, b)
    decreases |s|
  {
    if |s| >= 1 {
      ReplaceChar(s[1..], a, b);
      assert s[..1] == [a] <==> s[0] == a;
      assert SwapChar(s, a, b) == [if s[0] == a then b else s[0]] + SwapChar(s[1..], a, b);
    }
  }

  /** `s.split(sep)` for a one-character separator. */
  function SplitOn(s: string, sep: char): (r: seq<string>)
    ensures |r| >= 1
    decreases |s|
  {
    if s == [] then [[]]
    else
      var rest := SplitOn(s[1..], sep);
      if s[0] == sep then [[]] + rest else [[s[0]] + rest[0]] + rest[1..]
  }

  /** `s[i:j]` of a string. */
  function Sub(s: string, i: int, j: int): string {
    PySeq.Slice(s, i, j)
  }

  /** `s[i:]` of a string. */
  function From(s: string, i: int): string {
    PySeq.Drop(s, i)
  }

  /** `n` spaces. */
  function Spaces(n: nat): (r: string)
    ensures |r| == n && forall i :: 0 <= i < n ==> r[i] == ' '
  {
    seq(n, i => ' ')
  }
}

=== FILE: values.dfy ===
/** The values a parsed attribute can hold, as far as the model looks at them.

    A float or an int is a `Number` (an exact rational), a Python `bool` is a
    `Flag`, a list or an array is `Items`, a dict is its ordered `Entries`.
 */
module Values {
  import opened Results

  datatype Value =
    | Flag(flag: bool)
    | Number(number: real)
    | Str(str: string)
    | Items(items: seq<Value>)
    | Entries(entries: seq<(string, Value)>)

  /** `len(v)`: defined on strings, lists and dicts; a `bool` or a number has no
      length and Python raises `TypeError`. */
  function Len(v: Value): (r: Result<nat>)
    ensures r.Ok? <==> (v.Str? || v.Items? || v.Entries?)
    ensures v.Items? ==> r == Ok(|v.items|)
  {
    match v
    case Str(s) => Ok(|s|)
    case Items(xs) => Ok(|xs|)
    case Entries(es) => Ok(|es|)
    case _ => Err(Malformed("object has no len()"))
  }

  /** The number a value stands for in an arithmetic comparison: Python compares
      `True` and `False` as 1 and 0; anything else raises `TypeError`. */
  function AsNumber(v: Value): (r: Option<real>)
    ensures r.Some? <==> (v.Number? || v.Flag?)
  {
    match v
    case Number(x) => Some(x)
    case Flag(b) => Some(if b then 1.0 else 0.0)
    case _ => None
  }

  /** The numbers of a list, or `None` when one element is not a number. */
  function Numbers(xs: seq<Value>): (r: Option<seq<real>>)
    ensures r.Some? <==> forall i :: 0 <= i < |xs| ==> AsNumber(xs[i]).Some?
    ensures r.Some? ==> (|r.value| == |xs|
                         && forall i :: 0 <= i < |xs| ==> r.value[i] == AsNumber(xs[i]).value)
  {
    if xs == [] then Some([])
    else
      match (AsNumber(xs[0]), Numbers(xs[1..]))
      case (Some(x), Some(rest)) => Some([x] + rest)
      case _ => None
  }

  /** A list of plain numbers. */
  function Reals(xs: seq<real>): (v: Value)
    ensures v.Items? && |v.items| == |xs|
    ensures forall i :: 0 <= i < |xs| ==> v.items[i] == Number(xs[i])
  {
    Items(seq(|xs|, i requires 0 <= i < |xs| => Number(xs[i])))
  }

  /** Reading back the numbers of a list of numbers gives the numbers. */
  lemma NumbersOfReals(xs: seq<real>)
    ensures Numbers(Reals(xs).items) == Some(xs)
  {
    var r := Numbers(Reals(xs).items);
    assert r.Some?;
    assert forall i :: 0 <= i < |xs| ==> r.value[i] == xs[i];
    assert r.value == xs;
  }
}
